=== FILE: README.md ===
# webgl2-utils core, modelled in Dafny

webgl2-utils is a small helper library for WebGL2 programs. This project models
three of its parts.

- **The `matrix/` library.** Fixed-size vectors (`Vec2`, `Vec3`, `Vec4`), the
  quaternion `Quat` (a `Vec4` subclass) and square matrices (`Mat2`, `Mat3`,
  `Mat4`), all built on the base class `_Mat`.
  - Components are stored as one flat list, in column-major order.
  - Constructors flatten their arguments.
  - `add`, `sub` and `prod` work componentwise.
  - `mul` dispatches to the dot product, row vector × matrix, matrix × matrix
    or matrix × vector.
  - Matrices have transpose, trace, columns, determinant, adjugate and
    inverse, and convert between sizes by truncation or identity padding.
  - `Mat4` builds transform and projection matrices.
  - `Quat` has the Hamilton product and the conversion to a rotation matrix.
- **The frame loop of `App`.** The validated `timeStep`, the `run`/`stop`
  flag and the lag accumulator of `_loop`. `_loop` calls `update` with fixed
  steps, or with the whole lag when the step is 0, and then calls `draw`.
- **`LinkedList`.** A node with a validated `next` setter and a generator
  over the node and its successors.

How the model represents them:

- A library instance is an immutable value. `MatBase.MatObj(cls, val)` pairs
  the runtime class with the components. `MatBase.Instance` holds exactly as
  many components as the class needs.
- Every JavaScript exception becomes an `Err` of a `Result`. The kind is
  `TypeError`, `TooFewComponents`, `TooManyComponents`, `RangeError` or
  `NotInvertible`.
- Numbers are exact reals.
- A routine that loops in the source is a Dafny `method` with a loop, proved
  equal to a specification function. This covers:
  - the constructor fill;
  - `transpose`, `trace`, `_mulm`, `_mulv`;
  - `_invert`, which rescales an `array` in place;
  - the `_valFromMat*` conversions.

  The algebraic laws are lemmas about those functions.
- `App` and `LinkedList` are classes whose methods update their fields.

Modules:

| module | what it holds |
|---|---|
| `MatBase` | the base class |
| `Vector`, `Vector3` | vectors |
| `Matrix` | the shared matrix code |
| `MatrixConversion` | size conversions |
| `MatrixAlgebra` | laws of the product |
| `Matrix2`, `Matrix3`, `Matrix4` | the fixed sizes |
| `Transforms` | the `Mat4` builders |
| `Quaternion` | quaternions |
| `Application` | the frame loop |
| `Lists` | the list node |
| `Sums`, `ColumnMajor`, `FixedSize` | proof infrastructure |

The source is in the middle of a refactoring. Where it cannot run as written,
the model follows the behaviour its comments describe:

- `Mat2` and `Mat4` call `arrayCol` and `_inverse` (matrix/Mat2.js:21,
  matrix/Mat2.js:36, matrix/Mat4.js:185). `Mat` defines these as `_col` and
  `_invert` (matrix/Mat.js:73, matrix/Mat.js:112). Each pair is one method.
- The constructors of `Mat` and `Vec` assign to `this.val`
  (matrix/Mat.js:28, matrix/Vec.js:20), which has only a getter
  (matrix/_Mat.js:32-34). The model does what their comments say: a single
  value makes a diagonal matrix (matrix/Mat.js:21) or fills the vector
  (matrix/Vec.js:15).
- `Mat.invert`, `Mat.col` and `Mat.det` are empty in the base class
  (matrix/Mat.js:64-70). `Mat2`, `Mat3` and `Mat4` each supply `col` and
  `det`, but only `Mat3` overrides `invert` (matrix/Mat3.js:40). `Mat2`
  names its method `inverse` (matrix/Mat2.js:32), and `Mat4` has `adjugate`
  (matrix/Mat4.js:219) and no inverse at all. So `invert()` on a `Mat2` or a
  `Mat4` is the empty base method, which returns undefined.

## Model

| member | source | states |
|---|---|---|
| MatBase.FlatMap | matrix/_Mat.js:22-28 | flattening succeeds exactly when every element is a number, null/undefined or a vector; any other element is a TypeError |
| MatBase.FlatMapNums | matrix/_Mat.js:25 | plain numbers flatten to themselves |
| MatBase.FlatMapAppend | matrix/_Mat.js:23-28 | flattening preserves order: the pieces of a prefix come before those of the rest, and the whole fails exactly when a part fails |
| MatBase.FlattenArrayFirst | matrix/_Mat.js:22 | an array first argument supplies all the components; later arguments are ignored |
| MatBase.Flatten | matrix/_Mat.js:21-28 | with an array first argument, that array is the list flattened, otherwise the argument list is; flattening fails exactly when some element of that list is not a number, null/undefined or a vector, and then with a TypeError |
| MatBase.PieceKinds | matrix/_Mat.js:24-26 | a number contributes itself, null/undefined contributes 0, a vector contributes its components |
| MatBase.Add | matrix/_Mat.js:37-41 | succeeds exactly for an operand that is an instance of the receiver's class; the result has the receiver's class and the componentwise sums; otherwise TypeError |
| MatBase.Sub | matrix/_Mat.js:44-48 | the same class check; the result holds the componentwise differences |
| MatBase.Prod | matrix/_Mat.js:51-57 | a number scales every component; a same-class operand multiplies componentwise; anything else is a TypeError |
| MatBase.AddThenSub | matrix/_Mat.js:40-47 | `a.add(b).sub(b)` is a |
| MatBase.AddCommutes | matrix/_Mat.js:40 | `a.add(b)` equals `b.add(a)` |
| MatBase.AddVec4Quat | matrix/_Mat.js:38-39 | a Vec4 accepts a Quat operand (Quat extends Vec4), and the result is a Vec4; a Quat refuses a plain Vec4 |
| MatBase.ProdOne | matrix/_Mat.js:52-53 | `prod(1)` changes nothing |
| Vector.VecFromFlat | matrix/Vec.js:17-25 | one value fills all n components; exactly n values are kept; fewer gives the too-few error, more the too-many error |
| Vector.NewVector | matrix/Vec.js:17-25 | a TypeError from flattening is passed on; otherwise the vector is built exactly when there is one component or n of them, it has the requested class, and n components are kept as given |
| Vector.Construct | matrix/Vec.js:17-25 | the constructor with its fill loop computes the flatten-then-size-check result |
| Vector.FromComponents | matrix/Vec.js:17-25 | n numbers build the vector holding them |
| Vector.MulV | matrix/Vec.js:59-65 | the accumulation loop returns the dot product Σ val[i]·v.val[i] |
| Vector.MulM | matrix/Vec.js:49-56 | the nested loop returns a vector of the receiver's class with result[i] = Σ_j val[j]·m.val[i·n+j] |
| Vector.MulOf | matrix/Vec.js:40-46 | `mul` succeeds exactly for a same-class vector (giving the dot product) or a matrix of equal n (giving a vector of the receiver's class); anything else is a TypeError |
| Vector.Mul | matrix/Vec.js:40-46 | the dispatch method computes MulOf |
| Vector.DotSymmetric | matrix/Vec.js:62-63 | `u.mul(v)` equals `v.mul(u)` |
| Vector3.Cross | matrix/Vec3.js:9-15 | succeeds exactly for a Vec3 operand, otherwise TypeError; the result is a Vec3 |
| Vector3.CrossVal | matrix/Vec3.js:12-14 | the three components written are perpendicular to both operands: their dot product with each is 0 |
| Vector3.CrossPerpendicular | matrix/Vec3.js:12-14 | the cross product is orthogonal to both operands |
| Vector3.CrossAnticommutative | matrix/Vec3.js:12-14 | `a.cross(b)` = −`b.cross(a)` |
| Vector3.CrossSelf | matrix/Vec3.js:12-14 | `a.cross(a)` is the zero vector |
| Vector3.CrossAxes | matrix/Vec3.js:12-14 | x×y = z, y×z = x, z×x = y for the unit axes |
| Matrix.Diagonal | matrix/Mat.js:26-30 | the single-value matrix has v at (i, i) and 0 elsewhere |
| Matrix.DiagonalIndex | matrix/Mat.js:29-30 | the flat index i·(n+1) written by the loop is entry (i, i) |
| Matrix.MatFromFlat | matrix/Mat.js:26-34 | one value gives the diagonal matrix; exactly n² values are kept; fewer or more give the matching error |
| Matrix.NewMatrix | matrix/Mat.js:17-35 | a matrix first argument gives a matrix of the requested class holding it truncated or identity-padded, whatever follows it; otherwise a flattening TypeError is passed on and the matrix is built exactly when there are 1 or n² components; any result has the requested class |
| Matrix.Construct | matrix/Mat.js:23-35 | the constructor, with its diagonal-writing loop, computes the flatten-then-size-check result |
| Matrix.IdentityOf | matrix/Mat.js:38-40 | `identity` is the diagonal matrix of 1 of the class |
| Matrix.Resize | matrix/Mat.js:17-19 | conversion copies the overlapping top-left block and fills the rest from the identity |
| Matrix.FromComponents | matrix/Mat.js:31-34 | n² numbers build the matrix holding them |
| Matrix.Conversion | matrix/Mat.js:17-19 | constructing from another matrix gives its resized components, whatever follows it |
| Matrix.ResizeSame | matrix/Mat.js:17-19 | converting to the same size copies |
| Matrix.ResizeRoundTrip | matrix/Mat.js:17-19 | padding and then truncating back restores the matrix |
| Matrix.ResizeIdentity | matrix/Mat.js:17-19 | the identity converts to the identity |
| Matrix.ResizeTwice | matrix/Mat.js:17-19 | padding in two steps a ≤ b ≤ c is padding in one |
| Matrix.Transposed | matrix/Mat.js:43-50 | entry (row, col) of the transpose is entry (col, row) of the matrix |
| Matrix.Transpose | matrix/Mat.js:43-50 | the method returns the transposed matrix of the same class |
| Matrix.TransposeLoop | matrix/Mat.js:46-48 | the nested loop writing t[i·n+j] = val[i+j·n] builds the transpose |
| Matrix.TransposeInvolution | matrix/Mat.js:43-50 | transposing twice restores the components |
| Matrix.Trace | matrix/Mat.js:53-61 | the accumulation loop over val[i·(n+1)] returns the trace |
| Matrix.TraceOf | matrix/Mat.js:53-61 | the sum of the diagonal entries is, for n = 2, 3 and 4, the sum of val[i·(n+1)] that the getter reads: val[0] + val[3], val[0] + val[4] + val[8], val[0] + val[5] + val[10] + val[15] |
| Matrix.TraceTranspose | matrix/Mat.js:53-61 | the trace of the transpose is the trace |
| Matrix.Product | matrix/Mat.js:89-99 | entry (row, col) of the product is Σ_k a(row, k)·b(k, col) |
| Matrix.MulM | matrix/Mat.js:89-99 | `_mulm` returns the product, in the receiver's class |
| Matrix.ProductLoop | matrix/Mat.js:91-97 | the triple loop accumulating into `mult` builds the product |
| Matrix.AccumulateEntry | matrix/Mat.js:95-96 | the inner loop adds entry (j, i) of the product to mult[i·n+j] and touches nothing else |
| Matrix.MulV | matrix/Mat.js:102-109 | `_mulv` returns a vector of the operand's class with result[i] = Σ_j val[i+j·n]·v.val[j] |
| Matrix.MulOf | matrix/Mat.js:80-86 | `mul` succeeds exactly for a same-class matrix or a vector of equal n, with a result of the operand's class; otherwise TypeError |
| Matrix.Mul | matrix/Mat.js:80-86 | the dispatch method computes MulOf |
| Matrix.InvertOf | matrix/Mat.js:112-119 | fails with "not invertible" exactly when det is 0; otherwise the adjugate times 1/det |
| Matrix.Invert | matrix/Mat.js:112-119 | the loop rescales the adjugate array in place and returns InvertOf |
| Matrix.ColumnSlice | matrix/Mat.js:73-78 | `_col(i)` raises RangeError exactly when i ≥ n |
| Matrix.ColumnSliceIsColumn | matrix/Mat.js:73-78 | for 0 ≤ i < n, `_col(i)` is column i |
| Matrix.ColumnSliceNegative | matrix/Mat.js:77 | a negative index slices as JavaScript `slice` does: from the end, or empty |
| Matrix.Col | matrix/Mat3.js:26-28 | `col(i)` with i ≥ n is a RangeError; for 0 ≤ i < n it succeeds with component k equal to entry (k, i); any vector it returns has the column class of the same n |
| Matrix.ColErrors | matrix/Mat.js:75-76 | `col(i)` with i ≥ n raises RangeError; i = −1 gives an empty slice, which the vector constructor rejects |
| MatrixConversion.ColumnSliceRange | matrix/Mat.js:77 | `_col(i)` is the storage slice val[i·n .. (i+1)·n) |
| MatrixConversion.PaddedColumn | matrix/Mat4.js:327-330 | each padded column is the source column followed by zeros |
| MatrixConversion.TruncatedColumn | matrix/Mat2.js:41-42 | each truncated column is the first entries of the source column |
| MatrixConversion.TruncatedColumns | matrix/Mat2.js:39-44 | the concat loop of `_valFromMat` builds the truncated matrix |
| MatrixConversion.PaddedColumns | matrix/Mat3.js:16-20 | the concat/push loop builds the first columns of the padded matrix |
| MatrixConversion.PaddedTail | matrix/Mat4.js:331 | the appended trailing columns are those of the identity |
| MatrixConversion.PadThenTruncate | matrix/Mat2.js:39-44 | converting up to a larger class and back gives the matrix back |
| MatrixConversion.PaddedRest | matrix/Mat4.js:341 | past the source's columns a padded matrix is the identity |
| MatrixAlgebra.ProductIdentityLeft | matrix/Mat.js:89-99 | I·m = m |
| MatrixAlgebra.ProductIdentityRight | matrix/Mat.js:89-99 | m·I = m |
| MatrixAlgebra.ProductAssociative | matrix/Mat.js:89-99 | (a·b)·c = a·(b·c) |
| MatrixAlgebra.TransposeProduct | matrix/Mat.js:43-50 | (a·b)ᵀ = bᵀ·aᵀ |
| MatrixAlgebra.ProductScaledRight | matrix/Mat.js:115-117 | a·(k·b) = k·(a·b) |
| MatrixAlgebra.ProductScaledLeft | matrix/Mat.js:115-117 | (k·a)·b = k·(a·b) |
| MatrixAlgebra.ScaledDiagonal | matrix/Mat.js:115-117 | det·I scaled by 1/det is I |
| MatrixAlgebra.InverseFromAdjugate | matrix/Mat.js:112-119 | when m·adj = adj·m = det·I with det ≠ 0, the rescaled adjugate is a two-sided inverse |
| MatrixAlgebra.MatVecIdentity | matrix/Mat.js:102-109 | I·v = v |
| MatrixAlgebra.MatVecProduct | matrix/Mat.js:102-109 | (a·b)·v = a·(b·v) |
| MatrixAlgebra.RowTimesTranspose | matrix/Vec.js:49-56 | v·m = mᵀ·v |
| MatrixAlgebra.MulIdentity | matrix/Mat.js:80-86 | `m.mul(identity)` and `identity.mul(m)` are m |
| MatrixAlgebra.MulAssociative | matrix/Mat.js:80-99 | `a.mul(b).mul(c)` equals `a.mul(b.mul(c))` |
| MatrixAlgebra.MulVecCompose | matrix/Mat.js:102-109 | `a.mul(b).mul(v)` equals `a.mul(b.mul(v))` |
| MatrixAlgebra.VecMulIsTransposeMul | matrix/Vec.js:54 | `v.mul(M)` equals `M.transpose().mul(v)` |
| MatrixAlgebra.OrthogonalProduct | matrix/Mat4.js:151-155 | a product of orthogonal matrices is orthogonal |
| Matrix2.InverseOf | matrix/Mat2.js:32-37 | fails exactly when det = 0; otherwise [d, −b, −c, a]/det, stored as written |
| Matrix2.Det | matrix/Mat2.js:24-30 | with the column-major destructuring `[a, c, b, d]`, det is entry (0, 0)·entry (1, 1) − entry (0, 1)·entry (1, 0) |
| Matrix2.AdjugateAsWritten | matrix/Mat2.js:33-35 | the list as written has the diagonal of the adjugate but its two off-diagonal entries in each other's places (see Findings) |
| Matrix2.Inverse | matrix/Mat2.js:32-37 | the method computes InverseOf |
| Matrix2.CorrectedInverse | matrix/Mat2.js:33-35 | the adjugate stored in column-major order, scaled by 1/det; fails exactly when det = 0 |
| Matrix2.Construct | matrix/Mat2.js:11-18 | a Mat2 is copied, a larger matrix truncated, anything else goes to the base constructor |
| Matrix2.IdentityComponents | matrix/Mat.js:38-40 | `Mat2.identity` is (1, 0, 0, 1) |
| Matrix2.FromLarger | matrix/Mat2.js:14-15 | from a larger matrix, the first two entries of the first two columns |
| Matrix2.RoundTrip | matrix/Mat2.js:39-44 | Mat2(Mat3(m)) = Mat2(Mat4(m)) = m |
| Matrix2.DetMultiplicative | matrix/Mat2.js:26-27 | det(a·b) = det(a)·det(b) |
| Matrix2.MulDet | matrix/Mat2.js:24-30 | det(A.mul(B)) = det(A)·det(B) |
| Matrix2.DetIdentityTranspose | matrix/Mat2.js:26-27 | det(I) = 1 and det(mᵀ) = det(m) |
| Matrix2.ProductAdjugate | matrix/Mat2.js:33-35 | m·adj = adj·m = det·I for the column-major adjugate |
| Matrix2.CorrectedInverseIsInverse | matrix/Mat2.js:32-37 | with det ≠ 0, the corrected inverse is a two-sided inverse under `mul` |
| Matrix2.InverseIsTransposed | matrix/Mat2.js:33-35 | the inverse as written is the transpose of the true inverse |
| Matrix2.InverseAsWrittenIff | matrix/Mat2.js:33-36 | `m.mul(m.inverse())` is the identity exactly when val[1] = val[2] |
| Matrix2.InverseCounterexample | matrix/Mat2.js:33-35 | for (1, 1, 0, 1) the inverse as written is (1, 0, −1, 1), and the product with m is not I |
| Matrix2.InverseExample | matrix/Mat2.js:32-37 | (2, 0, 0, 2) inverts to (0.5, 0, 0, 0.5) |
| Matrix3.InverseOf | matrix/Mat3.js:40-56 | fails exactly when det = 0; otherwise the adjugate times 1/det |
| Matrix3.Det | matrix/Mat3.js:30-38 | det is the cofactor expansion along column 0 and, equally, along row 0, with the adjugate's entries as cofactors |
| Matrix3.Adjugate | matrix/Mat3.js:42-50 | rows 1 and 2 of m against column 0 of the adjugate give 0 (alien cofactors), the property `invert` depends on |
| Matrix3.CachedDet | matrix/Mat3.js:51-54 | m[0]·adj[0] + m[3]·adj[1] + m[6]·adj[2] is the first-row cofactor determinant |
| Matrix3.Invert | matrix/Mat3.js:40-56 | `invert` returns InverseOf and caches the determinant |
| Matrix3.ProductAdjugate | matrix/Mat3.js:42-50 | m·adj = adj·m = det·I |
| Matrix3.InverseIsInverse | matrix/Mat3.js:40-56 | with det ≠ 0, `invert` is a two-sided inverse under `mul` |
| Matrix3.DetTranspose | matrix/Mat3.js:30-38 | det(mᵀ) = det(m) |
| Matrix3.DetIdentity | matrix/Mat3.js:30-38 | det(I) = 1 |
| Matrix3.Construct | matrix/Mat3.js:6-24 | a Mat3 is copied, a Mat4 truncated, a Mat2 padded; anything else goes to the base constructor |
| Matrix3.FromMat4 | matrix/Mat3.js:9-14 | from a Mat4, the top-left 3×3 block |
| Matrix3.FromMat2 | matrix/Mat3.js:15-21 | from a Mat2, the block top-left with third column and row (0, 0, 1) |
| Matrix3.IdentityFromMat2 | matrix/Mat3.js:15-21 | Mat3(Mat2.identity) = Mat3.identity |
| Matrix3.RoundTrip | matrix/Mat3.js:9-14 | Mat3(Mat4(m)) = m |
| Matrix4.AdjugateOf | matrix/Mat4.js:219-323 | `adjugate()` always succeeds and returns a Mat4 |
| Matrix4.Laplace | matrix/Mat4.js:188-217 | det is the expansion along row 0: m(0,0)·det M₀ − m(0,1)·det M₁ + m(0,2)·det M₂ − m(0,3)·det M₃, with Mᵢ the 3 × 3 minor without row 0 and column i and det that of Mat3 |
| Matrix4.Adjugate | matrix/Mat4.js:219-323 | column 0 of the adjugate holds the row-0 cofactors: the determinants of the minors M₀ .. M₃ with signs +, −, +, − |
| Matrix4.CachedDet | matrix/Mat4.js:317-321 | m[0]·adj[0] + m[4]·adj[1] + m[8]·adj[2] + m[12]·adj[3] is the determinant |
| Matrix4.DetFromAdjugate | matrix/Mat4.js:188-217 | the `det` expansion equals the expansion over the first column of the adjugate |
| Matrix4.ProductAdjugate | matrix/Mat4.js:219-323 | m·adj = adj·m = det·I |
| Matrix4.MulAdjugate | matrix/Mat4.js:219-323 | `m.mul(m.adjugate())` and `m.adjugate().mul(m)` are `new Mat4(m.det)` |
| Matrix4.DetIdentity | matrix/Mat4.js:188-217 | det(I) = 1 |
| Matrix4.ValFromMat3 | matrix/Mat4.js:325-333 | the concat/push loop embeds the Mat3 top-left in the identity |
| Matrix4.ValFromMat2 | matrix/Mat4.js:335-343 | the concat/push loop embeds the Mat2 top-left in the identity |
| Matrix4.Construct | matrix/Mat4.js:14-23 | a Mat4 is copied, a Mat3 or Mat2 embedded; anything else goes to the base constructor |
| Matrix4.FromMat3 | matrix/Mat4.js:17-18 | from a Mat3, fourth row and column (0, 0, 0, 1) |
| Matrix4.EmbeddedDet | matrix/Mat4.js:17-18 | a Mat3 embedded top-left with (0, 0, 0, 1) as the fourth row and column keeps its determinant |
| Matrix4.FromMat2 | matrix/Mat4.js:19-20 | from a Mat2, the block top-left and the identity elsewhere |
| Matrix4.IdentityFromSmaller | matrix/Mat4.js:325-343 | Mat4(Mat2.identity) = Mat4(Mat3.identity) = Mat4.identity |
| Transforms.TranslForms | matrix/Mat4.js:26-32 | missing arguments default to 0, and a Vec3 gives the same matrix as its components |
| Transforms.TranslMoves | matrix/Mat4.js:28-31 | the translation maps (x, y, z, 1) to (x+dx, y+dy, z+dz, 1) |
| Transforms.TranslExample | matrix/Mat4.js:26-32 | transl(1, 2, 3)·(0, 0, 0, 1) = (1, 2, 3, 1) |
| Transforms.Transl | matrix/Mat4.js:26-32 | any matrix it builds has columns 0 to 2 of the identity and 1 in the corner; a Vec3 first argument lands as the offsets in column 3 |
| Transforms.ScaleDefaults | matrix/Mat4.js:35-40 | scale() is the identity, sy defaults to sx and sz to sy |
| Transforms.ScaleMaps | matrix/Mat4.js:36-39 | diag(sx, sy, sz, 1) scales the coordinates |
| Transforms.Scale | matrix/Mat4.js:35-40 | diag(sx, sy, sz, 1), with sx defaulting to 1, sy to sx and sz to sy |
| Transforms.RotOrthogonal | matrix/Mat4.js:43-67 | for c² + s² = 1, each of rotX, rotY, rotZ satisfies Rᵀ·R = I |
| Transforms.RotDet | matrix/Mat4.js:43-67 | each rotation has determinant 1 |
| Transforms.RotAxis | matrix/Mat4.js:43-67 | each rotation leaves its own axis fixed |
| Transforms.RotX | matrix/Mat4.js:43-49 | the Mat4 built from the components of the rotation about x; for (cos a, sin a) on the unit circle it is orthogonal with determinant 1 |
| Transforms.RotY | matrix/Mat4.js:52-58 | the same for the rotation about y |
| Transforms.RotZ | matrix/Mat4.js:61-67 | the same for the rotation about z |
| Transforms.EulerProduct | matrix/Mat4.js:151-155 | `euler` is rotZ(yaw)·rotY(pitch)·rotX(roll) |
| Transforms.EulerOrthogonal | matrix/Mat4.js:151-155 | the Euler matrix is orthogonal |
| Transforms.EulerYaw | matrix/Mat4.js:151-155 | with roll and pitch 0, `euler` is rotZ(yaw) |
| Transforms.Euler | matrix/Mat4.js:151-155 | the components are the product rotZ(yaw)·(rotY(pitch)·rotX(roll)) |
| Transforms.ShearShape | matrix/Mat4.js:70-91 | each shear differs from the identity only in the off-diagonal entries of one column (column 0 for shearX, 1 for shearY, 2 for shearZ), above or below the diagonal |
| Transforms.ShearDet | matrix/Mat4.js:70-91 | each shear has determinant 1 |
| Transforms.ShearX | matrix/Mat4.js:70-75 | the identity with hy and hz in rows 1 and 2 of column 0; determinant 1 |
| Transforms.ShearY | matrix/Mat4.js:78-83 | the identity with hx and hz in rows 0 and 2 of column 1; determinant 1 |
| Transforms.ShearZ | matrix/Mat4.js:86-91 | the identity with hx and hy in rows 0 and 1 of column 2; determinant 1 |
| Transforms.OrthoCorners | matrix/Mat4.js:102-107 | (w, h, −n, 1) maps to (1, 1, −1, 1) and (−w, −h, −f, 1) to (−1, −1, 1, 1) |
| Transforms.Ortho | matrix/Mat4.js:102-107 | sends the near corner (w, h, −n, 1) to (1, 1, −1, 1) and the far corner (−w, −h, −f, 1) to (−1, −1, 1, 1) |
| Transforms.PerspMaps | matrix/Mat4.js:119-129 | the image of (x, y, z, 1), with −z as the fourth component |
| Transforms.PerspDepth | matrix/Mat4.js:125-128 | after the divide, depth −n lands on −1 and depth −f on 1 |
| Transforms.PerspPlaneCorner | matrix/Mat4.js:125-128 | the corner (w, h, −d) lands on (1, 1) after the divide |
| Transforms.Persp | matrix/Mat4.js:119-129 | x and y scaled by d/w and d/h (d defaulting to n), −z copied into w, and a depth row sending z = −n to −n and z = −f to f |
| Transforms.PerspFOVCorner | matrix/Mat4.js:141-144 | `perspFOV` puts the projection plane at distance 1 with corner (a·t, t); `persp` without d uses n |
| Transforms.PerspFOV | matrix/Mat4.js:141-144 | a Mat4 whose x scale is 1/(a·t) and y scale 1/t |
| Quaternion.Mul | matrix/Quat.js:33-41 | succeeds exactly for a Quat operand, otherwise TypeError; the result is the Hamilton product |
| Quaternion.Hamilton | matrix/Quat.js:37-40 | the four components written satisfy the four-square identity: the sum of their squares is the product of the operands' sums of squares |
| Quaternion.Quadrance | matrix/Quat.js:48 | the sum of the squares the reduce computes is never negative |
| Quaternion.MulRefusesVec4 | matrix/Quat.js:34-35 | a plain Vec4 operand is a TypeError |
| Quaternion.MulIdentity | matrix/Quat.js:37-40 | (1, 0, 0, 0) is a two-sided identity |
| Quaternion.HamiltonAssociative | matrix/Quat.js:37-40 | the Hamilton product is associative |
| Quaternion.MulAssociative | matrix/Quat.js:37-40 | `p.mul(q).mul(r)` equals `p.mul(q.mul(r))` |
| Quaternion.QuadranceZero | matrix/Quat.js:48-49 | the quadrance is 0 exactly for the zero list |
| Quaternion.QuadranceMultiplicative | matrix/Quat.js:37-40 | quadrance(p·q) = quadrance(p)·quadrance(q) |
| Quaternion.ZeroAxis | matrix/Quat.js:21-26 | the axis length is 0 exactly for the zero axis, which gives (1, 0, 0, 0) for any angle |
| Quaternion.FromAngleAxis | matrix/Quat.js:19-28 | a zero axis gives (1, 0, 0, 0); otherwise the scalar part is cos(a/2) and each vector component times the length m is the axis component times sin(a/2) |
| Quaternion.UnitFromAngleAxis | matrix/Quat.js:21-27 | a non-zero axis gives a unit quaternion |
| Quaternion.RotationIdentity | matrix/Quat.js:46-53 | the zero quaternion and (1, 0, 0, 0) both give the identity |
| Quaternion.ToMat3 | matrix/Quat.js:43-53 | the Mat3 built from the nine rotation components; it leaves the vector part (b, c, d) of the quaternion in place; for a nonzero quaternion, unit or not, it is a rotation matrix: Rᵀ·R = I and det R = 1 |
| Quaternion.RotationProper | matrix/Quat.js:46-53 | with the factor 2 / (a² + b² + c² + d²) of a nonzero quaternion, the nine components form an orthogonal matrix (Rᵀ·R = I) with determinant 1 |
| Quaternion.RotationScaled | matrix/Quat.js:46-53 | toMat3(k·q) = toMat3(q) for k ≠ 0 |
| Quaternion.RotationAxis | matrix/Quat.js:46-53 | for any four components (a, b, c, d), the nine rotation components leave the vector part (b, c, d) where it is: it is the axis of the rotation |
| Quaternion.ToMat4 | matrix/Quat.js:55-60 | the Mat4 built from `toMat3()`: the 3 × 3 rotation top-left, 0 in the rest of the fourth row and column, 1 in the corner; for a nonzero quaternion it is orthogonal with determinant 1 |
| Quaternion.ToMat4One | matrix/Quat.js:58-60 | (1, 0, 0, 0) gives the Mat4 identity |
| Application.App.constructor | App.js:19-23 | step 0, lag 0, start time 0, not running |
| Application.App.Create | App.js:15-27 | construction succeeds exactly for a non-negative number step and stores it; otherwise it throws the setter's error |
| Application.App.SetTimeStep | App.js:52-57 | stores a non-negative number; throws on NaN or a negative value and keeps the old step |
| Application.App.Run | App.js:92-99 | does nothing while running; otherwise records the start time, resets lag and schedules |
| Application.App.Stop | App.js:102-104 | clears the running flag only |
| Application.App.CatchUp | App.js:137-140 | calls update(timeStep) while a whole step is left; the steps plus the remaining lag add up to the lag before, and the lag ends below one step; a lag below one step (negative included) makes no call and stays as it is, and after any call the lag is not negative |
| Application.App.Loop | App.js:131-150 | one frame: some updates, then exactly one draw. The dt values plus the final lag equal the old lag plus the elapsed time. With step 0: a single update with the whole lag, and lag becomes 0. With a fixed step: every update is by one step, the lag ends below one step and is not negative after an update, and a lag plus elapsed time below one step (negative included) gives just the draw and keeps that lag. The frame reschedules exactly while running. All of this is for the base class's empty `update` and `draw` hooks. |
| Application.StepDown | App.js:139 | subtracting one step lowers the number of whole steps in the lag, so the `while` loop ends |
| Lists.LinkedList.constructor | LinkedList.js:8-10 | a new node's link is null |
| Lists.LinkedList.SetNext | LinkedList.js:18-22 | a node is stored, null or undefined is stored as null; anything else throws "… is not a LinkedList node" and keeps the link |
| Lists.LinkedList.Iterate | LinkedList.js:25-28 | yields the node itself first, then each `next` in turn, and stops after a null link |
| Lists.WalkFollowsChain | LinkedList.js:26-27 | every walk from a node follows its chain, and ends by the chain's end |
| Lists.ChainYields | LinkedList.js:25-28 | on a chain ending in null, iteration yields exactly the chain |
| Lists.ChainDistinct | LinkedList.js:26-27 | a chain ending in null visits each node once |
| Lists.SelfLoopEndless | LinkedList.js:26-27 | a node linked to itself makes iteration endless |

## Left out

- Square roots and trigonometry are not modelled. `Math.cos`/`Math.sin` of a rotation angle are the two fields of an `Angle` that satisfies c² + s² = 1 where a property needs it. `Math.tan(fov / 2)` in `perspFOV` is the parameter t. The axis length `Math.sqrt(...)` in `fromAngleAxis` is a parameter with norm² = quadrance.
- Quaternion.FromAngleAxis: requires at least three axis components and a correct norm. It does not unwrap a Vec3 axis, nor model `axis[i]` reading `undefined` on a shorter array. `m ?` treats NaN as false; with exact reals only the zero test remains.
- `Vec.modulo` and `Vec.normalize` (matrix/Vec.js:28-38) need a square root.
- `lookAt` (matrix/Mat4.js:167-182) relies on dividing by a zero modulo and on NaN being falsy, which exact reals cannot express.
- Matrix.ColumnSlice and Matrix.Col: only integer column indices are modelled. JavaScript's `_col(i)` also accepts a fractional or non-number `i`, which `slice` truncates or reads as 0. For NaN, `i >= n` is false, so it is not a RangeError.
- Components are exact reals. IEEE-754 rounding, NaN and Infinity among components are not modelled, so the algebraic laws hold for the model, not for doubles.
- Application.App.SetTimeStep: `Number` has no Infinity, so the setter accepting `+Infinity` is not represented. The unary-plus coercion of the argument (App.js:53) happens outside the model: `Number` is the value after that coercion.
- Lists.LinkedList.SetNext: undefined is stored as null, where LinkedList.js:21 stores undefined itself and the `next` getter then returns undefined. Iteration is the same for both, since LinkedList.js:26 stops on `cur != null` failing for either.
- The caches `_det`, `_trace` and `_modulo` become pure functions of the components, since components never change after construction.
- `toString` (matrix/Mat.js:121-133, matrix/Vec.js:67-69) produces diagnostic text only.
- `invert()` on a `Mat2` or a `Mat4` is the empty base method (matrix/Mat.js:67), which returns undefined. It is not modelled; the `Mat2` model is its `inverse()`.
- `Mat4` has no inverse method. The model proves the adjugate relation M·adj = det·I and nothing beyond it.
- Transforms.Ortho: requires w, h and n − f to be non-zero. JavaScript would return Infinity or NaN components.
- Transforms.PerspVal: requires w, h and n − f to be non-zero, for the same reason.
- Transforms.PerspFOV: requires a·t, t and n − f to be non-zero, for the same reason.
- Transforms.Scale: takes numbers only. Non-number arguments reaching the constructor are not modelled.
- Transforms.Euler: the determinant of the Euler matrix is not stated; only its product form and orthogonality are.
- Application.App.Create: the canvas, `getContext("webgl2")` and its "No WebGL2 context" error are host calls.
- Also host-bound and left out:
  - the `canvas` getter;
  - `resize` (`devicePixelRatio`);
  - `initMouse`/`initKeyboard` and their getters;
  - `getProgram` and `getProgramLoader`;
  - `requestAnimationFrame` and `performance.now`.

  Times are passed in. Scheduling the next frame is the `scheduled` result. Calls to `update` and `draw` are a returned trace.
- Application.App.Loop: `update` and `draw` are taken to be the base class's empty hooks (App.js:123, App.js:126). A subclass hook that calls `stop()` or `run()`, or assigns `timeStep`, is not modelled, although `_loop` re-reads `_timeStep` after each `update` (App.js:137-139) and `_running` after `draw` (App.js:148). So the contracts that the step and the running flag are unchanged, that the frame reschedules exactly while running, and the fixed-step counts hold only for such inert hooks. In particular, an `update` that sets `timeStep` to 0 makes the `while` at App.js:137 loop forever while the lag is not negative. The model's termination measure relies on the step staying fixed.
- Application.App.CatchUp: the same assumption about the hooks applies. Every call is `Update(timeStep)` with the step fixed for the whole loop.
- Application.App.CatchUp: the `while` loop of `_loop` is a method of its own that `Loop` calls. The statements and their order are the same.
- Lists.LinkedList.Iterate: the generator is modelled as a consumer pulling at most `limit` values. An endless iteration is then a result of exactly `limit` values.
- program/ProgramLoader.js and program/ProgramWrapper.js are not part of this model (WebGL shader and program calls, `fetch`, promises).
- event/EventHandler.js, event/MouseEventHandler.js and event/KeyboardEventHandler.js are not part of this model (DOM listeners).
- utils.js (a `fetch` wrapper) and matrix/index.js (re-exports) are not part of this model.

## Findings

| source | as written | input that shows it | evidently intended | confidence | as-written member | corrected member |
|---|---|---|---|---|---|---|
| matrix/Mat2.js:33-35 | `inverse` lists the adjugate [d, −b, −c, a] in row order, but storage is column-major, so the result is the transpose of the inverse | m = (1, 1, 0, 1): the result is (1, 0, −1, 1), and m times it is not the identity | store [d, −c, −b, a], so that M·M⁻¹ = M⁻¹·M = I | not executed | Matrix2.InverseAsWrittenIff | Matrix2.CorrectedInverseIsInverse |

=== FILE: app.dfy ===
/**
 * The frame loop bookkeeping of `App` (App.js): the validated time step, the
 * `run`/`stop` flag and the lag accumulator of `_loop`.
 *
 * The host parts are not modelled: times are passed in as reals (the values
 * `performance.now` and `requestAnimationFrame` would supply), the calls to
 * the subclass's `update(dt)` and `draw()` are recorded, in order, as a trace
 * of `Call`s, and a call to `requestAnimationFrame` is reported as the
 * `scheduled` result. The getters `timeStep` and `lag` are the fields.
 * The hooks are taken to change no state of the `App`: a hook that calls
 * `stop`/`run` or assigns `timeStep` is outside this model.
 */
module Application {
  /** The number `+dt` coerces the argument of the `timeStep` setter to. */
  datatype Number = Finite(value: real) | NaN

  /** A call the loop makes to the subclass's hooks. */
  datatype Call = Update(dt: real) | Draw

  /** The outcome of a setter: it returns, or throws an Error with a message. */
  datatype Outcome = Done | Thrown(message: string)

  /** The outcome of a constructor. */
  datatype Attempt<T> = Created(value: T) | Failed(message: string)

  const StepError := "Time step must be a non negative number in milliseconds"

  /** The setter's test `!(ndt >= 0)` fails exactly for NaN and negative numbers. */
  predicate AcceptsStep(dt: Number)
  {
    dt.Finite? && dt.value >= 0.0
  }

  /** The time handed to `update` over a trace. */
  function Elapsed(calls: seq<Call>): real
  {
    if calls == [] then 0.0
    else Elapsed(calls[.. |calls| - 1]) + (match calls[|calls| - 1] case Update(dt) => dt case Draw => 0.0)
  }

  /** One frame: some calls to `update`, then exactly one call to `draw`. */
  predicate OneFrame(calls: seq<Call>)
  {
    calls != [] && calls[|calls| - 1] == Draw && forall i :: 0 <= i < |calls| - 1 ==> calls[i].Update?
  }

  /** Appending an update adds its dt to the elapsed time. */
  lemma ElapsedUpdate(calls: seq<Call>, dt: real)
    ensures Elapsed(calls + [Update(dt)]) == Elapsed(calls) + dt
  {
    assert (calls + [Update(dt)])[.. |calls|] == calls;
  }

  /** Appending the draw leaves the elapsed time as it is. */
  lemma ElapsedDraw(calls: seq<Call>)
    ensures Elapsed(calls + [Draw]) == Elapsed(calls)
  {
    assert (calls + [Draw])[.. |calls|] == calls;
  }

  class App {
    var timeStep: real
    var lag: real
    var tOld: real
    var running: bool

    /** The setter never stores a negative step. */
    ghost predicate Valid()
      reads this
    {
      timeStep >= 0.0
    }

    /**
     * What the `lag` getter documents for the moment `draw` is called: with a
     * fixed step the residual time below one step, with a variable step 0.
     */
    ghost predicate Residual()
      reads this
    {
      if timeStep == 0.0 then lag == 0.0 else 0.0 <= lag < timeStep
    }

    /** The fields the constructor sets, with the default step 0. */
    constructor ()
      ensures Valid() && Residual()
      ensures timeStep == 0.0 && lag == 0.0 && tOld == 0.0 && !running
    {
      timeStep, lag, tOld, running := 0.0, 0.0, 0.0, false;
    }

    /** `new App(canvas, timeStep)`: the step goes through the setter, which may throw. */
    static method Create(step: Number) returns (r: Attempt<App>)
      ensures r.Created? <==> AcceptsStep(step)
      ensures r.Created? ==> fresh(r.value) && r.value.Valid() && r.value.Residual()
      ensures r.Created? ==> r.value.timeStep == step.value && r.value.lag == 0.0 && r.value.tOld == 0.0 && !r.value.running
      ensures r.Failed? ==> r.message == StepError
    {
      var app := new App();
      var o := app.SetTimeStep(step);
      if o.Thrown? {
        return Failed(o.message);
      }
      r := Created(app);
    }

    /** The `timeStep` setter: stores a non-negative number, otherwise throws and keeps the old step. */
    method SetTimeStep(dt: Number) returns (o: Outcome)
      requires Valid()
      modifies this
      ensures Valid()
      ensures o == Done <==> AcceptsStep(dt)
      ensures AcceptsStep(dt) ==> timeStep == dt.value
      ensures !AcceptsStep(dt) ==> o == Thrown(StepError) && timeStep == old(timeStep)
      ensures lag == old(lag) && tOld == old(tOld) && running == old(running)
    {
      if !(dt.Finite? && dt.value >= 0.0) {
        return Thrown(StepError);
      }
      timeStep := dt.value;
      o := Done;
    }

    /** `run(now)`: a no-op while running; otherwise restarts the clock and schedules the loop. */
    method Run(now: real) returns (scheduled: bool)
      requires Valid()
      modifies this
      ensures Valid() && timeStep == old(timeStep)
      ensures scheduled <==> !old(running)
      ensures old(running) ==> lag == old(lag) && tOld == old(tOld) && running
      ensures !old(running) ==> lag == 0.0 && tOld == now && running && Residual()
    {
      if running {
        return false;
      }
      tOld := now;
      lag := 0.0;
      running := true;
      scheduled := true;
    }

    /** `stop()`: clears the flag; the loop that is already scheduled still runs once. */
    method Stop()
      modifies this
      ensures !running
      ensures timeStep == old(timeStep) && lag == old(lag) && tOld == old(tOld)
    {
      running := false;
    }

    /**
     * The `while` loop of `_loop` for a fixed step: `update(timeStep)` and one
     * step off the lag for as long as a whole step is left.
     */
    method CatchUp() returns (calls: seq<Call>)
      requires timeStep > 0.0
      modifies this
      ensures timeStep == old(timeStep) && running == old(running) && tOld == old(tOld)
      ensures Elapsed(calls) + lag == old(lag)
      ensures forall i :: 0 <= i < |calls| ==> calls[i] == Update(timeStep)
      ensures lag < timeStep && (old(lag) >= 0.0 ==> lag >= 0.0)
      ensures calls != [] ==> lag >= 0.0
      ensures old(lag) < timeStep ==> calls == [] && lag == old(lag)
    {
      calls := [];
      while lag >= timeStep
        invariant timeStep == old(timeStep) && running == old(running) && tOld == old(tOld)
        invariant Elapsed(calls) + lag == old(lag)
        invariant forall i :: 0 <= i < |calls| ==> calls[i] == Update(timeStep)
        invariant calls == [] ==> lag == old(lag)
        invariant calls != [] ==> lag >= 0.0 && old(lag) >= timeStep
        decreases (lag / timeStep).Floor
      {
        StepDown(lag, timeStep);
        ElapsedUpdate(calls, timeStep);
        calls := calls + [Update(timeStep)];
        lag := lag - timeStep;
      }
    }

    /**
     * `_loop(time)`: adds the time since the previous frame to the lag, then
     * either calls `update(timeStep)` while a whole step is left or, with a
     * variable step, calls `update` once with the whole lag; then draws, and
     * schedules the next frame while running.
     */
    method Loop(time: real) returns (calls: seq<Call>, scheduled: bool)
      requires Valid()
      modifies this
      ensures Valid() && timeStep == old(timeStep) && running == old(running)
      ensures tOld == time && scheduled == running
      ensures OneFrame(calls)
      ensures Elapsed(calls) + lag == old(lag) + (time - old(tOld))
      ensures timeStep == 0.0 ==> calls == [Update(old(lag) + (time - old(tOld))), Draw] && lag == 0.0
      ensures timeStep > 0.0 ==> lag < timeStep && forall i :: 0 <= i < |calls| - 1 ==> calls[i] == Update(timeStep)
      ensures old(lag) + (time - old(tOld)) >= 0.0 ==> Residual()
      ensures timeStep > 0.0 && |calls| > 1 ==> lag >= 0.0
      ensures timeStep > 0.0 && old(lag) + (time - old(tOld)) < timeStep ==> calls == [Draw] && lag == old(lag) + (time - old(tOld))
    {
      var dt := time - tOld;
      tOld := time;
      lag := lag + dt;
      if timeStep != 0.0 {
        calls := CatchUp();
      } else {
        ElapsedUpdate([], lag);
        calls := [Update(lag)];
        lag := 0.0;
      }
      ElapsedDraw(calls);
      calls := calls + [Draw];
      scheduled := running;
    }
  }

  /** Taking one step off a lag of at least one step lowers the number of whole steps by one. */
  lemma StepDown(lag: real, step: real)
    requires step > 0.0 && lag >= step
    ensures 0 <= ((lag - step) / step).Floor < (lag / step).Floor
  {
    var x, y := lag / step, (lag - step) / step;
    assert x * step == lag && y * step == lag - step;
    assert (x - 1.0) * step == x * step - step;
    Cancel(y, x - 1.0, step);
    if y < 0.0 {
      Cancel(y, 0.0, step);
    }
  }

  /** A positive factor cancels. */
  lemma Cancel(u: real, v: real, step: real)
    requires step > 0.0
    ensures u * step == v * step <==> u == v
    ensures u < v ==> u * step < v * step
  {
    if u < v {
      assert !((v - u) * step <= 0.0);
    } else if v < u {
      assert !((u - v) * step <= 0.0);
    }
  }
}

=== FILE: column_major.dfy ===
/**
 * Column-major layout of an n x n matrix in a flat sequence, as the library
 * (and GLSL) stores it: entry (row, col) lives at flat index row + col * n.
 */
module ColumnMajor {

  /** Every (row, col) inside the matrix has a flat index inside the storage. */
  lemma IndexBound(n: nat, row: int, col: int)
    requires 0 <= row < n && 0 <= col < n
    ensures 0 <= row + col * n < n * n
  {
    MulNonneg(col, n);
    MulNonneg(n - 1 - col, n);
    assert (n - 1 - col) * n == n * n - n - col * n;
  }

  lemma MulNonneg(x: int, y: int)
    requires x >= 0 && y >= 0
    ensures x * y >= 0
  {
  }

  /** Quotient and remainder by n are unique. */
  lemma DivModUnique(n: nat, q: int, r: int, q': int, r': int)
    requires 0 <= r < n && 0 <= r' < n && q * n + r == q' * n + r'
    ensures q == q' && r == r'
  {
    MulGap(n, q - q');
    assert (q - q') * n == r' - r;
  }

  /** A non-zero multiple of n is at least n away from 0. */
  lemma MulGap(n: int, d: int)
    requires n >= 0
    ensures d >= 1 ==> d * n >= n
    ensures d <= -1 ==> d * n <= -n
  {
    if d >= 1 {
      assert (d - 1) * n >= 0;
    } else if d <= -1 {
      assert (-d - 1) * n >= 0;
    }
  }

  /** A flat index splits back into its row (p % n) and column (p / n). */
  lemma SplitIndex(n: nat, row: int, col: int)
    requires 0 <= row < n && 0 <= col < n
    ensures (row + col * n) % n == row && (row + col * n) / n == col
  {
    var p := row + col * n;
    DivModUnique(n, p / n, p % n, col, row);
  }

  /** Every flat index of the storage is the index of some (row, col). */
  lemma JoinIndex(n: nat, p: int)
    requires 0 <= p < n * n
    ensures 0 <= p % n < n && 0 <= p / n < n && p == p % n + (p / n) * n
  {
  }

  /** Entry (row, col) of the n x n matrix stored in m; 0 off the matrix. */
  function Get(m: seq<real>, n: nat, row: int, col: int): real
  {
    if 0 <= row < n && 0 <= col < n && |m| == n * n then
      IndexBound(n, row, col);
      m[row + col * n]
    else
      0.0
  }

  /** Component i of a vector; 0 off the vector. */
  function Comp(v: seq<real>, i: int): real
  {
    if 0 <= i < |v| then v[i] else 0.0
  }

  function Cell(n: nat, f: (int, int) -> real, p: int): real
  {
    if n > 0 then f(p % n, p / n) else 0.0
  }

  /** The n x n matrix whose entry (row, col) is f(row, col). */
  function FromFn(n: nat, f: (int, int) -> real): (m: seq<real>)
    ensures |m| == n * n
    ensures forall row, col :: 0 <= row < n && 0 <= col < n ==> Get(m, n, row, col) == f(row, col)
  {
    CellEntries(n, f);
    seq(n * n, p => Cell(n, f, p))
  }

  /** Reading the cells of f back by (row, col) gives f. */
  lemma CellEntries(n: nat, f: (int, int) -> real)
    ensures forall row, col :: 0 <= row < n && 0 <= col < n ==>
      Get(seq(n * n, p => Cell(n, f, p)), n, row, col) == f(row, col)
  {
    forall row, col | 0 <= row < n && 0 <= col < n
      ensures Get(seq(n * n, p => Cell(n, f, p)), n, row, col) == f(row, col)
    {
      IndexBound(n, row, col);
      SplitIndex(n, row, col);
    }
  }

  /** Two matrices with the same entries are the same storage. */
  lemma EqualByEntries(a: seq<real>, b: seq<real>, n: nat)
    requires |a| == n * n && |b| == n * n
    requires forall row, col :: 0 <= row < n && 0 <= col < n ==> Get(a, n, row, col) == Get(b, n, row, col)
    ensures a == b
  {
    forall p | 0 <= p < n * n
      ensures a[p] == b[p]
    {
      JoinIndex(n, p);
      assert Get(a, n, p % n, p / n) == Get(b, n, p % n, p / n);
    }
  }
}

=== FILE: fixed_size.dfy ===
/**
 * The general n x n operations written out for the library's fixed sizes
 * 2, 3 and 4: an entry of a product as its explicit two, three or four
 * terms, the diagonal matrix and the transpose as explicit component lists.
 * The closed-form code of Mat2, Mat3, Mat4 and Quat is compared with the
 * general definitions through these.
 */
module FixedSize {
  import opened Sums
  import opened ColumnMajor
  import opened Matrix

  /** Summand k of entry (row, col) of a·b, read from the storage. */
  lemma ProductTerm(a: seq<real>, b: seq<real>, n: nat, row: int, col: int, k: int)
    requires |a| == n * n && |b| == n * n && 0 <= row < n && 0 <= col < n && 0 <= k < n
    ensures 0 <= row + k * n < n * n && 0 <= k + col * n < n * n
    ensures RowCol(a, b, n, row, col)(k) == a[row + k * n] * b[k + col * n]
  {
    IndexBound(n, row, k);
    IndexBound(n, k, col);
  }

  /** p has the entries of the product a·b. */
  predicate ProductEntries(p: seq<real>, a: seq<real>, b: seq<real>, n: nat)
  {
    |p| == n * n && forall row, col :: 0 <= row < n && 0 <= col < n ==> Get(p, n, row, col) == Sum(n, RowCol(a, b, n, row, col))
  }

  /** d has the entries of v·I. */
  predicate DiagonalEntries(d: seq<real>, n: nat, v: real)
  {
    |d| == n * n && forall row, col :: 0 <= row < n && 0 <= col < n ==> Get(d, n, row, col) == if row == col then v else 0.0
  }

  /** t has the entries of the transpose of m. */
  predicate TransposedEntries(t: seq<real>, m: seq<real>, n: nat)
  {
    |t| == n * n && |m| == n * n && forall row, col :: 0 <= row < n && 0 <= col < n ==> Get(t, n, row, col) == Get(m, n, col, row)
  }

  /** Entry (row, col) of the product p of two 2 x 2 matrices. */
  lemma ProductEntry2(p: seq<real>, a: seq<real>, b: seq<real>, row: int, col: int)
    requires |p| == 4 && |a| == 4 && |b| == 4 && 0 <= row < 2 && 0 <= col < 2
    requires Get(p, 2, row, col) == Sum(2, RowCol(a, b, 2, row, col))
    ensures p[row + col * 2] ==
      a[row] * b[0 + col * 2] + a[row + 2] * b[1 + col * 2]
  {
    Sum2(RowCol(a, b, 2, row, col));
    ProductTerm(a, b, 2, row, col, 0);
    ProductTerm(a, b, 2, row, col, 1);
  }

  /** Entry (row, col) of the product p of two 3 x 3 matrices. */
  lemma ProductEntry3(p: seq<real>, a: seq<real>, b: seq<real>, row: int, col: int)
    requires |p| == 9 && |a| == 9 && |b| == 9 && 0 <= row < 3 && 0 <= col < 3
    requires Get(p, 3, row, col) == Sum(3, RowCol(a, b, 3, row, col))
    ensures p[row + col * 3] ==
      a[row] * b[0 + col * 3] + a[row + 3] * b[1 + col * 3] + a[row + 6] * b[2 + col * 3]
  {
    Sum3(RowCol(a, b, 3, row, col));
    ProductTerm(a, b, 3, row, col, 0);
    ProductTerm(a, b, 3, row, col, 1);
    ProductTerm(a, b, 3, row, col, 2);
  }

  /** Column col of the product p of two 3 x 3 matrices. */
  lemma ProductColumn3(p: seq<real>, a: seq<real>, b: seq<real>, col: int)
    requires |a| == 9 && |b| == 9 && 0 <= col < 3 && ProductEntries(p, a, b, 3)
    ensures p[col * 3] == a[0] * b[col * 3] + a[3] * b[1 + col * 3] + a[6] * b[2 + col * 3]
    ensures p[1 + col * 3] == a[1] * b[col * 3] + a[4] * b[1 + col * 3] + a[7] * b[2 + col * 3]
    ensures p[2 + col * 3] == a[2] * b[col * 3] + a[5] * b[1 + col * 3] + a[8] * b[2 + col * 3]
  {
    ProductEntry3(p, a, b, 0, col);
    ProductEntry3(p, a, b, 1, col);
    ProductEntry3(p, a, b, 2, col);
  }

  /** Row row of the product p of two 3 x 3 matrices. */
  lemma ProductRow3(p: seq<real>, a: seq<real>, b: seq<real>, row: int)
    requires |a| == 9 && |b| == 9 && 0 <= row < 3 && ProductEntries(p, a, b, 3)
    ensures p[row] == a[row] * b[0] + a[row + 3] * b[1] + a[row + 6] * b[2]
    ensures p[row + 3] == a[row] * b[3] + a[row + 3] * b[4] + a[row + 6] * b[5]
    ensures p[row + 6] == a[row] * b[6] + a[row + 3] * b[7] + a[row + 6] * b[8]
  {
    ProductEntry3(p, a, b, row, 0);
    ProductEntry3(p, a, b, row, 1);
    ProductEntry3(p, a, b, row, 2);
  }

  /** Entry (row, col) of the product p of two 4 x 4 matrices. */
  lemma ProductEntry4(p: seq<real>, a: seq<real>, b: seq<real>, row: int, col: int)
    requires |p| == 16 && |a| == 16 && |b| == 16 && 0 <= row < 4 && 0 <= col < 4
    requires Get(p, 4, row, col) == Sum(4, RowCol(a, b, 4, row, col))
    ensures p[row + col * 4] ==
      a[row] * b[0 + col * 4] + a[row + 4] * b[1 + col * 4] + a[row + 8] * b[2 + col * 4] + a[row + 12] * b[3 + col * 4]
  {
    Sum4(RowCol(a, b, 4, row, col));
    ProductTerm(a, b, 4, row, col, 0);
    ProductTerm(a, b, 4, row, col, 1);
    ProductTerm(a, b, 4, row, col, 2);
    ProductTerm(a, b, 4, row, col, 3);
  }

  /** Column col of the product p of two 4 x 4 matrices. */
  lemma ProductColumn4(p: seq<real>, a: seq<real>, b: seq<real>, col: int)
    requires |a| == 16 && |b| == 16 && 0 <= col < 4 && ProductEntries(p, a, b, 4)
    ensures p[col * 4] == a[0] * b[col * 4] + a[4] * b[1 + col * 4] + a[8] * b[2 + col * 4] + a[12] * b[3 + col * 4]
    ensures p[1 + col * 4] == a[1] * b[col * 4] + a[5] * b[1 + col * 4] + a[9] * b[2 + col * 4] + a[13] * b[3 + col * 4]
    ensures p[2 + col * 4] == a[2] * b[col * 4] + a[6] * b[1 + col * 4] + a[10] * b[2 + col * 4] + a[14] * b[3 + col * 4]
    ensures p[3 + col * 4] == a[3] * b[col * 4] + a[7] * b[1 + col * 4] + a[11] * b[2 + col * 4] + a[15] * b[3 + col * 4]
  {
    ProductEntry4(p, a, b, 0, col);
    ProductEntry4(p, a, b, 1, col);
    ProductEntry4(p, a, b, 2, col);
    ProductEntry4(p, a, b, 3, col);
  }

  /** Row row of the product p of two 4 x 4 matrices. */
  lemma ProductRow4(p: seq<real>, a: seq<real>, b: seq<real>, row: int)
    requires |a| == 16 && |b| == 16 && 0 <= row < 4 && ProductEntries(p, a, b, 4)
    ensures p[row] == a[row] * b[0] + a[row + 4] * b[1] + a[row + 8] * b[2] + a[row + 12] * b[3]
    ensures p[row + 4] == a[row] * b[4] + a[row + 4] * b[5] + a[row + 8] * b[6] + a[row + 12] * b[7]
    ensures p[row + 8] == a[row] * b[8] + a[row + 4] * b[9] + a[row + 8] * b[10] + a[row + 12] * b[11]
    ensures p[row + 12] == a[row] * b[12] + a[row + 4] * b[13] + a[row + 8] * b[14] + a[row + 12] * b[15]
  {
    ProductEntry4(p, a, b, row, 0);
    ProductEntry4(p, a, b, row, 1);
    ProductEntry4(p, a, b, row, 2);
    ProductEntry4(p, a, b, row, 3);
  }

  /** Component i of the 4 x 4 matrix m times the vector v. */
  lemma MatVecEntry4(x: real, m: seq<real>, v: seq<real>, i: int)
    requires |m| == 16 && |v| == 4 && 0 <= i < 4 && x == Sum(4, MatRow(m, v, 4, i))
    ensures x == m[i] * v[0] + m[i + 4] * v[1] + m[i + 8] * v[2] + m[i + 12] * v[3]
  {
    Sum4(MatRow(m, v, 4, i));
    assert Get(m, 4, i, 0) == m[i] && Get(m, 4, i, 1) == m[i + 4];
    assert Get(m, 4, i, 2) == m[i + 8] && Get(m, 4, i, 3) == m[i + 12];
  }

  /** The 4 x 4 matrix m times the vector v, component by component. */
  lemma MatVec4(m: seq<real>, v: seq<real>)
    requires |m| == 16 && |v| == 4
    ensures MatVec(m, v, 4) ==
      [m[0] * v[0] + m[4] * v[1] + m[8] * v[2] + m[12] * v[3],
       m[1] * v[0] + m[5] * v[1] + m[9] * v[2] + m[13] * v[3],
       m[2] * v[0] + m[6] * v[1] + m[10] * v[2] + m[14] * v[3],
       m[3] * v[0] + m[7] * v[1] + m[11] * v[2] + m[15] * v[3]]
  {
    MatVec4Of(MatVec(m, v, 4), m, v);
  }

  lemma MatVec4Of(r: seq<real>, m: seq<real>, v: seq<real>)
    requires |m| == 16 && |v| == 4 && |r| == 4
    requires forall i :: 0 <= i < 4 ==> r[i] == Sum(4, MatRow(m, v, 4, i))
    ensures r ==
      [m[0] * v[0] + m[4] * v[1] + m[8] * v[2] + m[12] * v[3],
       m[1] * v[0] + m[5] * v[1] + m[9] * v[2] + m[13] * v[3],
       m[2] * v[0] + m[6] * v[1] + m[10] * v[2] + m[14] * v[3],
       m[3] * v[0] + m[7] * v[1] + m[11] * v[2] + m[15] * v[3]]
  {
    MatVecEntry4(r[0], m, v, 0);
    MatVecEntry4(r[1], m, v, 1);
    MatVecEntry4(r[2], m, v, 2);
    MatVecEntry4(r[3], m, v, 3);
    var x0, x1 := m[0] * v[0] + m[4] * v[1] + m[8] * v[2] + m[12] * v[3], m[1] * v[0] + m[5] * v[1] + m[9] * v[2] + m[13] * v[3];
    var x2, x3 := m[2] * v[0] + m[6] * v[1] + m[10] * v[2] + m[14] * v[3], m[3] * v[0] + m[7] * v[1] + m[11] * v[2] + m[15] * v[3];
    assert r[0] == x0 && r[1] == x1 && r[2] == x2 && r[3] == x3;
    assert r == [x0, x1, x2, x3];
  }

  /** Component i of the 3 x 3 matrix m times the vector v. */
  lemma MatVecEntry3(x: real, m: seq<real>, v: seq<real>, i: int)
    requires |m| == 9 && |v| == 3 && 0 <= i < 3 && x == Sum(3, MatRow(m, v, 3, i))
    ensures x == m[i] * v[0] + m[i + 3] * v[1] + m[i + 6] * v[2]
  {
    Sum3(MatRow(m, v, 3, i));
    assert Get(m, 3, i, 0) == m[i] && Get(m, 3, i, 1) == m[i + 3] && Get(m, 3, i, 2) == m[i + 6];
  }

  /** The 3 x 3 matrix m times the vector v, component by component. */
  lemma MatVec3(m: seq<real>, v: seq<real>)
    requires |m| == 9 && |v| == 3
    ensures MatVec(m, v, 3) ==
      [m[0] * v[0] + m[3] * v[1] + m[6] * v[2],
       m[1] * v[0] + m[4] * v[1] + m[7] * v[2],
       m[2] * v[0] + m[5] * v[1] + m[8] * v[2]]
  {
    MatVec3Of(MatVec(m, v, 3), m, v);
  }

  lemma MatVec3Of(r: seq<real>, m: seq<real>, v: seq<real>)
    requires |m| == 9 && |v| == 3 && |r| == 3
    requires forall i :: 0 <= i < 3 ==> r[i] == Sum(3, MatRow(m, v, 3, i))
    ensures r ==
      [m[0] * v[0] + m[3] * v[1] + m[6] * v[2],
       m[1] * v[0] + m[4] * v[1] + m[7] * v[2],
       m[2] * v[0] + m[5] * v[1] + m[8] * v[2]]
  {
    MatVecEntry3(r[0], m, v, 0);
    MatVecEntry3(r[1], m, v, 1);
    MatVecEntry3(r[2], m, v, 2);
    var x0, x1, x2 := m[0] * v[0] + m[3] * v[1] + m[6] * v[2], m[1] * v[0] + m[4] * v[1] + m[7] * v[2], m[2] * v[0] + m[5] * v[1] + m[8] * v[2];
    assert r[0] == x0 && r[1] == x1 && r[2] == x2;
    assert r == [x0, x1, x2];
  }

  /** The product of two 2 x 2 matrices, component by component. */
  lemma Product2(a0: real, a1: real, a2: real, a3: real, b0: real, b1: real, b2: real, b3: real)
    ensures Product([a0, a1, a2, a3], [b0, b1, b2, b3], 2) ==
      [a0 * b0 + a2 * b1, a1 * b0 + a3 * b1, a0 * b2 + a2 * b3, a1 * b2 + a3 * b3]
  {
    Product2Of(Product([a0, a1, a2, a3], [b0, b1, b2, b3], 2), a0, a1, a2, a3, b0, b1, b2, b3);
  }

  lemma Product2Of(p: seq<real>, a0: real, a1: real, a2: real, a3: real, b0: real, b1: real, b2: real, b3: real)
    requires ProductEntries(p, [a0, a1, a2, a3], [b0, b1, b2, b3], 2)
    ensures p == [a0 * b0 + a2 * b1, a1 * b0 + a3 * b1, a0 * b2 + a2 * b3, a1 * b2 + a3 * b3]
  {
    var a, b := [a0, a1, a2, a3], [b0, b1, b2, b3];
    ProductEntry2(p, a, b, 0, 0);
    assert p[0] == a0 * b0 + a2 * b1;
    ProductEntry2(p, a, b, 1, 0);
    assert p[1] == a1 * b0 + a3 * b1;
    ProductEntry2(p, a, b, 0, 1);
    assert p[2] == a0 * b2 + a2 * b3;
    ProductEntry2(p, a, b, 1, 1);
    assert p[3] == a1 * b2 + a3 * b3;
  }

  /** v·I for n = 2. */
  lemma Diagonal2(v: real)
    ensures Diagonal(2, v) == [v, 0.0, 0.0, v]
  {
    Diagonal2Of(Diagonal(2, v), v);
  }

  lemma Diagonal2Of(d: seq<real>, v: real)
    requires DiagonalEntries(d, 2, v)
    ensures d == [v, 0.0, 0.0, v]
  {
    assert Get(d, 2, 0, 0) == d[0];
    assert Get(d, 2, 1, 0) == d[1];
    assert Get(d, 2, 0, 1) == d[2];
    assert Get(d, 2, 1, 1) == d[3];
  }

  /** v·I for n = 3. */
  lemma Diagonal3(v: real)
    ensures Diagonal(3, v) == [v, 0.0, 0.0, 0.0, v, 0.0, 0.0, 0.0, v]
  {
    Diagonal3Of(Diagonal(3, v), v);
  }

  lemma Diagonal3Of(d: seq<real>, v: real)
    requires DiagonalEntries(d, 3, v)
    ensures d == [v, 0.0, 0.0, 0.0, v, 0.0, 0.0, 0.0, v]
  {
    assert Get(d, 3, 0, 0) == d[0];
    assert Get(d, 3, 1, 0) == d[1];
    assert Get(d, 3, 2, 0) == d[2];
    assert Get(d, 3, 0, 1) == d[3];
    assert Get(d, 3, 1, 1) == d[4];
    assert Get(d, 3, 2, 1) == d[5];
    assert Get(d, 3, 0, 2) == d[6];
    assert Get(d, 3, 1, 2) == d[7];
    assert Get(d, 3, 2, 2) == d[8];
  }

  /** v·I for n = 4. */
  lemma Diagonal4(v: real)
    ensures Diagonal(4, v) == [v, 0.0, 0.0, 0.0, 0.0, v, 0.0, 0.0, 0.0, 0.0, v, 0.0, 0.0, 0.0, 0.0, v]
  {
    Diagonal4Of(Diagonal(4, v), v);
  }

  lemma Diagonal4Of(d: seq<real>, v: real)
    requires DiagonalEntries(d, 4, v)
    ensures d == [v, 0.0, 0.0, 0.0, 0.0, v, 0.0, 0.0, 0.0, 0.0, v, 0.0, 0.0, 0.0, 0.0, v]
  {
    assert Get(d, 4, 0, 0) == d[0];
    assert Get(d, 4, 1, 0) == d[1];
    assert Get(d, 4, 2, 0) == d[2];
    assert Get(d, 4, 3, 0) == d[3];
    assert Get(d, 4, 0, 1) == d[4];
    assert Get(d, 4, 1, 1) == d[5];
    assert Get(d, 4, 2, 1) == d[6];
    assert Get(d, 4, 3, 1) == d[7];
    assert Get(d, 4, 0, 2) == d[8];
    assert Get(d, 4, 1, 2) == d[9];
    assert Get(d, 4, 2, 2) == d[10];
    assert Get(d, 4, 3, 2) == d[11];
    assert Get(d, 4, 0, 3) == d[12];
    assert Get(d, 4, 1, 3) == d[13];
    assert Get(d, 4, 2, 3) == d[14];
    assert Get(d, 4, 3, 3) == d[15];
  }

  /** The transpose for n = 2. */
  lemma Transposed2(m: seq<real>)
    requires |m| == 4
    ensures Transposed(m, 2) == [m[0], m[2], m[1], m[3]]
  {
    Transposed2Of(Transposed(m, 2), m);
  }

  lemma Transposed2Of(t: seq<real>, m: seq<real>)
    requires TransposedEntries(t, m, 2)
    ensures t == [m[0], m[2], m[1], m[3]]
  {
    assert Get(t, 2, 0, 0) == t[0] && Get(m, 2, 0, 0) == m[0];
    assert Get(t, 2, 1, 0) == t[1] && Get(m, 2, 0, 1) == m[2];
    assert Get(t, 2, 0, 1) == t[2] && Get(m, 2, 1, 0) == m[1];
    assert Get(t, 2, 1, 1) == t[3] && Get(m, 2, 1, 1) == m[3];
  }

  /** The transpose for n = 3. */
  lemma Transposed3(m: seq<real>)
    requires |m| == 9
    ensures Transposed(m, 3) == [m[0], m[3], m[6], m[1], m[4], m[7], m[2], m[5], m[8]]
  {
    Transposed3Of(Transposed(m, 3), m);
  }

  lemma Transposed3Of(t: seq<real>, m: seq<real>)
    requires TransposedEntries(t, m, 3)
    ensures t == [m[0], m[3], m[6], m[1], m[4], m[7], m[2], m[5], m[8]]
  {
    assert Get(t, 3, 0, 0) == t[0] && Get(m, 3, 0, 0) == m[0];
    assert Get(t, 3, 1, 0) == t[1] && Get(m, 3, 0, 1) == m[3];
    assert Get(t, 3, 2, 0) == t[2] && Get(m, 3, 0, 2) == m[6];
    assert Get(t, 3, 0, 1) == t[3] && Get(m, 3, 1, 0) == m[1];
    assert Get(t, 3, 1, 1) == t[4] && Get(m, 3, 1, 1) == m[4];
    assert Get(t, 3, 2, 1) == t[5] && Get(m, 3, 1, 2) == m[7];
    assert Get(t, 3, 0, 2) == t[6] && Get(m, 3, 2, 0) == m[2];
    assert Get(t, 3, 1, 2) == t[7] && Get(m, 3, 2, 1) == m[5];
    assert Get(t, 3, 2, 2) == t[8] && Get(m, 3, 2, 2) == m[8];
  }

  /** The transpose for n = 4. */
  lemma Transposed4(m: seq<real>)
    requires |m| == 16
    ensures Transposed(m, 4) == [m[0], m[4], m[8], m[12], m[1], m[5], m[9], m[13],
                                 m[2], m[6], m[10], m[14], m[3], m[7], m[11], m[15]]
  {
    Transposed4Of(Transposed(m, 4), m);
  }

  lemma Transposed4Of(t: seq<real>, m: seq<real>)
    requires TransposedEntries(t, m, 4)
    ensures t == [m[0], m[4], m[8], m[12], m[1], m[5], m[9], m[13],
                  m[2], m[6], m[10], m[14], m[3], m[7], m[11], m[15]]
  {
    assert Get(t, 4, 0, 0) == t[0] && Get(m, 4, 0, 0) == m[0];
    assert Get(t, 4, 1, 0) == t[1] && Get(m, 4, 0, 1) == m[4];
    assert Get(t, 4, 2, 0) == t[2] && Get(m, 4, 0, 2) == m[8];
    assert Get(t, 4, 3, 0) == t[3] && Get(m, 4, 0, 3) == m[12];
    assert Get(t, 4, 0, 1) == t[4] && Get(m, 4, 1, 0) == m[1];
    assert Get(t, 4, 1, 1) == t[5] && Get(m, 4, 1, 1) == m[5];
    assert Get(t, 4, 2, 1) == t[6] && Get(m, 4, 1, 2) == m[9];
    assert Get(t, 4, 3, 1) == t[7] && Get(m, 4, 1, 3) == m[13];
    assert Get(t, 4, 0, 2) == t[8] && Get(m, 4, 2, 0) == m[2];
    assert Get(t, 4, 1, 2) == t[9] && Get(m, 4, 2, 1) == m[6];
    assert Get(t, 4, 2, 2) == t[10] && Get(m, 4, 2, 2) == m[10];
    assert Get(t, 4, 3, 2) == t[11] && Get(m, 4, 2, 3) == m[14];
    assert Get(t, 4, 0, 3) == t[12] && Get(m, 4, 3, 0) == m[3];
    assert Get(t, 4, 1, 3) == t[13] && Get(m, 4, 3, 1) == m[7];
    assert Get(t, 4, 2, 3) == t[14] && Get(m, 4, 3, 2) == m[11];
    assert Get(t, 4, 3, 3) == t[15] && Get(m, 4, 3, 3) == m[15];
  }

  /** The dot product of columns i and j of the 4 x 4 matrix m. */
  function ColumnDot(m: seq<real>, i: int, j: int): real
    requires |m| == 16 && 0 <= i < 4 && 0 <= j < 4
  {
    m[4 * i] * m[4 * j] + m[4 * i + 1] * m[4 * j + 1] + m[4 * i + 2] * m[4 * j + 2] + m[4 * i + 3] * m[4 * j + 3]
  }

  /** Entry (i, j) of mᵀ·m is the dot product of columns i and j of m. */
  lemma GramEntry(m: seq<real>, i: int, j: int)
    requires |m| == 16 && 0 <= i < 4 && 0 <= j < 4
    ensures Get(Product(Transposed(m, 4), m, 4), 4, i, j) == ColumnDot(m, i, j)
  {
    GramEntryOf(Product(Transposed(m, 4), m, 4), Transposed(m, 4), m, i, j);
  }

  lemma GramEntryOf(p: seq<real>, t: seq<real>, m: seq<real>, i: int, j: int)
    requires |p| == 16 && 0 <= i < 4 && 0 <= j < 4 && TransposedEntries(t, m, 4)
    requires Get(p, 4, i, j) == Sum(4, RowCol(t, m, 4, i, j))
    ensures Get(p, 4, i, j) == ColumnDot(m, i, j)
  {
    ProductEntry4(p, t, m, i, j);
    assert Get(t, 4, i, 0) == Get(m, 4, 0, i) && Get(t, 4, i, 1) == Get(m, 4, 1, i);
    assert Get(t, 4, i, 2) == Get(m, 4, 2, i) && Get(t, 4, i, 3) == Get(m, 4, 3, i);
    DotSubst(p[i + j * 4], t[i], t[i + 4], t[i + 8], t[i + 12], m[4 * i], m[4 * i + 1], m[4 * i + 2], m[4 * i + 3],
             m[4 * j], m[4 * j + 1], m[4 * j + 2], m[4 * j + 3]);
  }

  /** Replacing the left factors of a four-term dot product by equal values. */
  lemma DotSubst(x: real, t0: real, t1: real, t2: real, t3: real, c0: real, c1: real, c2: real, c3: real,
                 b0: real, b1: real, b2: real, b3: real)
    requires x == t0 * b0 + t1 * b1 + t2 * b2 + t3 * b3
    requires t0 == c0 && t1 == c1 && t2 == c2 && t3 == c3
    ensures x == c0 * b0 + c1 * b1 + c2 * b2 + c3 * b3
  {
  }

  /** The columns of the 4 x 4 matrix m are unit vectors at right angles to each other. */
  predicate OrthonormalColumns(m: seq<real>)
    requires |m| == 16
  {
    ColumnDot(m, 0, 0) == 1.0 && ColumnDot(m, 1, 1) == 1.0 && ColumnDot(m, 2, 2) == 1.0 && ColumnDot(m, 3, 3) == 1.0 &&
    ColumnDot(m, 0, 1) == 0.0 && ColumnDot(m, 0, 2) == 0.0 && ColumnDot(m, 0, 3) == 0.0 &&
    ColumnDot(m, 1, 2) == 0.0 && ColumnDot(m, 1, 3) == 0.0 && ColumnDot(m, 2, 3) == 0.0
  }

  /** A 4 x 4 matrix whose columns are orthonormal satisfies mᵀ·m = I. */
  lemma Orthonormal(m: seq<real>)
    requires |m| == 16 && OrthonormalColumns(m)
    ensures Product(Transposed(m, 4), m, 4) == Identity(4)
  {
    var g := Product(Transposed(m, 4), m, 4);
    forall i, j | 0 <= i < 4 && 0 <= j < 4
      ensures Get(g, 4, i, j) == Get(Identity(4), 4, i, j)
    {
      GramEntry(m, i, j);
      ColumnDotValue(m, i, j);
    }
    EqualByEntries(g, Identity(4), 4);
  }

  /** Under OrthonormalColumns, the dot product of columns i and j is 1 when i = j and 0 otherwise. */
  lemma ColumnDotValue(m: seq<real>, i: int, j: int)
    requires |m| == 16 && OrthonormalColumns(m) && 0 <= i < 4 && 0 <= j < 4
    ensures ColumnDot(m, i, j) == if i == j then 1.0 else 0.0
  {
    if i > j {
      assert ColumnDot(m, i, j) == ColumnDot(m, j, i);
      ColumnDotValue(m, j, i);
    } else if i == 0 {
      assert j == 0 || j == 1 || j == 2 || j == 3;
    } else if i == 1 {
      assert j == 1 || j == 2 || j == 3;
    } else if i == 2 {
      assert j == 2 || j == 3;
    }
  }

  /** The dot product of columns i and j of the 3 x 3 matrix m. */
  function ColumnDot3(m: seq<real>, i: int, j: int): real
    requires |m| == 9 && 0 <= i < 3 && 0 <= j < 3
  {
    m[3 * i] * m[3 * j] + m[3 * i + 1] * m[3 * j + 1] + m[3 * i + 2] * m[3 * j + 2]
  }

  /** Entry (i, j) of mᵀ·m is the dot product of columns i and j of m, for n = 3. */
  lemma GramEntry3(m: seq<real>, i: int, j: int)
    requires |m| == 9 && 0 <= i < 3 && 0 <= j < 3
    ensures Get(Product(Transposed(m, 3), m, 3), 3, i, j) == ColumnDot3(m, i, j)
  {
    GramEntry3Of(Product(Transposed(m, 3), m, 3), Transposed(m, 3), m, i, j);
  }

  lemma GramEntry3Of(p: seq<real>, t: seq<real>, m: seq<real>, i: int, j: int)
    requires |p| == 9 && 0 <= i < 3 && 0 <= j < 3 && TransposedEntries(t, m, 3)
    requires Get(p, 3, i, j) == Sum(3, RowCol(t, m, 3, i, j))
    ensures Get(p, 3, i, j) == ColumnDot3(m, i, j)
  {
    ProductEntry3(p, t, m, i, j);
    assert Get(t, 3, i, 0) == Get(m, 3, 0, i) && Get(t, 3, i, 1) == Get(m, 3, 1, i) && Get(t, 3, i, 2) == Get(m, 3, 2, i);
    DotSubst3(p[i + j * 3], t[i], t[i + 3], t[i + 6], m[3 * i], m[3 * i + 1], m[3 * i + 2],
              m[3 * j], m[3 * j + 1], m[3 * j + 2]);
  }

  /** Replacing the left factors of a three-term dot product by equal values. */
  lemma DotSubst3(x: real, t0: real, t1: real, t2: real, c0: real, c1: real, c2: real, b0: real, b1: real, b2: real)
    requires x == t0 * b0 + t1 * b1 + t2 * b2
    requires t0 == c0 && t1 == c1 && t2 == c2
    ensures x == c0 * b0 + c1 * b1 + c2 * b2
  {
  }

  /** The columns of the 3 x 3 matrix m are unit vectors at right angles to each other. */
  predicate OrthonormalColumns3(m: seq<real>)
    requires |m| == 9
  {
    ColumnDot3(m, 0, 0) == 1.0 && ColumnDot3(m, 1, 1) == 1.0 && ColumnDot3(m, 2, 2) == 1.0 &&
    ColumnDot3(m, 0, 1) == 0.0 && ColumnDot3(m, 0, 2) == 0.0 && ColumnDot3(m, 1, 2) == 0.0
  }

  /** A 3 x 3 matrix whose columns are orthonormal satisfies mᵀ·m = I. */
  lemma Orthonormal3(m: seq<real>)
    requires |m| == 9 && OrthonormalColumns3(m)
    ensures Product(Transposed(m, 3), m, 3) == Identity(3)
  {
    var g := Product(Transposed(m, 3), m, 3);
    forall i, j | 0 <= i < 3 && 0 <= j < 3
      ensures Get(g, 3, i, j) == Get(Identity(3), 3, i, j)
    {
      GramEntry3(m, i, j);
      ColumnDot3Value(m, i, j);
    }
    EqualByEntries(g, Identity(3), 3);
  }

  /** Under OrthonormalColumns3, the dot product of columns i and j is 1 when i = j and 0 otherwise. */
  lemma ColumnDot3Value(m: seq<real>, i: int, j: int)
    requires |m| == 9 && OrthonormalColumns3(m) && 0 <= i < 3 && 0 <= j < 3
    ensures ColumnDot3(m, i, j) == if i == j then 1.0 else 0.0
  {
    if i > j {
      assert ColumnDot3(m, i, j) == ColumnDot3(m, j, i);
      ColumnDot3Value(m, j, i);
    } else if i == 0 {
      assert j == 0 || j == 1 || j == 2;
    } else if i == 1 {
      assert j == 1 || j == 2;
    }
  }

  /** A 3 x 3 matrix with mᵀ·m = I, placed top-left in the 4 x 4 identity, gives a 4 x 4 matrix r with rᵀ·r = I. */
  lemma EmbeddedOrthonormal(m: seq<real>)
    requires |m| == 9 && Product(Transposed(m, 3), m, 3) == Identity(3)
    ensures var r := [m[0], m[1], m[2], 0.0, m[3], m[4], m[5], 0.0, m[6], m[7], m[8], 0.0, 0.0, 0.0, 0.0, 1.0];
      Product(Transposed(r, 4), r, 4) == Identity(4)
  {
    var r := [m[0], m[1], m[2], 0.0, m[3], m[4], m[5], 0.0, m[6], m[7], m[8], 0.0, 0.0, 0.0, 0.0, 1.0];
    ColumnsOfOrthogonal3(m);
    EmbeddedColumns(m, r);
    assert OrthonormalColumns(r);
    Orthonormal(r);
  }

  /** The column dot products of a 3 x 3 matrix m placed top-left in the 4 x 4 identity r. */
  lemma EmbeddedColumns(m: seq<real>, r: seq<real>)
    requires |m| == 9 && |r| == 16
    requires r[0] == m[0] && r[1] == m[1] && r[2] == m[2] && r[3] == 0.0
    requires r[4] == m[3] && r[5] == m[4] && r[6] == m[5] && r[7] == 0.0
    requires r[8] == m[6] && r[9] == m[7] && r[10] == m[8] && r[11] == 0.0
    requires r[12] == 0.0 && r[13] == 0.0 && r[14] == 0.0 && r[15] == 1.0
    ensures ColumnDot(r, 0, 0) == ColumnDot3(m, 0, 0) && ColumnDot(r, 1, 1) == ColumnDot3(m, 1, 1)
    ensures ColumnDot(r, 2, 2) == ColumnDot3(m, 2, 2) && ColumnDot(r, 0, 1) == ColumnDot3(m, 0, 1)
    ensures ColumnDot(r, 0, 2) == ColumnDot3(m, 0, 2) && ColumnDot(r, 1, 2) == ColumnDot3(m, 1, 2)
    ensures ColumnDot(r, 3, 3) == 1.0 && ColumnDot(r, 0, 3) == 0.0 && ColumnDot(r, 1, 3) == 0.0 && ColumnDot(r, 2, 3) == 0.0
  {
  }

  /** Conversely to Orthonormal3, mᵀ·m = I says the columns of m are orthonormal. */
  lemma ColumnsOfOrthogonal3(m: seq<real>)
    requires |m| == 9 && Product(Transposed(m, 3), m, 3) == Identity(3)
    ensures OrthonormalColumns3(m)
  {
    Diagonal3(1.0);
    GramEntry3(m, 0, 0);
    GramEntry3(m, 1, 1);
    GramEntry3(m, 2, 2);
    GramEntry3(m, 0, 1);
    GramEntry3(m, 0, 2);
    GramEntry3(m, 1, 2);
  }
}

=== FILE: linked_list.dfy ===
/**
 * The `LinkedList` node (LinkedList.js): a node holds a link to the next
 * node or null, the `next` setter checks its argument, and iterating a node
 * yields it and then the nodes that follow it.
 *
 * The generator is lazy: a consumer takes values one at a time and may stop.
 * `Iterate(limit)` returns the values a consumer that pulls at most `limit`
 * times receives, so that a cycle (on which the generator never finishes) is
 * modelled too.
 */
module Lists {
  /** What the `next` setter may be given: null or undefined, a node (of any subclass), or another value. */
  datatype NextArg = Nullish | Node(node: LinkedList) | NotNode(className: string)

  /** The outcome of a setter: it returns, or throws an Error with a message. */
  datatype Outcome = Done | Thrown(message: string)

  /** The nodes of ys, as a frame. */
  ghost function Nodes(ys: seq<LinkedList>): set<object>
  {
    set i | 0 <= i < |ys| :: ys[i]
  }

  /** ys starts at start and each later node is the link of the one before it. */
  ghost predicate IsWalk(start: LinkedList, ys: seq<LinkedList>)
    reads Nodes(ys)
  {
    (ys != [] ==> ys[0] == start) && forall i :: 0 <= i < |ys| - 1 ==> ys[i + 1] == ys[i].link
  }

  /** What a consumer pulling at most `limit` values receives from iterating start. */
  ghost predicate Yields(start: LinkedList, ys: seq<LinkedList>, limit: nat)
    reads Nodes(ys)
  {
    IsWalk(start, ys) && |ys| <= limit &&
    (limit > 0 ==> ys != []) &&
    (|ys| < limit ==> ys != [] && ys[|ys| - 1].link == null)
  }

  /** nodes is the whole chain from start: a walk whose last node links to null. */
  ghost predicate IsChain(start: LinkedList, nodes: seq<LinkedList>)
    reads Nodes(nodes)
  {
    nodes != [] && IsWalk(start, nodes) && nodes[|nodes| - 1].link == null
  }

  class LinkedList {
    var link: LinkedList?

    /** A new node is unlinked. */
    constructor ()
      ensures link == null
    {
      link := null;
    }

    /** The `next` setter: stores a node or null, and throws on anything else, keeping the link. */
    method SetNext(arg: NextArg) returns (o: Outcome)
      modifies this
      ensures arg.Nullish? ==> o == Done && link == null
      ensures arg.Node? ==> o == Done && link == arg.node
      ensures arg.NotNode? ==> o == Thrown(arg.className + " is not a LinkedList node") && link == old(link)
    {
      match arg
      case Nullish => link := null; o := Done;
      case Node(n) => link := n; o := Done;
      case NotNode(name) => o := Thrown(name + " is not a LinkedList node");
    }

    /** `[Symbol.iterator]`, pulled at most `limit` times: this node, then `next` until null. */
    method Iterate(limit: nat) returns (ys: seq<LinkedList>)
      ensures Yields(this, ys, limit)
    {
      ys := [];
      var cur: LinkedList? := this;
      while cur != null && |ys| < limit
        invariant IsWalk(this, ys) && |ys| <= limit
        invariant ys == [] ==> cur == this
        invariant ys != [] ==> cur == ys[|ys| - 1].link
        decreases limit - |ys|
      {
        ys := ys + [cur];
        cur := cur.link;
      }
    }
  }

  /** A walk from start is unique: it follows the chain from start as far as it goes. */
  lemma {:induction false} WalkFollowsChain(start: LinkedList, nodes: seq<LinkedList>, ys: seq<LinkedList>, k: nat)
    requires IsChain(start, nodes) && IsWalk(start, ys)
    requires k < |ys|
    ensures k < |nodes| && ys[k] == nodes[k]
  {
    if k > 0 {
      WalkFollowsChain(start, nodes, ys, k - 1);
      assert ys[k] == ys[k - 1].link;
      if k < |nodes| {
        assert nodes[k] == nodes[k - 1].link;
      }
    }
  }

  /** Iterating a node whose chain ends in null yields exactly that chain, once a consumer pulls enough. */
  lemma ChainYields(start: LinkedList, nodes: seq<LinkedList>, ys: seq<LinkedList>, limit: nat)
    requires IsChain(start, nodes) && Yields(start, ys, limit) && |nodes| <= limit
    ensures ys == nodes
  {
    WalkFollowsChain(start, nodes, ys, |ys| - 1);
    ChainInner(start, nodes);
    forall k | 0 <= k < |ys|
      ensures ys[k] == nodes[k]
    {
      WalkFollowsChain(start, nodes, ys, k);
    }
  }

  /** Only the last node of a chain links to null. */
  lemma ChainInner(start: LinkedList, nodes: seq<LinkedList>)
    requires IsChain(start, nodes)
    ensures forall k :: 0 <= k < |nodes| - 1 ==> nodes[k].link != null
  {
    forall k | 0 <= k < |nodes| - 1
      ensures nodes[k].link != null
    {
      assert nodes[k + 1] == nodes[k].link;
    }
  }

  /** A chain that ends in null visits each node once. */
  lemma {:induction false} ChainDistinct(start: LinkedList, nodes: seq<LinkedList>, i: nat, j: nat)
    requires IsChain(start, nodes) && i < j < |nodes|
    ensures nodes[i] != nodes[j]
    decreases |nodes| - j
  {
    assert nodes[i + 1] == nodes[i].link;
    if nodes[i] == nodes[j] && j < |nodes| - 1 {
      assert nodes[i + 1] == nodes[j + 1];
      ChainDistinct(start, nodes, i + 1, j + 1);
    }
  }

  /** A node linked to itself makes iteration endless: every pull yields the node again. */
  lemma {:induction false} SelfLoopEndless(start: LinkedList, ys: seq<LinkedList>, limit: nat)
    requires start.link == start && Yields(start, ys, limit)
    ensures |ys| == limit && forall i :: 0 <= i < |ys| ==> ys[i] == start
  {
    forall i | 0 <= i < |ys|
      ensures ys[i] == start
    {
      SelfLoopNode(start, ys, i);
    }
  }

  lemma {:induction false} SelfLoopNode(start: LinkedList, ys: seq<LinkedList>, i: nat)
    requires start.link == start && IsWalk(start, ys) && i < |ys|
    ensures ys[i] == start
  {
    if i > 0 {
      SelfLoopNode(start, ys, i - 1);
    }
  }
}

=== FILE: mat.dfy ===
/**
 * The square matrix classes Mat2, Mat3, Mat4 (matrix/Mat.js): n x n
 * matrices stored column-major, the constructor's size rule with its
 * single-value diagonal, conversion between sizes, transpose, trace, column
 * slicing, the matrix and matrix-vector products, and the last step of
 * inversion (scaling an adjugate by 1/det).
 *
 * Mat.js writes the single-value diagonal through an assignment to
 * `this.val`, which has only a getter in matrix/_Mat.js and so throws in
 * strict class code; this model gives the constructor the behaviour its doc
 * comment describes: a single value v makes the diagonal matrix v·I.
 * Mat2.js and Mat4.js call `arrayCol` and `_inverse`, which Mat.js names
 * `_col` and `_invert`; each pair is one routine here.
 */
module Matrix {
  import opened Sums
  import opened ColumnMajor
  import opened MatBase
  import Vector

  /** v on the diagonal and 0 elsewhere. */
  function Diagonal(n: nat, v: real): (m: seq<real>)
    ensures |m| == n * n
    ensures forall row, col :: 0 <= row < n && 0 <= col < n ==> Get(m, n, row, col) == if row == col then v else 0.0
  {
    FromFn(n, (row, col) => if row == col then v else 0.0)
  }

  function Identity(n: nat): (m: seq<real>)
    ensures |m| == n * n
  {
    Diagonal(n, 1.0)
  }

  /** The Mat constructor's size rule, applied to the flattened components. */
  function MatFromFlat(cls: Class, vals: seq<real>): (r: Result<Instance>)
    requires IsMatrix(cls)
    ensures r.Ok? <==> |vals| == 1 || |vals| == Size(cls)
    ensures r.Ok? ==> r.value.cls == cls
    ensures |vals| == 1 ==> r.Ok? && r.value.val == Diagonal(Dim(cls), vals[0])
    ensures |vals| == Size(cls) ==> r.Ok? && r.value.val == vals
    ensures |vals| != 1 && |vals| < Size(cls) ==> r == Err(TooFewComponents)
    ensures |vals| > Size(cls) ==> r == Err(TooManyComponents)
  {
    if |vals| == 1 then
      var o: Instance := MatObj(cls, Diagonal(Dim(cls), vals[0]));
      Ok(o)
    else if |vals| < Size(cls) then
      Err(TooFewComponents)
    else if |vals| > Size(cls) then
      Err(TooManyComponents)
    else
      var o: Instance := MatObj(cls, vals);
      Ok(o)
  }

  /** The Mat constructor on an argument list that does not start with a matrix. */
  function MatFromArgs(cls: Class, args: seq<Arg>): Result<Instance>
    requires IsMatrix(cls)
  {
    match Flatten(args)
    case Err(e) => Err(e)
    case Ok(vals) => MatFromFlat(cls, vals)
  }

  /** Entry (row, col) of storage p of an n x n matrix when p = row + col * n. */
  lemma DiagonalIndex(n: nat, i: int)
    requires 0 <= i < n
    ensures i * (n + 1) == i + i * n
    ensures 0 <= i * (n + 1) < n * n
    ensures (i * (n + 1)) % n == i && (i * (n + 1)) / n == i
  {
    IndexBound(n, i, i);
    SplitIndex(n, i, i);
  }

  /** The Mat constructor, writing the diagonal of a single value at the flat indices i·(n+1). */
  method Construct(cls: Class, args: seq<Arg>) returns (r: Result<Instance>)
    requires IsMatrix(cls)
    ensures r == MatFromArgs(cls, args)
  {
    var flat := Flatten(args);
    if flat.Err? {
      return Err(flat.error);
    }
    var vals := flat.value;
    var n := Dim(cls);
    if |vals| == 1 {
      var v := vals[0];
      var diag := new real[n * n](_ => 0.0);
      for i := 0 to n
        invariant forall p :: 0 <= p < n * n ==> diag[p] == if p % n == p / n && p / n < i then v else 0.0
      {
        DiagonalIndex(n, i);
        diag[i * (n + 1)] := v;
      }
      assert diag[..] == Diagonal(n, v) by {
        forall p | 0 <= p < n * n
          ensures diag[p] == Diagonal(n, v)[p]
        {
          JoinIndex(n, p);
        }
      }
      var o: Instance := MatObj(cls, diag[..]);
      r := Ok(o);
    } else if |vals| < n * n {
      r := Err(TooFewComponents);
    } else if |vals| > n * n {
      r := Err(TooManyComponents);
    } else {
      var o: Instance := MatObj(cls, vals);
      r := Ok(o);
    }
  }

  /** The static getter `identity`: `new this(1)`. */
  function IdentityOf(cls: Class): (r: Result<Instance>)
    requires IsMatrix(cls)
    ensures r.Ok? && r.value.cls == cls && r.value.val == Identity(Dim(cls))
  {
    assert FlatMap([Num(1.0)][1..]) == Ok([]);
    assert [1.0] + [] == [1.0];
    MatFromArgs(cls, [Num(1.0)])
  }

  /**
   * The n x n matrix whose top-left corner is the m x m matrix m (as much of it as fits)
   * and whose other entries are those of the identity: truncation when to <= from,
   * identity padding when to >= from.
   */
  function Resize(m: seq<real>, from: nat, to: nat): (r: seq<real>)
    ensures |r| == to * to
    ensures forall row, col :: 0 <= row < to && 0 <= col < to ==>
      Get(r, to, row, col) == if row < from && col < from then Get(m, from, row, col) else if row == col then 1.0 else 0.0
  {
    FromFn(to, (row, col) => if row < from && col < from then Get(m, from, row, col) else if row == col then 1.0 else 0.0)
  }

  /**
   * `new cls(...args)` for a matrix class: a matrix first argument is copied
   * (same class), truncated or identity-padded, and the other arguments are
   * ignored; otherwise the Mat constructor applies.
   */
  function NewMatrix(cls: Class, args: seq<Arg>): (r: Result<Instance>)
    requires IsMatrix(cls)
    ensures r.Ok? ==> r.value.cls == cls
    ensures |args| > 0 && args[0].Obj? && IsMatrix(args[0].o.cls) ==>
      r.Ok? && r.value.val == Resize(args[0].o.val, Dim(args[0].o.cls), Dim(cls))
    ensures !(|args| > 0 && args[0].Obj? && IsMatrix(args[0].o.cls)) && Flatten(args).Err? ==> r == Err(TypeError)
    ensures !(|args| > 0 && args[0].Obj? && IsMatrix(args[0].o.cls)) && Flatten(args).Ok? ==>
      (r.Ok? <==> |Flatten(args).value| == 1 || |Flatten(args).value| == Size(cls))
  {
    if |args| > 0 && args[0].Obj? && IsMatrix(args[0].o.cls) then
      var src := args[0].o;
      FlattenNums(Resize(src.val, Dim(src.cls), Dim(cls)));
      MatFromArgs(cls, Nums(Resize(src.val, Dim(src.cls), Dim(cls))))
    else
      MatFromArgs(cls, args)
  }

  /** n x n plain numbers build the matrix with those components. */
  lemma FromComponents(cls: Class, vals: seq<real>)
    requires IsMatrix(cls) && |vals| == Size(cls)
    ensures NewMatrix(cls, Nums(vals)).Ok? && NewMatrix(cls, Nums(vals)).value == MatObj(cls, vals)
  {
    FlattenNums(vals);
  }

  /** Constructing from a matrix gives the resized components of that matrix. */
  lemma Conversion(cls: Class, m: Instance, rest: seq<Arg>)
    requires IsMatrix(cls) && IsMatrix(m.cls)
    ensures NewMatrix(cls, [Obj(m)] + rest).Ok?
    ensures NewMatrix(cls, [Obj(m)] + rest).value == MatObj(cls, Resize(m.val, Dim(m.cls), Dim(cls)))
  {
    var vals := Resize(m.val, Dim(m.cls), Dim(cls));
    FromComponents(cls, vals);
  }

  /** Resizing to the same size changes nothing. */
  lemma ResizeSame(m: seq<real>, n: nat)
    requires |m| == n * n
    ensures Resize(m, n, n) == m
  {
    EqualByEntries(Resize(m, n, n), m, n);
  }

  /** Truncation undoes identity padding. */
  lemma ResizeRoundTrip(m: seq<real>, a: nat, b: nat)
    requires |m| == a * a && a <= b
    ensures Resize(Resize(m, a, b), b, a) == m
  {
    var big := Resize(m, a, b);
    forall row, col | 0 <= row < a && 0 <= col < a
      ensures Get(Resize(big, b, a), a, row, col) == Get(m, a, row, col)
    {
    }
    EqualByEntries(Resize(big, b, a), m, a);
  }

  /** The identity resized to any size is the identity. */
  lemma ResizeIdentity(a: nat, b: nat)
    ensures Resize(Identity(a), a, b) == Identity(b)
  {
    EqualByEntries(Resize(Identity(a), a, b), Identity(b), b);
  }

  /** Padding in two steps is padding in one. */
  lemma ResizeTwice(m: seq<real>, a: nat, b: nat, c: nat)
    requires |m| == a * a && a <= b <= c
    ensures Resize(Resize(m, a, b), b, c) == Resize(m, a, c)
  {
    EqualByEntries(Resize(Resize(m, a, b), b, c), Resize(m, a, c), c);
  }

  /** The transpose: entry (row, col) is entry (col, row) of m. */
  function Transposed(m: seq<real>, n: nat): (t: seq<real>)
    ensures |t| == n * n
    ensures forall row, col :: 0 <= row < n && 0 <= col < n ==> Get(t, n, row, col) == Get(m, n, col, row)
  {
    FromFn(n, (row, col) => Get(m, n, col, row))
  }

  /** Start of column i in the storage, and the next one. */
  lemma ColumnStart(n: nat, i: int)
    requires 0 <= i <= n
    ensures 0 <= i * n <= n * n
    ensures i < n ==> (i + 1) * n == i * n + n && i * n + n <= n * n
  {
    if i < n {
      IndexBound(n, 0, i);
      IndexBound(n, n - 1, i);
    }
  }

  /** The entry `transpose` copies at step (i, j). */
  lemma TransposeStep(m: seq<real>, n: nat, i: int, j: int)
    requires |m| == n * n && 0 <= i < n && 0 <= j < n
    ensures 0 <= i * n + j < n * n && 0 <= i + j * n < n * n
    ensures Transposed(m, n)[i * n + j] == m[i + j * n]
  {
    IndexBound(n, j, i);
    IndexBound(n, i, j);
    assert Get(Transposed(m, n), n, j, i) == Get(m, n, i, j);
  }

  /** `transpose`: t[i·n + j] = val[i + j·n], filled in storage order. */
  method Transpose(m: Instance) returns (r: Instance)
    requires IsMatrix(m.cls)
    ensures r == MatObj(m.cls, Transposed(m.val, Dim(m.cls)))
  {
    var t := TransposeLoop(m.val, Dim(m.cls));
    r := MatObj(m.cls, t);
  }

  /** The loops of `transpose` on the components of an n x n matrix. */
  method TransposeLoop(mv: seq<real>, n: nat) returns (r: seq<real>)
    requires |mv| == n * n
    ensures r == Transposed(mv, n)
  {
    ghost var want := Transposed(mv, n);
    var t := new real[n * n];
    for i := 0 to n
      invariant i * n <= n * n
      invariant forall p :: 0 <= p < i * n ==> t[p] == want[p]
    {
      ColumnStart(n, i);
      ghost var base := i * n;
      for j := 0 to n
        invariant base + j <= n * n
        invariant forall p :: 0 <= p < base + j ==> t[p] == want[p]
      {
        TransposeStep(mv, n, i, j);
        t[i * n + j] := mv[i + j * n];
      }
    }
    ColumnStart(n, n);
    r := t[..];
  }

  /** Σ of the diagonal entries. */
  function TraceOf(m: seq<real>, n: nat): (t: real)
    ensures n == 2 && |m| == 4 ==> t == m[0] + m[3]
    ensures n == 3 && |m| == 9 ==> t == m[0] + m[4] + m[8]
    ensures n == 4 && |m| == 16 ==> t == m[0] + m[5] + m[10] + m[15]
  {
    if n == 2 then Sum2(DiagonalEntry(m, n)); Sum(n, DiagonalEntry(m, n))
    else if n == 3 then Sum3(DiagonalEntry(m, n)); Sum(n, DiagonalEntry(m, n))
    else if n == 4 then Sum4(DiagonalEntry(m, n)); Sum(n, DiagonalEntry(m, n))
    else Sum(n, DiagonalEntry(m, n))
  }

  /** k => m(k, k). */
  function DiagonalEntry(m: seq<real>, n: nat): int -> real
  {
    k => Get(m, n, k, k)
  }

  /** `trace`: Σ val[i·(n+1)]. */
  method Trace(m: Instance) returns (t: real)
    requires IsMatrix(m.cls)
    ensures t == TraceOf(m.val, Dim(m.cls))
  {
    var n, mv := Dim(m.cls), m.val;
    assert |mv| == n * n;
    t := 0.0;
    for i := 0 to n
      invariant t == Sum(i, DiagonalEntry(mv, n))
    {
      DiagonalIndex(n, i);
      t := t + mv[i * (n + 1)];
    }
  }

  /** Transposing twice gives back the matrix. */
  lemma TransposeInvolution(m: seq<real>, n: nat)
    requires |m| == n * n
    ensures Transposed(Transposed(m, n), n) == m
  {
    EqualByEntries(Transposed(Transposed(m, n), n), m, n);
  }

  /** The trace of the transpose is the trace. */
  lemma TraceTranspose(m: seq<real>, n: nat)
    requires |m| == n * n
    ensures TraceOf(Transposed(m, n), n) == TraceOf(m, n)
  {
    SumExt(n, DiagonalEntry(Transposed(m, n), n), DiagonalEntry(m, n));
  }

  /** The products a(row, k)·b(k, col) along row `row` of a and column `col` of b. */
  function RowCol(a: seq<real>, b: seq<real>, n: nat, row: int, col: int): int -> real
  {
    k => Get(a, n, row, k) * Get(b, n, k, col)
  }

  /** The product a·b: entry (row, col) is Σ_k a(row, k)·b(k, col). */
  function Product(a: seq<real>, b: seq<real>, n: nat): (p: seq<real>)
    ensures |p| == n * n
    ensures forall row, col :: 0 <= row < n && 0 <= col < n ==> Get(p, n, row, col) == Sum(n, RowCol(a, b, n, row, col))
  {
    FromFn(n, (row, col) => Sum(n, RowCol(a, b, n, row, col)))
  }

  /** One more term of entry (j, i) of a·b, in the storage order `_mulm` reads it (r = i·n). */
  lemma ProductStep(a: seq<real>, b: seq<real>, n: nat, i: int, j: int, k: nat, r: int)
    requires |a| == n * n && |b| == n * n && 0 <= i < n && 0 <= j < n && k < n && r == i * n
    ensures 0 <= j + k * n < n * n && 0 <= r + k < n * n
    ensures Sum(k + 1, RowCol(a, b, n, j, i)) == Sum(k, RowCol(a, b, n, j, i)) + a[j + k * n] * b[r + k]
  {
    IndexBound(n, j, k);
    IndexBound(n, k, i);
  }

  /** Entry (j, i) of a·b sits at storage index i·n + j. */
  lemma ProductCell(a: seq<real>, b: seq<real>, n: nat, i: int, j: int)
    requires 0 <= i < n && 0 <= j < n
    ensures 0 <= i * n + j < n * n
    ensures Product(a, b, n)[i * n + j] == Sum(n, RowCol(a, b, n, j, i))
  {
    IndexBound(n, j, i);
    assert Get(Product(a, b, n), n, j, i) == Sum(n, RowCol(a, b, n, j, i));
  }

  /** `_mulm`: the matrix product of the receiver and a matrix of its class. */
  method MulM(a: Instance, b: Instance) returns (r: Instance)
    requires IsMatrix(a.cls) && b.cls == a.cls
    ensures r == MatObj(a.cls, Product(a.val, b.val, Dim(a.cls)))
  {
    var mult := ProductLoop(a.val, b.val, Dim(a.cls));
    r := MatObj(a.cls, mult);
  }

  /** The loops of `_mulm`: entry i·n + j of `mult` accumulates Σ_k a(j, k)·b(k, i). */
  method ProductLoop(av: seq<real>, bv: seq<real>, n: nat) returns (res: seq<real>)
    requires |av| == n * n && |bv| == n * n
    ensures res == Product(av, bv, n)
  {
    ghost var want := Product(av, bv, n);
    var mult := new real[n * n](_ => 0.0);
    for i := 0 to n
      invariant i * n <= n * n
      invariant forall p :: 0 <= p < i * n ==> mult[p] == want[p]
      invariant forall p :: i * n <= p < n * n ==> mult[p] == 0.0
    {
      ColumnStart(n, i);
      var r := i * n;
      for j := 0 to n
        invariant r + j <= n * n
        invariant forall p :: 0 <= p < r + j ==> mult[p] == want[p]
        invariant forall p :: r + j <= p < n * n ==> mult[p] == 0.0
      {
        ProductCell(av, bv, n, i, j);
        AccumulateEntry(mult, av, bv, n, i, j);
      }
    }
    ColumnStart(n, n);
    res := mult[..];
  }

  /** The innermost loop of `_mulm`: adds Σ_k a(j, k)·b(k, i) to mult[i·n + j], term by term. */
  method AccumulateEntry(mult: array<real>, av: seq<real>, bv: seq<real>, n: nat, i: int, j: int)
    requires |av| == n * n && |bv| == n * n && mult.Length == n * n && 0 <= i < n && 0 <= j < n
    modifies mult
    ensures 0 <= i * n + j < n * n
    ensures mult[i * n + j] == old(mult[i * n + j]) + Sum(n, RowCol(av, bv, n, j, i))
    ensures forall p :: 0 <= p < n * n && p != i * n + j ==> mult[p] == old(mult[p])
  {
    IndexBound(n, j, i);
    var r := i * n;
    var at := r + j;
    for k := 0 to n
      invariant mult[at] == old(mult[at]) + Sum(k, RowCol(av, bv, n, j, i))
      invariant forall p :: 0 <= p < n * n && p != at ==> mult[p] == old(mult[p])
    {
      ProductStep(av, bv, n, i, j, k, r);
      mult[at] := mult[at] + av[j + k * n] * bv[r + k];
    }
  }

  /** The matrix m times the column vector v: component i is Σ_j m(i, j)·v[j]. */
  function MatVec(m: seq<real>, v: seq<real>, n: nat): (r: seq<real>)
    ensures |r| == n
  {
    seq(n, i => Sum(n, MatRow(m, v, n, i)))
  }

  /** The products m(i, j)·v[j] along row i of m. */
  function MatRow(m: seq<real>, v: seq<real>, n: nat, i: int): int -> real
  {
    j => Get(m, n, i, j) * Comp(v, j)
  }

  /** One more term of component i of m·v, in the storage order `_mulv` reads it. */
  lemma MatVecStep(m: seq<real>, v: seq<real>, n: nat, i: int, j: int)
    requires |m| == n * n && |v| == n && 0 <= i < n && 0 <= j < n
    ensures 0 <= i + j * n < n * n
    ensures Sum(j + 1, MatRow(m, v, n, i)) == Sum(j, MatRow(m, v, n, i)) + m[i + j * n] * v[j]
  {
    IndexBound(n, i, j);
  }

  /** `_mulv`: matrix times vector; the result has the class of the vector. */
  method MulV(a: Instance, v: Instance) returns (r: Instance)
    requires IsMatrix(a.cls) && IsVector(v.cls) && Dim(v.cls) == Dim(a.cls)
    ensures r == MatObj(v.cls, MatVec(a.val, v.val, Dim(a.cls)))
  {
    var n, av, vv := Dim(a.cls), a.val, v.val;
    assert |av| == n * n && |vv| == n;
    ghost var want := MatVec(av, vv, n);
    var mult := new real[n](_ => 0.0);
    for i := 0 to n
      invariant forall k :: 0 <= k < i ==> mult[k] == want[k]
      invariant forall k :: i <= k < n ==> mult[k] == 0.0
    {
      ghost var before := mult[..];
      for j := 0 to n
        invariant forall k :: 0 <= k < n && k != i ==> mult[k] == before[k]
        invariant mult[i] == Sum(j, MatRow(av, vv, n, i))
      {
        MatVecStep(av, vv, n, i, j);
        mult[i] := mult[i] + av[i + j * n] * vv[j];
      }
    }
    r := MatObj(v.cls, mult[..]);
  }

  /**
   * Mat `mul`: a matrix of the same class gives the matrix product, a vector
   * with the same n the matrix-vector product (of the vector's class).
   */
  function MulOf(a: Instance, m: Arg): (r: Result<MulResult>)
    requires IsMatrix(a.cls)
    ensures r.Ok? <==> m.Obj? && (m.o.cls == a.cls || (IsVector(m.o.cls) && Dim(m.o.cls) == Dim(a.cls)))
    ensures r.Err? ==> r.error == TypeError
    ensures r.Ok? ==> r.value.Value? && r.value.o.cls == m.o.cls
  {
    if m.Obj? && m.o.cls == a.cls then
      var o: Instance := MatObj(a.cls, Product(a.val, m.o.val, Dim(a.cls)));
      Ok(Value(o))
    else if m.Obj? && IsVector(m.o.cls) && Dim(m.o.cls) == Dim(a.cls) then
      var o: Instance := MatObj(m.o.cls, MatVec(a.val, m.o.val, Dim(a.cls)));
      Ok(Value(o))
    else
      Err(TypeError)
  }

  /** Mat `mul`, dispatching to `_mulm` or `_mulv`. */
  method Mul(a: Instance, m: Arg) returns (r: Result<MulResult>)
    requires IsMatrix(a.cls)
    ensures r == MulOf(a, m)
  {
    if m.Obj? && m.o.cls == a.cls {
      var p := MulM(a, m.o);
      r := Ok(Value(p));
    } else if m.Obj? && IsVector(m.o.cls) && Dim(m.o.cls) == Dim(a.cls) {
      var p := MulV(a, m.o);
      r := Ok(Value(p));
    } else {
      r := Err(TypeError);
    }
  }

  /** Every component multiplied by k. */
  function Scaled(s: seq<real>, k: real): (r: seq<real>)
    ensures |r| == |s|
    ensures forall i :: 0 <= i < |s| ==> r[i] == s[i] * k
  {
    seq(|s|, i requires 0 <= i < |s| => s[i] * k)
  }

  /** `_invert`: "not invertible" when det is 0, otherwise the adjugate scaled by 1/det. */
  function InvertOf(cls: Class, det: real, adj: seq<real>): (r: Result<Instance>)
    requires IsMatrix(cls) && |adj| == Size(cls)
    ensures r.Err? <==> det == 0.0
    ensures r.Err? ==> r.error == NotInvertible
    ensures r.Ok? ==> r.value.cls == cls && r.value.val == Scaled(adj, 1.0 / det)
  {
    if det == 0.0 then
      Err(NotInvertible)
    else
      var o: Instance := MatObj(cls, Scaled(adj, 1.0 / det));
      Ok(o)
  }

  /** `_invert`: rescales the adjugate in place by 1/det, or throws leaving it untouched. */
  method Invert(cls: Class, det: real, adj: array<real>) returns (r: Result<Instance>)
    requires IsMatrix(cls) && adj.Length == Size(cls)
    modifies adj
    ensures r == InvertOf(cls, det, old(adj[..]))
    ensures det == 0.0 ==> adj[..] == old(adj[..])
    ensures det != 0.0 ==> adj[..] == Scaled(old(adj[..]), 1.0 / det)
  {
    if det == 0.0 {
      return Err(NotInvertible);
    }
    var idet := 1.0 / det;
    ghost var orig := adj[..];
    ghost var want := Scaled(orig, idet);
    for i := 0 to adj.Length
      invariant forall k :: 0 <= k < i ==> adj[k] == want[k]
      invariant forall k :: i <= k < adj.Length ==> adj[k] == orig[k]
    {
      adj[i] := adj[i] * idet;
    }
    assert adj[..] == want;
    var o: Instance := MatObj(cls, adj[..]);
    r := Ok(o);
  }

  /** The index `k` of `Array.prototype.slice` on a list of length len: negative counts from the end, then clamped. */
  function SliceIndex(k: int, len: nat): (r: nat)
    ensures r <= len
  {
    if k < 0 then (if len + k < 0 then 0 else len + k) else if k > len then len else k
  }

  /** `s.slice(start, end)`. */
  function Slice(s: seq<real>, start: int, end: int): seq<real>
  {
    var a, b := SliceIndex(start, |s|), SliceIndex(end, |s|);
    if a < b then s[a..b] else []
  }

  /** `_col(i)`: RangeError for i >= n, otherwise the slice val[i·n .. (i+1)·n). */
  function ColumnSlice(m: Instance, i: int): (r: Result<seq<real>>)
    requires IsMatrix(m.cls)
    ensures r.Err? <==> i >= Dim(m.cls)
    ensures r.Err? ==> r.error == RangeError
  {
    var n := Dim(m.cls);
    if i >= n then Err(RangeError) else Ok(Slice(m.val, i * n, (i + 1) * n))
  }

  /** The vector class of a column of each matrix class. */
  function ColumnClass(c: Class): (v: Class)
    requires IsMatrix(c)
    ensures IsVector(v) && Dim(v) == Dim(c)
  {
    match c
    case Mat2 => Vec2
    case Mat3 => Vec3
    case Mat4 => Vec4
  }

  /** `col(i)` of Mat2, Mat3 and Mat4: the slice of `_col(i)` handed to the vector constructor. */
  function Col(m: Instance, i: int): (r: Result<Instance>)
    requires IsMatrix(m.cls)
    ensures r.Ok? ==> r.value.cls == ColumnClass(m.cls)
    ensures i >= Dim(m.cls) ==> r == Err(RangeError)
    ensures 0 <= i < Dim(m.cls) ==> r.Ok? && forall k :: 0 <= k < Dim(m.cls) ==> r.value.val[k] == Get(m.val, Dim(m.cls), k, i)
  {
    match ColumnSlice(m, i)
    case Err(e) => Err(e)
    case Ok(s) =>
      FlatMapNums(s);
      if 0 <= i then
        ColumnSliceIsColumn(m, i);
        Vector.NewVector(ColumnClass(m.cls), [Arr(Nums(s))])
      else
        Vector.NewVector(ColumnClass(m.cls), [Arr(Nums(s))])
  }

  /** For 0 <= i < n, `_col(i)` is column i: n entries, entry k being m(k, i). */
  lemma ColumnSliceIsColumn(m: Instance, i: int)
    requires IsMatrix(m.cls) && 0 <= i < Dim(m.cls)
    ensures ColumnSlice(m, i).Ok?
    ensures |ColumnSlice(m, i).value| == Dim(m.cls)
    ensures forall k :: 0 <= k < Dim(m.cls) ==> ColumnSlice(m, i).value[k] == Get(m.val, Dim(m.cls), k, i)
  {
    var n := Dim(m.cls);
    ColumnStart(n, i);
    forall k | 0 <= k < n
      ensures ColumnSlice(m, i).value[k] == Get(m.val, n, k, i)
    {
      IndexBound(n, k, i);
    }
  }

  /**
   * Negative indexes go through the slice unchecked: for -n <= i <= -2 the slice
   * is column i + n, for i = -1 and i < -n it is empty.
   */
  lemma ColumnSliceNegative(m: Instance, i: int)
    requires IsMatrix(m.cls) && i < 0
    ensures 0 <= i + Dim(m.cls) && i <= -2 ==> ColumnSlice(m, i) == ColumnSlice(m, i + Dim(m.cls))
    ensures (i == -1 || i + Dim(m.cls) < 0) ==> ColumnSlice(m, i) == Ok([])
  {
    var n := Dim(m.cls);
    if -n <= i <= -2 {
      assert n * n + i * n == (i + n) * n;
      assert n * n + (i + 1) * n == (i + n + 1) * n;
      assert i * n < 0 && (i + 1) * n < 0;
    } else if i < -n {
      assert i * n <= -n * n - n;
    }
  }

  /** `col(i)`: RangeError from i >= n, and too few components from i = -1 (an empty slice). */
  lemma ColErrors(m: Instance, i: int)
    requires IsMatrix(m.cls) && (i >= Dim(m.cls) || i == -1)
    ensures i >= Dim(m.cls) ==> Col(m, i) == Err(RangeError)
    ensures i == -1 ==> Col(m, i) == Err(TooFewComponents)
  {
    if i == -1 {
      ColumnSliceNegative(m, i);
      FlatMapNums([]);
    }
  }
}

=== FILE: mat2.dfy ===
/**
 * matrix/Mat2.js: the 2x2 matrix. With [a, c, b, d] = val (column-major:
 * column 0 is (a, c), column 1 is (b, d)) the determinant is a·d − b·c.
 *
 * `inverse` hands `_invert` the list [d, −b, −c, a]. Read column-major that
 * is the matrix with rows (d, −c) and (−b, a): the transpose of the
 * adjugate. The model keeps that code as written (`AdjugateAsWritten`,
 * `Inverse`) and shows exactly when it is an inverse; the adjugate that was
 * evidently intended is `Adjugate`, and `CorrectedInverse` is proved to be a
 * two-sided inverse.
 */
module Matrix2 {
  import opened ColumnMajor
  import opened MatBase
  import opened Matrix
  import opened MatrixAlgebra
  import opened MatrixConversion
  import opened FixedSize

  /** `det`: a·d − b·c with [a, c, b, d] = val. */
  function Det(v: seq<real>): (d: real)
    requires |v| == 4
    ensures d == Get(v, 2, 0, 0) * Get(v, 2, 1, 1) - Get(v, 2, 0, 1) * Get(v, 2, 1, 0)
  {
    v[0] * v[3] - v[2] * v[1]
  }

  /** The list `inverse` builds: [d, −b, −c, a], stored as it is written. */
  function AdjugateAsWritten(v: seq<real>): (adj: seq<real>)
    requires |v| == 4
    ensures |adj| == 4
    ensures adj[0] == Adjugate(v)[0] && adj[3] == Adjugate(v)[3]
    ensures adj[1] == Adjugate(v)[2] && adj[2] == Adjugate(v)[1]
  {
    [v[3], -v[2], -v[1], v[0]]
  }

  /** The classical adjugate in column-major order: [d, −c, −b, a]. */
  function Adjugate(v: seq<real>): (adj: seq<real>)
    requires |v| == 4
    ensures |adj| == 4
  {
    [v[3], -v[1], -v[2], v[0]]
  }

  /** What `inverse` returns, as written. */
  function InverseOf(m: Instance): (r: Result<Instance>)
    requires m.cls == Mat2
    ensures r.Err? <==> Det(m.val) == 0.0
    ensures r.Err? ==> r.error == NotInvertible
    ensures r.Ok? ==> r.value.cls == Mat2 && r.value.val == Scaled(AdjugateAsWritten(m.val), 1.0 / Det(m.val))
  {
    InvertOf(Mat2, Det(m.val), AdjugateAsWritten(m.val))
  }

  /** `inverse`: builds the list and lets `_invert` rescale it in place. */
  method Inverse(m: Instance) returns (r: Result<Instance>)
    requires m.cls == Mat2
    ensures r == InverseOf(m)
  {
    var v := m.val;
    var adj := new real[4];
    adj[0], adj[1], adj[2], adj[3] := v[3], -v[2], -v[1], v[0];
    assert adj[..] == AdjugateAsWritten(v);
    r := Invert(Mat2, Det(v), adj);
  }

  /** The evidently intended `inverse`: the adjugate in column-major order, scaled by 1/det. */
  function CorrectedInverse(m: Instance): (r: Result<Instance>)
    requires m.cls == Mat2
    ensures r.Err? <==> Det(m.val) == 0.0
    ensures r.Err? ==> r.error == NotInvertible
    ensures r.Ok? ==> r.value.cls == Mat2 && r.value.val == Scaled(Adjugate(m.val), 1.0 / Det(m.val))
  {
    InvertOf(Mat2, Det(m.val), Adjugate(m.val))
  }

  /** The Mat2 constructor: copy a Mat2, truncate any other matrix, else the Mat constructor. */
  method Construct(args: seq<Arg>) returns (r: Result<Instance>)
    ensures r == NewMatrix(Mat2, args)
  {
    if |args| > 0 && args[0].Obj? && args[0].o.cls == Mat2 {
      ResizeSame(args[0].o.val, 2);
      r := Matrix.Construct(Mat2, Nums(args[0].o.val));
    } else if |args| > 0 && args[0].Obj? && IsMatrix(args[0].o.cls) {
      var val := TruncatedColumns(args[0].o, 2);
      r := Matrix.Construct(Mat2, Nums(val));
    } else {
      r := Matrix.Construct(Mat2, args);
    }
  }

  /** Mat2.identity is [1, 0, 0, 1]. */
  lemma IdentityComponents()
    ensures IdentityOf(Mat2).value.val == [1.0, 0.0, 0.0, 1.0]
  {
    Diagonal2(1.0);
  }

  /** A 2x2 matrix r that agrees with the top-left block of the n x n matrix m. */
  lemma TopLeftBlock(r: seq<real>, m: seq<real>, n: nat)
    requires |r| == 4 && 2 <= n && |m| == n * n
    requires forall row, col :: 0 <= row < 2 && 0 <= col < 2 ==> Get(r, 2, row, col) == Get(m, n, row, col)
    ensures r == [m[0], m[1], m[n], m[n + 1]]
  {
    IndexBound(n, 1, 1);
    assert Get(r, 2, 0, 0) == Get(m, n, 0, 0);
    assert Get(r, 2, 1, 0) == Get(m, n, 1, 0);
    assert Get(r, 2, 0, 1) == Get(m, n, 0, 1);
    assert Get(r, 2, 1, 1) == Get(m, n, 1, 1);
  }

  /** Constructing from a Mat3 or Mat4 keeps the top-left 2x2 block: the first two entries of the first two columns. */
  lemma FromLarger(m: Instance)
    requires m.cls == Mat3 || m.cls == Mat4
    ensures NewMatrix(Mat2, [Obj(m)]).Ok?
    ensures NewMatrix(Mat2, [Obj(m)]).value.val == [m.val[0], m.val[1], m.val[Dim(m.cls)], m.val[Dim(m.cls) + 1]]
  {
    Conversion(Mat2, m, []);
    TopLeftBlock(Resize(m.val, Dim(m.cls), 2), m.val, Dim(m.cls));
  }

  /** Mat2(Mat3(m)) = m and Mat2(Mat4(m)) = m: truncation undoes identity padding. */
  lemma RoundTrip(m: Instance, big: Class)
    requires m.cls == Mat2 && (big == Mat3 || big == Mat4)
    ensures NewMatrix(big, [Obj(m)]).Ok?
    ensures NewMatrix(Mat2, [Obj(NewMatrix(big, [Obj(m)]).value)]) == Ok(m)
  {
    PadThenTruncate(m, big);
  }

  /** The determinant of the product of [a0, a1, a2, a3] and [b0, b1, b2, b3], entries p0..p3, over plain reals. */
  lemma DetProductScalar(a0: real, a1: real, a2: real, a3: real, b0: real, b1: real, b2: real, b3: real,
                         p0: real, p1: real, p2: real, p3: real)
    requires p0 == a0 * b0 + a2 * b1 && p1 == a1 * b0 + a3 * b1
    requires p2 == a0 * b2 + a2 * b3 && p3 == a1 * b2 + a3 * b3
    ensures p0 * p3 - p2 * p1 == (a0 * a3 - a2 * a1) * (b0 * b3 - b2 * b1)
  {
  }

  /** The determinant of the product p of a and b is det(a)·det(b). */
  lemma DetOfProduct(p: seq<real>, a: seq<real>, b: seq<real>)
    requires |a| == 4 && |b| == 4 && ProductEntries(p, a, b, 2)
    ensures Det(p) == Det(a) * Det(b)
  {
    ProductEntry2(p, a, b, 0, 0);
    ProductEntry2(p, a, b, 1, 0);
    ProductEntry2(p, a, b, 0, 1);
    ProductEntry2(p, a, b, 1, 1);
    DetProductScalar(a[0], a[1], a[2], a[3], b[0], b[1], b[2], b[3], p[0], p[1], p[2], p[3]);
  }

  /** det(A·B) = det(A)·det(B). */
  lemma DetMultiplicative(a: seq<real>, b: seq<real>)
    requires |a| == 4 && |b| == 4
    ensures Det(Product(a, b, 2)) == Det(a) * Det(b)
  {
    DetOfProduct(Product(a, b, 2), a, b);
  }

  /** det(A.mul(B)) = det(A)·det(B), on instances. */
  lemma MulDet(a: Instance, b: Instance)
    requires a.cls == Mat2 && b.cls == Mat2
    ensures MulOf(a, Obj(b)).Ok? && Det(MulOf(a, Obj(b)).value.o.val) == Det(a.val) * Det(b.val)
  {
    DetMultiplicative(a.val, b.val);
  }

  /** det(identity) = 1 and det(transpose(M)) = det(M). */
  lemma DetIdentityTranspose(v: seq<real>)
    requires |v| == 4
    ensures Det(Identity(2)) == 1.0
    ensures Det(Transposed(v, 2)) == Det(v)
  {
    Diagonal2(1.0);
    Transposed2(v);
  }

  /** The entries of v·adj and adj·v over plain reals, with [a, c, b, d] = v and adj = [d, −c, −b, a]. */
  lemma AdjugateScalar(a: real, c: real, b: real, d: real)
    ensures a * d + b * -c == a * d - b * c && c * d + d * -c == 0.0
    ensures a * -b + b * a == 0.0 && c * -b + d * a == a * d - b * c
    ensures d * a + -b * c == a * d - b * c && -c * a + a * c == 0.0
    ensures d * b + -b * d == 0.0 && -c * b + a * d == a * d - b * c
  {
  }

  /** v·adj = det·I, written out with [a, c, b, d] = v. */
  lemma AdjugateRight(p: seq<real>, a: real, c: real, b: real, d: real)
    requires ProductEntries(p, [a, c, b, d], [d, -c, -b, a], 2)
    ensures p == [a * d - b * c, 0.0, 0.0, a * d - b * c]
  {
    Product2Of(p, a, c, b, d, d, -c, -b, a);
    AdjugateScalar(a, c, b, d);
    var det := a * d - b * c;
    assert p[0] == det && p[1] == 0.0 && p[2] == 0.0 && p[3] == det;
  }

  /** adj·v = det·I, written out with [a, c, b, d] = v. */
  lemma AdjugateLeft(p: seq<real>, a: real, c: real, b: real, d: real)
    requires ProductEntries(p, [d, -c, -b, a], [a, c, b, d], 2)
    ensures p == [a * d - b * c, 0.0, 0.0, a * d - b * c]
  {
    Product2Of(p, d, -c, -b, a, a, c, b, d);
    AdjugateScalar(a, c, b, d);
    var det := a * d - b * c;
    assert p[0] == det && p[1] == 0.0 && p[2] == 0.0 && p[3] == det;
  }

  /** M·adj = adj·M = det·I for the column-major adjugate. */
  lemma ProductAdjugate(v: seq<real>)
    requires |v| == 4
    ensures Product(v, Adjugate(v), 2) == Diagonal(2, Det(v))
    ensures Product(Adjugate(v), v, 2) == Diagonal(2, Det(v))
  {
    var a, c, b, d := v[0], v[1], v[2], v[3];
    assert v == [a, c, b, d];
    assert Adjugate(v) == [d, -c, -b, a];
    assert Det(v) == a * d - b * c;
    Diagonal2(Det(v));
    AdjugateRight(Product(v, Adjugate(v), 2), a, c, b, d);
    AdjugateLeft(Product(Adjugate(v), v, 2), a, c, b, d);
  }

  /** The corrected inverse is a two-sided inverse whenever det != 0. */
  lemma CorrectedInverseIsInverse(m: Instance)
    requires m.cls == Mat2 && Det(m.val) != 0.0
    ensures CorrectedInverse(m).Ok?
    ensures MulOf(m, Obj(CorrectedInverse(m).value)) == Ok(Value(IdentityOf(Mat2).value))
    ensures MulOf(CorrectedInverse(m).value, Obj(m)) == Ok(Value(IdentityOf(Mat2).value))
  {
    ProductAdjugate(m.val);
    InverseFromAdjugate(m.val, Adjugate(m.val), 2, Det(m.val));
  }

  /** The list `inverse` builds is the transpose of the adjugate, so its result is the transpose of the inverse. */
  lemma InverseIsTransposed(m: Instance)
    requires m.cls == Mat2 && Det(m.val) != 0.0
    ensures InverseOf(m).Ok? && CorrectedInverse(m).Ok?
    ensures InverseOf(m).value.val == Transposed(CorrectedInverse(m).value.val, 2)
  {
    var k := 1.0 / Det(m.val);
    var s, w := Scaled(Adjugate(m.val), k), Scaled(AdjugateAsWritten(m.val), k);
    Transposed2(s);
    assert w[0] == s[0] && w[1] == s[2] && w[2] == s[1] && w[3] == s[3];
    assert w == [s[0], s[2], s[1], s[3]];
  }

  /**
   * The entries of v·[d, −b, −c, a] over plain reals, with [a, c, b, d] = v:
   * they are those of det·I exactly when b = c (and det != 0 is not needed).
   */
  lemma AsWrittenScalar(a: real, c: real, b: real, d: real)
    ensures (a * d + b * -b == a * d - b * c && c * d + d * -b == 0.0 &&
             a * -c + b * a == 0.0 && c * -c + d * a == a * d - b * c)
        <==> b == c
  {
    if a * d + b * -b == a * d - b * c && c * -c + d * a == a * d - b * c {
      assert (b - c) * (b - c) == b * b - b * c - (b * c - c * c);
      assert (b - c) * (b - c) == 0.0;
    }
  }

  /** x/det is 1 exactly when x = det, and 0 exactly when x = 0. */
  lemma ScaledUnit(x: real, det: real)
    requires det != 0.0
    ensures x * (1.0 / det) == 1.0 <==> x == det
    ensures x * (1.0 / det) == 0.0 <==> x == 0.0
  {
    if x * (1.0 / det) == 1.0 {
      assert x == x * (1.0 / det) * det;
    }
  }

  /** A 2x2 matrix divided by det is the identity exactly when it is det·I. */
  lemma ScaledIsIdentity(p: seq<real>, det: real)
    requires |p| == 4 && det != 0.0
    ensures Scaled(p, 1.0 / det) == [1.0, 0.0, 0.0, 1.0] <==> p == [det, 0.0, 0.0, det]
  {
    var q := Scaled(p, 1.0 / det);
    ScaledUnit(p[0], det);
    ScaledUnit(p[1], det);
    ScaledUnit(p[2], det);
    ScaledUnit(p[3], det);
    assert q == [1.0, 0.0, 0.0, 1.0] <==> q[0] == 1.0 && q[1] == 0.0 && q[2] == 0.0 && q[3] == 1.0;
    assert p == [det, 0.0, 0.0, det] <==> p[0] == det && p[1] == 0.0 && p[2] == 0.0 && p[3] == det;
  }

  /** The product p of [a, c, b, d] and [d, −b, −c, a] is det·I exactly when b = c. */
  lemma AsWrittenOf(p: seq<real>, a: real, c: real, b: real, d: real)
    requires ProductEntries(p, [a, c, b, d], [d, -b, -c, a], 2)
    ensures p == [a * d - b * c, 0.0, 0.0, a * d - b * c] <==> b == c
  {
    Product2Of(p, a, c, b, d, d, -b, -c, a);
    assert p[0] == a * d + b * -b && p[1] == c * d + d * -b && p[2] == a * -c + b * a && p[3] == c * -c + d * a;
    AsWrittenScalar(a, c, b, d);
    var det := a * d - b * c;
    assert p == [det, 0.0, 0.0, det] <==> p[0] == det && p[1] == 0.0 && p[2] == 0.0 && p[3] == det;
  }

  /** v·[d, −b, −c, a] is det·I exactly when b = c. */
  lemma AsWrittenProduct(v: seq<real>)
    requires |v| == 4
    ensures Product(v, AdjugateAsWritten(v), 2) == [Det(v), 0.0, 0.0, Det(v)] <==> v[1] == v[2]
  {
    var a, c, b, d := v[0], v[1], v[2], v[3];
    assert AdjugateAsWritten(v) == [d, -b, -c, a];
    assert v == [a, c, b, d];
    assert Det(v) == a * d - b * c;
    AsWrittenOf(Product(v, AdjugateAsWritten(v), 2), a, c, b, d);
  }

  /**
   * The product `m.mul(m.inverse())` is the identity exactly when val[1] = val[2]
   * (the matrix is symmetric), for every invertible m.
   */
  lemma InverseAsWrittenIff(m: Instance)
    requires m.cls == Mat2 && Det(m.val) != 0.0
    ensures InverseOf(m).Ok?
    ensures MulOf(m, Obj(InverseOf(m).value)) == Ok(Value(IdentityOf(Mat2).value)) <==> m.val[1] == m.val[2]
  {
    var v, det := m.val, Det(m.val);
    var adj := AdjugateAsWritten(v);
    ProductScaledRight(v, adj, 2, 1.0 / det);
    IdentityComponents();
    ScaledIsIdentity(Product(v, adj, 2), det);
    AsWrittenProduct(v);
  }

  /** m = (1, 1, 0, 1), the lower triangular matrix with rows (1, 0) and (1, 1): `inverse` gives (1, 0, −1, 1), which is not its inverse. */
  lemma InverseCounterexample()
    ensures var m: Instance := MatObj(Mat2, [1.0, 1.0, 0.0, 1.0]);
      InverseOf(m).Ok? && InverseOf(m).value.val == [1.0, 0.0, -1.0, 1.0] &&
      MulOf(m, Obj(InverseOf(m).value)) != Ok(Value(IdentityOf(Mat2).value))
  {
    var m: Instance := MatObj(Mat2, [1.0, 1.0, 0.0, 1.0]);
    assert Scaled(AdjugateAsWritten(m.val), 1.0) == [1.0, -0.0, -1.0, 1.0];
    InverseAsWrittenIff(m);
  }

  /** For a symmetric example, (2, 0, 0, 2), `inverse` gives (0.5, 0, 0, 0.5). */
  lemma InverseExample()
    ensures var m: Instance := MatObj(Mat2, [2.0, 0.0, 0.0, 2.0]);
      InverseOf(m).Ok? && InverseOf(m).value.val == [0.5, 0.0, 0.0, 0.5]
  {
    var m: Instance := MatObj(Mat2, [2.0, 0.0, 0.0, 2.0]);
    assert Det(m.val) == 4.0;
    assert Scaled(AdjugateAsWritten(m.val), 0.25) == [0.5, 0.0, 0.0, 0.5];
  }
}

=== FILE: mat3.dfy ===
/**
 * matrix/Mat3.js: the 3x3 matrix. `det` is the cofactor expansion along the
 * first row, `invert` lists the nine entries of the adjugate in column-major
 * order (caching det as the same expansion written with them) and hands
 * them to `_invert`. The constructor copies a Mat3, keeps the top-left 3x3
 * block of a Mat4 and embeds a Mat2 top-left in the identity, each through
 * a loop over the columns of the source.
 */
module Matrix3 {
  import opened ColumnMajor
  import opened MatBase
  import opened Matrix
  import opened MatrixAlgebra
  import opened MatrixConversion
  import opened FixedSize

  /** The cofactor expansion of `det` along the first row, for components m0..m8. */
  function Expansion(m0: real, m1: real, m2: real, m3: real, m4: real, m5: real, m6: real, m7: real, m8: real): real
  {
    m0 * (m4 * m8 - m7 * m5) + m3 * (m7 * m2 - m1 * m8) + m6 * (m1 * m5 - m4 * m2)
  }

  /** `det`. */
  function Det(m: seq<real>): (d: real)
    requires |m| == 9
    ensures d == m[0] * Adjugate(m)[0] + m[3] * Adjugate(m)[1] + m[6] * Adjugate(m)[2]
    ensures d == m[0] * Adjugate(m)[0] + m[1] * Adjugate(m)[3] + m[2] * Adjugate(m)[6]
  {
    Expansion(m[0], m[1], m[2], m[3], m[4], m[5], m[6], m[7], m[8])
  }

  /** The list `invert` builds: the adjugate, column by column. */
  function Adjugate(m: seq<real>): (adj: seq<real>)
    requires |m| == 9
    ensures |adj| == 9
    ensures m[1] * adj[0] + m[4] * adj[1] + m[7] * adj[2] == 0.0
    ensures m[2] * adj[0] + m[5] * adj[1] + m[8] * adj[2] == 0.0
  {
    [m[4] * m[8] - m[7] * m[5], m[7] * m[2] - m[1] * m[8], m[1] * m[5] - m[4] * m[2],
     m[6] * m[5] - m[3] * m[8], m[0] * m[8] - m[6] * m[2], m[3] * m[2] - m[0] * m[5],
     m[3] * m[7] - m[6] * m[4], m[6] * m[1] - m[0] * m[7], m[0] * m[4] - m[3] * m[1]]
  }

  /** What `invert` returns. */
  function InverseOf(m: Instance): (r: Result<Instance>)
    requires m.cls == Mat3
    ensures r.Err? <==> Det(m.val) == 0.0
    ensures r.Err? ==> r.error == NotInvertible
    ensures r.Ok? ==> r.value.cls == Mat3 && r.value.val == Scaled(Adjugate(m.val), 1.0 / Det(m.val))
  {
    InvertOf(Mat3, Det(m.val), Adjugate(m.val))
  }

  /** The cached determinant `invert` computes from the first column of the adjugate is `det`. */
  lemma CachedDet(m: seq<real>, a0: real, a1: real, a2: real)
    requires |m| == 9
    requires a0 == m[4] * m[8] - m[7] * m[5]
    requires a1 == m[7] * m[2] - m[1] * m[8]
    requires a2 == m[1] * m[5] - m[4] * m[2]
    ensures m[0] * a0 + m[3] * a1 + m[6] * a2 == Det(m)
  {
    RightColumn0(m[0], m[1], m[2], m[3], m[4], m[5], m[6], m[7], m[8], a0, a1, a2);
  }

  /** The first column of the adjugate, entry by entry. */
  lemma FirstColumn(m: seq<real>)
    requires |m| == 9
    ensures Adjugate(m)[0] == m[4] * m[8] - m[7] * m[5]
    ensures Adjugate(m)[1] == m[7] * m[2] - m[1] * m[8]
    ensures Adjugate(m)[2] == m[1] * m[5] - m[4] * m[2]
  {
  }

  /**
   * `invert`: builds the adjugate in an array, fills the det cache from its
   * first column (when it is empty) and lets `_invert` rescale the array.
   * The cached value is the determinant `det` computes.
   */
  method Invert(m: Instance) returns (r: Result<Instance>, det: real)
    requires m.cls == Mat3
    ensures r == InverseOf(m)
    ensures det == Det(m.val)
  {
    var v := m.val;
    var adj := new real[9](i requires 0 <= i < 9 => Adjugate(v)[i]);
    ghost var a := adj[..];
    assert a == Adjugate(v);
    det := v[0] * adj[0] + v[3] * adj[1] + v[6] * adj[2];
    FirstColumn(v);
    CachedDet(v, a[0], a[1], a[2]);
    assert det == Det(m.val);
    r := Matrix.Invert(Mat3, det, adj);
    assert r == InvertOf(Mat3, det, a);
  }

  /** Column 0 of m·adj over plain reals, x0..x2 being column 0 of the adjugate. */
  lemma RightColumn0(m0: real, m1: real, m2: real, m3: real, m4: real, m5: real, m6: real, m7: real, m8: real, x0: real, x1: real, x2: real)
    requires x0 == m4 * m8 - m7 * m5
    requires x1 == m7 * m2 - m1 * m8
    requires x2 == m1 * m5 - m4 * m2
    ensures m0 * x0 + m3 * x1 + m6 * x2 == Expansion(m0, m1, m2, m3, m4, m5, m6, m7, m8)
    ensures m1 * x0 + m4 * x1 + m7 * x2 == 0.0
    ensures m2 * x0 + m5 * x1 + m8 * x2 == 0.0
  {
  }

  /** Column 1 of m·adj over plain reals, x0..x2 being column 1 of the adjugate. */
  lemma RightColumn1(m0: real, m1: real, m2: real, m3: real, m4: real, m5: real, m6: real, m7: real, m8: real, x0: real, x1: real, x2: real)
    requires x0 == m6 * m5 - m3 * m8
    requires x1 == m0 * m8 - m6 * m2
    requires x2 == m3 * m2 - m0 * m5
    ensures m0 * x0 + m3 * x1 + m6 * x2 == 0.0
    ensures m1 * x0 + m4 * x1 + m7 * x2 == Expansion(m0, m1, m2, m3, m4, m5, m6, m7, m8)
    ensures m2 * x0 + m5 * x1 + m8 * x2 == 0.0
  {
  }

  /** Column 2 of m·adj over plain reals, x0..x2 being column 2 of the adjugate. */
  lemma RightColumn2(m0: real, m1: real, m2: real, m3: real, m4: real, m5: real, m6: real, m7: real, m8: real, x0: real, x1: real, x2: real)
    requires x0 == m3 * m7 - m6 * m4
    requires x1 == m6 * m1 - m0 * m7
    requires x2 == m0 * m4 - m3 * m1
    ensures m0 * x0 + m3 * x1 + m6 * x2 == 0.0
    ensures m1 * x0 + m4 * x1 + m7 * x2 == 0.0
    ensures m2 * x0 + m5 * x1 + m8 * x2 == Expansion(m0, m1, m2, m3, m4, m5, m6, m7, m8)
  {
  }

  /** Row 0 of adj·m over plain reals, y0..y2 being row 0 of the adjugate. */
  lemma LeftRow0(m0: real, m1: real, m2: real, m3: real, m4: real, m5: real, m6: real, m7: real, m8: real, y0: real, y1: real, y2: real)
    requires y0 == m4 * m8 - m7 * m5
    requires y1 == m6 * m5 - m3 * m8
    requires y2 == m3 * m7 - m6 * m4
    ensures y0 * m0 + y1 * m1 + y2 * m2 == Expansion(m0, m1, m2, m3, m4, m5, m6, m7, m8)
    ensures y0 * m3 + y1 * m4 + y2 * m5 == 0.0
    ensures y0 * m6 + y1 * m7 + y2 * m8 == 0.0
  {
  }

  /** Row 1 of adj·m over plain reals, y0..y2 being row 1 of the adjugate. */
  lemma LeftRow1(m0: real, m1: real, m2: real, m3: real, m4: real, m5: real, m6: real, m7: real, m8: real, y0: real, y1: real, y2: real)
    requires y0 == m7 * m2 - m1 * m8
    requires y1 == m0 * m8 - m6 * m2
    requires y2 == m6 * m1 - m0 * m7
    ensures y0 * m0 + y1 * m1 + y2 * m2 == 0.0
    ensures y0 * m3 + y1 * m4 + y2 * m5 == Expansion(m0, m1, m2, m3, m4, m5, m6, m7, m8)
    ensures y0 * m6 + y1 * m7 + y2 * m8 == 0.0
  {
  }

  /** Row 2 of adj·m over plain reals, y0..y2 being row 2 of the adjugate. */
  lemma LeftRow2(m0: real, m1: real, m2: real, m3: real, m4: real, m5: real, m6: real, m7: real, m8: real, y0: real, y1: real, y2: real)
    requires y0 == m1 * m5 - m4 * m2
    requires y1 == m3 * m2 - m0 * m5
    requires y2 == m0 * m4 - m3 * m1
    ensures y0 * m0 + y1 * m1 + y2 * m2 == 0.0
    ensures y0 * m3 + y1 * m4 + y2 * m5 == 0.0
    ensures y0 * m6 + y1 * m7 + y2 * m8 == Expansion(m0, m1, m2, m3, m4, m5, m6, m7, m8)
  {
  }

  /** Column 0 of m·adj from its three sums of products. */
  lemma RightColumnEntries0(p: seq<real>, m: seq<real>, a: seq<real>)
    requires |p| == 9 && |m| == 9 && |a| == 9
    requires p[0] == m[0] * a[0] + m[3] * a[1] + m[6] * a[2]
    requires p[1] == m[1] * a[0] + m[4] * a[1] + m[7] * a[2]
    requires p[2] == m[2] * a[0] + m[5] * a[1] + m[8] * a[2]
    requires a[0] == m[4] * m[8] - m[7] * m[5]
    requires a[1] == m[7] * m[2] - m[1] * m[8]
    requires a[2] == m[1] * m[5] - m[4] * m[2]
    ensures p[0] == Det(m)
    ensures p[1] == 0.0
    ensures p[2] == 0.0
  {
    RightColumn0(m[0], m[1], m[2], m[3], m[4], m[5], m[6], m[7], m[8], a[0], a[1], a[2]);
  }

  /** Column 0 of the product p of m and a, when column 0 of a is that of the adjugate. */
  lemma RightColumnOf0(p: seq<real>, m: seq<real>, a: seq<real>)
    requires |m| == 9 && |a| == 9 && ProductEntries(p, m, a, 3)
    requires a[0] == m[4] * m[8] - m[7] * m[5]
    requires a[1] == m[7] * m[2] - m[1] * m[8]
    requires a[2] == m[1] * m[5] - m[4] * m[2]
    ensures p[0] == Det(m)
    ensures p[1] == 0.0
    ensures p[2] == 0.0
  {
    ProductColumn3(p, m, a, 0);
    RightColumnEntries0(p, m, a);
  }

  /** Column 1 of m·adj from its three sums of products. */
  lemma RightColumnEntries1(p: seq<real>, m: seq<real>, a: seq<real>)
    requires |p| == 9 && |m| == 9 && |a| == 9
    requires p[3] == m[0] * a[3] + m[3] * a[4] + m[6] * a[5]
    requires p[4] == m[1] * a[3] + m[4] * a[4] + m[7] * a[5]
    requires p[5] == m[2] * a[3] + m[5] * a[4] + m[8] * a[5]
    requires a[3] == m[6] * m[5] - m[3] * m[8]
    requires a[4] == m[0] * m[8] - m[6] * m[2]
    requires a[5] == m[3] * m[2] - m[0] * m[5]
    ensures p[3] == 0.0
    ensures p[4] == Det(m)
    ensures p[5] == 0.0
  {
    RightColumn1(m[0], m[1], m[2], m[3], m[4], m[5], m[6], m[7], m[8], a[3], a[4], a[5]);
  }

  /** Column 1 of the product p of m and a, when column 1 of a is that of the adjugate. */
  lemma RightColumnOf1(p: seq<real>, m: seq<real>, a: seq<real>)
    requires |m| == 9 && |a| == 9 && ProductEntries(p, m, a, 3)
    requires a[3] == m[6] * m[5] - m[3] * m[8]
    requires a[4] == m[0] * m[8] - m[6] * m[2]
    requires a[5] == m[3] * m[2] - m[0] * m[5]
    ensures p[3] == 0.0
    ensures p[4] == Det(m)
    ensures p[5] == 0.0
  {
    ProductColumn3(p, m, a, 1);
    RightColumnEntries1(p, m, a);
  }

  /** Column 2 of m·adj from its three sums of products. */
  lemma RightColumnEntries2(p: seq<real>, m: seq<real>, a: seq<real>)
    requires |p| == 9 && |m| == 9 && |a| == 9
    requires p[6] == m[0] * a[6] + m[3] * a[7] + m[6] * a[8]
    requires p[7] == m[1] * a[6] + m[4] * a[7] + m[7] * a[8]
    requires p[8] == m[2] * a[6] + m[5] * a[7] + m[8] * a[8]
    requires a[6] == m[3] * m[7] - m[6] * m[4]
    requires a[7] == m[6] * m[1] - m[0] * m[7]
    requires a[8] == m[0] * m[4] - m[3] * m[1]
    ensures p[6] == 0.0
    ensures p[7] == 0.0
    ensures p[8] == Det(m)
  {
    RightColumn2(m[0], m[1], m[2], m[3], m[4], m[5], m[6], m[7], m[8], a[6], a[7], a[8]);
  }

  /** Column 2 of the product p of m and a, when column 2 of a is that of the adjugate. */
  lemma RightColumnOf2(p: seq<real>, m: seq<real>, a: seq<real>)
    requires |m| == 9 && |a| == 9 && ProductEntries(p, m, a, 3)
    requires a[6] == m[3] * m[7] - m[6] * m[4]
    requires a[7] == m[6] * m[1] - m[0] * m[7]
    requires a[8] == m[0] * m[4] - m[3] * m[1]
    ensures p[6] == 0.0
    ensures p[7] == 0.0
    ensures p[8] == Det(m)
  {
    ProductColumn3(p, m, a, 2);
    RightColumnEntries2(p, m, a);
  }

  /** Row 0 of adj·m from its three sums of products. */
  lemma LeftRowEntries0(p: seq<real>, m: seq<real>, a: seq<real>)
    requires |p| == 9 && |m| == 9 && |a| == 9
    requires p[0] == a[0] * m[0] + a[3] * m[1] + a[6] * m[2]
    requires p[3] == a[0] * m[3] + a[3] * m[4] + a[6] * m[5]
    requires p[6] == a[0] * m[6] + a[3] * m[7] + a[6] * m[8]
    requires a[0] == m[4] * m[8] - m[7] * m[5]
    requires a[3] == m[6] * m[5] - m[3] * m[8]
    requires a[6] == m[3] * m[7] - m[6] * m[4]
    ensures p[0] == Det(m)
    ensures p[3] == 0.0
    ensures p[6] == 0.0
  {
    LeftRow0(m[0], m[1], m[2], m[3], m[4], m[5], m[6], m[7], m[8], a[0], a[3], a[6]);
  }

  /** Row 0 of the product p of a and m, when row 0 of a is that of the adjugate. */
  lemma LeftRowOf0(p: seq<real>, m: seq<real>, a: seq<real>)
    requires |m| == 9 && |a| == 9 && ProductEntries(p, a, m, 3)
    requires a[0] == m[4] * m[8] - m[7] * m[5]
    requires a[3] == m[6] * m[5] - m[3] * m[8]
    requires a[6] == m[3] * m[7] - m[6] * m[4]
    ensures p[0] == Det(m)
    ensures p[3] == 0.0
    ensures p[6] == 0.0
  {
    ProductRow3(p, a, m, 0);
    LeftRowEntries0(p, m, a);
  }

  /** Row 1 of adj·m from its three sums of products. */
  lemma LeftRowEntries1(p: seq<real>, m: seq<real>, a: seq<real>)
    requires |p| == 9 && |m| == 9 && |a| == 9
    requires p[1] == a[1] * m[0] + a[4] * m[1] + a[7] * m[2]
    requires p[4] == a[1] * m[3] + a[4] * m[4] + a[7] * m[5]
    requires p[7] == a[1] * m[6] + a[4] * m[7] + a[7] * m[8]
    requires a[1] == m[7] * m[2] - m[1] * m[8]
    requires a[4] == m[0] * m[8] - m[6] * m[2]
    requires a[7] == m[6] * m[1] - m[0] * m[7]
    ensures p[1] == 0.0
    ensures p[4] == Det(m)
    ensures p[7] == 0.0
  {
    LeftRow1(m[0], m[1], m[2], m[3], m[4], m[5], m[6], m[7], m[8], a[1], a[4], a[7]);
  }

  /** Row 1 of the product p of a and m, when row 1 of a is that of the adjugate. */
  lemma LeftRowOf1(p: seq<real>, m: seq<real>, a: seq<real>)
    requires |m| == 9 && |a| == 9 && ProductEntries(p, a, m, 3)
    requires a[1] == m[7] * m[2] - m[1] * m[8]
    requires a[4] == m[0] * m[8] - m[6] * m[2]
    requires a[7] == m[6] * m[1] - m[0] * m[7]
    ensures p[1] == 0.0
    ensures p[4] == Det(m)
    ensures p[7] == 0.0
  {
    ProductRow3(p, a, m, 1);
    LeftRowEntries1(p, m, a);
  }

  /** Row 2 of adj·m from its three sums of products. */
  lemma LeftRowEntries2(p: seq<real>, m: seq<real>, a: seq<real>)
    requires |p| == 9 && |m| == 9 && |a| == 9
    requires p[2] == a[2] * m[0] + a[5] * m[1] + a[8] * m[2]
    requires p[5] == a[2] * m[3] + a[5] * m[4] + a[8] * m[5]
    requires p[8] == a[2] * m[6] + a[5] * m[7] + a[8] * m[8]
    requires a[2] == m[1] * m[5] - m[4] * m[2]
    requires a[5] == m[3] * m[2] - m[0] * m[5]
    requires a[8] == m[0] * m[4] - m[3] * m[1]
    ensures p[2] == 0.0
    ensures p[5] == 0.0
    ensures p[8] == Det(m)
  {
    LeftRow2(m[0], m[1], m[2], m[3], m[4], m[5], m[6], m[7], m[8], a[2], a[5], a[8]);
  }

  /** Row 2 of the product p of a and m, when row 2 of a is that of the adjugate. */
  lemma LeftRowOf2(p: seq<real>, m: seq<real>, a: seq<real>)
    requires |m| == 9 && |a| == 9 && ProductEntries(p, a, m, 3)
    requires a[2] == m[1] * m[5] - m[4] * m[2]
    requires a[5] == m[3] * m[2] - m[0] * m[5]
    requires a[8] == m[0] * m[4] - m[3] * m[1]
    ensures p[2] == 0.0
    ensures p[5] == 0.0
    ensures p[8] == Det(m)
  {
    ProductRow3(p, a, m, 2);
    LeftRowEntries2(p, m, a);
  }

  /** The product p of m and its adjugate is det·I. */
  lemma AdjugateRightOf(p: seq<real>, m: seq<real>)
    requires |m| == 9 && ProductEntries(p, m, Adjugate(m), 3)
    ensures var d := Det(m); p == [d, 0.0, 0.0, 0.0, d, 0.0, 0.0, 0.0, d]
  {
    var a, d := Adjugate(m), Det(m);
    RightColumnOf0(p, m, a);
    RightColumnOf1(p, m, a);
    RightColumnOf2(p, m, a);
    assert p[0] == d && p[1] == 0.0 && p[2] == 0.0;
    assert p[3] == 0.0 && p[4] == d && p[5] == 0.0;
    assert p[6] == 0.0 && p[7] == 0.0 && p[8] == d;
  }

  /** The product p of the adjugate of m and m is det·I. */
  lemma AdjugateLeftOf(p: seq<real>, m: seq<real>)
    requires |m| == 9 && ProductEntries(p, Adjugate(m), m, 3)
    ensures var d := Det(m); p == [d, 0.0, 0.0, 0.0, d, 0.0, 0.0, 0.0, d]
  {
    var a, d := Adjugate(m), Det(m);
    LeftRowOf0(p, m, a);
    LeftRowOf1(p, m, a);
    LeftRowOf2(p, m, a);
    assert p[0] == d && p[1] == 0.0 && p[2] == 0.0;
    assert p[3] == 0.0 && p[4] == d && p[5] == 0.0;
    assert p[6] == 0.0 && p[7] == 0.0 && p[8] == d;
  }

  /** M·adj = adj·M = det·I. */
  lemma ProductAdjugate(m: seq<real>)
    requires |m| == 9
    ensures Product(m, Adjugate(m), 3) == Diagonal(3, Det(m))
    ensures Product(Adjugate(m), m, 3) == Diagonal(3, Det(m))
  {
    Diagonal3(Det(m));
    AdjugateRightOf(Product(m, Adjugate(m), 3), m);
    AdjugateLeftOf(Product(Adjugate(m), m, 3), m);
  }

  /** `invert` gives a two-sided inverse whenever det != 0. */
  lemma InverseIsInverse(m: Instance)
    requires m.cls == Mat3 && Det(m.val) != 0.0
    ensures InverseOf(m).Ok?
    ensures MulOf(m, Obj(InverseOf(m).value)) == Ok(Value(IdentityOf(Mat3).value))
    ensures MulOf(InverseOf(m).value, Obj(m)) == Ok(Value(IdentityOf(Mat3).value))
  {
    ProductAdjugate(m.val);
    InverseFromAdjugate(m.val, Adjugate(m.val), 3, Det(m.val));
  }

  /** The expansion is unchanged by transposition, over plain reals. */
  lemma ExpansionTranspose(m0: real, m1: real, m2: real, m3: real, m4: real, m5: real, m6: real, m7: real, m8: real)
    ensures Expansion(m0, m3, m6, m1, m4, m7, m2, m5, m8) == Expansion(m0, m1, m2, m3, m4, m5, m6, m7, m8)
  {
  }

  /** det(transpose(M)) = det(M). */
  lemma DetTranspose(m: seq<real>)
    requires |m| == 9
    ensures Det(Transposed(m, 3)) == Det(m)
  {
    Transposed3(m);
    ExpansionTranspose(m[0], m[1], m[2], m[3], m[4], m[5], m[6], m[7], m[8]);
  }

  /** det(identity) = 1. */
  lemma DetIdentity()
    ensures Det(Identity(3)) == 1.0
  {
    Diagonal3(1.0);
  }

  /**
   * The constructor: a Mat3 is copied, a Mat4 loses its last row and column
   * (first three entries of each of its first three columns), a Mat2 is
   * padded column by column with a 0 and followed by the identity's last
   * column (0, 0, 1); other arguments go to the Mat constructor.
   */
  method Construct(args: seq<Arg>) returns (r: Result<Instance>)
    ensures r == NewMatrix(Mat3, args)
  {
    if |args| > 0 && args[0].Obj? && args[0].o.cls == Mat3 {
      ResizeSame(args[0].o.val, 3);
      r := Matrix.Construct(Mat3, Nums(args[0].o.val));
    } else if |args| > 0 && args[0].Obj? && args[0].o.cls == Mat4 {
      var val := TruncatedColumns(args[0].o, 3);
      r := Matrix.Construct(Mat3, Nums(val));
    } else if |args| > 0 && args[0].Obj? && args[0].o.cls == Mat2 {
      var src := args[0].o;
      var val := PaddedColumns(src, 3);
      ghost var full := Resize(src.val, 2, 3);
      PaddedRest(src.val, 2, 3);
      Diagonal3(1.0);
      assert full[6..] == [0.0, 0.0, 1.0];
      assert full == full[..6] + full[6..];
      r := Matrix.Construct(Mat3, Nums(val + [0.0, 0.0, 1.0]));
    } else {
      r := Matrix.Construct(Mat3, args);
    }
  }

  /** A 3x3 matrix r that agrees with the top-left block of the 4x4 matrix m. */
  lemma TopLeftBlock(r: seq<real>, m: seq<real>)
    requires |r| == 9 && |m| == 16
    requires forall row, col :: 0 <= row < 3 && 0 <= col < 3 ==> Get(r, 3, row, col) == Get(m, 4, row, col)
    ensures r == [m[0], m[1], m[2], m[4], m[5], m[6], m[8], m[9], m[10]]
  {
    assert Get(r, 3, 0, 0) == Get(m, 4, 0, 0) && Get(r, 3, 1, 0) == Get(m, 4, 1, 0) && Get(r, 3, 2, 0) == Get(m, 4, 2, 0);
    assert Get(r, 3, 0, 1) == Get(m, 4, 0, 1) && Get(r, 3, 1, 1) == Get(m, 4, 1, 1) && Get(r, 3, 2, 1) == Get(m, 4, 2, 1);
    assert Get(r, 3, 0, 2) == Get(m, 4, 0, 2) && Get(r, 3, 1, 2) == Get(m, 4, 1, 2) && Get(r, 3, 2, 2) == Get(m, 4, 2, 2);
  }

  /** Constructing from a Mat4 keeps its top-left 3x3 block. */
  lemma FromMat4(m: Instance)
    requires m.cls == Mat4
    ensures NewMatrix(Mat3, [Obj(m)]).Ok?
    ensures NewMatrix(Mat3, [Obj(m)]).value.val == [m.val[0], m.val[1], m.val[2], m.val[4], m.val[5], m.val[6], m.val[8], m.val[9], m.val[10]]
  {
    Conversion(Mat3, m, []);
    TopLeftBlock(Resize(m.val, 4, 3), m.val);
  }

  /** A 3x3 matrix r holding the 2x2 matrix m top-left and the identity elsewhere. */
  lemma Embedded(r: seq<real>, m: seq<real>)
    requires |r| == 9 && |m| == 4
    requires forall row, col :: 0 <= row < 3 && 0 <= col < 3 ==>
      Get(r, 3, row, col) == if row < 2 && col < 2 then Get(m, 2, row, col) else if row == col then 1.0 else 0.0
    ensures r == [m[0], m[1], 0.0, m[2], m[3], 0.0, 0.0, 0.0, 1.0]
  {
    assert Get(r, 3, 0, 0) == Get(m, 2, 0, 0) && Get(r, 3, 1, 0) == Get(m, 2, 1, 0) && Get(r, 3, 2, 0) == 0.0;
    assert Get(r, 3, 0, 1) == Get(m, 2, 0, 1) && Get(r, 3, 1, 1) == Get(m, 2, 1, 1) && Get(r, 3, 2, 1) == 0.0;
    assert Get(r, 3, 0, 2) == 0.0 && Get(r, 3, 1, 2) == 0.0 && Get(r, 3, 2, 2) == 1.0;
  }

  /** Constructing from a Mat2 embeds it top-left; the third row and column are (0, 0, 1). */
  lemma FromMat2(m: Instance)
    requires m.cls == Mat2
    ensures NewMatrix(Mat3, [Obj(m)]).Ok?
    ensures NewMatrix(Mat3, [Obj(m)]).value.val == [m.val[0], m.val[1], 0.0, m.val[2], m.val[3], 0.0, 0.0, 0.0, 1.0]
  {
    Conversion(Mat3, m, []);
    Embedded(Resize(m.val, 2, 3), m.val);
  }

  /** Mat3(Mat2.identity) = Mat3.identity. */
  lemma IdentityFromMat2()
    ensures NewMatrix(Mat3, [Obj(IdentityOf(Mat2).value)]) == IdentityOf(Mat3)
  {
    Conversion(Mat3, IdentityOf(Mat2).value, []);
    ResizeIdentity(2, 3);
  }

  /** Mat3(Mat4(m)) = m: truncation undoes identity padding. */
  lemma RoundTrip(m: Instance)
    requires m.cls == Mat3
    ensures NewMatrix(Mat4, [Obj(m)]).Ok?
    ensures NewMatrix(Mat3, [Obj(NewMatrix(Mat4, [Obj(m)]).value)]) == Ok(m)
  {
    PadThenTruncate(m, Mat4);
  }
}

=== FILE: mat4.dfy ===
/**
 * matrix/Mat4.js: the 4x4 matrix. `det` is the Laplace expansion along the
 * first row written out over sixteen components, `adjugate` lists the
 * sixteen cofactors in column-major order (caching det from the first
 * four) and wraps them in a new Mat4; there is no inverse. The constructor
 * pads a Mat3 or a Mat2 into the identity (`_valFromMat3`, `_valFromMat2`),
 * and the static builders write out translation, scale, rotation, shear,
 * orthographic and perspective matrices.
 *
 * `col` and `_valFromMat3`/`_valFromMat2` call `arrayCol`, which is `_col`
 * here. The rotation builders take the cosine and sine of the angle rather
 * than the angle (see `Angle`).
 */
module Matrix4 {
  import opened ColumnMajor
  import opened MatBase
  import opened Matrix
  import opened MatrixAlgebra
  import opened MatrixConversion
  import opened FixedSize
  import Matrix3

  /** The expansion of `det` along the first row, for components m0..m15. */
  function Expansion(m0: real, m1: real, m2: real, m3: real, m4: real, m5: real, m6: real, m7: real, m8: real, m9: real, m10: real, m11: real, m12: real, m13: real, m14: real, m15: real): real
  {
    m0 * (m5 * m10 * m15 - m5 * m14 * m11 - m6 * m9 * m15 + m6 * m13 * m11
         + m7 * m9 * m14 - m7 * m13 * m10) +
    m4 * (- m1 * m10 * m15 + m1 * m14 * m11 + m2 * m9 * m15 - m2 * m13 * m11
         - m3 * m9 * m14 + m3 * m13 * m10) +
    m8 * (m1 * m6 * m15 - m1 * m14 * m7 - m2 * m5 * m15 + m2 * m13 * m7
         + m3 * m5 * m14 - m3 * m13 * m6) +
    m12 * (- m1 * m6 * m11 + m1 * m10 * m7 + m2 * m5 * m11 - m2 * m9 * m7
         - m3 * m5 * m10 + m3 * m9 * m6)
  }

  /** The minor of entry (0, k): rows 1 to 3 without column k, column-major. */
  function Minor0(m: seq<real>, k: int): (r: seq<real>)
    requires |m| == 16 && 0 <= k < 4
    ensures |r| == 9
  {
    if k == 0 then [m[5], m[6], m[7], m[9], m[10], m[11], m[13], m[14], m[15]]
    else if k == 1 then [m[1], m[2], m[3], m[9], m[10], m[11], m[13], m[14], m[15]]
    else if k == 2 then [m[1], m[2], m[3], m[5], m[6], m[7], m[13], m[14], m[15]]
    else [m[1], m[2], m[3], m[5], m[6], m[7], m[9], m[10], m[11]]
  }

  /** Each cofactor of row 0, as written in the adjugate, is the signed determinant of its minor, over plain reals. */
  lemma MinorCofactors(m0: real, m1: real, m2: real, m3: real, m4: real, m5: real, m6: real, m7: real,
                       m8: real, m9: real, m10: real, m11: real, m12: real, m13: real, m14: real, m15: real)
    ensures Matrix3.Expansion(m5, m6, m7, m9, m10, m11, m13, m14, m15)
         == m5 * m10 * m15 - m5 * m14 * m11 - m6 * m9 * m15 + m6 * m13 * m11 + m7 * m9 * m14 - m7 * m13 * m10
    ensures -Matrix3.Expansion(m1, m2, m3, m9, m10, m11, m13, m14, m15)
         == - m1 * m10 * m15 + m1 * m14 * m11 + m2 * m9 * m15 - m2 * m13 * m11 - m3 * m9 * m14 + m3 * m13 * m10
    ensures Matrix3.Expansion(m1, m2, m3, m5, m6, m7, m13, m14, m15)
         == m1 * m6 * m15 - m1 * m14 * m7 - m2 * m5 * m15 + m2 * m13 * m7 + m3 * m5 * m14 - m3 * m13 * m6
    ensures -Matrix3.Expansion(m1, m2, m3, m5, m6, m7, m9, m10, m11)
         == - m1 * m6 * m11 + m1 * m10 * m7 + m2 * m5 * m11 - m2 * m9 * m7 - m3 * m5 * m10 + m3 * m9 * m6
  {
  }

  /** The expansion along row 0 with the four minors' determinants d0 .. d3, over plain reals. */
  lemma RowLaplace(m0: real, m1: real, m2: real, m3: real, m4: real, m5: real, m6: real, m7: real,
                   m8: real, m9: real, m10: real, m11: real, m12: real, m13: real, m14: real, m15: real,
                   d0: real, d1: real, d2: real, d3: real)
    requires d0 == Matrix3.Expansion(m5, m6, m7, m9, m10, m11, m13, m14, m15)
    requires d1 == Matrix3.Expansion(m1, m2, m3, m9, m10, m11, m13, m14, m15)
    requires d2 == Matrix3.Expansion(m1, m2, m3, m5, m6, m7, m13, m14, m15)
    requires d3 == Matrix3.Expansion(m1, m2, m3, m5, m6, m7, m9, m10, m11)
    ensures Expansion(m0, m1, m2, m3, m4, m5, m6, m7, m8, m9, m10, m11, m12, m13, m14, m15)
         == m0 * d0 - m4 * d1 + m8 * d2 - m12 * d3
  {
    MinorCofactors(m0, m1, m2, m3, m4, m5, m6, m7, m8, m9, m10, m11, m12, m13, m14, m15);
    RightCell00(m0, m1, m2, m3, m4, m5, m6, m7, m8, m9, m10, m11, m12, m13, m14, m15, d0, -d1, d2, -d3);
  }

  /** `det`. */
  function Det(m: seq<real>): real
    requires |m| == 16
  {
    Expansion(m[0], m[1], m[2], m[3], m[4], m[5], m[6], m[7], m[8], m[9], m[10], m[11], m[12], m[13], m[14], m[15])
  }

  /** `det` is the Laplace expansion along row 0: each entry times the determinant of its minor, with alternating signs. */
  lemma Laplace(m: seq<real>)
    requires |m| == 16
    ensures Det(m) == m[0] * Matrix3.Det(Minor0(m, 0)) - m[4] * Matrix3.Det(Minor0(m, 1))
                    + m[8] * Matrix3.Det(Minor0(m, 2)) - m[12] * Matrix3.Det(Minor0(m, 3))
  {
    var d0, d1, d2, d3 := Matrix3.Det(Minor0(m, 0)), Matrix3.Det(Minor0(m, 1)), Matrix3.Det(Minor0(m, 2)), Matrix3.Det(Minor0(m, 3));
    RowLaplace(m[0], m[1], m[2], m[3], m[4], m[5], m[6], m[7], m[8], m[9], m[10], m[11], m[12], m[13], m[14], m[15], d0, d1, d2, d3);
  }

  /** The list `adjugate` builds: the sixteen cofactors, column by column. */
  function Adjugate(m: seq<real>): (adj: seq<real>)
    requires |m| == 16
    ensures |adj| == 16
    ensures adj[0] == Matrix3.Det(Minor0(m, 0)) && adj[1] == -Matrix3.Det(Minor0(m, 1))
    ensures adj[2] == Matrix3.Det(Minor0(m, 2)) && adj[3] == -Matrix3.Det(Minor0(m, 3))
  {
    MinorCofactors(m[0], m[1], m[2], m[3], m[4], m[5], m[6], m[7], m[8], m[9], m[10], m[11], m[12], m[13], m[14], m[15]);
    [m[5] * m[10] * m[15] - m[5] * m[14] * m[11] - m[6] * m[9] * m[15]
       + m[6] * m[13] * m[11] + m[7] * m[9] * m[14] - m[7] * m[13] * m[10],
     - m[1] * m[10] * m[15] + m[1] * m[14] * m[11] + m[2] * m[9] * m[15]
       - m[2] * m[13] * m[11] - m[3] * m[9] * m[14] + m[3] * m[13] * m[10],
     m[1] * m[6] * m[15] - m[1] * m[14] * m[7] - m[2] * m[5] * m[15]
       + m[2] * m[13] * m[7] + m[3] * m[5] * m[14] - m[3] * m[13] * m[6],
     - m[1] * m[6] * m[11] + m[1] * m[10] * m[7] + m[2] * m[5] * m[11]
       - m[2] * m[9] * m[7] - m[3] * m[5] * m[10] + m[3] * m[9] * m[6],
     - m[4] * m[10] * m[15] + m[4] * m[14] * m[11] + m[6] * m[8] * m[15]
       - m[6] * m[12] * m[11] - m[7] * m[8] * m[14] + m[7] * m[12] * m[10],
     m[0] * m[10] * m[15] - m[0] * m[14] * m[11] - m[2] * m[8] * m[15]
       + m[2] * m[12] * m[11] + m[3] * m[8] * m[14] - m[3] * m[12] * m[10],
     - m[0] * m[6] * m[15] + m[0] * m[14] * m[7] + m[2] * m[4] * m[15]
       - m[2] * m[12] * m[7] - m[3] * m[4] * m[14] + m[3] * m[12] * m[6],
     m[0] * m[6] * m[11] - m[0] * m[10] * m[7] - m[2] * m[4] * m[11]
       + m[2] * m[8] * m[7] + m[3] * m[4] * m[10] - m[3] * m[8] * m[6],
     m[4] * m[9] * m[15] - m[4] * m[13] * m[11] - m[5] * m[8] * m[15]
       + m[5] * m[12] * m[11] + m[7] * m[8] * m[13] - m[7] * m[12] * m[9],
     - m[0] * m[9] * m[15] + m[0] * m[13] * m[11] + m[1] * m[8] * m[15]
       - m[1] * m[12] * m[11] - m[3] * m[8] * m[13] + m[3] * m[12] * m[9],
     m[0] * m[5] * m[15] - m[0] * m[13] * m[7] - m[1] * m[4] * m[15]
       + m[1] * m[12] * m[7] + m[3] * m[4] * m[13] - m[3] * m[12] * m[5],
     - m[0] * m[5] * m[11] + m[0] * m[9] * m[7] + m[1] * m[4] * m[11]
       - m[1] * m[8] * m[7] - m[3] * m[4] * m[9] + m[3] * m[8] * m[5],
     - m[4] * m[9] * m[14] + m[4] * m[13] * m[10] + m[5] * m[8] * m[14]
       - m[5] * m[12] * m[10] - m[6] * m[8] * m[13] + m[6] * m[12] * m[9],
     m[0] * m[9] * m[14] - m[0] * m[13] * m[10] - m[1] * m[8] * m[14]
       + m[1] * m[12] * m[10] + m[2] * m[8] * m[13] - m[2] * m[12] * m[9],
     - m[0] * m[5] * m[14] + m[0] * m[13] * m[6] + m[1] * m[4] * m[14]
       - m[1] * m[12] * m[6] - m[2] * m[4] * m[13] + m[2] * m[12] * m[5],
     m[0] * m[5] * m[10] - m[0] * m[9] * m[6] - m[1] * m[4] * m[10]
       + m[1] * m[8] * m[6] + m[2] * m[4] * m[9] - m[2] * m[8] * m[5]]
  }

  /** `adjugate()`: `new this.constructor(adj)`, a Mat4 built from the array of cofactors. */
  function AdjugateOf(m: Instance): (r: Result<Instance>)
    requires m.cls == Mat4
    ensures r.Ok? && r.value.cls == Mat4 && r.value.val == Adjugate(m.val)
  {
    FlattenArrayFirst(Nums(Adjugate(m.val)), []);
    FlatMapNums(Adjugate(m.val));
    NewMatrix(Mat4, [Arr(Nums(Adjugate(m.val)))])
  }

  /** a0..a3 are the cofactors of row 0 of m, as `adjugate` writes them in its first column. */
  predicate FirstCofactors(m: seq<real>, a0: real, a1: real, a2: real, a3: real)
    requires |m| == 16
  {
    a0 == m[5] * m[10] * m[15] - m[5] * m[14] * m[11] - m[6] * m[9] * m[15] + m[6] * m[13] * m[11] + m[7] * m[9] * m[14] - m[7] * m[13] * m[10] &&
    a1 == - m[1] * m[10] * m[15] + m[1] * m[14] * m[11] + m[2] * m[9] * m[15] - m[2] * m[13] * m[11] - m[3] * m[9] * m[14] + m[3] * m[13] * m[10] &&
    a2 == m[1] * m[6] * m[15] - m[1] * m[14] * m[7] - m[2] * m[5] * m[15] + m[2] * m[13] * m[7] + m[3] * m[5] * m[14] - m[3] * m[13] * m[6] &&
    a3 == - m[1] * m[6] * m[11] + m[1] * m[10] * m[7] + m[2] * m[5] * m[11] - m[2] * m[9] * m[7] - m[3] * m[5] * m[10] + m[3] * m[9] * m[6]
  }

  /** The determinant `adjugate` caches from the first column of the adjugate is `det`. */
  lemma CachedDet(m: seq<real>, a0: real, a1: real, a2: real, a3: real)
    requires |m| == 16
    requires FirstCofactors(m, a0, a1, a2, a3)
    ensures m[0] * a0 + m[4] * a1 + m[8] * a2 + m[12] * a3 == Det(m)
  {
    RightCell00(m[0], m[1], m[2], m[3], m[4], m[5], m[6], m[7], m[8], m[9], m[10], m[11], m[12], m[13], m[14], m[15], a0, a1, a2, a3);
  }

  /** The cached value: m[0]·adj[0] + m[4]·adj[1] + m[8]·adj[2] + m[12]·adj[3] = det. */
  lemma DetFromAdjugate(m: seq<real>)
    requires |m| == 16
    ensures var a := Adjugate(m); m[0] * a[0] + m[4] * a[1] + m[8] * a[2] + m[12] * a[3] == Det(m)
  {
    var a := Adjugate(m);
    Laplace(m);
    SignedTerms(m[0], m[4], m[8], m[12], a[0], a[1], a[2], a[3],
                Matrix3.Det(Minor0(m, 0)), Matrix3.Det(Minor0(m, 1)), Matrix3.Det(Minor0(m, 2)), Matrix3.Det(Minor0(m, 3)));
  }

  /** Terms with alternating signs, written as plain sums of the signed values. */
  lemma SignedTerms(x0: real, x1: real, x2: real, x3: real, a0: real, a1: real, a2: real, a3: real,
                    d0: real, d1: real, d2: real, d3: real)
    requires a0 == d0 && a1 == -d1 && a2 == d2 && a3 == -d3
    ensures x0 * a0 + x1 * a1 + x2 * a2 + x3 * a3 == x0 * d0 - x1 * d1 + x2 * d2 - x3 * d3
  {
  }

  // The 32 lemmas below are the entries of m·adj = det·I and adj·m = det·I over plain reals, one polynomial
  // identity each. RightCell<r><c> is entry (row r, column c) of m·adj, with x0..x3 column c of the adjugate;
  // LeftCell<r><c> is entry (row r, column c) of adj·m, with y0..y3 row r of the adjugate. Each identity is
  // its own lemma so that every proof obligation stays small.

  /** Entry (0, 0) of m·adj over plain reals, x0..x3 being column 0 of the adjugate. */
  lemma RightCell00(m0: real, m1: real, m2: real, m3: real, m4: real, m5: real, m6: real, m7: real, m8: real, m9: real, m10: real, m11: real, m12: real, m13: real, m14: real, m15: real,
                       x0: real, x1: real, x2: real, x3: real)
    requires x0 == m5 * m10 * m15 - m5 * m14 * m11 - m6 * m9 * m15 + m6 * m13 * m11 + m7 * m9 * m14 - m7 * m13 * m10
    requires x1 == - m1 * m10 * m15 + m1 * m14 * m11 + m2 * m9 * m15 - m2 * m13 * m11 - m3 * m9 * m14 + m3 * m13 * m10
    requires x2 == m1 * m6 * m15 - m1 * m14 * m7 - m2 * m5 * m15 + m2 * m13 * m7 + m3 * m5 * m14 - m3 * m13 * m6
    requires x3 == - m1 * m6 * m11 + m1 * m10 * m7 + m2 * m5 * m11 - m2 * m9 * m7 - m3 * m5 * m10 + m3 * m9 * m6
    ensures m0 * x0 + m4 * x1 + m8 * x2 + m12 * x3 == Expansion(m0, m1, m2, m3, m4, m5, m6, m7, m8, m9, m10, m11, m12, m13, m14, m15)
  {
  }

  /** Entry (1, 0) of m·adj over plain reals, x0..x3 being column 0 of the adjugate. */
  lemma RightCell10(m0: real, m1: real, m2: real, m3: real, m4: real, m5: real, m6: real, m7: real, m8: real, m9: real, m10: real, m11: real, m12: real, m13: real, m14: real, m15: real,
                       x0: real, x1: real, x2: real, x3: real)
    requires x0 == m5 * m10 * m15 - m5 * m14 * m11 - m6 * m9 * m15 + m6 * m13 * m11 + m7 * m9 * m14 - m7 * m13 * m10
    requires x1 == - m1 * m10 * m15 + m1 * m14 * m11 + m2 * m9 * m15 - m2 * m13 * m11 - m3 * m9 * m14 + m3 * m13 * m10
    requires x2 == m1 * m6 * m15 - m1 * m14 * m7 - m2 * m5 * m15 + m2 * m13 * m7 + m3 * m5 * m14 - m3 * m13 * m6
    requires x3 == - m1 * m6 * m11 + m1 * m10 * m7 + m2 * m5 * m11 - m2 * m9 * m7 - m3 * m5 * m10 + m3 * m9 * m6
    ensures m1 * x0 + m5 * x1 + m9 * x2 + m13 * x3 == 0.0
  {
  }

  /** Entry (2, 0) of m·adj over plain reals, x0..x3 being column 0 of the adjugate. */
  lemma RightCell20(m0: real, m1: real, m2: real, m3: real, m4: real, m5: real, m6: real, m7: real, m8: real, m9: real, m10: real, m11: real, m12: real, m13: real, m14: real, m15: real,
                       x0: real, x1: real, x2: real, x3: real)
    requires x0 == m5 * m10 * m15 - m5 * m14 * m11 - m6 * m9 * m15 + m6 * m13 * m11 + m7 * m9 * m14 - m7 * m13 * m10
    requires x1 == - m1 * m10 * m15 + m1 * m14 * m11 + m2 * m9 * m15 - m2 * m13 * m11 - m3 * m9 * m14 + m3 * m13 * m10
    requires x2 == m1 * m6 * m15 - m1 * m14 * m7 - m2 * m5 * m15 + m2 * m13 * m7 + m3 * m5 * m14 - m3 * m13 * m6
    requires x3 == - m1 * m6 * m11 + m1 * m10 * m7 + m2 * m5 * m11 - m2 * m9 * m7 - m3 * m5 * m10 + m3 * m9 * m6
    ensures m2 * x0 + m6 * x1 + m10 * x2 + m14 * x3 == 0.0
  {
  }

  /** Entry (3, 0) of m·adj over plain reals, x0..x3 being column 0 of the adjugate. */
  lemma RightCell30(m0: real, m1: real, m2: real, m3: real, m4: real, m5: real, m6: real, m7: real, m8: real, m9: real, m10: real, m11: real, m12: real, m13: real, m14: real, m15: real,
                       x0: real, x1: real, x2: real, x3: real)
    requires x0 == m5 * m10 * m15 - m5 * m14 * m11 - m6 * m9 * m15 + m6 * m13 * m11 + m7 * m9 * m14 - m7 * m13 * m10
    requires x1 == - m1 * m10 * m15 + m1 * m14 * m11 + m2 * m9 * m15 - m2 * m13 * m11 - m3 * m9 * m14 + m3 * m13 * m10
    requires x2 == m1 * m6 * m15 - m1 * m14 * m7 - m2 * m5 * m15 + m2 * m13 * m7 + m3 * m5 * m14 - m3 * m13 * m6
    requires x3 == - m1 * m6 * m11 + m1 * m10 * m7 + m2 * m5 * m11 - m2 * m9 * m7 - m3 * m5 * m10 + m3 * m9 * m6
    ensures m3 * x0 + m7 * x1 + m11 * x2 + m15 * x3 == 0.0
  {
  }

  /** Entry (0, 1) of m·adj over plain reals, x0..x3 being column 1 of the adjugate. */
  lemma RightCell01(m0: real, m1: real, m2: real, m3: real, m4: real, m5: real, m6: real, m7: real, m8: real, m9: real, m10: real, m11: real, m12: real, m13: real, m14: real, m15: real,
                       x0: real, x1: real, x2: real, x3: real)
    requires x0 == - m4 * m10 * m15 + m4 * m14 * m11 + m6 * m8 * m15 - m6 * m12 * m11 - m7 * m8 * m14 + m7 * m12 * m10
    requires x1 == m0 * m10 * m15 - m0 * m14 * m11 - m2 * m8 * m15 + m2 * m12 * m11 + m3 * m8 * m14 - m3 * m12 * m10
    requires x2 == - m0 * m6 * m15 + m0 * m14 * m7 + m2 * m4 * m15 - m2 * m12 * m7 - m3 * m4 * m14 + m3 * m12 * m6
    requires x3 == m0 * m6 * m11 - m0 * m10 * m7 - m2 * m4 * m11 + m2 * m8 * m7 + m3 * m4 * m10 - m3 * m8 * m6
    ensures m0 * x0 + m4 * x1 + m8 * x2 + m12 * x3 == 0.0
  {
  }

  /** Entry (1, 1) of m·adj over plain reals, x0..x3 being column 1 of the adjugate. */
  lemma RightCell11(m0: real, m1: real, m2: real, m3: real, m4: real, m5: real, m6: real, m7: real, m8: real, m9: real, m10: real, m11: real, m12: real, m13: real, m14: real, m15: real,
                       x0: real, x1: real, x2: real, x3: real)
    requires x0 == - m4 * m10 * m15 + m4 * m14 * m11 + m6 * m8 * m15 - m6 * m12 * m11 - m7 * m8 * m14 + m7 * m12 * m10
    requires x1 == m0 * m10 * m15 - m0 * m14 * m11 - m2 * m8 * m15 + m2 * m12 * m11 + m3 * m8 * m14 - m3 * m12 * m10
    requires x2 == - m0 * m6 * m15 + m0 * m14 * m7 + m2 * m4 * m15 - m2 * m12 * m7 - m3 * m4 * m14 + m3 * m12 * m6
    requires x3 == m0 * m6 * m11 - m0 * m10 * m7 - m2 * m4 * m11 + m2 * m8 * m7 + m3 * m4 * m10 - m3 * m8 * m6
    ensures m1 * x0 + m5 * x1 + m9 * x2 + m13 * x3 == Expansion(m0, m1, m2, m3, m4, m5, m6, m7, m8, m9, m10, m11, m12, m13, m14, m15)
  {
  }

  /** Entry (2, 1) of m·adj over plain reals, x0..x3 being column 1 of the adjugate. */
  lemma RightCell21(m0: real, m1: real, m2: real, m3: real, m4: real, m5: real, m6: real, m7: real, m8: real, m9: real, m10: real, m11: real, m12: real, m13: real, m14: real, m15: real,
                       x0: real, x1: real, x2: real, x3: real)
    requires x0 == - m4 * m10 * m15 + m4 * m14 * m11 + m6 * m8 * m15 - m6 * m12 * m11 - m7 * m8 * m14 + m7 * m12 * m10
    requires x1 == m0 * m10 * m15 - m0 * m14 * m11 - m2 * m8 * m15 + m2 * m12 * m11 + m3 * m8 * m14 - m3 * m12 * m10
    requires x2 == - m0 * m6 * m15 + m0 * m14 * m7 + m2 * m4 * m15 - m2 * m12 * m7 - m3 * m4 * m14 + m3 * m12 * m6
    requires x3 == m0 * m6 * m11 - m0 * m10 * m7 - m2 * m4 * m11 + m2 * m8 * m7 + m3 * m4 * m10 - m3 * m8 * m6
    ensures m2 * x0 + m6 * x1 + m10 * x2 + m14 * x3 == 0.0
  {
  }

  /** Entry (3, 1) of m·adj over plain reals, x0..x3 being column 1 of the adjugate. */
  lemma RightCell31(m0: real, m1: real, m2: real, m3: real, m4: real, m5: real, m6: real, m7: real, m8: real, m9: real, m10: real, m11: real, m12: real, m13: real, m14: real, m15: real,
                       x0: real, x1: real, x2: real, x3: real)
    requires x0 == - m4 * m10 * m15 + m4 * m14 * m11 + m6 * m8 * m15 - m6 * m12 * m11 - m7 * m8 * m14 + m7 * m12 * m10
    requires x1 == m0 * m10 * m15 - m0 * m14 * m11 - m2 * m8 * m15 + m2 * m12 * m11 + m3 * m8 * m14 - m3 * m12 * m10
    requires x2 == - m0 * m6 * m15 + m0 * m14 * m7 + m2 * m4 * m15 - m2 * m12 * m7 - m3 * m4 * m14 + m3 * m12 * m6
    requires x3 == m0 * m6 * m11 - m0 * m10 * m7 - m2 * m4 * m11 + m2 * m8 * m7 + m3 * m4 * m10 - m3 * m8 * m6
    ensures m3 * x0 + m7 * x1 + m11 * x2 + m15 * x3 == 0.0
  {
  }

  /** Entry (0, 2) of m·adj over plain reals, x0..x3 being column 2 of the adjugate. */
  lemma RightCell02(m0: real, m1: real, m2: real, m3: real, m4: real, m5: real, m6: real, m7: real, m8: real, m9: real, m10: real, m11: real, m12: real, m13: real, m14: real, m15: real,
                       x0: real, x1: real, x2: real, x3: real)
    requires x0 == m4 * m9 * m15 - m4 * m13 * m11 - m5 * m8 * m15 + m5 * m12 * m11 + m7 * m8 * m13 - m7 * m12 * m9
    requires x1 == - m0 * m9 * m15 + m0 * m13 * m11 + m1 * m8 * m15 - m1 * m12 * m11 - m3 * m8 * m13 + m3 * m12 * m9
    requires x2 == m0 * m5 * m15 - m0 * m13 * m7 - m1 * m4 * m15 + m1 * m12 * m7 + m3 * m4 * m13 - m3 * m12 * m5
    requires x3 == - m0 * m5 * m11 + m0 * m9 * m7 + m1 * m4 * m11 - m1 * m8 * m7 - m3 * m4 * m9 + m3 * m8 * m5
    ensures m0 * x0 + m4 * x1 + m8 * x2 + m12 * x3 == 0.0
  {
  }

  /** Entry (1, 2) of m·adj over plain reals, x0..x3 being column 2 of the adjugate. */
  lemma RightCell12(m0: real, m1: real, m2: real, m3: real, m4: real, m5: real, m6: real, m7: real, m8: real, m9: real, m10: real, m11: real, m12: real, m13: real, m14: real, m15: real,
                       x0: real, x1: real, x2: real, x3: real)
    requires x0 == m4 * m9 * m15 - m4 * m13 * m11 - m5 * m8 * m15 + m5 * m12 * m11 + m7 * m8 * m13 - m7 * m12 * m9
    requires x1 == - m0 * m9 * m15 + m0 * m13 * m11 + m1 * m8 * m15 - m1 * m12 * m11 - m3 * m8 * m13 + m3 * m12 * m9
    requires x2 == m0 * m5 * m15 - m0 * m13 * m7 - m1 * m4 * m15 + m1 * m12 * m7 + m3 * m4 * m13 - m3 * m12 * m5
    requires x3 == - m0 * m5 * m11 + m0 * m9 * m7 + m1 * m4 * m11 - m1 * m8 * m7 - m3 * m4 * m9 + m3 * m8 * m5
    ensures m1 * x0 + m5 * x1 + m9 * x2 + m13 * x3 == 0.0
  {
  }

  /** Entry (2, 2) of m·adj over plain reals, x0..x3 being column 2 of the adjugate. */
  lemma RightCell22(m0: real, m1: real, m2: real, m3: real, m4: real, m5: real, m6: real, m7: real, m8: real, m9: real, m10: real, m11: real, m12: real, m13: real, m14: real, m15: real,
                       x0: real, x1: real, x2: real, x3: real)
    requires x0 == m4 * m9 * m15 - m4 * m13 * m11 - m5 * m8 * m15 + m5 * m12 * m11 + m7 * m8 * m13 - m7 * m12 * m9
    requires x1 == - m0 * m9 * m15 + m0 * m13 * m11 + m1 * m8 * m15 - m1 * m12 * m11 - m3 * m8 * m13 + m3 * m12 * m9
    requires x2 == m0 * m5 * m15 - m0 * m13 * m7 - m1 * m4 * m15 + m1 * m12 * m7 + m3 * m4 * m13 - m3 * m12 * m5
    requires x3 == - m0 * m5 * m11 + m0 * m9 * m7 + m1 * m4 * m11 - m1 * m8 * m7 - m3 * m4 * m9 + m3 * m8 * m5
    ensures m2 * x0 + m6 * x1 + m10 * x2 + m14 * x3 == Expansion(m0, m1, m2, m3, m4, m5, m6, m7, m8, m9, m10, m11, m12, m13, m14, m15)
  {
  }

  /** Entry (3, 2) of m·adj over plain reals, x0..x3 being column 2 of the adjugate. */
  lemma RightCell32(m0: real, m1: real, m2: real, m3: real, m4: real, m5: real, m6: real, m7: real, m8: real, m9: real, m10: real, m11: real, m12: real, m13: real, m14: real, m15: real,
                       x0: real, x1: real, x2: real, x3: real)
    requires x0 == m4 * m9 * m15 - m4 * m13 * m11 - m5 * m8 * m15 + m5 * m12 * m11 + m7 * m8 * m13 - m7 * m12 * m9
    requires x1 == - m0 * m9 * m15 + m0 * m13 * m11 + m1 * m8 * m15 - m1 * m12 * m11 - m3 * m8 * m13 + m3 * m12 * m9
    requires x2 == m0 * m5 * m15 - m0 * m13 * m7 - m1 * m4 * m15 + m1 * m12 * m7 + m3 * m4 * m13 - m3 * m12 * m5
    requires x3 == - m0 * m5 * m11 + m0 * m9 * m7 + m1 * m4 * m11 - m1 * m8 * m7 - m3 * m4 * m9 + m3 * m8 * m5
    ensures m3 * x0 + m7 * x1 + m11 * x2 + m15 * x3 == 0.0
  {
  }

  /** Entry (0, 3) of m·adj over plain reals, x0..x3 being column 3 of the adjugate. */
  lemma RightCell03(m0: real, m1: real, m2: real, m3: real, m4: real, m5: real, m6: real, m7: real, m8: real, m9: real, m10: real, m11: real, m12: real, m13: real, m14: real, m15: real,
                       x0: real, x1: real, x2: real, x3: real)
    requires x0 == - m4 * m9 * m14 + m4 * m13 * m10 + m5 * m8 * m14 - m5 * m12 * m10 - m6 * m8 * m13 + m6 * m12 * m9
    requires x1 == m0 * m9 * m14 - m0 * m13 * m10 - m1 * m8 * m14 + m1 * m12 * m10 + m2 * m8 * m13 - m2 * m12 * m9
    requires x2 == - m0 * m5 * m14 + m0 * m13 * m6 + m1 * m4 * m14 - m1 * m12 * m6 - m2 * m4 * m13 + m2 * m12 * m5
    requires x3 == m0 * m5 * m10 - m0 * m9 * m6 - m1 * m4 * m10 + m1 * m8 * m6 + m2 * m4 * m9 - m2 * m8 * m5
    ensures m0 * x0 + m4 * x1 + m8 * x2 + m12 * x3 == 0.0
  {
  }

  /** Entry (1, 3) of m·adj over plain reals, x0..x3 being column 3 of the adjugate. */
  lemma RightCell13(m0: real, m1: real, m2: real, m3: real, m4: real, m5: real, m6: real, m7: real, m8: real, m9: real, m10: real, m11: real, m12: real, m13: real, m14: real, m15: real,
                       x0: real, x1: real, x2: real, x3: real)
    requires x0 == - m4 * m9 * m14 + m4 * m13 * m10 + m5 * m8 * m14 - m5 * m12 * m10 - m6 * m8 * m13 + m6 * m12 * m9
    requires x1 == m0 * m9 * m14 - m0 * m13 * m10 - m1 * m8 * m14 + m1 * m12 * m10 + m2 * m8 * m13 - m2 * m12 * m9
    requires x2 == - m0 * m5 * m14 + m0 * m13 * m6 + m1 * m4 * m14 - m1 * m12 * m6 - m2 * m4 * m13 + m2 * m12 * m5
    requires x3 == m0 * m5 * m10 - m0 * m9 * m6 - m1 * m4 * m10 + m1 * m8 * m6 + m2 * m4 * m9 - m2 * m8 * m5
    ensures m1 * x0 + m5 * x1 + m9 * x2 + m13 * x3 == 0.0
  {
  }

  /** Entry (2, 3) of m·adj over plain reals, x0..x3 being column 3 of the adjugate. */
  lemma RightCell23(m0: real, m1: real, m2: real, m3: real, m4: real, m5: real, m6: real, m7: real, m8: real, m9: real, m10: real, m11: real, m12: real, m13: real, m14: real, m15: real,
                       x0: real, x1: real, x2: real, x3: real)
    requires x0 == - m4 * m9 * m14 + m4 * m13 * m10 + m5 * m8 * m14 - m5 * m12 * m10 - m6 * m8 * m13 + m6 * m12 * m9
    requires x1 == m0 * m9 * m14 - m0 * m13 * m10 - m1 * m8 * m14 + m1 * m12 * m10 + m2 * m8 * m13 - m2 * m12 * m9
    requires x2 == - m0 * m5 * m14 + m0 * m13 * m6 + m1 * m4 * m14 - m1 * m12 * m6 - m2 * m4 * m13 + m2 * m12 * m5
    requires x3 == m0 * m5 * m10 - m0 * m9 * m6 - m1 * m4 * m10 + m1 * m8 * m6 + m2 * m4 * m9 - m2 * m8 * m5
    ensures m2 * x0 + m6 * x1 + m10 * x2 + m14 * x3 == 0.0
  {
  }

  /** Entry (3, 3) of m·adj over plain reals, x0..x3 being column 3 of the adjugate. */
  lemma RightCell33(m0: real, m1: real, m2: real, m3: real, m4: real, m5: real, m6: real, m7: real, m8: real, m9: real, m10: real, m11: real, m12: real, m13: real, m14: real, m15: real,
                       x0: real, x1: real, x2: real, x3: real)
    requires x0 == - m4 * m9 * m14 + m4 * m13 * m10 + m5 * m8 * m14 - m5 * m12 * m10 - m6 * m8 * m13 + m6 * m12 * m9
    requires x1 == m0 * m9 * m14 - m0 * m13 * m10 - m1 * m8 * m14 + m1 * m12 * m10 + m2 * m8 * m13 - m2 * m12 * m9
    requires x2 == - m0 * m5 * m14 + m0 * m13 * m6 + m1 * m4 * m14 - m1 * m12 * m6 - m2 * m4 * m13 + m2 * m12 * m5
    requires x3 == m0 * m5 * m10 - m0 * m9 * m6 - m1 * m4 * m10 + m1 * m8 * m6 + m2 * m4 * m9 - m2 * m8 * m5
    ensures m3 * x0 + m7 * x1 + m11 * x2 + m15 * x3 == Expansion(m0, m1, m2, m3, m4, m5, m6, m7, m8, m9, m10, m11, m12, m13, m14, m15)
  {
  }

  /** Entry (0, 0) of adj·m over plain reals, y0..y3 being row 0 of the adjugate. */
  lemma LeftCell00(m0: real, m1: real, m2: real, m3: real, m4: real, m5: real, m6: real, m7: real, m8: real, m9: real, m10: real, m11: real, m12: real, m13: real, m14: real, m15: real,
                      y0: real, y1: real, y2: real, y3: real)
    requires y0 == m5 * m10 * m15 - m5 * m14 * m11 - m6 * m9 * m15 + m6 * m13 * m11 + m7 * m9 * m14 - m7 * m13 * m10
    requires y1 == - m4 * m10 * m15 + m4 * m14 * m11 + m6 * m8 * m15 - m6 * m12 * m11 - m7 * m8 * m14 + m7 * m12 * m10
    requires y2 == m4 * m9 * m15 - m4 * m13 * m11 - m5 * m8 * m15 + m5 * m12 * m11 + m7 * m8 * m13 - m7 * m12 * m9
    requires y3 == - m4 * m9 * m14 + m4 * m13 * m10 + m5 * m8 * m14 - m5 * m12 * m10 - m6 * m8 * m13 + m6 * m12 * m9
    ensures y0 * m0 + y1 * m1 + y2 * m2 + y3 * m3 == Expansion(m0, m1, m2, m3, m4, m5, m6, m7, m8, m9, m10, m11, m12, m13, m14, m15)
  {
  }

  /** Entry (0, 1) of adj·m over plain reals, y0..y3 being row 0 of the adjugate. */
  lemma LeftCell01(m0: real, m1: real, m2: real, m3: real, m4: real, m5: real, m6: real, m7: real, m8: real, m9: real, m10: real, m11: real, m12: real, m13: real, m14: real, m15: real,
                      y0: real, y1: real, y2: real, y3: real)
    requires y0 == m5 * m10 * m15 - m5 * m14 * m11 - m6 * m9 * m15 + m6 * m13 * m11 + m7 * m9 * m14 - m7 * m13 * m10
    requires y1 == - m4 * m10 * m15 + m4 * m14 * m11 + m6 * m8 * m15 - m6 * m12 * m11 - m7 * m8 * m14 + m7 * m12 * m10
    requires y2 == m4 * m9 * m15 - m4 * m13 * m11 - m5 * m8 * m15 + m5 * m12 * m11 + m7 * m8 * m13 - m7 * m12 * m9
    requires y3 == - m4 * m9 * m14 + m4 * m13 * m10 + m5 * m8 * m14 - m5 * m12 * m10 - m6 * m8 * m13 + m6 * m12 * m9
    ensures y0 * m4 + y1 * m5 + y2 * m6 + y3 * m7 == 0.0
  {
  }

  /** Entry (0, 2) of adj·m over plain reals, y0..y3 being row 0 of the adjugate. */
  lemma LeftCell02(m0: real, m1: real, m2: real, m3: real, m4: real, m5: real, m6: real, m7: real, m8: real, m9: real, m10: real, m11: real, m12: real, m13: real, m14: real, m15: real,
                      y0: real, y1: real, y2: real, y3: real)
    requires y0 == m5 * m10 * m15 - m5 * m14 * m11 - m6 * m9 * m15 + m6 * m13 * m11 + m7 * m9 * m14 - m7 * m13 * m10
    requires y1 == - m4 * m10 * m15 + m4 * m14 * m11 + m6 * m8 * m15 - m6 * m12 * m11 - m7 * m8 * m14 + m7 * m12 * m10
    requires y2 == m4 * m9 * m15 - m4 * m13 * m11 - m5 * m8 * m15 + m5 * m12 * m11 + m7 * m8 * m13 - m7 * m12 * m9
    requires y3 == - m4 * m9 * m14 + m4 * m13 * m10 + m5 * m8 * m14 - m5 * m12 * m10 - m6 * m8 * m13 + m6 * m12 * m9
    ensures y0 * m8 + y1 * m9 + y2 * m10 + y3 * m11 == 0.0
  {
  }

  /** Entry (0, 3) of adj·m over plain reals, y0..y3 being row 0 of the adjugate. */
  lemma LeftCell03(m0: real, m1: real, m2: real, m3: real, m4: real, m5: real, m6: real, m7: real, m8: real, m9: real, m10: real, m11: real, m12: real, m13: real, m14: real, m15: real,
                      y0: real, y1: real, y2: real, y3: real)
    requires y0 == m5 * m10 * m15 - m5 * m14 * m11 - m6 * m9 * m15 + m6 * m13 * m11 + m7 * m9 * m14 - m7 * m13 * m10
    requires y1 == - m4 * m10 * m15 + m4 * m14 * m11 + m6 * m8 * m15 - m6 * m12 * m11 - m7 * m8 * m14 + m7 * m12 * m10
    requires y2 == m4 * m9 * m15 - m4 * m13 * m11 - m5 * m8 * m15 + m5 * m12 * m11 + m7 * m8 * m13 - m7 * m12 * m9
    requires y3 == - m4 * m9 * m14 + m4 * m13 * m10 + m5 * m8 * m14 - m5 * m12 * m10 - m6 * m8 * m13 + m6 * m12 * m9
    ensures y0 * m12 + y1 * m13 + y2 * m14 + y3 * m15 == 0.0
  {
  }

  /** Entry (1, 0) of adj·m over plain reals, y0..y3 being row 1 of the adjugate. */
  lemma LeftCell10(m0: real, m1: real, m2: real, m3: real, m4: real, m5: real, m6: real, m7: real, m8: real, m9: real, m10: real, m11: real, m12: real, m13: real, m14: real, m15: real,
                      y0: real, y1: real, y2: real, y3: real)
    requires y0 == - m1 * m10 * m15 + m1 * m14 * m11 + m2 * m9 * m15 - m2 * m13 * m11 - m3 * m9 * m14 + m3 * m13 * m10
    requires y1 == m0 * m10 * m15 - m0 * m14 * m11 - m2 * m8 * m15 + m2 * m12 * m11 + m3 * m8 * m14 - m3 * m12 * m10
    requires y2 == - m0 * m9 * m15 + m0 * m13 * m11 + m1 * m8 * m15 - m1 * m12 * m11 - m3 * m8 * m13 + m3 * m12 * m9
    requires y3 == m0 * m9 * m14 - m0 * m13 * m10 - m1 * m8 * m14 + m1 * m12 * m10 + m2 * m8 * m13 - m2 * m12 * m9
    ensures y0 * m0 + y1 * m1 + y2 * m2 + y3 * m3 == 0.0
  {
  }

  /** Entry (1, 1) of adj·m over plain reals, y0..y3 being row 1 of the adjugate. */
  lemma LeftCell11(m0: real, m1: real, m2: real, m3: real, m4: real, m5: real, m6: real, m7: real, m8: real, m9: real, m10: real, m11: real, m12: real, m13: real, m14: real, m15: real,
                      y0: real, y1: real, y2: real, y3: real)
    requires y0 == - m1 * m10 * m15 + m1 * m14 * m11 + m2 * m9 * m15 - m2 * m13 * m11 - m3 * m9 * m14 + m3 * m13 * m10
    requires y1 == m0 * m10 * m15 - m0 * m14 * m11 - m2 * m8 * m15 + m2 * m12 * m11 + m3 * m8 * m14 - m3 * m12 * m10
    requires y2 == - m0 * m9 * m15 + m0 * m13 * m11 + m1 * m8 * m15 - m1 * m12 * m11 - m3 * m8 * m13 + m3 * m12 * m9
    requires y3 == m0 * m9 * m14 - m0 * m13 * m10 - m1 * m8 * m14 + m1 * m12 * m10 + m2 * m8 * m13 - m2 * m12 * m9
    ensures y0 * m4 + y1 * m5 + y2 * m6 + y3 * m7 == Expansion(m0, m1, m2, m3, m4, m5, m6, m7, m8, m9, m10, m11, m12, m13, m14, m15)
  {
  }

  /** Entry (1, 2) of adj·m over plain reals, y0..y3 being row 1 of the adjugate. */
  lemma LeftCell12(m0: real, m1: real, m2: real, m3: real, m4: real, m5: real, m6: real, m7: real, m8: real, m9: real, m10: real, m11: real, m12: real, m13: real, m14: real, m15: real,
                      y0: real, y1: real, y2: real, y3: real)
    requires y0 == - m1 * m10 * m15 + m1 * m14 * m11 + m2 * m9 * m15 - m2 * m13 * m11 - m3 * m9 * m14 + m3 * m13 * m10
    requires y1 == m0 * m10 * m15 - m0 * m14 * m11 - m2 * m8 * m15 + m2 * m12 * m11 + m3 * m8 * m14 - m3 * m12 * m10
    requires y2 == - m0 * m9 * m15 + m0 * m13 * m11 + m1 * m8 * m15 - m1 * m12 * m11 - m3 * m8 * m13 + m3 * m12 * m9
    requires y3 == m0 * m9 * m14 - m0 * m13 * m10 - m1 * m8 * m14 + m1 * m12 * m10 + m2 * m8 * m13 - m2 * m12 * m9
    ensures y0 * m8 + y1 * m9 + y2 * m10 + y3 * m11 == 0.0
  {
  }

  /** Entry (1, 3) of adj·m over plain reals, y0..y3 being row 1 of the adjugate. */
  lemma LeftCell13(m0: real, m1: real, m2: real, m3: real, m4: real, m5: real, m6: real, m7: real, m8: real, m9: real, m10: real, m11: real, m12: real, m13: real, m14: real, m15: real,
                      y0: real, y1: real, y2: real, y3: real)
    requires y0 == - m1 * m10 * m15 + m1 * m14 * m11 + m2 * m9 * m15 - m2 * m13 * m11 - m3 * m9 * m14 + m3 * m13 * m10
    requires y1 == m0 * m10 * m15 - m0 * m14 * m11 - m2 * m8 * m15 + m2 * m12 * m11 + m3 * m8 * m14 - m3 * m12 * m10
    requires y2 == - m0 * m9 * m15 + m0 * m13 * m11 + m1 * m8 * m15 - m1 * m12 * m11 - m3 * m8 * m13 + m3 * m12 * m9
    requires y3 == m0 * m9 * m14 - m0 * m13 * m10 - m1 * m8 * m14 + m1 * m12 * m10 + m2 * m8 * m13 - m2 * m12 * m9
    ensures y0 * m12 + y1 * m13 + y2 * m14 + y3 * m15 == 0.0
  {
  }

  /** Entry (2, 0) of adj·m over plain reals, y0..y3 being row 2 of the adjugate. */
  lemma LeftCell20(m0: real, m1: real, m2: real, m3: real, m4: real, m5: real, m6: real, m7: real, m8: real, m9: real, m10: real, m11: real, m12: real, m13: real, m14: real, m15: real,
                      y0: real, y1: real, y2: real, y3: real)
    requires y0 == m1 * m6 * m15 - m1 * m14 * m7 - m2 * m5 * m15 + m2 * m13 * m7 + m3 * m5 * m14 - m3 * m13 * m6
    requires y1 == - m0 * m6 * m15 + m0 * m14 * m7 + m2 * m4 * m15 - m2 * m12 * m7 - m3 * m4 * m14 + m3 * m12 * m6
    requires y2 == m0 * m5 * m15 - m0 * m13 * m7 - m1 * m4 * m15 + m1 * m12 * m7 + m3 * m4 * m13 - m3 * m12 * m5
    requires y3 == - m0 * m5 * m14 + m0 * m13 * m6 + m1 * m4 * m14 - m1 * m12 * m6 - m2 * m4 * m13 + m2 * m12 * m5
    ensures y0 * m0 + y1 * m1 + y2 * m2 + y3 * m3 == 0.0
  {
  }

  /** Entry (2, 1) of adj·m over plain reals, y0..y3 being row 2 of the adjugate. */
  lemma LeftCell21(m0: real, m1: real, m2: real, m3: real, m4: real, m5: real, m6: real, m7: real, m8: real, m9: real, m10: real, m11: real, m12: real, m13: real, m14: real, m15: real,
                      y0: real, y1: real, y2: real, y3: real)
    requires y0 == m1 * m6 * m15 - m1 * m14 * m7 - m2 * m5 * m15 + m2 * m13 * m7 + m3 * m5 * m14 - m3 * m13 * m6
    requires y1 == - m0 * m6 * m15 + m0 * m14 * m7 + m2 * m4 * m15 - m2 * m12 * m7 - m3 * m4 * m14 + m3 * m12 * m6
    requires y2 == m0 * m5 * m15 - m0 * m13 * m7 - m1 * m4 * m15 + m1 * m12 * m7 + m3 * m4 * m13 - m3 * m12 * m5
    requires y3 == - m0 * m5 * m14 + m0 * m13 * m6 + m1 * m4 * m14 - m1 * m12 * m6 - m2 * m4 * m13 + m2 * m12 * m5
    ensures y0 * m4 + y1 * m5 + y2 * m6 + y3 * m7 == 0.0
  {
  }

  /** Entry (2, 2) of adj·m over plain reals, y0..y3 being row 2 of the adjugate. */
  lemma LeftCell22(m0: real, m1: real, m2: real, m3: real, m4: real, m5: real, m6: real, m7: real, m8: real, m9: real, m10: real, m11: real, m12: real, m13: real, m14: real, m15: real,
                      y0: real, y1: real, y2: real, y3: real)
    requires y0 == m1 * m6 * m15 - m1 * m14 * m7 - m2 * m5 * m15 + m2 * m13 * m7 + m3 * m5 * m14 - m3 * m13 * m6
    requires y1 == - m0 * m6 * m15 + m0 * m14 * m7 + m2 * m4 * m15 - m2 * m12 * m7 - m3 * m4 * m14 + m3 * m12 * m6
    requires y2 == m0 * m5 * m15 - m0 * m13 * m7 - m1 * m4 * m15 + m1 * m12 * m7 + m3 * m4 * m13 - m3 * m12 * m5
    requires y3 == - m0 * m5 * m14 + m0 * m13 * m6 + m1 * m4 * m14 - m1 * m12 * m6 - m2 * m4 * m13 + m2 * m12 * m5
    ensures y0 * m8 + y1 * m9 + y2 * m10 + y3 * m11 == Expansion(m0, m1, m2, m3, m4, m5, m6, m7, m8, m9, m10, m11, m12, m13, m14, m15)
  {
  }

  /** Entry (2, 3) of adj·m over plain reals, y0..y3 being row 2 of the adjugate. */
  lemma LeftCell23(m0: real, m1: real, m2: real, m3: real, m4: real, m5: real, m6: real, m7: real, m8: real, m9: real, m10: real, m11: real, m12: real, m13: real, m14: real, m15: real,
                      y0: real, y1: real, y2: real, y3: real)
    requires y0 == m1 * m6 * m15 - m1 * m14 * m7 - m2 * m5 * m15 + m2 * m13 * m7 + m3 * m5 * m14 - m3 * m13 * m6
    requires y1 == - m0 * m6 * m15 + m0 * m14 * m7 + m2 * m4 * m15 - m2 * m12 * m7 - m3 * m4 * m14 + m3 * m12 * m6
    requires y2 == m0 * m5 * m15 - m0 * m13 * m7 - m1 * m4 * m15 + m1 * m12 * m7 + m3 * m4 * m13 - m3 * m12 * m5
    requires y3 == - m0 * m5 * m14 + m0 * m13 * m6 + m1 * m4 * m14 - m1 * m12 * m6 - m2 * m4 * m13 + m2 * m12 * m5
    ensures y0 * m12 + y1 * m13 + y2 * m14 + y3 * m15 == 0.0
  {
  }

  /** Entry (3, 0) of adj·m over plain reals, y0..y3 being row 3 of the adjugate. */
  lemma LeftCell30(m0: real, m1: real, m2: real, m3: real, m4: real, m5: real, m6: real, m7: real, m8: real, m9: real, m10: real, m11: real, m12: real, m13: real, m14: real, m15: real,
                      y0: real, y1: real, y2: real, y3: real)
    requires y0 == - m1 * m6 * m11 + m1 * m10 * m7 + m2 * m5 * m11 - m2 * m9 * m7 - m3 * m5 * m10 + m3 * m9 * m6
    requires y1 == m0 * m6 * m11 - m0 * m10 * m7 - m2 * m4 * m11 + m2 * m8 * m7 + m3 * m4 * m10 - m3 * m8 * m6
    requires y2 == - m0 * m5 * m11 + m0 * m9 * m7 + m1 * m4 * m11 - m1 * m8 * m7 - m3 * m4 * m9 + m3 * m8 * m5
    requires y3 == m0 * m5 * m10 - m0 * m9 * m6 - m1 * m4 * m10 + m1 * m8 * m6 + m2 * m4 * m9 - m2 * m8 * m5
    ensures y0 * m0 + y1 * m1 + y2 * m2 + y3 * m3 == 0.0
  {
  }

  /** Entry (3, 1) of adj·m over plain reals, y0..y3 being row 3 of the adjugate. */
  lemma LeftCell31(m0: real, m1: real, m2: real, m3: real, m4: real, m5: real, m6: real, m7: real, m8: real, m9: real, m10: real, m11: real, m12: real, m13: real, m14: real, m15: real,
                      y0: real, y1: real, y2: real, y3: real)
    requires y0 == - m1 * m6 * m11 + m1 * m10 * m7 + m2 * m5 * m11 - m2 * m9 * m7 - m3 * m5 * m10 + m3 * m9 * m6
    requires y1 == m0 * m6 * m11 - m0 * m10 * m7 - m2 * m4 * m11 + m2 * m8 * m7 + m3 * m4 * m10 - m3 * m8 * m6
    requires y2 == - m0 * m5 * m11 + m0 * m9 * m7 + m1 * m4 * m11 - m1 * m8 * m7 - m3 * m4 * m9 + m3 * m8 * m5
    requires y3 == m0 * m5 * m10 - m0 * m9 * m6 - m1 * m4 * m10 + m1 * m8 * m6 + m2 * m4 * m9 - m2 * m8 * m5
    ensures y0 * m4 + y1 * m5 + y2 * m6 + y3 * m7 == 0.0
  {
  }

  /** Entry (3, 2) of adj·m over plain reals, y0..y3 being row 3 of the adjugate. */
  lemma LeftCell32(m0: real, m1: real, m2: real, m3: real, m4: real, m5: real, m6: real, m7: real, m8: real, m9: real, m10: real, m11: real, m12: real, m13: real, m14: real, m15: real,
                      y0: real, y1: real, y2: real, y3: real)
    requires y0 == - m1 * m6 * m11 + m1 * m10 * m7 + m2 * m5 * m11 - m2 * m9 * m7 - m3 * m5 * m10 + m3 * m9 * m6
    requires y1 == m0 * m6 * m11 - m0 * m10 * m7 - m2 * m4 * m11 + m2 * m8 * m7 + m3 * m4 * m10 - m3 * m8 * m6
    requires y2 == - m0 * m5 * m11 + m0 * m9 * m7 + m1 * m4 * m11 - m1 * m8 * m7 - m3 * m4 * m9 + m3 * m8 * m5
    requires y3 == m0 * m5 * m10 - m0 * m9 * m6 - m1 * m4 * m10 + m1 * m8 * m6 + m2 * m4 * m9 - m2 * m8 * m5
    ensures y0 * m8 + y1 * m9 + y2 * m10 + y3 * m11 == 0.0
  {
  }

  /** Entry (3, 3) of adj·m over plain reals, y0..y3 being row 3 of the adjugate. */
  lemma LeftCell33(m0: real, m1: real, m2: real, m3: real, m4: real, m5: real, m6: real, m7: real, m8: real, m9: real, m10: real, m11: real, m12: real, m13: real, m14: real, m15: real,
                      y0: real, y1: real, y2: real, y3: real)
    requires y0 == - m1 * m6 * m11 + m1 * m10 * m7 + m2 * m5 * m11 - m2 * m9 * m7 - m3 * m5 * m10 + m3 * m9 * m6
    requires y1 == m0 * m6 * m11 - m0 * m10 * m7 - m2 * m4 * m11 + m2 * m8 * m7 + m3 * m4 * m10 - m3 * m8 * m6
    requires y2 == - m0 * m5 * m11 + m0 * m9 * m7 + m1 * m4 * m11 - m1 * m8 * m7 - m3 * m4 * m9 + m3 * m8 * m5
    requires y3 == m0 * m5 * m10 - m0 * m9 * m6 - m1 * m4 * m10 + m1 * m8 * m6 + m2 * m4 * m9 - m2 * m8 * m5
    ensures y0 * m12 + y1 * m13 + y2 * m14 + y3 * m15 == Expansion(m0, m1, m2, m3, m4, m5, m6, m7, m8, m9, m10, m11, m12, m13, m14, m15)
  {
  }

  /** Column 0 of m·adj over plain reals. */
  lemma RightColumn0(m0: real, m1: real, m2: real, m3: real, m4: real, m5: real, m6: real, m7: real, m8: real, m9: real, m10: real, m11: real, m12: real, m13: real, m14: real, m15: real,
                       x0: real, x1: real, x2: real, x3: real)
    requires x0 == m5 * m10 * m15 - m5 * m14 * m11 - m6 * m9 * m15 + m6 * m13 * m11 + m7 * m9 * m14 - m7 * m13 * m10
    requires x1 == - m1 * m10 * m15 + m1 * m14 * m11 + m2 * m9 * m15 - m2 * m13 * m11 - m3 * m9 * m14 + m3 * m13 * m10
    requires x2 == m1 * m6 * m15 - m1 * m14 * m7 - m2 * m5 * m15 + m2 * m13 * m7 + m3 * m5 * m14 - m3 * m13 * m6
    requires x3 == - m1 * m6 * m11 + m1 * m10 * m7 + m2 * m5 * m11 - m2 * m9 * m7 - m3 * m5 * m10 + m3 * m9 * m6
    ensures m0 * x0 + m4 * x1 + m8 * x2 + m12 * x3 == Expansion(m0, m1, m2, m3, m4, m5, m6, m7, m8, m9, m10, m11, m12, m13, m14, m15)
    ensures m1 * x0 + m5 * x1 + m9 * x2 + m13 * x3 == 0.0
    ensures m2 * x0 + m6 * x1 + m10 * x2 + m14 * x3 == 0.0
    ensures m3 * x0 + m7 * x1 + m11 * x2 + m15 * x3 == 0.0
  {
    RightCell00(m0, m1, m2, m3, m4, m5, m6, m7, m8, m9, m10, m11, m12, m13, m14, m15, x0, x1, x2, x3);
    RightCell10(m0, m1, m2, m3, m4, m5, m6, m7, m8, m9, m10, m11, m12, m13, m14, m15, x0, x1, x2, x3);
    RightCell20(m0, m1, m2, m3, m4, m5, m6, m7, m8, m9, m10, m11, m12, m13, m14, m15, x0, x1, x2, x3);
    RightCell30(m0, m1, m2, m3, m4, m5, m6, m7, m8, m9, m10, m11, m12, m13, m14, m15, x0, x1, x2, x3);
  }

  /** Column 1 of m·adj over plain reals. */
  lemma RightColumn1(m0: real, m1: real, m2: real, m3: real, m4: real, m5: real, m6: real, m7: real, m8: real, m9: real, m10: real, m11: real, m12: real, m13: real, m14: real, m15: real,
                       x0: real, x1: real, x2: real, x3: real)
    requires x0 == - m4 * m10 * m15 + m4 * m14 * m11 + m6 * m8 * m15 - m6 * m12 * m11 - m7 * m8 * m14 + m7 * m12 * m10
    requires x1 == m0 * m10 * m15 - m0 * m14 * m11 - m2 * m8 * m15 + m2 * m12 * m11 + m3 * m8 * m14 - m3 * m12 * m10
    requires x2 == - m0 * m6 * m15 + m0 * m14 * m7 + m2 * m4 * m15 - m2 * m12 * m7 - m3 * m4 * m14 + m3 * m12 * m6
    requires x3 == m0 * m6 * m11 - m0 * m10 * m7 - m2 * m4 * m11 + m2 * m8 * m7 + m3 * m4 * m10 - m3 * m8 * m6
    ensures m0 * x0 + m4 * x1 + m8 * x2 + m12 * x3 == 0.0
    ensures m1 * x0 + m5 * x1 + m9 * x2 + m13 * x3 == Expansion(m0, m1, m2, m3, m4, m5, m6, m7, m8, m9, m10, m11, m12, m13, m14, m15)
    ensures m2 * x0 + m6 * x1 + m10 * x2 + m14 * x3 == 0.0
    ensures m3 * x0 + m7 * x1 + m11 * x2 + m15 * x3 == 0.0
  {
    RightCell01(m0, m1, m2, m3, m4, m5, m6, m7, m8, m9, m10, m11, m12, m13, m14, m15, x0, x1, x2, x3);
    RightCell11(m0, m1, m2, m3, m4, m5, m6, m7, m8, m9, m10, m11, m12, m13, m14, m15, x0, x1, x2, x3);
    RightCell21(m0, m1, m2, m3, m4, m5, m6, m7, m8, m9, m10, m11, m12, m13, m14, m15, x0, x1, x2, x3);
    RightCell31(m0, m1, m2, m3, m4, m5, m6, m7, m8, m9, m10, m11, m12, m13, m14, m15, x0, x1, x2, x3);
  }

  /** Column 2 of m·adj over plain reals. */
  lemma RightColumn2(m0: real, m1: real, m2: real, m3: real, m4: real, m5: real, m6: real, m7: real, m8: real, m9: real, m10: real, m11: real, m12: real, m13: real, m14: real, m15: real,
                       x0: real, x1: real, x2: real, x3: real)
    requires x0 == m4 * m9 * m15 - m4 * m13 * m11 - m5 * m8 * m15 + m5 * m12 * m11 + m7 * m8 * m13 - m7 * m12 * m9
    requires x1 == - m0 * m9 * m15 + m0 * m13 * m11 + m1 * m8 * m15 - m1 * m12 * m11 - m3 * m8 * m13 + m3 * m12 * m9
    requires x2 == m0 * m5 * m15 - m0 * m13 * m7 - m1 * m4 * m15 + m1 * m12 * m7 + m3 * m4 * m13 - m3 * m12 * m5
    requires x3 == - m0 * m5 * m11 + m0 * m9 * m7 + m1 * m4 * m11 - m1 * m8 * m7 - m3 * m4 * m9 + m3 * m8 * m5
    ensures m0 * x0 + m4 * x1 + m8 * x2 + m12 * x3 == 0.0
    ensures m1 * x0 + m5 * x1 + m9 * x2 + m13 * x3 == 0.0
    ensures m2 * x0 + m6 * x1 + m10 * x2 + m14 * x3 == Expansion(m0, m1, m2, m3, m4, m5, m6, m7, m8, m9, m10, m11, m12, m13, m14, m15)
    ensures m3 * x0 + m7 * x1 + m11 * x2 + m15 * x3 == 0.0
  {
    RightCell02(m0, m1, m2, m3, m4, m5, m6, m7, m8, m9, m10, m11, m12, m13, m14, m15, x0, x1, x2, x3);
    RightCell12(m0, m1, m2, m3, m4, m5, m6, m7, m8, m9, m10, m11, m12, m13, m14, m15, x0, x1, x2, x3);
    RightCell22(m0, m1, m2, m3, m4, m5, m6, m7, m8, m9, m10, m11, m12, m13, m14, m15, x0, x1, x2, x3);
    RightCell32(m0, m1, m2, m3, m4, m5, m6, m7, m8, m9, m10, m11, m12, m13, m14, m15, x0, x1, x2, x3);
  }

  /** Column 3 of m·adj over plain reals. */
  lemma RightColumn3(m0: real, m1: real, m2: real, m3: real, m4: real, m5: real, m6: real, m7: real, m8: real, m9: real, m10: real, m11: real, m12: real, m13: real, m14: real, m15: real,
                       x0: real, x1: real, x2: real, x3: real)
    requires x0 == - m4 * m9 * m14 + m4 * m13 * m10 + m5 * m8 * m14 - m5 * m12 * m10 - m6 * m8 * m13 + m6 * m12 * m9
    requires x1 == m0 * m9 * m14 - m0 * m13 * m10 - m1 * m8 * m14 + m1 * m12 * m10 + m2 * m8 * m13 - m2 * m12 * m9
    requires x2 == - m0 * m5 * m14 + m0 * m13 * m6 + m1 * m4 * m14 - m1 * m12 * m6 - m2 * m4 * m13 + m2 * m12 * m5
    requires x3 == m0 * m5 * m10 - m0 * m9 * m6 - m1 * m4 * m10 + m1 * m8 * m6 + m2 * m4 * m9 - m2 * m8 * m5
    ensures m0 * x0 + m4 * x1 + m8 * x2 + m12 * x3 == 0.0
    ensures m1 * x0 + m5 * x1 + m9 * x2 + m13 * x3 == 0.0
    ensures m2 * x0 + m6 * x1 + m10 * x2 + m14 * x3 == 0.0
    ensures m3 * x0 + m7 * x1 + m11 * x2 + m15 * x3 == Expansion(m0, m1, m2, m3, m4, m5, m6, m7, m8, m9, m10, m11, m12, m13, m14, m15)
  {
    RightCell03(m0, m1, m2, m3, m4, m5, m6, m7, m8, m9, m10, m11, m12, m13, m14, m15, x0, x1, x2, x3);
    RightCell13(m0, m1, m2, m3, m4, m5, m6, m7, m8, m9, m10, m11, m12, m13, m14, m15, x0, x1, x2, x3);
    RightCell23(m0, m1, m2, m3, m4, m5, m6, m7, m8, m9, m10, m11, m12, m13, m14, m15, x0, x1, x2, x3);
    RightCell33(m0, m1, m2, m3, m4, m5, m6, m7, m8, m9, m10, m11, m12, m13, m14, m15, x0, x1, x2, x3);
  }

  /** Row 0 of adj·m over plain reals. */
  lemma LeftRow0(m0: real, m1: real, m2: real, m3: real, m4: real, m5: real, m6: real, m7: real, m8: real, m9: real, m10: real, m11: real, m12: real, m13: real, m14: real, m15: real,
                   y0: real, y1: real, y2: real, y3: real)
    requires y0 == m5 * m10 * m15 - m5 * m14 * m11 - m6 * m9 * m15 + m6 * m13 * m11 + m7 * m9 * m14 - m7 * m13 * m10
    requires y1 == - m4 * m10 * m15 + m4 * m14 * m11 + m6 * m8 * m15 - m6 * m12 * m11 - m7 * m8 * m14 + m7 * m12 * m10
    requires y2 == m4 * m9 * m15 - m4 * m13 * m11 - m5 * m8 * m15 + m5 * m12 * m11 + m7 * m8 * m13 - m7 * m12 * m9
    requires y3 == - m4 * m9 * m14 + m4 * m13 * m10 + m5 * m8 * m14 - m5 * m12 * m10 - m6 * m8 * m13 + m6 * m12 * m9
    ensures y0 * m0 + y1 * m1 + y2 * m2 + y3 * m3 == Expansion(m0, m1, m2, m3, m4, m5, m6, m7, m8, m9, m10, m11, m12, m13, m14, m15)
    ensures y0 * m4 + y1 * m5 + y2 * m6 + y3 * m7 == 0.0
    ensures y0 * m8 + y1 * m9 + y2 * m10 + y3 * m11 == 0.0
    ensures y0 * m12 + y1 * m13 + y2 * m14 + y3 * m15 == 0.0
  {
    LeftCell00(m0, m1, m2, m3, m4, m5, m6, m7, m8, m9, m10, m11, m12, m13, m14, m15, y0, y1, y2, y3);
    LeftCell01(m0, m1, m2, m3, m4, m5, m6, m7, m8, m9, m10, m11, m12, m13, m14, m15, y0, y1, y2, y3);
    LeftCell02(m0, m1, m2, m3, m4, m5, m6, m7, m8, m9, m10, m11, m12, m13, m14, m15, y0, y1, y2, y3);
    LeftCell03(m0, m1, m2, m3, m4, m5, m6, m7, m8, m9, m10, m11, m12, m13, m14, m15, y0, y1, y2, y3);
  }

  /** Row 1 of adj·m over plain reals. */
  lemma LeftRow1(m0: real, m1: real, m2: real, m3: real, m4: real, m5: real, m6: real, m7: real, m8: real, m9: real, m10: real, m11: real, m12: real, m13: real, m14: real, m15: real,
                   y0: real, y1: real, y2: real, y3: real)
    requires y0 == - m1 * m10 * m15 + m1 * m14 * m11 + m2 * m9 * m15 - m2 * m13 * m11 - m3 * m9 * m14 + m3 * m13 * m10
    requires y1 == m0 * m10 * m15 - m0 * m14 * m11 - m2 * m8 * m15 + m2 * m12 * m11 + m3 * m8 * m14 - m3 * m12 * m10
    requires y2 == - m0 * m9 * m15 + m0 * m13 * m11 + m1 * m8 * m15 - m1 * m12 * m11 - m3 * m8 * m13 + m3 * m12 * m9
    requires y3 == m0 * m9 * m14 - m0 * m13 * m10 - m1 * m8 * m14 + m1 * m12 * m10 + m2 * m8 * m13 - m2 * m12 * m9
    ensures y0 * m0 + y1 * m1 + y2 * m2 + y3 * m3 == 0.0
    ensures y0 * m4 + y1 * m5 + y2 * m6 + y3 * m7 == Expansion(m0, m1, m2, m3, m4, m5, m6, m7, m8, m9, m10, m11, m12, m13, m14, m15)
    ensures y0 * m8 + y1 * m9 + y2 * m10 + y3 * m11 == 0.0
    ensures y0 * m12 + y1 * m13 + y2 * m14 + y3 * m15 == 0.0
  {
    LeftCell10(m0, m1, m2, m3, m4, m5, m6, m7, m8, m9, m10, m11, m12, m13, m14, m15, y0, y1, y2, y3);
    LeftCell11(m0, m1, m2, m3, m4, m5, m6, m7, m8, m9, m10, m11, m12, m13, m14, m15, y0, y1, y2, y3);
    LeftCell12(m0, m1, m2, m3, m4, m5, m6, m7, m8, m9, m10, m11, m12, m13, m14, m15, y0, y1, y2, y3);
    LeftCell13(m0, m1, m2, m3, m4, m5, m6, m7, m8, m9, m10, m11, m12, m13, m14, m15, y0, y1, y2, y3);
  }

  /** Row 2 of adj·m over plain reals. */
  lemma LeftRow2(m0: real, m1: real, m2: real, m3: real, m4: real, m5: real, m6: real, m7: real, m8: real, m9: real, m10: real, m11: real, m12: real, m13: real, m14: real, m15: real,
                   y0: real, y1: real, y2: real, y3: real)
    requires y0 == m1 * m6 * m15 - m1 * m14 * m7 - m2 * m5 * m15 + m2 * m13 * m7 + m3 * m5 * m14 - m3 * m13 * m6
    requires y1 == - m0 * m6 * m15 + m0 * m14 * m7 + m2 * m4 * m15 - m2 * m12 * m7 - m3 * m4 * m14 + m3 * m12 * m6
    requires y2 == m0 * m5 * m15 - m0 * m13 * m7 - m1 * m4 * m15 + m1 * m12 * m7 + m3 * m4 * m13 - m3 * m12 * m5
    requires y3 == - m0 * m5 * m14 + m0 * m13 * m6 + m1 * m4 * m14 - m1 * m12 * m6 - m2 * m4 * m13 + m2 * m12 * m5
    ensures y0 * m0 + y1 * m1 + y2 * m2 + y3 * m3 == 0.0
    ensures y0 * m4 + y1 * m5 + y2 * m6 + y3 * m7 == 0.0
    ensures y0 * m8 + y1 * m9 + y2 * m10 + y3 * m11 == Expansion(m0, m1, m2, m3, m4, m5, m6, m7, m8, m9, m10, m11, m12, m13, m14, m15)
    ensures y0 * m12 + y1 * m13 + y2 * m14 + y3 * m15 == 0.0
  {
    LeftCell20(m0, m1, m2, m3, m4, m5, m6, m7, m8, m9, m10, m11, m12, m13, m14, m15, y0, y1, y2, y3);
    LeftCell21(m0, m1, m2, m3, m4, m5, m6, m7, m8, m9, m10, m11, m12, m13, m14, m15, y0, y1, y2, y3);
    LeftCell22(m0, m1, m2, m3, m4, m5, m6, m7, m8, m9, m10, m11, m12, m13, m14, m15, y0, y1, y2, y3);
    LeftCell23(m0, m1, m2, m3, m4, m5, m6, m7, m8, m9, m10, m11, m12, m13, m14, m15, y0, y1, y2, y3);
  }

  /** Row 3 of adj·m over plain reals. */
  lemma LeftRow3(m0: real, m1: real, m2: real, m3: real, m4: real, m5: real, m6: real, m7: real, m8: real, m9: real, m10: real, m11: real, m12: real, m13: real, m14: real, m15: real,
                   y0: real, y1: real, y2: real, y3: real)
    requires y0 == - m1 * m6 * m11 + m1 * m10 * m7 + m2 * m5 * m11 - m2 * m9 * m7 - m3 * m5 * m10 + m3 * m9 * m6
    requires y1 == m0 * m6 * m11 - m0 * m10 * m7 - m2 * m4 * m11 + m2 * m8 * m7 + m3 * m4 * m10 - m3 * m8 * m6
    requires y2 == - m0 * m5 * m11 + m0 * m9 * m7 + m1 * m4 * m11 - m1 * m8 * m7 - m3 * m4 * m9 + m3 * m8 * m5
    requires y3 == m0 * m5 * m10 - m0 * m9 * m6 - m1 * m4 * m10 + m1 * m8 * m6 + m2 * m4 * m9 - m2 * m8 * m5
    ensures y0 * m0 + y1 * m1 + y2 * m2 + y3 * m3 == 0.0
    ensures y0 * m4 + y1 * m5 + y2 * m6 + y3 * m7 == 0.0
    ensures y0 * m8 + y1 * m9 + y2 * m10 + y3 * m11 == 0.0
    ensures y0 * m12 + y1 * m13 + y2 * m14 + y3 * m15 == Expansion(m0, m1, m2, m3, m4, m5, m6, m7, m8, m9, m10, m11, m12, m13, m14, m15)
  {
    LeftCell30(m0, m1, m2, m3, m4, m5, m6, m7, m8, m9, m10, m11, m12, m13, m14, m15, y0, y1, y2, y3);
    LeftCell31(m0, m1, m2, m3, m4, m5, m6, m7, m8, m9, m10, m11, m12, m13, m14, m15, y0, y1, y2, y3);
    LeftCell32(m0, m1, m2, m3, m4, m5, m6, m7, m8, m9, m10, m11, m12, m13, m14, m15, y0, y1, y2, y3);
    LeftCell33(m0, m1, m2, m3, m4, m5, m6, m7, m8, m9, m10, m11, m12, m13, m14, m15, y0, y1, y2, y3);
  }

  /** Column 0 of m·adj from its four sums of products. */
  lemma RightColumnEntries0(p: seq<real>, m: seq<real>, a: seq<real>)
    requires |p| == 16 && |m| == 16 && |a| == 16
    requires p[0] == m[0] * a[0] + m[4] * a[1] + m[8] * a[2] + m[12] * a[3]
    requires p[1] == m[1] * a[0] + m[5] * a[1] + m[9] * a[2] + m[13] * a[3]
    requires p[2] == m[2] * a[0] + m[6] * a[1] + m[10] * a[2] + m[14] * a[3]
    requires p[3] == m[3] * a[0] + m[7] * a[1] + m[11] * a[2] + m[15] * a[3]
    requires a[0] == m[5] * m[10] * m[15] - m[5] * m[14] * m[11] - m[6] * m[9] * m[15] + m[6] * m[13] * m[11] + m[7] * m[9] * m[14] - m[7] * m[13] * m[10]
    requires a[1] == - m[1] * m[10] * m[15] + m[1] * m[14] * m[11] + m[2] * m[9] * m[15] - m[2] * m[13] * m[11] - m[3] * m[9] * m[14] + m[3] * m[13] * m[10]
    requires a[2] == m[1] * m[6] * m[15] - m[1] * m[14] * m[7] - m[2] * m[5] * m[15] + m[2] * m[13] * m[7] + m[3] * m[5] * m[14] - m[3] * m[13] * m[6]
    requires a[3] == - m[1] * m[6] * m[11] + m[1] * m[10] * m[7] + m[2] * m[5] * m[11] - m[2] * m[9] * m[7] - m[3] * m[5] * m[10] + m[3] * m[9] * m[6]
    ensures p[0] == Det(m)
    ensures p[1] == 0.0
    ensures p[2] == 0.0
    ensures p[3] == 0.0
  {
    RightColumn0(m[0], m[1], m[2], m[3], m[4], m[5], m[6], m[7], m[8], m[9], m[10], m[11], m[12], m[13], m[14], m[15], a[0], a[1], a[2], a[3]);
  }

  /** Column 0 of the product p of m and a, when column 0 of a is that of the adjugate. */
  lemma RightColumnOf0(p: seq<real>, m: seq<real>, a: seq<real>)
    requires |m| == 16 && |a| == 16 && ProductEntries(p, m, a, 4)
    requires a[0] == m[5] * m[10] * m[15] - m[5] * m[14] * m[11] - m[6] * m[9] * m[15] + m[6] * m[13] * m[11] + m[7] * m[9] * m[14] - m[7] * m[13] * m[10]
    requires a[1] == - m[1] * m[10] * m[15] + m[1] * m[14] * m[11] + m[2] * m[9] * m[15] - m[2] * m[13] * m[11] - m[3] * m[9] * m[14] + m[3] * m[13] * m[10]
    requires a[2] == m[1] * m[6] * m[15] - m[1] * m[14] * m[7] - m[2] * m[5] * m[15] + m[2] * m[13] * m[7] + m[3] * m[5] * m[14] - m[3] * m[13] * m[6]
    requires a[3] == - m[1] * m[6] * m[11] + m[1] * m[10] * m[7] + m[2] * m[5] * m[11] - m[2] * m[9] * m[7] - m[3] * m[5] * m[10] + m[3] * m[9] * m[6]
    ensures p[0] == Det(m)
    ensures p[1] == 0.0
    ensures p[2] == 0.0
    ensures p[3] == 0.0
  {
    ProductColumn4(p, m, a, 0);
    RightColumnEntries0(p, m, a);
  }

  /** Column 1 of m·adj from its four sums of products. */
  lemma RightColumnEntries1(p: seq<real>, m: seq<real>, a: seq<real>)
    requires |p| == 16 && |m| == 16 && |a| == 16
    requires p[4] == m[0] * a[4] + m[4] * a[5] + m[8] * a[6] + m[12] * a[7]
    requires p[5] == m[1] * a[4] + m[5] * a[5] + m[9] * a[6] + m[13] * a[7]
    requires p[6] == m[2] * a[4] + m[6] * a[5] + m[10] * a[6] + m[14] * a[7]
    requires p[7] == m[3] * a[4] + m[7] * a[5] + m[11] * a[6] + m[15] * a[7]
    requires a[4] == - m[4] * m[10] * m[15] + m[4] * m[14] * m[11] + m[6] * m[8] * m[15] - m[6] * m[12] * m[11] - m[7] * m[8] * m[14] + m[7] * m[12] * m[10]
    requires a[5] == m[0] * m[10] * m[15] - m[0] * m[14] * m[11] - m[2] * m[8] * m[15] + m[2] * m[12] * m[11] + m[3] * m[8] * m[14] - m[3] * m[12] * m[10]
    requires a[6] == - m[0] * m[6] * m[15] + m[0] * m[14] * m[7] + m[2] * m[4] * m[15] - m[2] * m[12] * m[7] - m[3] * m[4] * m[14] + m[3] * m[12] * m[6]
    requires a[7] == m[0] * m[6] * m[11] - m[0] * m[10] * m[7] - m[2] * m[4] * m[11] + m[2] * m[8] * m[7] + m[3] * m[4] * m[10] - m[3] * m[8] * m[6]
    ensures p[4] == 0.0
    ensures p[5] == Det(m)
    ensures p[6] == 0.0
    ensures p[7] == 0.0
  {
    RightColumn1(m[0], m[1], m[2], m[3], m[4], m[5], m[6], m[7], m[8], m[9], m[10], m[11], m[12], m[13], m[14], m[15], a[4], a[5], a[6], a[7]);
  }

  /** Column 1 of the product p of m and a, when column 1 of a is that of the adjugate. */
  lemma RightColumnOf1(p: seq<real>, m: seq<real>, a: seq<real>)
    requires |m| == 16 && |a| == 16 && ProductEntries(p, m, a, 4)
    requires a[4] == - m[4] * m[10] * m[15] + m[4] * m[14] * m[11] + m[6] * m[8] * m[15] - m[6] * m[12] * m[11] - m[7] * m[8] * m[14] + m[7] * m[12] * m[10]
    requires a[5] == m[0] * m[10] * m[15] - m[0] * m[14] * m[11] - m[2] * m[8] * m[15] + m[2] * m[12] * m[11] + m[3] * m[8] * m[14] - m[3] * m[12] * m[10]
    requires a[6] == - m[0] * m[6] * m[15] + m[0] * m[14] * m[7] + m[2] * m[4] * m[15] - m[2] * m[12] * m[7] - m[3] * m[4] * m[14] + m[3] * m[12] * m[6]
    requires a[7] == m[0] * m[6] * m[11] - m[0] * m[10] * m[7] - m[2] * m[4] * m[11] + m[2] * m[8] * m[7] + m[3] * m[4] * m[10] - m[3] * m[8] * m[6]
    ensures p[4] == 0.0
    ensures p[5] == Det(m)
    ensures p[6] == 0.0
    ensures p[7] == 0.0
  {
    ProductColumn4(p, m, a, 1);
    RightColumnEntries1(p, m, a);
  }

  /** Column 2 of m·adj from its four sums of products. */
  lemma RightColumnEntries2(p: seq<real>, m: seq<real>, a: seq<real>)
    requires |p| == 16 && |m| == 16 && |a| == 16
    requires p[8] == m[0] * a[8] + m[4] * a[9] + m[8] * a[10] + m[12] * a[11]
    requires p[9] == m[1] * a[8] + m[5] * a[9] + m[9] * a[10] + m[13] * a[11]
    requires p[10] == m[2] * a[8] + m[6] * a[9] + m[10] * a[10] + m[14] * a[11]
    requires p[11] == m[3] * a[8] + m[7] * a[9] + m[11] * a[10] + m[15] * a[11]
    requires a[8] == m[4] * m[9] * m[15] - m[4] * m[13] * m[11] - m[5] * m[8] * m[15] + m[5] * m[12] * m[11] + m[7] * m[8] * m[13] - m[7] * m[12] * m[9]
    requires a[9] == - m[0] * m[9] * m[15] + m[0] * m[13] * m[11] + m[1] * m[8] * m[15] - m[1] * m[12] * m[11] - m[3] * m[8] * m[13] + m[3] * m[12] * m[9]
    requires a[10] == m[0] * m[5] * m[15] - m[0] * m[13] * m[7] - m[1] * m[4] * m[15] + m[1] * m[12] * m[7] + m[3] * m[4] * m[13] - m[3] * m[12] * m[5]
    requires a[11] == - m[0] * m[5] * m[11] + m[0] * m[9] * m[7] + m[1] * m[4] * m[11] - m[1] * m[8] * m[7] - m[3] * m[4] * m[9] + m[3] * m[8] * m[5]
    ensures p[8] == 0.0
    ensures p[9] == 0.0
    ensures p[10] == Det(m)
    ensures p[11] == 0.0
  {
    RightColumn2(m[0], m[1], m[2], m[3], m[4], m[5], m[6], m[7], m[8], m[9], m[10], m[11], m[12], m[13], m[14], m[15], a[8], a[9], a[10], a[11]);
  }

  /** Column 2 of the product p of m and a, when column 2 of a is that of the adjugate. */
  lemma RightColumnOf2(p: seq<real>, m: seq<real>, a: seq<real>)
    requires |m| == 16 && |a| == 16 && ProductEntries(p, m, a, 4)
    requires a[8] == m[4] * m[9] * m[15] - m[4] * m[13] * m[11] - m[5] * m[8] * m[15] + m[5] * m[12] * m[11] + m[7] * m[8] * m[13] - m[7] * m[12] * m[9]
    requires a[9] == - m[0] * m[9] * m[15] + m[0] * m[13] * m[11] + m[1] * m[8] * m[15] - m[1] * m[12] * m[11] - m[3] * m[8] * m[13] + m[3] * m[12] * m[9]
    requires a[10] == m[0] * m[5] * m[15] - m[0] * m[13] * m[7] - m[1] * m[4] * m[15] + m[1] * m[12] * m[7] + m[3] * m[4] * m[13] - m[3] * m[12] * m[5]
    requires a[11] == - m[0] * m[5] * m[11] + m[0] * m[9] * m[7] + m[1] * m[4] * m[11] - m[1] * m[8] * m[7] - m[3] * m[4] * m[9] + m[3] * m[8] * m[5]
    ensures p[8] == 0.0
    ensures p[9] == 0.0
    ensures p[10] == Det(m)
    ensures p[11] == 0.0
  {
    ProductColumn4(p, m, a, 2);
    RightColumnEntries2(p, m, a);
  }

  /** Column 3 of m·adj from its four sums of products. */
  lemma RightColumnEntries3(p: seq<real>, m: seq<real>, a: seq<real>)
    requires |p| == 16 && |m| == 16 && |a| == 16
    requires p[12] == m[0] * a[12] + m[4] * a[13] + m[8] * a[14] + m[12] * a[15]
    requires p[13] == m[1] * a[12] + m[5] * a[13] + m[9] * a[14] + m[13] * a[15]
    requires p[14] == m[2] * a[12] + m[6] * a[13] + m[10] * a[14] + m[14] * a[15]
    requires p[15] == m[3] * a[12] + m[7] * a[13] + m[11] * a[14] + m[15] * a[15]
    requires a[12] == - m[4] * m[9] * m[14] + m[4] * m[13] * m[10] + m[5] * m[8] * m[14] - m[5] * m[12] * m[10] - m[6] * m[8] * m[13] + m[6] * m[12] * m[9]
    requires a[13] == m[0] * m[9] * m[14] - m[0] * m[13] * m[10] - m[1] * m[8] * m[14] + m[1] * m[12] * m[10] + m[2] * m[8] * m[13] - m[2] * m[12] * m[9]
    requires a[14] == - m[0] * m[5] * m[14] + m[0] * m[13] * m[6] + m[1] * m[4] * m[14] - m[1] * m[12] * m[6] - m[2] * m[4] * m[13] + m[2] * m[12] * m[5]
    requires a[15] == m[0] * m[5] * m[10] - m[0] * m[9] * m[6] - m[1] * m[4] * m[10] + m[1] * m[8] * m[6] + m[2] * m[4] * m[9] - m[2] * m[8] * m[5]
    ensures p[12] == 0.0
    ensures p[13] == 0.0
    ensures p[14] == 0.0
    ensures p[15] == Det(m)
  {
    RightColumn3(m[0], m[1], m[2], m[3], m[4], m[5], m[6], m[7], m[8], m[9], m[10], m[11], m[12], m[13], m[14], m[15], a[12], a[13], a[14], a[15]);
  }

  /** Column 3 of the product p of m and a, when column 3 of a is that of the adjugate. */
  lemma RightColumnOf3(p: seq<real>, m: seq<real>, a: seq<real>)
    requires |m| == 16 && |a| == 16 && ProductEntries(p, m, a, 4)
    requires a[12] == - m[4] * m[9] * m[14] + m[4] * m[13] * m[10] + m[5] * m[8] * m[14] - m[5] * m[12] * m[10] - m[6] * m[8] * m[13] + m[6] * m[12] * m[9]
    requires a[13] == m[0] * m[9] * m[14] - m[0] * m[13] * m[10] - m[1] * m[8] * m[14] + m[1] * m[12] * m[10] + m[2] * m[8] * m[13] - m[2] * m[12] * m[9]
    requires a[14] == - m[0] * m[5] * m[14] + m[0] * m[13] * m[6] + m[1] * m[4] * m[14] - m[1] * m[12] * m[6] - m[2] * m[4] * m[13] + m[2] * m[12] * m[5]
    requires a[15] == m[0] * m[5] * m[10] - m[0] * m[9] * m[6] - m[1] * m[4] * m[10] + m[1] * m[8] * m[6] + m[2] * m[4] * m[9] - m[2] * m[8] * m[5]
    ensures p[12] == 0.0
    ensures p[13] == 0.0
    ensures p[14] == 0.0
    ensures p[15] == Det(m)
  {
    ProductColumn4(p, m, a, 3);
    RightColumnEntries3(p, m, a);
  }

  /** Row 0 of adj·m from its four sums of products. */
  lemma LeftRowEntries0(p: seq<real>, m: seq<real>, a: seq<real>)
    requires |p| == 16 && |m| == 16 && |a| == 16
    requires p[0] == a[0] * m[0] + a[4] * m[1] + a[8] * m[2] + a[12] * m[3]
    requires p[4] == a[0] * m[4] + a[4] * m[5] + a[8] * m[6] + a[12] * m[7]
    requires p[8] == a[0] * m[8] + a[4] * m[9] + a[8] * m[10] + a[12] * m[11]
    requires p[12] == a[0] * m[12] + a[4] * m[13] + a[8] * m[14] + a[12] * m[15]
    requires a[0] == m[5] * m[10] * m[15] - m[5] * m[14] * m[11] - m[6] * m[9] * m[15] + m[6] * m[13] * m[11] + m[7] * m[9] * m[14] - m[7] * m[13] * m[10]
    requires a[4] == - m[4] * m[10] * m[15] + m[4] * m[14] * m[11] + m[6] * m[8] * m[15] - m[6] * m[12] * m[11] - m[7] * m[8] * m[14] + m[7] * m[12] * m[10]
    requires a[8] == m[4] * m[9] * m[15] - m[4] * m[13] * m[11] - m[5] * m[8] * m[15] + m[5] * m[12] * m[11] + m[7] * m[8] * m[13] - m[7] * m[12] * m[9]
    requires a[12] == - m[4] * m[9] * m[14] + m[4] * m[13] * m[10] + m[5] * m[8] * m[14] - m[5] * m[12] * m[10] - m[6] * m[8] * m[13] + m[6] * m[12] * m[9]
    ensures p[0] == Det(m)
    ensures p[4] == 0.0
    ensures p[8] == 0.0
    ensures p[12] == 0.0
  {
    LeftRow0(m[0], m[1], m[2], m[3], m[4], m[5], m[6], m[7], m[8], m[9], m[10], m[11], m[12], m[13], m[14], m[15], a[0], a[4], a[8], a[12]);
  }

  /** Row 0 of the product p of a and m, when row 0 of a is that of the adjugate. */
  lemma LeftRowOf0(p: seq<real>, m: seq<real>, a: seq<real>)
    requires |m| == 16 && |a| == 16 && ProductEntries(p, a, m, 4)
    requires a[0] == m[5] * m[10] * m[15] - m[5] * m[14] * m[11] - m[6] * m[9] * m[15] + m[6] * m[13] * m[11] + m[7] * m[9] * m[14] - m[7] * m[13] * m[10]
    requires a[4] == - m[4] * m[10] * m[15] + m[4] * m[14] * m[11] + m[6] * m[8] * m[15] - m[6] * m[12] * m[11] - m[7] * m[8] * m[14] + m[7] * m[12] * m[10]
    requires a[8] == m[4] * m[9] * m[15] - m[4] * m[13] * m[11] - m[5] * m[8] * m[15] + m[5] * m[12] * m[11] + m[7] * m[8] * m[13] - m[7] * m[12] * m[9]
    requires a[12] == - m[4] * m[9] * m[14] + m[4] * m[13] * m[10] + m[5] * m[8] * m[14] - m[5] * m[12] * m[10] - m[6] * m[8] * m[13] + m[6] * m[12] * m[9]
    ensures p[0] == Det(m)
    ensures p[4] == 0.0
    ensures p[8] == 0.0
    ensures p[12] == 0.0
  {
    ProductRow4(p, a, m, 0);
    LeftRowEntries0(p, m, a);
  }

  /** Row 1 of adj·m from its four sums of products. */
  lemma LeftRowEntries1(p: seq<real>, m: seq<real>, a: seq<real>)
    requires |p| == 16 && |m| == 16 && |a| == 16
    requires p[1] == a[1] * m[0] + a[5] * m[1] + a[9] * m[2] + a[13] * m[3]
    requires p[5] == a[1] * m[4] + a[5] * m[5] + a[9] * m[6] + a[13] * m[7]
    requires p[9] == a[1] * m[8] + a[5] * m[9] + a[9] * m[10] + a[13] * m[11]
    requires p[13] == a[1] * m[12] + a[5] * m[13] + a[9] * m[14] + a[13] * m[15]
    requires a[1] == - m[1] * m[10] * m[15] + m[1] * m[14] * m[11] + m[2] * m[9] * m[15] - m[2] * m[13] * m[11] - m[3] * m[9] * m[14] + m[3] * m[13] * m[10]
    requires a[5] == m[0] * m[10] * m[15] - m[0] * m[14] * m[11] - m[2] * m[8] * m[15] + m[2] * m[12] * m[11] + m[3] * m[8] * m[14] - m[3] * m[12] * m[10]
    requires a[9] == - m[0] * m[9] * m[15] + m[0] * m[13] * m[11] + m[1] * m[8] * m[15] - m[1] * m[12] * m[11] - m[3] * m[8] * m[13] + m[3] * m[12] * m[9]
    requires a[13] == m[0] * m[9] * m[14] - m[0] * m[13] * m[10] - m[1] * m[8] * m[14] + m[1] * m[12] * m[10] + m[2] * m[8] * m[13] - m[2] * m[12] * m[9]
    ensures p[1] == 0.0
    ensures p[5] == Det(m)
    ensures p[9] == 0.0
    ensures p[13] == 0.0
  {
    LeftRow1(m[0], m[1], m[2], m[3], m[4], m[5], m[6], m[7], m[8], m[9], m[10], m[11], m[12], m[13], m[14], m[15], a[1], a[5], a[9], a[13]);
  }

  /** Row 1 of the product p of a and m, when row 1 of a is that of the adjugate. */
  lemma LeftRowOf1(p: seq<real>, m: seq<real>, a: seq<real>)
    requires |m| == 16 && |a| == 16 && ProductEntries(p, a, m, 4)
    requires a[1] == - m[1] * m[10] * m[15] + m[1] * m[14] * m[11] + m[2] * m[9] * m[15] - m[2] * m[13] * m[11] - m[3] * m[9] * m[14] + m[3] * m[13] * m[10]
    requires a[5] == m[0] * m[10] * m[15] - m[0] * m[14] * m[11] - m[2] * m[8] * m[15] + m[2] * m[12] * m[11] + m[3] * m[8] * m[14] - m[3] * m[12] * m[10]
    requires a[9] == - m[0] * m[9] * m[15] + m[0] * m[13] * m[11] + m[1] * m[8] * m[15] - m[1] * m[12] * m[11] - m[3] * m[8] * m[13] + m[3] * m[12] * m[9]
    requires a[13] == m[0] * m[9] * m[14] - m[0] * m[13] * m[10] - m[1] * m[8] * m[14] + m[1] * m[12] * m[10] + m[2] * m[8] * m[13] - m[2] * m[12] * m[9]
    ensures p[1] == 0.0
    ensures p[5] == Det(m)
    ensures p[9] == 0.0
    ensures p[13] == 0.0
  {
    ProductRow4(p, a, m, 1);
    LeftRowEntries1(p, m, a);
  }

  /** Row 2 of adj·m from its four sums of products. */
  lemma LeftRowEntries2(p: seq<real>, m: seq<real>, a: seq<real>)
    requires |p| == 16 && |m| == 16 && |a| == 16
    requires p[2] == a[2] * m[0] + a[6] * m[1] + a[10] * m[2] + a[14] * m[3]
    requires p[6] == a[2] * m[4] + a[6] * m[5] + a[10] * m[6] + a[14] * m[7]
    requires p[10] == a[2] * m[8] + a[6] * m[9] + a[10] * m[10] + a[14] * m[11]
    requires p[14] == a[2] * m[12] + a[6] * m[13] + a[10] * m[14] + a[14] * m[15]
    requires a[2] == m[1] * m[6] * m[15] - m[1] * m[14] * m[7] - m[2] * m[5] * m[15] + m[2] * m[13] * m[7] + m[3] * m[5] * m[14] - m[3] * m[13] * m[6]
    requires a[6] == - m[0] * m[6] * m[15] + m[0] * m[14] * m[7] + m[2] * m[4] * m[15] - m[2] * m[12] * m[7] - m[3] * m[4] * m[14] + m[3] * m[12] * m[6]
    requires a[10] == m[0] * m[5] * m[15] - m[0] * m[13] * m[7] - m[1] * m[4] * m[15] + m[1] * m[12] * m[7] + m[3] * m[4] * m[13] - m[3] * m[12] * m[5]
    requires a[14] == - m[0] * m[5] * m[14] + m[0] * m[13] * m[6] + m[1] * m[4] * m[14] - m[1] * m[12] * m[6] - m[2] * m[4] * m[13] + m[2] * m[12] * m[5]
    ensures p[2] == 0.0
    ensures p[6] == 0.0
    ensures p[10] == Det(m)
    ensures p[14] == 0.0
  {
    LeftRow2(m[0], m[1], m[2], m[3], m[4], m[5], m[6], m[7], m[8], m[9], m[10], m[11], m[12], m[13], m[14], m[15], a[2], a[6], a[10], a[14]);
  }

  /** Row 2 of the product p of a and m, when row 2 of a is that of the adjugate. */
  lemma LeftRowOf2(p: seq<real>, m: seq<real>, a: seq<real>)
    requires |m| == 16 && |a| == 16 && ProductEntries(p, a, m, 4)
    requires a[2] == m[1] * m[6] * m[15] - m[1] * m[14] * m[7] - m[2] * m[5] * m[15] + m[2] * m[13] * m[7] + m[3] * m[5] * m[14] - m[3] * m[13] * m[6]
    requires a[6] == - m[0] * m[6] * m[15] + m[0] * m[14] * m[7] + m[2] * m[4] * m[15] - m[2] * m[12] * m[7] - m[3] * m[4] * m[14] + m[3] * m[12] * m[6]
    requires a[10] == m[0] * m[5] * m[15] - m[0] * m[13] * m[7] - m[1] * m[4] * m[15] + m[1] * m[12] * m[7] + m[3] * m[4] * m[13] - m[3] * m[12] * m[5]
    requires a[14] == - m[0] * m[5] * m[14] + m[0] * m[13] * m[6] + m[1] * m[4] * m[14] - m[1] * m[12] * m[6] - m[2] * m[4] * m[13] + m[2] * m[12] * m[5]
    ensures p[2] == 0.0
    ensures p[6] == 0.0
    ensures p[10] == Det(m)
    ensures p[14] == 0.0
  {
    ProductRow4(p, a, m, 2);
    LeftRowEntries2(p, m, a);
  }

  /** Row 3 of adj·m from its four sums of products. */
  lemma LeftRowEntries3(p: seq<real>, m: seq<real>, a: seq<real>)
    requires |p| == 16 && |m| == 16 && |a| == 16
    requires p[3] == a[3] * m[0] + a[7] * m[1] + a[11] * m[2] + a[15] * m[3]
    requires p[7] == a[3] * m[4] + a[7] * m[5] + a[11] * m[6] + a[15] * m[7]
    requires p[11] == a[3] * m[8] + a[7] * m[9] + a[11] * m[10] + a[15] * m[11]
    requires p[15] == a[3] * m[12] + a[7] * m[13] + a[11] * m[14] + a[15] * m[15]
    requires a[3] == - m[1] * m[6] * m[11] + m[1] * m[10] * m[7] + m[2] * m[5] * m[11] - m[2] * m[9] * m[7] - m[3] * m[5] * m[10] + m[3] * m[9] * m[6]
    requires a[7] == m[0] * m[6] * m[11] - m[0] * m[10] * m[7] - m[2] * m[4] * m[11] + m[2] * m[8] * m[7] + m[3] * m[4] * m[10] - m[3] * m[8] * m[6]
    requires a[11] == - m[0] * m[5] * m[11] + m[0] * m[9] * m[7] + m[1] * m[4] * m[11] - m[1] * m[8] * m[7] - m[3] * m[4] * m[9] + m[3] * m[8] * m[5]
    requires a[15] == m[0] * m[5] * m[10] - m[0] * m[9] * m[6] - m[1] * m[4] * m[10] + m[1] * m[8] * m[6] + m[2] * m[4] * m[9] - m[2] * m[8] * m[5]
    ensures p[3] == 0.0
    ensures p[7] == 0.0
    ensures p[11] == 0.0
    ensures p[15] == Det(m)
  {
    LeftRow3(m[0], m[1], m[2], m[3], m[4], m[5], m[6], m[7], m[8], m[9], m[10], m[11], m[12], m[13], m[14], m[15], a[3], a[7], a[11], a[15]);
  }

  /** Row 3 of the product p of a and m, when row 3 of a is that of the adjugate. */
  lemma LeftRowOf3(p: seq<real>, m: seq<real>, a: seq<real>)
    requires |m| == 16 && |a| == 16 && ProductEntries(p, a, m, 4)
    requires a[3] == - m[1] * m[6] * m[11] + m[1] * m[10] * m[7] + m[2] * m[5] * m[11] - m[2] * m[9] * m[7] - m[3] * m[5] * m[10] + m[3] * m[9] * m[6]
    requires a[7] == m[0] * m[6] * m[11] - m[0] * m[10] * m[7] - m[2] * m[4] * m[11] + m[2] * m[8] * m[7] + m[3] * m[4] * m[10] - m[3] * m[8] * m[6]
    requires a[11] == - m[0] * m[5] * m[11] + m[0] * m[9] * m[7] + m[1] * m[4] * m[11] - m[1] * m[8] * m[7] - m[3] * m[4] * m[9] + m[3] * m[8] * m[5]
    requires a[15] == m[0] * m[5] * m[10] - m[0] * m[9] * m[6] - m[1] * m[4] * m[10] + m[1] * m[8] * m[6] + m[2] * m[4] * m[9] - m[2] * m[8] * m[5]
    ensures p[3] == 0.0
    ensures p[7] == 0.0
    ensures p[11] == 0.0
    ensures p[15] == Det(m)
  {
    ProductRow4(p, a, m, 3);
    LeftRowEntries3(p, m, a);
  }

  /** The product p of m and its adjugate is det·I. */
  lemma AdjugateRightOf(p: seq<real>, m: seq<real>)
    requires |m| == 16 && ProductEntries(p, m, Adjugate(m), 4)
    ensures var d := Det(m); p == [d, 0.0, 0.0, 0.0, 0.0, d, 0.0, 0.0, 0.0, 0.0, d, 0.0, 0.0, 0.0, 0.0, d]
  {
    var a, d := Adjugate(m), Det(m);
    RightColumnOf0(p, m, a);
    RightColumnOf1(p, m, a);
    RightColumnOf2(p, m, a);
    RightColumnOf3(p, m, a);
    assert p[0] == d && p[1] == 0.0 && p[2] == 0.0 && p[3] == 0.0;
    assert p[4] == 0.0 && p[5] == d && p[6] == 0.0 && p[7] == 0.0;
    assert p[8] == 0.0 && p[9] == 0.0 && p[10] == d && p[11] == 0.0;
    assert p[12] == 0.0 && p[13] == 0.0 && p[14] == 0.0 && p[15] == d;
  }

  /** The product p of the adjugate of m and m is det·I. */
  lemma AdjugateLeftOf(p: seq<real>, m: seq<real>)
    requires |m| == 16 && ProductEntries(p, Adjugate(m), m, 4)
    ensures var d := Det(m); p == [d, 0.0, 0.0, 0.0, 0.0, d, 0.0, 0.0, 0.0, 0.0, d, 0.0, 0.0, 0.0, 0.0, d]
  {
    var a, d := Adjugate(m), Det(m);
    LeftRowOf0(p, m, a);
    LeftRowOf1(p, m, a);
    LeftRowOf2(p, m, a);
    LeftRowOf3(p, m, a);
    assert p[0] == d && p[1] == 0.0 && p[2] == 0.0 && p[3] == 0.0;
    assert p[4] == 0.0 && p[5] == d && p[6] == 0.0 && p[7] == 0.0;
    assert p[8] == 0.0 && p[9] == 0.0 && p[10] == d && p[11] == 0.0;
    assert p[12] == 0.0 && p[13] == 0.0 && p[14] == 0.0 && p[15] == d;
  }

  /** M·adj = adj·M = det·I. */
  lemma ProductAdjugate(m: seq<real>)
    requires |m| == 16
    ensures Product(m, Adjugate(m), 4) == Diagonal(4, Det(m))
    ensures Product(Adjugate(m), m, 4) == Diagonal(4, Det(m))
  {
    Diagonal4(Det(m));
    AdjugateRightOf(Product(m, Adjugate(m), 4), m);
    AdjugateLeftOf(Product(Adjugate(m), m, 4), m);
  }

  /** `m.mul(m.adjugate())` and `m.adjugate().mul(m)` are both `new Mat4(m.det)`, det·identity. */
  lemma MulAdjugate(m: Instance)
    requires m.cls == Mat4
    ensures NewMatrix(Mat4, [Num(Det(m.val))]).Ok?
    ensures MulOf(m, Obj(AdjugateOf(m).value)) == Ok(Value(NewMatrix(Mat4, [Num(Det(m.val))]).value))
    ensures MulOf(AdjugateOf(m).value, Obj(m)) == Ok(Value(NewMatrix(Mat4, [Num(Det(m.val))]).value))
  {
    ProductAdjugate(m.val);
    FlattenNums([Det(m.val)]);
    assert Nums([Det(m.val)]) == [Num(Det(m.val))];
  }

  /** det(identity) = 1. */
  lemma DetIdentity()
    ensures Det(Identity(4)) == 1.0
  {
    Diagonal4(1.0);
  }

  /**
   * `_valFromMat3`: each column of the Mat3 followed by a 0, then the
   * identity's last column (0, 0, 0, 1).
   */
  method ValFromMat3(m: Instance) returns (val: seq<real>)
    requires m.cls == Mat3
    ensures val == Resize(m.val, 3, 4)
  {
    val := PaddedColumns(m, 4);
    ghost var full := Resize(m.val, 3, 4);
    PaddedRest(m.val, 3, 4);
    Diagonal4(1.0);
    assert full[12..] == [0.0, 0.0, 0.0, 1.0];
    assert full == full[..12] + full[12..];
    val := val + [0.0, 0.0, 0.0, 1.0];
  }

  /**
   * `_valFromMat2`: each column of the Mat2 followed by two 0s, then the
   * identity's last two columns (0, 0, 1, 0) and (0, 0, 0, 1).
   */
  method ValFromMat2(m: Instance) returns (val: seq<real>)
    requires m.cls == Mat2
    ensures val == Resize(m.val, 2, 4)
  {
    val := PaddedColumns(m, 4);
    ghost var full := Resize(m.val, 2, 4);
    PaddedRest(m.val, 2, 4);
    Diagonal4(1.0);
    assert full[8..] == [0.0, 0.0, 1.0, 0.0, 0.0, 0.0, 0.0, 1.0];
    assert full == full[..8] + full[8..];
    val := val + [0.0, 0.0, 1.0, 0.0, 0.0, 0.0, 0.0, 1.0];
  }

  /** The constructor: a Mat4 is copied, a Mat3 or Mat2 is padded into the identity. */
  method Construct(args: seq<Arg>) returns (r: Result<Instance>)
    ensures r == NewMatrix(Mat4, args)
  {
    if |args| > 0 && args[0].Obj? && args[0].o.cls == Mat4 {
      ResizeSame(args[0].o.val, 4);
      r := Matrix.Construct(Mat4, Nums(args[0].o.val));
    } else if |args| > 0 && args[0].Obj? && args[0].o.cls == Mat3 {
      var val := ValFromMat3(args[0].o);
      r := Matrix.Construct(Mat4, Nums(val));
    } else if |args| > 0 && args[0].Obj? && args[0].o.cls == Mat2 {
      var val := ValFromMat2(args[0].o);
      r := Matrix.Construct(Mat4, Nums(val));
    } else {
      r := Matrix.Construct(Mat4, args);
    }
  }

  /** A 4x4 matrix r holding the 3x3 matrix m top-left and the identity elsewhere. */
  lemma Embedded3(r: seq<real>, m: seq<real>)
    requires |r| == 16 && |m| == 9
    requires forall row, col :: 0 <= row < 4 && 0 <= col < 4 ==>
      Get(r, 4, row, col) == if row < 3 && col < 3 then Get(m, 3, row, col) else if row == col then 1.0 else 0.0
    ensures r == [m[0], m[1], m[2], 0.0, m[3], m[4], m[5], 0.0, m[6], m[7], m[8], 0.0, 0.0, 0.0, 0.0, 1.0]
  {
    assert Get(r, 4, 0, 0) == Get(m, 3, 0, 0) && Get(r, 4, 1, 0) == Get(m, 3, 1, 0) && Get(r, 4, 2, 0) == Get(m, 3, 2, 0);
    assert Get(r, 4, 0, 1) == Get(m, 3, 0, 1) && Get(r, 4, 1, 1) == Get(m, 3, 1, 1) && Get(r, 4, 2, 1) == Get(m, 3, 2, 1);
    assert Get(r, 4, 0, 2) == Get(m, 3, 0, 2) && Get(r, 4, 1, 2) == Get(m, 3, 1, 2) && Get(r, 4, 2, 2) == Get(m, 3, 2, 2);
    assert Get(r, 4, 3, 0) == 0.0 && Get(r, 4, 3, 1) == 0.0 && Get(r, 4, 3, 2) == 0.0;
    assert Get(r, 4, 0, 3) == 0.0 && Get(r, 4, 1, 3) == 0.0 && Get(r, 4, 2, 3) == 0.0 && Get(r, 4, 3, 3) == 1.0;
  }

  /** A 3 x 3 matrix embedded top-left, with (0, 0, 0, 1) as the fourth row and column, keeps its determinant. */
  lemma EmbeddedDet(m: seq<real>)
    requires |m| == 9
    ensures Det([m[0], m[1], m[2], 0.0, m[3], m[4], m[5], 0.0, m[6], m[7], m[8], 0.0, 0.0, 0.0, 0.0, 1.0]) == Matrix3.Det(m)
  {
    EmbeddedExpansion(m[0], m[1], m[2], m[3], m[4], m[5], m[6], m[7], m[8]);
  }

  lemma EmbeddedExpansion(m0: real, m1: real, m2: real, m3: real, m4: real, m5: real, m6: real, m7: real, m8: real)
    ensures Expansion(m0, m1, m2, 0.0, m3, m4, m5, 0.0, m6, m7, m8, 0.0, 0.0, 0.0, 0.0, 1.0)
         == Matrix3.Expansion(m0, m1, m2, m3, m4, m5, m6, m7, m8)
  {
  }

  /** Constructing from a Mat3 embeds it top-left; the fourth row and column are (0, 0, 0, 1). */
  lemma FromMat3(m: Instance)
    requires m.cls == Mat3
    ensures NewMatrix(Mat4, [Obj(m)]).Ok?
    ensures NewMatrix(Mat4, [Obj(m)]).value.val ==
      [m.val[0], m.val[1], m.val[2], 0.0, m.val[3], m.val[4], m.val[5], 0.0, m.val[6], m.val[7], m.val[8], 0.0, 0.0, 0.0, 0.0, 1.0]
  {
    Conversion(Mat4, m, []);
    Embedded3(Resize(m.val, 3, 4), m.val);
  }

  /** A 4x4 matrix r holding the 2x2 matrix m top-left and the identity elsewhere. */
  lemma Embedded2(r: seq<real>, m: seq<real>)
    requires |r| == 16 && |m| == 4
    requires forall row, col :: 0 <= row < 4 && 0 <= col < 4 ==>
      Get(r, 4, row, col) == if row < 2 && col < 2 then Get(m, 2, row, col) else if row == col then 1.0 else 0.0
    ensures r == [m[0], m[1], 0.0, 0.0, m[2], m[3], 0.0, 0.0, 0.0, 0.0, 1.0, 0.0, 0.0, 0.0, 0.0, 1.0]
  {
    assert Get(r, 4, 0, 0) == Get(m, 2, 0, 0) && Get(r, 4, 1, 0) == Get(m, 2, 1, 0);
    assert Get(r, 4, 0, 1) == Get(m, 2, 0, 1) && Get(r, 4, 1, 1) == Get(m, 2, 1, 1);
    assert Get(r, 4, 2, 0) == 0.0 && Get(r, 4, 3, 0) == 0.0 && Get(r, 4, 2, 1) == 0.0 && Get(r, 4, 3, 1) == 0.0;
    assert Get(r, 4, 0, 2) == 0.0 && Get(r, 4, 1, 2) == 0.0 && Get(r, 4, 2, 2) == 1.0 && Get(r, 4, 3, 2) == 0.0;
    assert Get(r, 4, 0, 3) == 0.0 && Get(r, 4, 1, 3) == 0.0 && Get(r, 4, 2, 3) == 0.0 && Get(r, 4, 3, 3) == 1.0;
  }

  /** Constructing from a Mat2 embeds it top-left in the identity. */
  lemma FromMat2(m: Instance)
    requires m.cls == Mat2
    ensures NewMatrix(Mat4, [Obj(m)]).Ok?
    ensures NewMatrix(Mat4, [Obj(m)]).value.val ==
      [m.val[0], m.val[1], 0.0, 0.0, m.val[2], m.val[3], 0.0, 0.0, 0.0, 0.0, 1.0, 0.0, 0.0, 0.0, 0.0, 1.0]
  {
    Conversion(Mat4, m, []);
    Embedded2(Resize(m.val, 2, 4), m.val);
  }

  /** Mat4(Mat2.identity) = Mat4(Mat3.identity) = Mat4.identity. */
  lemma IdentityFromSmaller()
    ensures NewMatrix(Mat4, [Obj(IdentityOf(Mat2).value)]) == IdentityOf(Mat4)
    ensures NewMatrix(Mat4, [Obj(IdentityOf(Mat3).value)]) == IdentityOf(Mat4)
  {
    Conversion(Mat4, IdentityOf(Mat2).value, []);
    ResizeIdentity(2, 4);
    Conversion(Mat4, IdentityOf(Mat3).value, []);
    ResizeIdentity(3, 4);
  }
}

=== FILE: mat_algebra.dfy ===
/**
 * Algebraic laws of the products of matrix/Mat.js and matrix/Vec.js: the
 * identity matrix is neutral, the matrix product is associative, matrix
 * times vector composes with the matrix product, transposition reverses a
 * product, and an adjugate scaled by 1/det (what `_invert` returns) is the
 * inverse whenever the adjugate really satisfies m·adj = adj·m = det·I.
 */
module MatrixAlgebra {
  import opened Sums
  import opened ColumnMajor
  import opened MatBase
  import Vector
  import opened Matrix

  /** The summands a(row, t)·b(t, k)·c(k, col) of both sides of the associative law, by (t, k). */
  function Term(a: seq<real>, b: seq<real>, c: seq<real>, n: nat, row: int, col: int): (int, int) -> real
  {
    (t, k) => Get(a, n, row, t) * Get(b, n, t, k) * Get(c, n, k, col)
  }

  /**
   * Steps of real arithmetic, each stated for plain reals: the solver takes
   * them much more cheaply here than next to the index arithmetic of Get.
   * They are field axioms that only guide the solver and model nothing of the library.
   */
  lemma MulComm(x: real, y: real)
    ensures x * y == y * x
  {
  }

  lemma MulAssoc(x: real, y: real, z: real)
    ensures x * (y * z) == x * y * z
  {
  }

  lemma MulSwap(x: real, y: real, z: real)
    ensures x * z * y == x * y * z
  {
  }

  lemma MulRotate(x: real, y: real, z: real)
    ensures x * y * z == y * z * x
  {
  }

  lemma MulEqual(x: real, y: real, z: real)
    requires x == y
    ensures x * z == y * z
  {
  }

  lemma MulZero(x: real, y: real)
    requires x == 0.0
    ensures x * y == 0.0
  {
  }

  /** Reading a scaled matrix scales the entry. */
  lemma GetScaled(s: seq<real>, n: nat, k: real, row: int, col: int)
    requires |s| == n * n && 0 <= row < n && 0 <= col < n
    ensures Get(Scaled(s, k), n, row, col) == Get(s, n, row, col) * k
  {
    IndexBound(n, row, col);
  }

  /** Entry (row, col) of I·m is m(row, col). */
  lemma IdentityLeftEntry(m: seq<real>, n: nat, row: int, col: int)
    requires |m| == n * n && 0 <= row < n && 0 <= col < n
    ensures Get(Product(Identity(n), m, n), n, row, col) == Get(m, n, row, col)
  {
    var id := Identity(n);
    forall k | 0 <= k < n && k != row
      ensures RowCol(id, m, n, row, col)(k) == 0.0
    {
      MulZero(Get(id, n, row, k), Get(m, n, k, col));
    }
    MulEqual(Get(id, n, row, row), 1.0, Get(m, n, row, col));
    SumSingle(n, RowCol(id, m, n, row, col), row);
  }

  /** I·m = m. */
  lemma ProductIdentityLeft(m: seq<real>, n: nat)
    requires |m| == n * n
    ensures Product(Identity(n), m, n) == m
  {
    forall row, col | 0 <= row < n && 0 <= col < n
      ensures Get(Product(Identity(n), m, n), n, row, col) == Get(m, n, row, col)
    {
      IdentityLeftEntry(m, n, row, col);
    }
    EqualByEntries(Product(Identity(n), m, n), m, n);
  }

  /** Entry (row, col) of m·I is m(row, col). */
  lemma IdentityRightEntry(m: seq<real>, n: nat, row: int, col: int)
    requires |m| == n * n && 0 <= row < n && 0 <= col < n
    ensures Get(Product(m, Identity(n), n), n, row, col) == Get(m, n, row, col)
  {
    var id := Identity(n);
    forall k | 0 <= k < n && k != col
      ensures RowCol(m, id, n, row, col)(k) == 0.0
    {
      MulComm(Get(m, n, row, k), Get(id, n, k, col));
      MulZero(Get(id, n, k, col), Get(m, n, row, k));
    }
    MulComm(Get(m, n, row, col), Get(id, n, col, col));
    MulEqual(Get(id, n, col, col), 1.0, Get(m, n, row, col));
    SumSingle(n, RowCol(m, id, n, row, col), col);
  }

  /** m·I = m. */
  lemma ProductIdentityRight(m: seq<real>, n: nat)
    requires |m| == n * n
    ensures Product(m, Identity(n), n) == m
  {
    forall row, col | 0 <= row < n && 0 <= col < n
      ensures Get(Product(m, Identity(n), n), n, row, col) == Get(m, n, row, col)
    {
      IdentityRightEntry(m, n, row, col);
    }
    EqualByEntries(Product(m, Identity(n), n), m, n);
  }

  /** x·c(k, col) = Σ_t a(row, t)·b(t, k)·c(k, col) for x = (a·b)(row, k). */
  lemma LeftInner(a: seq<real>, b: seq<real>, c: seq<real>, n: nat, row: int, col: int, k: int, x: real)
    requires x == Sum(n, RowCol(a, b, n, row, k))
    ensures x * Get(c, n, k, col) == Sum(n, ColOf(Term(a, b, c, n, row, col), k))
  {
    LeftInnerTerms(a, b, c, n, row, col, k);
    SumScale(n, RowCol(a, b, n, row, k), ColOf(Term(a, b, c, n, row, col), k), Get(c, n, k, col));
    MulEqual(x, Sum(n, RowCol(a, b, n, row, k)), Get(c, n, k, col));
  }

  /** Column k of the summands is column k of a·b scaled by c(k, col). */
  lemma LeftInnerTerms(a: seq<real>, b: seq<real>, c: seq<real>, n: nat, row: int, col: int, k: int)
    ensures Scales(n, RowCol(a, b, n, row, k), ColOf(Term(a, b, c, n, row, col), k), Get(c, n, k, col))
  {
  }

  /** a(row, t)·y = Σ_k a(row, t)·b(t, k)·c(k, col) for y = (b·c)(t, col). */
  lemma RightInner(a: seq<real>, b: seq<real>, c: seq<real>, n: nat, row: int, col: int, t: int, y: real)
    requires y == Sum(n, RowCol(b, c, n, t, col))
    ensures Get(a, n, row, t) * y == Sum(n, RowOf(Term(a, b, c, n, row, col), t))
  {
    RightInnerTerms(a, b, c, n, row, col, t);
    SumScale(n, RowCol(b, c, n, t, col), RowOf(Term(a, b, c, n, row, col), t), Get(a, n, row, t));
    MulComm(Get(a, n, row, t), y);
    MulEqual(y, Sum(n, RowCol(b, c, n, t, col)), Get(a, n, row, t));
  }

  /** Summand t of (a·bc)(row, col) is the sum of row t of Term, for bc(t, col) = (b·c)(t, col). */
  lemma RightExpandTerm(a: seq<real>, b: seq<real>, c: seq<real>, bc: seq<real>, n: nat, row: int, col: int, t: int)
    requires Get(bc, n, t, col) == Sum(n, RowCol(b, c, n, t, col))
    ensures RowCol(a, bc, n, row, col)(t) == RowSums(Term(a, b, c, n, row, col), n)(t)
  {
    RightInner(a, b, c, n, row, col, t, Get(bc, n, t, col));
  }

  /** Row t of the summands is row t of b·c scaled by a(row, t). */
  lemma RightInnerTerms(a: seq<real>, b: seq<real>, c: seq<real>, n: nat, row: int, col: int, t: int)
    ensures Scales(n, RowCol(b, c, n, t, col), RowOf(Term(a, b, c, n, row, col), t), Get(a, n, row, t))
  {
    forall k | 0 <= k < n {
      RightInnerTerm(a, b, c, n, row, col, t, k);
    }
  }

  /** Summand (t, k) is a(row, t) times summand k of (b·c)(t, col). */
  lemma RightInnerTerm(a: seq<real>, b: seq<real>, c: seq<real>, n: nat, row: int, col: int, t: int, k: int)
    ensures RowOf(Term(a, b, c, n, row, col), t)(k) == RowCol(b, c, n, t, col)(k) * Get(a, n, row, t)
  {
    MulRotate(Get(a, n, row, t), Get(b, n, t, k), Get(c, n, k, col));
  }

  /** ((a·b)·c)(row, col) = Σ_k Σ_t a(row, t)·b(t, k)·c(k, col). */
  lemma LeftExpand(a: seq<real>, b: seq<real>, c: seq<real>, n: nat, row: int, col: int)
    requires |a| == n * n && |b| == n * n && |c| == n * n && 0 <= row < n && 0 <= col < n
    ensures Get(Product(Product(a, b, n), c, n), n, row, col) == Sum(n, ColSums(Term(a, b, c, n, row, col), n))
  {
    var ab := Product(a, b, n);
    LeftExpandTerms(a, b, c, ab, n, row, col);
    SumExt(n, RowCol(ab, c, n, row, col), ColSums(Term(a, b, c, n, row, col), n));
  }

  /** The summands of (ab·c)(row, col) for ab = a·b, one column of Term each. */
  lemma LeftExpandTerms(a: seq<real>, b: seq<real>, c: seq<real>, ab: seq<real>, n: nat, row: int, col: int)
    requires forall k :: 0 <= k < n ==> Get(ab, n, row, k) == Sum(n, RowCol(a, b, n, row, k))
    ensures forall k :: 0 <= k < n ==> RowCol(ab, c, n, row, col)(k) == ColSums(Term(a, b, c, n, row, col), n)(k)
  {
    forall k | 0 <= k < n
      ensures RowCol(ab, c, n, row, col)(k) == ColSums(Term(a, b, c, n, row, col), n)(k)
    {
      LeftExpandTerm(a, b, c, ab, n, row, col, k);
    }
  }

  /** Summand k of (ab·c)(row, col) is the sum of column k of Term, for ab(row, k) = (a·b)(row, k). */
  lemma LeftExpandTerm(a: seq<real>, b: seq<real>, c: seq<real>, ab: seq<real>, n: nat, row: int, col: int, k: int)
    requires Get(ab, n, row, k) == Sum(n, RowCol(a, b, n, row, k))
    ensures RowCol(ab, c, n, row, col)(k) == ColSums(Term(a, b, c, n, row, col), n)(k)
  {
    LeftInner(a, b, c, n, row, col, k, Get(ab, n, row, k));
  }

  /** (a·(b·c))(row, col) = Σ_t Σ_k a(row, t)·b(t, k)·c(k, col). */
  lemma RightExpand(a: seq<real>, b: seq<real>, c: seq<real>, n: nat, row: int, col: int)
    requires |a| == n * n && |b| == n * n && |c| == n * n && 0 <= row < n && 0 <= col < n
    ensures Get(Product(a, Product(b, c, n), n), n, row, col) == Sum(n, RowSums(Term(a, b, c, n, row, col), n))
  {
    var bc := Product(b, c, n);
    RightExpandTerms(a, b, c, bc, n, row, col);
    SumExt(n, RowCol(a, bc, n, row, col), RowSums(Term(a, b, c, n, row, col), n));
  }

  /** The summands of (a·bc)(row, col) for bc = b·c, one row of Term each. */
  lemma RightExpandTerms(a: seq<real>, b: seq<real>, c: seq<real>, bc: seq<real>, n: nat, row: int, col: int)
    requires forall t :: 0 <= t < n ==> Get(bc, n, t, col) == Sum(n, RowCol(b, c, n, t, col))
    ensures forall t :: 0 <= t < n ==> RowCol(a, bc, n, row, col)(t) == RowSums(Term(a, b, c, n, row, col), n)(t)
  {
    forall t | 0 <= t < n
      ensures RowCol(a, bc, n, row, col)(t) == RowSums(Term(a, b, c, n, row, col), n)(t)
    {
      RightExpandTerm(a, b, c, bc, n, row, col, t);
    }
  }

  /** The matrix product is associative: (a·b)·c = a·(b·c). */
  lemma ProductAssociative(a: seq<real>, b: seq<real>, c: seq<real>, n: nat)
    requires |a| == n * n && |b| == n * n && |c| == n * n
    ensures Product(Product(a, b, n), c, n) == Product(a, Product(b, c, n), n)
  {
    forall row, col | 0 <= row < n && 0 <= col < n
      ensures Get(Product(Product(a, b, n), c, n), n, row, col) == Get(Product(a, Product(b, c, n), n), n, row, col)
    {
      LeftExpand(a, b, c, n, row, col);
      RightExpand(a, b, c, n, row, col);
      SumSwap(n, n, Term(a, b, c, n, row, col));
    }
    EqualByEntries(Product(Product(a, b, n), c, n), Product(a, Product(b, c, n), n), n);
  }

  /** The summands of (a·b)(col, row) and of (bᵀ·aᵀ)(row, col) agree, commuted. */
  lemma TransposeTerm(a: seq<real>, b: seq<real>, at: seq<real>, bt: seq<real>, n: nat, row: int, col: int, k: int)
    requires Get(bt, n, row, k) == Get(b, n, k, row) && Get(at, n, k, col) == Get(a, n, col, k)
    ensures RowCol(a, b, n, col, row)(k) == RowCol(bt, at, n, row, col)(k)
  {
    MulComm(Get(a, n, col, k), Get(b, n, k, row));
  }

  /** The transpose reverses a product: (a·b)ᵀ = bᵀ·aᵀ. */
  lemma TransposeProduct(a: seq<real>, b: seq<real>, n: nat)
    requires |a| == n * n && |b| == n * n
    ensures Transposed(Product(a, b, n), n) == Product(Transposed(b, n), Transposed(a, n), n)
  {
    var at, bt := Transposed(a, n), Transposed(b, n);
    forall row, col | 0 <= row < n && 0 <= col < n
      ensures Get(Transposed(Product(a, b, n), n), n, row, col) == Get(Product(bt, at, n), n, row, col)
    {
      forall k | 0 <= k < n {
        TransposeTerm(a, b, at, bt, n, row, col, k);
      }
      SumExt(n, RowCol(a, b, n, col, row), RowCol(bt, at, n, row, col));
    }
    EqualByEntries(Transposed(Product(a, b, n), n), Product(bt, at, n), n);
  }

  /** Summand t of (a·bk)(row, col) is k times summand t of (a·b)(row, col) when bk(t, col) = b(t, col)·k. */
  lemma ScaledRightTerm(a: seq<real>, b: seq<real>, bk: seq<real>, n: nat, k: real, row: int, col: int, t: int)
    requires Get(bk, n, t, col) == Get(b, n, t, col) * k
    ensures RowCol(a, bk, n, row, col)(t) == RowCol(a, b, n, row, col)(t) * k
  {
    MulEqual(Get(bk, n, t, col), Get(b, n, t, col) * k, Get(a, n, row, t));
    MulComm(Get(a, n, row, t), Get(bk, n, t, col));
    MulComm(Get(b, n, t, col) * k, Get(a, n, row, t));
    MulAssoc(Get(a, n, row, t), Get(b, n, t, col), k);
  }

  /** Summand t of (ak·b)(row, col) is k times summand t of (a·b)(row, col) when ak(row, t) = a(row, t)·k. */
  lemma ScaledLeftTerm(a: seq<real>, ak: seq<real>, b: seq<real>, n: nat, k: real, row: int, col: int, t: int)
    requires Get(ak, n, row, t) == Get(a, n, row, t) * k
    ensures RowCol(ak, b, n, row, col)(t) == RowCol(a, b, n, row, col)(t) * k
  {
    MulEqual(Get(ak, n, row, t), Get(a, n, row, t) * k, Get(b, n, t, col));
    MulSwap(Get(a, n, row, t), Get(b, n, t, col), k);
  }

  /** Column `col` of bk is k times column `col` of b. */
  predicate ColumnScaled(b: seq<real>, bk: seq<real>, n: nat, k: real, col: int)
  {
    forall t :: 0 <= t < n ==> Get(bk, n, t, col) == Get(b, n, t, col) * k
  }

  /** Row `row` of ak is k times row `row` of a. */
  predicate RowScaled(a: seq<real>, ak: seq<real>, n: nat, k: real, row: int)
  {
    forall t :: 0 <= t < n ==> Get(ak, n, row, t) == Get(a, n, row, t) * k
  }

  /** The summands of (a·bk)(row, col) are k times those of (a·b)(row, col) when column `col` of bk is k times that of b. */
  lemma ScaledRightTerms(a: seq<real>, b: seq<real>, bk: seq<real>, n: nat, k: real, row: int, col: int)
    requires ColumnScaled(b, bk, n, k, col)
    ensures Scales(n, RowCol(a, b, n, row, col), RowCol(a, bk, n, row, col), k)
  {
    forall t | 0 <= t < n {
      ScaledRightTerm(a, b, bk, n, k, row, col, t);
    }
  }

  /** The summands of (ak·b)(row, col) are k times those of (a·b)(row, col) when row `row` of ak is k times that of a. */
  lemma ScaledLeftTerms(a: seq<real>, ak: seq<real>, b: seq<real>, n: nat, k: real, row: int, col: int)
    requires RowScaled(a, ak, n, k, row)
    ensures Scales(n, RowCol(a, b, n, row, col), RowCol(ak, b, n, row, col), k)
  {
    forall t | 0 <= t < n {
      ScaledLeftTerm(a, ak, b, n, k, row, col, t);
    }
  }

  /** Entry (row, col) of the product picks up the factor k when column `col` of bk is k times that of b. */
  lemma ScaledRightEntry(a: seq<real>, b: seq<real>, bk: seq<real>, n: nat, k: real, row: int, col: int)
    requires ColumnScaled(b, bk, n, k, col)
    ensures Sum(n, RowCol(a, bk, n, row, col)) == Sum(n, RowCol(a, b, n, row, col)) * k
  {
    ScaledRightTerms(a, b, bk, n, k, row, col);
    SumScale(n, RowCol(a, b, n, row, col), RowCol(a, bk, n, row, col), k);
  }

  /** Entry (row, col) of the product picks up the factor k when row `row` of ak is k times that of a. */
  lemma ScaledLeftEntry(a: seq<real>, ak: seq<real>, b: seq<real>, n: nat, k: real, row: int, col: int)
    requires RowScaled(a, ak, n, k, row)
    ensures Sum(n, RowCol(ak, b, n, row, col)) == Sum(n, RowCol(a, b, n, row, col)) * k
  {
    ScaledLeftTerms(a, ak, b, n, k, row, col);
    SumScale(n, RowCol(a, b, n, row, col), RowCol(ak, b, n, row, col), k);
  }

  /** p holds the entries of the product a·b. */
  predicate IsProductOf(p: seq<real>, a: seq<real>, b: seq<real>, n: nat)
  {
    forall row, col :: 0 <= row < n && 0 <= col < n ==> Get(p, n, row, col) == Sum(n, RowCol(a, b, n, row, col))
  }

  /** q holds the entries of p, each times k. */
  predicate IsScaledOf(q: seq<real>, p: seq<real>, n: nat, k: real)
  {
    forall row, col :: 0 <= row < n && 0 <= col < n ==> Get(q, n, row, col) == Get(p, n, row, col) * k
  }

  /** Scaled multiplies every entry by k. */
  lemma ScaledEntries(s: seq<real>, n: nat, k: real)
    requires |s| == n * n
    ensures IsScaledOf(Scaled(s, k), s, n, k)
  {
    forall row, col | 0 <= row < n && 0 <= col < n {
      GetScaled(s, n, k, row, col);
    }
  }

  /** Entry (row, col) of a·bk equals that of q when bk = k·b and q = k·(a·b). */
  lemma ScaleOutRightEntry(a: seq<real>, b: seq<real>, bk: seq<real>, p: seq<real>, pk: seq<real>, q: seq<real>, n: nat, k: real, row: int, col: int)
    requires IsScaledOf(bk, b, n, k) && IsProductOf(p, a, b, n) && IsProductOf(pk, a, bk, n) && IsScaledOf(q, p, n, k)
    requires 0 <= row < n && 0 <= col < n
    ensures Get(pk, n, row, col) == Get(q, n, row, col)
  {
    assert ColumnScaled(b, bk, n, k, col);
    ScaledRightEntry(a, b, bk, n, k, row, col);
    MulEqual(Get(p, n, row, col), Sum(n, RowCol(a, b, n, row, col)), k);
  }

  /** Entry (row, col) of ak·b equals that of q when ak = k·a and q = k·(a·b). */
  lemma ScaleOutLeftEntry(a: seq<real>, ak: seq<real>, b: seq<real>, p: seq<real>, pk: seq<real>, q: seq<real>, n: nat, k: real, row: int, col: int)
    requires IsScaledOf(ak, a, n, k) && IsProductOf(p, a, b, n) && IsProductOf(pk, ak, b, n) && IsScaledOf(q, p, n, k)
    requires 0 <= row < n && 0 <= col < n
    ensures Get(pk, n, row, col) == Get(q, n, row, col)
  {
    assert RowScaled(a, ak, n, k, row);
    ScaledLeftEntry(a, ak, b, n, k, row, col);
    MulEqual(Get(p, n, row, col), Sum(n, RowCol(a, b, n, row, col)), k);
  }

  /** A factor k on the right operand comes out of the product: a·(k·b) = k·(a·b). */
  lemma ProductScaledRight(a: seq<real>, b: seq<real>, n: nat, k: real)
    requires |a| == n * n && |b| == n * n
    ensures Product(a, Scaled(b, k), n) == Scaled(Product(a, b, n), k)
  {
    var bk, p := Scaled(b, k), Product(a, b, n);
    var pk, q := Product(a, bk, n), Scaled(p, k);
    ScaledEntries(b, n, k);
    ScaledEntries(p, n, k);
    forall row, col | 0 <= row < n && 0 <= col < n {
      ScaleOutRightEntry(a, b, bk, p, pk, q, n, k, row, col);
    }
    EqualByEntries(pk, q, n);
  }

  /** A factor k on the left operand comes out of the product: (k·a)·b = k·(a·b). */
  lemma ProductScaledLeft(a: seq<real>, b: seq<real>, n: nat, k: real)
    requires |a| == n * n && |b| == n * n
    ensures Product(Scaled(a, k), b, n) == Scaled(Product(a, b, n), k)
  {
    var ak, p := Scaled(a, k), Product(a, b, n);
    var pk, q := Product(ak, b, n), Scaled(p, k);
    ScaledEntries(a, n, k);
    ScaledEntries(p, n, k);
    forall row, col | 0 <= row < n && 0 <= col < n {
      ScaleOutLeftEntry(a, ak, b, p, pk, q, n, k, row, col);
    }
    EqualByEntries(pk, q, n);
  }

  /** Entry (row, col) of det·I scaled by 1/det is entry (row, col) of I. */
  lemma ScaledDiagonalEntry(n: nat, det: real, row: int, col: int)
    requires det != 0.0 && 0 <= row < n && 0 <= col < n
    ensures Get(Scaled(Diagonal(n, det), 1.0 / det), n, row, col) == Get(Identity(n), n, row, col)
  {
    var d, k := Diagonal(n, det), 1.0 / det;
    GetScaled(d, n, k, row, col);
    if row == col {
      MulEqual(Get(d, n, row, col), det, k);
      assert det * k == 1.0;
    } else {
      MulZero(Get(d, n, row, col), k);
    }
  }

  /** det·I scaled by 1/det is the identity. */
  lemma ScaledDiagonal(n: nat, det: real)
    requires det != 0.0
    ensures Scaled(Diagonal(n, det), 1.0 / det) == Identity(n)
  {
    forall row, col | 0 <= row < n && 0 <= col < n
      ensures Get(Scaled(Diagonal(n, det), 1.0 / det), n, row, col) == Get(Identity(n), n, row, col)
    {
      ScaledDiagonalEntry(n, det, row, col);
    }
    EqualByEntries(Scaled(Diagonal(n, det), 1.0 / det), Identity(n), n);
  }

  /**
   * What `_invert` returns is a two-sided inverse: if m·adj = adj·m = det·I
   * and det != 0, then adj/det multiplied with m on either side is I.
   */
  lemma InverseFromAdjugate(m: seq<real>, adj: seq<real>, n: nat, det: real)
    requires |m| == n * n && |adj| == n * n && det != 0.0
    requires Product(m, adj, n) == Diagonal(n, det) && Product(adj, m, n) == Diagonal(n, det)
    ensures Product(m, Scaled(adj, 1.0 / det), n) == Identity(n)
    ensures Product(Scaled(adj, 1.0 / det), m, n) == Identity(n)
  {
    ProductScaledRight(m, adj, n, 1.0 / det);
    ProductScaledLeft(adj, m, n, 1.0 / det);
    ScaledDiagonal(n, det);
  }

  /** If row i of id is the unit row e_i, then (id·v)[i] = v[i]. */
  lemma UnitRowTimes(id: seq<real>, v: seq<real>, n: nat, i: int)
    requires 0 <= i < n && Get(id, n, i, i) == 1.0
    requires forall j :: 0 <= j < n && j != i ==> Get(id, n, i, j) == 0.0
    ensures Sum(n, MatRow(id, v, n, i)) == Comp(v, i)
  {
    forall j | 0 <= j < n && j != i
      ensures MatRow(id, v, n, i)(j) == 0.0
    {
      MulZero(Get(id, n, i, j), Comp(v, j));
    }
    MulEqual(Get(id, n, i, i), 1.0, Comp(v, i));
    SumSingle(n, MatRow(id, v, n, i), i);
  }

  /** Component i of I·v is v[i]. */
  lemma IdentityVecEntry(v: seq<real>, n: nat, i: int)
    requires 0 <= i < n
    ensures Sum(n, MatRow(Identity(n), v, n, i)) == Comp(v, i)
  {
    UnitRowTimes(Identity(n), v, n, i);
  }

  /** I·v = v. */
  lemma MatVecIdentity(v: seq<real>, n: nat)
    requires |v| == n
    ensures MatVec(Identity(n), v, n) == v
  {
    forall i | 0 <= i < n
      ensures MatVec(Identity(n), v, n)[i] == v[i]
    {
      IdentityVecEntry(v, n, i);
    }
  }

  /** The summands a(i, t)·b(t, k)·v[k] of both sides of (a·b)·v = a·(b·v), by (t, k). */
  function VecTerm(a: seq<real>, b: seq<real>, v: seq<real>, n: nat, i: int): (int, int) -> real
  {
    (t, k) => Get(a, n, i, t) * Get(b, n, t, k) * Comp(v, k)
  }

  /** (a·b)(i, k)·v[k] = Σ_t a(i, t)·b(t, k)·v[k]. */
  lemma VecLeftInner(a: seq<real>, b: seq<real>, v: seq<real>, n: nat, i: int, k: int, x: real)
    requires x == Sum(n, RowCol(a, b, n, i, k))
    ensures x * Comp(v, k) == Sum(n, ColOf(VecTerm(a, b, v, n, i), k))
  {
    VecLeftInnerTerms(a, b, v, n, i, k);
    SumScale(n, RowCol(a, b, n, i, k), ColOf(VecTerm(a, b, v, n, i), k), Comp(v, k));
    MulEqual(x, Sum(n, RowCol(a, b, n, i, k)), Comp(v, k));
  }

  /** Column k of the summands is column k of a·b scaled by v[k]. */
  lemma VecLeftInnerTerms(a: seq<real>, b: seq<real>, v: seq<real>, n: nat, i: int, k: int)
    ensures Scales(n, RowCol(a, b, n, i, k), ColOf(VecTerm(a, b, v, n, i), k), Comp(v, k))
  {
  }

  /** a(i, t)·(b·v)[t] = Σ_k a(i, t)·b(t, k)·v[k]. */
  lemma VecRightInner(a: seq<real>, b: seq<real>, v: seq<real>, n: nat, i: int, t: int)
    requires |b| == n * n && 0 <= t < n
    ensures MatRow(a, MatVec(b, v, n), n, i)(t) == RowSums(VecTerm(a, b, v, n, i), n)(t)
  {
    VecRightInnerTerms(a, b, v, n, i, t);
    SumScale(n, MatRow(b, v, n, t), RowOf(VecTerm(a, b, v, n, i), t), Get(a, n, i, t));
    MulEqual(Comp(MatVec(b, v, n), t), Sum(n, MatRow(b, v, n, t)), Get(a, n, i, t));
    MulComm(Get(a, n, i, t), Comp(MatVec(b, v, n), t));
  }

  /** Row t of the summands is the summands of (b·v)[t] scaled by a(i, t). */
  lemma VecRightInnerTerms(a: seq<real>, b: seq<real>, v: seq<real>, n: nat, i: int, t: int)
    ensures Scales(n, MatRow(b, v, n, t), RowOf(VecTerm(a, b, v, n, i), t), Get(a, n, i, t))
  {
    forall k | 0 <= k < n {
      VecRightInnerTerm(a, b, v, n, i, t, k);
    }
  }

  /** Summand (t, k) is a(i, t) times summand k of (b·v)[t]. */
  lemma VecRightInnerTerm(a: seq<real>, b: seq<real>, v: seq<real>, n: nat, i: int, t: int, k: int)
    ensures RowOf(VecTerm(a, b, v, n, i), t)(k) == MatRow(b, v, n, t)(k) * Get(a, n, i, t)
  {
    MulRotate(Get(a, n, i, t), Get(b, n, t, k), Comp(v, k));
  }

  /** ((a·b)·v)[i] = Σ_k Σ_t a(i, t)·b(t, k)·v[k]. */
  lemma VecLeftExpand(a: seq<real>, b: seq<real>, v: seq<real>, n: nat, i: int)
    requires |a| == n * n && |b| == n * n && 0 <= i < n
    ensures Sum(n, MatRow(Product(a, b, n), v, n, i)) == Sum(n, ColSums(VecTerm(a, b, v, n, i), n))
  {
    var ab := Product(a, b, n);
    VecLeftExpandTerms(a, b, v, ab, n, i);
    SumExt(n, MatRow(ab, v, n, i), ColSums(VecTerm(a, b, v, n, i), n));
  }

  /** The summands of (ab·v)[i] for ab = a·b, one column of VecTerm each. */
  lemma VecLeftExpandTerms(a: seq<real>, b: seq<real>, v: seq<real>, ab: seq<real>, n: nat, i: int)
    requires forall k :: 0 <= k < n ==> Get(ab, n, i, k) == Sum(n, RowCol(a, b, n, i, k))
    ensures forall k :: 0 <= k < n ==> MatRow(ab, v, n, i)(k) == ColSums(VecTerm(a, b, v, n, i), n)(k)
  {
    forall k | 0 <= k < n
      ensures MatRow(ab, v, n, i)(k) == ColSums(VecTerm(a, b, v, n, i), n)(k)
    {
      VecLeftInner(a, b, v, n, i, k, Get(ab, n, i, k));
    }
  }

  /** (a·(b·v))[i] = Σ_t Σ_k a(i, t)·b(t, k)·v[k]. */
  lemma VecRightExpand(a: seq<real>, b: seq<real>, v: seq<real>, n: nat, i: int)
    requires |b| == n * n
    ensures Sum(n, MatRow(a, MatVec(b, v, n), n, i)) == Sum(n, RowSums(VecTerm(a, b, v, n, i), n))
  {
    forall t | 0 <= t < n
      ensures MatRow(a, MatVec(b, v, n), n, i)(t) == RowSums(VecTerm(a, b, v, n, i), n)(t)
    {
      VecRightInner(a, b, v, n, i, t);
    }
    SumExt(n, MatRow(a, MatVec(b, v, n), n, i), RowSums(VecTerm(a, b, v, n, i), n));
  }

  /** Transforming by a·b is transforming by b, then by a: (a·b)·v = a·(b·v). */
  lemma MatVecProduct(a: seq<real>, b: seq<real>, v: seq<real>, n: nat)
    requires |a| == n * n && |b| == n * n && |v| == n
    ensures MatVec(Product(a, b, n), v, n) == MatVec(a, MatVec(b, v, n), n)
  {
    forall i | 0 <= i < n
      ensures MatVec(Product(a, b, n), v, n)[i] == MatVec(a, MatVec(b, v, n), n)[i]
    {
      VecLeftExpand(a, b, v, n, i);
      VecRightExpand(a, b, v, n, i);
      SumSwap(n, n, VecTerm(a, b, v, n, i));
    }
  }

  /** The summands of (v·m)[i] and of (mᵀ·v)[i] agree, commuted. */
  lemma RowTimesTerm(v: seq<real>, m: seq<real>, t: seq<real>, n: nat, i: int, j: int)
    requires Get(t, n, i, j) == Get(m, n, j, i)
    ensures Vector.ColumnTerm(v, m, n, i)(j) == MatRow(t, v, n, i)(j)
  {
    MulComm(Comp(v, j), Get(m, n, j, i));
  }

  /** A row vector times m is the transpose of m times the column vector: v·m = mᵀ·v. */
  lemma RowTimesTranspose(v: seq<real>, m: seq<real>, n: nat)
    requires |v| == n && |m| == n * n
    ensures Vector.RowTimes(v, m, n) == MatVec(Transposed(m, n), v, n)
  {
    var t := Transposed(m, n);
    forall i | 0 <= i < n
      ensures Vector.RowTimes(v, m, n)[i] == MatVec(t, v, n)[i]
    {
      forall j | 0 <= j < n {
        RowTimesTerm(v, m, t, n, i, j);
      }
      SumExt(n, Vector.ColumnTerm(v, m, n, i), MatRow(t, v, n, i));
    }
  }

  /** `m.mul(identity)` and `identity.mul(m)` give back m. */
  lemma MulIdentity(m: Instance)
    requires IsMatrix(m.cls)
    ensures MulOf(IdentityOf(m.cls).value, Obj(m)) == Ok(Value(m))
    ensures MulOf(m, Obj(IdentityOf(m.cls).value)) == Ok(Value(m))
  {
    ProductIdentityLeft(m.val, Dim(m.cls));
    ProductIdentityRight(m.val, Dim(m.cls));
  }

  /** `a.mul(b).mul(c)` and `a.mul(b.mul(c))` are the same matrix. */
  lemma MulAssociative(a: Instance, b: Instance, c: Instance)
    requires IsMatrix(a.cls) && b.cls == a.cls && c.cls == a.cls
    ensures MulOf(a, Obj(b)).Ok? && MulOf(b, Obj(c)).Ok?
    ensures MulOf(MulOf(a, Obj(b)).value.o, Obj(c)) == MulOf(a, Obj(MulOf(b, Obj(c)).value.o))
  {
    ProductAssociative(a.val, b.val, c.val, Dim(a.cls));
  }

  /** `a.mul(b).mul(v)` and `a.mul(b.mul(v))` are the same vector. */
  lemma MulVecCompose(a: Instance, b: Instance, v: Instance)
    requires IsMatrix(a.cls) && b.cls == a.cls && IsVector(v.cls) && Dim(v.cls) == Dim(a.cls)
    ensures MulOf(a, Obj(b)).Ok? && MulOf(b, Obj(v)).Ok?
    ensures MulOf(MulOf(a, Obj(b)).value.o, Obj(v)) == MulOf(a, Obj(MulOf(b, Obj(v)).value.o))
  {
    MatVecProduct(a.val, b.val, v.val, Dim(a.cls));
  }

  /** `v.mul(m)` and `m.transpose().mul(v)` are the same vector. */
  lemma VecMulIsTransposeMul(v: Instance, m: Instance)
    requires Vector.IsVec(v.cls) && IsMatrix(m.cls) && Dim(m.cls) == Dim(v.cls)
    ensures Vector.MulOf(v, Obj(m)).Ok?
    ensures Vector.MulOf(v, Obj(m)) == MulOf(MatObj(m.cls, Transposed(m.val, Dim(m.cls))), Obj(v))
  {
    RowTimesTranspose(v.val, m.val, Dim(v.cls));
  }

  /** The product of two matrices with aᵀ·a = I and bᵀ·b = I has the same property. */
  lemma OrthogonalProduct(a: seq<real>, b: seq<real>, n: nat)
    requires |a| == n * n && |b| == n * n
    requires Product(Transposed(a, n), a, n) == Identity(n)
    requires Product(Transposed(b, n), b, n) == Identity(n)
    ensures Product(Transposed(Product(a, b, n), n), Product(a, b, n), n) == Identity(n)
  {
    var at, bt, ab := Transposed(a, n), Transposed(b, n), Product(a, b, n);
    TransposeProduct(a, b, n);
    ProductAssociative(bt, at, ab, n);
    ProductAssociative(at, a, b, n);
    ProductIdentityLeft(b, n);
  }
}

=== FILE: mat_base.dfy ===
/**
 * The common base of every vector and matrix class of the library
 * (matrix/_Mat.js): an instance is its class and its flat list of
 * components, built by flattening the constructor's arguments, and the
 * componentwise operations add, sub and prod, each of which checks the
 * class of its operand and builds a new instance.
 *
 * Instances never change after construction, so they are values here.
 */
module MatBase {

  /** The concrete classes of the library. Quat extends Vec4; Vec2 and Vec4 are Vec with n = 2 and n = 4. */
  datatype Class = Vec2 | Vec3 | Vec4 | Quat | Mat2 | Mat3 | Mat4

  predicate IsVector(c: Class)
  {
    c.Vec2? || c.Vec3? || c.Vec4? || c.Quat?
  }

  predicate IsMatrix(c: Class)
  {
    c.Mat2? || c.Mat3? || c.Mat4?
  }

  /** The static attribute `n` of each class. */
  function Dim(c: Class): nat
  {
    match c
    case Vec2 | Mat2 => 2
    case Vec3 | Mat3 => 3
    case Vec4 | Quat | Mat4 => 4
  }

  /** Number of components: n for a vector, n * n for a matrix. */
  function Size(c: Class): nat
  {
    if IsMatrix(c) then Dim(c) * Dim(c) else Dim(c)
  }

  /** `x instanceof c` for an instance of class x: the class itself, or Vec4 for a Quat. */
  predicate InstanceOf(x: Class, c: Class)
  {
    x == c || (x == Quat && c == Vec4)
  }

  datatype MatObj = MatObj(cls: Class, val: seq<real>)

  /** An instance of the library: as many components as its class has. */
  type Instance = o: MatObj | |o.val| == Size(o.cls) witness MatObj(Vec2, [0.0, 0.0])

  /**
   * A JavaScript value handed to a constructor or an operation: a number,
   * null or undefined, an instance, an array, or anything else (a string,
   * a boolean, a plain object).
   */
  datatype Arg = Num(x: real) | Nullish | Obj(o: Instance) | Arr(items: seq<Arg>) | Other

  /** The exceptions the library throws. */
  datatype Error =
    | TypeError          // operand or element of the wrong kind
    | TooFewComponents   // constructor: fewer components than the class has
    | TooManyComponents  // constructor: more components than the class has
    | RangeError         // column index not below n
    | NotInvertible      // inverse of a matrix whose determinant is 0

  datatype Result<T> = Ok(value: T) | Err(error: Error)

  /** What `mul` returns: a number (dot product) or a new instance. */
  datatype MulResult = Scalar(x: real) | Value(o: Instance)

  /** The elements the constructor's flatMap accepts: numbers, null/undefined and vectors. */
  predicate Flattenable(x: Arg)
  {
    x.Num? || x.Nullish? || (x.Obj? && IsVector(x.o.cls))
  }

  /** What one accepted element contributes: a number itself, 0 for null, a vector its components. */
  function Piece(x: Arg): seq<real>
    requires Flattenable(x)
  {
    match x
    case Num(v) => [v]
    case Nullish => [0.0]
    case Obj(o) => o.val
  }

  /** The flatMap of the constructor: components in order, or a TypeError for any other element. */
  function FlatMap(xs: seq<Arg>): (r: Result<seq<real>>)
    ensures r.Ok? <==> forall i :: 0 <= i < |xs| ==> Flattenable(xs[i])
    ensures r.Err? ==> r.error == TypeError
  {
    if xs == [] then
      Ok([])
    else if !Flattenable(xs[0]) then
      Err(TypeError)
    else
      match FlatMap(xs[1..])
      case Err(e) => Err(e)
      case Ok(rest) => Ok(Piece(xs[0]) + rest)
  }

  /** The base constructor: an array first argument replaces the whole argument list. */
  function Flatten(args: seq<Arg>): (r: Result<seq<real>>)
    ensures |args| > 0 && args[0].Arr? ==>
      (r.Ok? <==> forall i :: 0 <= i < |args[0].items| ==> Flattenable(args[0].items[i]))
    ensures !(|args| > 0 && args[0].Arr?) ==>
      (r.Ok? <==> forall i :: 0 <= i < |args| ==> Flattenable(args[i]))
    ensures r.Err? ==> r.error == TypeError
  {
    if |args| > 0 && args[0].Arr? then FlatMap(args[0].items) else FlatMap(args)
  }

  /** The argument list `...vals` of plain numbers. */
  function Nums(vals: seq<real>): (args: seq<Arg>)
    ensures |args| == |vals|
    ensures forall i :: 0 <= i < |vals| ==> args[i] == Num(vals[i])
  {
    seq(|vals|, i requires 0 <= i < |vals| => Num(vals[i]))
  }

  /** Plain numbers flatten to themselves. */
  lemma {:induction false} FlatMapNums(vals: seq<real>)
    ensures FlatMap(Nums(vals)) == Ok(vals)
  {
    if vals != [] {
      assert Nums(vals)[1..] == Nums(vals[1..]);
      FlatMapNums(vals[1..]);
      assert vals == [vals[0]] + vals[1..];
    }
  }

  lemma FlattenNums(vals: seq<real>)
    ensures Flatten(Nums(vals)) == Ok(vals)
  {
    FlatMapNums(vals);
  }

  /** Flattening preserves order: the pieces of xs come before the pieces of ys. */
  lemma {:induction false} FlatMapAppend(xs: seq<Arg>, ys: seq<Arg>)
    ensures FlatMap(xs + ys).Ok? <==> FlatMap(xs).Ok? && FlatMap(ys).Ok?
    ensures FlatMap(xs + ys).Ok? ==> FlatMap(xs + ys).value == FlatMap(xs).value + FlatMap(ys).value
  {
    if xs == [] {
      assert xs + ys == ys;
    } else {
      assert (xs + ys)[1..] == xs[1..] + ys;
      FlatMapAppend(xs[1..], ys);
      if FlatMap(xs + ys).Ok? {
        assert (xs + ys)[0] == xs[0];
      }
    }
  }

  /** An array first argument is the whole source of components; later arguments are ignored. */
  lemma FlattenArrayFirst(items: seq<Arg>, rest: seq<Arg>)
    ensures Flatten([Arr(items)] + rest) == FlatMap(items)
  {
  }

  /** The pieces of each kind of accepted element. */
  lemma PieceKinds(x: real, o: Instance)
    requires IsVector(o.cls)
    ensures FlatMap([Num(x)]) == Ok([x])
    ensures FlatMap([Nullish]) == Ok([0.0])
    ensures FlatMap([Obj(o)]) == Ok(o.val)
  {
    assert [Num(x)][1..] == [];
    assert [Nullish][1..] == [];
    assert [Obj(o)][1..] == [];
    assert [x] + [] == [x];
    assert [0.0] + [] == [0.0];
    assert o.val + [] == o.val;
  }

  /** Componentwise sum; the operand must be an instance of the receiver's class. */
  function Add(a: Instance, m: Arg): (r: Result<Instance>)
    ensures r.Ok? <==> m.Obj? && InstanceOf(m.o.cls, a.cls)
    ensures r.Err? ==> r.error == TypeError
    ensures r.Ok? ==> r.value.cls == a.cls
    ensures r.Ok? ==> forall i :: 0 <= i < |a.val| ==> r.value.val[i] == a.val[i] + m.o.val[i]
  {
    if m.Obj? && InstanceOf(m.o.cls, a.cls) then
      var o: Instance := MatObj(a.cls, seq(|a.val|, i requires 0 <= i < |a.val| => a.val[i] + m.o.val[i]));
      Ok(o)
    else
      Err(TypeError)
  }

  /** Componentwise difference; the operand must be an instance of the receiver's class. */
  function Sub(a: Instance, m: Arg): (r: Result<Instance>)
    ensures r.Ok? <==> m.Obj? && InstanceOf(m.o.cls, a.cls)
    ensures r.Err? ==> r.error == TypeError
    ensures r.Ok? ==> r.value.cls == a.cls
    ensures r.Ok? ==> forall i :: 0 <= i < |a.val| ==> r.value.val[i] == a.val[i] - m.o.val[i]
  {
    if m.Obj? && InstanceOf(m.o.cls, a.cls) then
      var o: Instance := MatObj(a.cls, seq(|a.val|, i requires 0 <= i < |a.val| => a.val[i] - m.o.val[i]));
      Ok(o)
    else
      Err(TypeError)
  }

  /** Product by a number, or componentwise product with an instance of the receiver's class. */
  function Prod(a: Instance, m: Arg): (r: Result<Instance>)
    ensures r.Ok? <==> m.Num? || (m.Obj? && InstanceOf(m.o.cls, a.cls))
    ensures r.Err? ==> r.error == TypeError
    ensures r.Ok? ==> r.value.cls == a.cls
    ensures r.Ok? && m.Num? ==> forall i :: 0 <= i < |a.val| ==> r.value.val[i] == a.val[i] * m.x
    ensures r.Ok? && m.Obj? ==> forall i :: 0 <= i < |a.val| ==> r.value.val[i] == a.val[i] * m.o.val[i]
  {
    if m.Num? then
      var o: Instance := MatObj(a.cls, seq(|a.val|, i requires 0 <= i < |a.val| => a.val[i] * m.x));
      Ok(o)
    else if m.Obj? && InstanceOf(m.o.cls, a.cls) then
      var o: Instance := MatObj(a.cls, seq(|a.val|, i requires 0 <= i < |a.val| => a.val[i] * m.o.val[i]));
      Ok(o)
    else
      Err(TypeError)
  }

  /** Subtracting what was added gives back the receiver. */
  lemma AddThenSub(a: Instance, b: Instance)
    requires InstanceOf(b.cls, a.cls)
    ensures Add(a, Obj(b)).Ok?
    ensures Sub(Add(a, Obj(b)).value, Obj(b)) == Ok(a)
  {
    var s := Add(a, Obj(b)).value;
    var d := Sub(s, Obj(b)).value;
    assert d.val == a.val;
  }

  /** Two instances of the same class add in either order to the same components. */
  lemma AddCommutes(a: Instance, b: Instance)
    requires a.cls == b.cls
    ensures Add(a, Obj(b)).Ok? && Add(b, Obj(a)).Ok?
    ensures Add(a, Obj(b)) == Add(b, Obj(a))
  {
    assert Add(a, Obj(b)).value.val == Add(b, Obj(a)).value.val;
  }

  /** A Vec4 accepts a Quat operand (a Quat is a Vec4) but not the other way round. */
  lemma AddVec4Quat(v: Instance, q: Instance)
    requires v.cls == Vec4 && q.cls == Quat
    ensures Add(v, Obj(q)).Ok? && Add(v, Obj(q)).value.cls == Vec4
    ensures Add(q, Obj(v)) == Err(TypeError)
  {
  }

  /** Multiplying by the number 1 changes nothing. */
  lemma ProdOne(a: Instance)
    ensures Prod(a, Num(1.0)) == Ok(a)
  {
    assert Prod(a, Num(1.0)).value.val == a.val;
  }
}

=== FILE: mat_convert.dfy ===
/**
 * The loops that convert between matrix sizes (`Mat2._valFromMat`, the Mat3
 * constructor's two loops, `Mat4._valFromMat3` and `Mat4._valFromMat2`).
 * Each walks the columns of the source matrix through `_col` (called
 * `arrayCol` in Mat2.js and Mat4.js) and concatenates either the first `to`
 * entries of each column (truncation) or the whole column followed by zeros
 * (padding, after which the caller appends the identity's last columns).
 * Both are proved to build `Resize` of the source.
 */
module MatrixConversion {
  import opened ColumnMajor
  import opened MatBase
  import opened Matrix

  /** `_col(i)` for 0 <= i < n is the storage slice val[i·n .. (i+1)·n). */
  lemma ColumnSliceRange(m: Instance, i: int)
    requires IsMatrix(m.cls) && 0 <= i < Dim(m.cls)
    ensures 0 <= i * Dim(m.cls) && (i + 1) * Dim(m.cls) <= |m.val|
    ensures ColumnSlice(m, i) == Ok(m.val[i * Dim(m.cls) .. (i + 1) * Dim(m.cls)])
  {
    ColumnStart(Dim(m.cls), i);
  }

  /** n zeros, as `push(0)` and `push(0, 0)` append them. */
  function Zeros(n: nat): (z: seq<real>)
    ensures |z| == n && forall k :: 0 <= k < n ==> z[k] == 0.0
  {
    seq(n, _ => 0.0)
  }

  /** Column i of a padded matrix is column i of the source followed by zeros. */
  lemma PaddedColumn(m: seq<real>, from: nat, to: nat, i: int)
    requires |m| == from * from && from <= to && 0 <= i < from
    ensures 0 <= i * from && (i + 1) * from <= |m|
    ensures 0 <= i * to && (i + 1) * to <= to * to
    ensures Resize(m, from, to)[i * to .. (i + 1) * to] == m[i * from .. (i + 1) * from] + Zeros(to - from)
  {
    ColumnStart(from, i);
    ColumnStart(to, i);
    var r := Resize(m, from, to);
    var got := r[i * to .. (i + 1) * to];
    var want := m[i * from .. (i + 1) * from] + Zeros(to - from);
    forall k | 0 <= k < to
      ensures got[k] == want[k]
    {
      IndexBound(to, k, i);
      assert Get(r, to, k, i) == r[k + i * to];
      if k < from {
        IndexBound(from, k, i);
      }
    }
  }

  /** Column i of a truncated matrix is the first `to` entries of column i of the source. */
  lemma TruncatedColumn(m: seq<real>, from: nat, to: nat, i: int)
    requires |m| == from * from && to <= from && 0 <= i < to
    ensures 0 <= i * from && (i + 1) * from <= |m|
    ensures 0 <= i * to && (i + 1) * to <= to * to
    ensures Resize(m, from, to)[i * to .. (i + 1) * to] == m[i * from .. i * from + to]
  {
    ColumnStart(from, i);
    ColumnStart(to, i);
    var r := Resize(m, from, to);
    var got, want := r[i * to .. (i + 1) * to], m[i * from .. i * from + to];
    forall k | 0 <= k < to
      ensures got[k] == want[k]
    {
      IndexBound(to, k, i);
      IndexBound(from, k, i);
      assert Get(r, to, k, i) == r[k + i * to];
    }
  }

  /**
   * The truncating loop (`Mat2._valFromMat`, and the Mat3 constructor on a
   * Mat4): the first `to` entries of each of the first `to` columns.
   */
  method TruncatedColumns(m: Instance, to: nat) returns (val: seq<real>)
    requires IsMatrix(m.cls) && to <= Dim(m.cls)
    ensures val == Resize(m.val, Dim(m.cls), to)
  {
    var n := Dim(m.cls);
    ghost var want := Resize(m.val, n, to);
    val := [];
    for i := 0 to to
      invariant i * to <= to * to
      invariant val == want[.. i * to]
    {
      ColumnSliceRange(m, i);
      TruncatedColumn(m.val, n, to, i);
      var col := ColumnSlice(m, i).value;
      val := val + Slice(col, 0, to);
      assert want[.. (i + 1) * to] == want[.. i * to] + want[i * to .. (i + 1) * to];
    }
    ColumnStart(to, to);
  }

  /**
   * The padding loop (the Mat3 constructor on a Mat2, `Mat4._valFromMat3`,
   * `Mat4._valFromMat2`): each column of the source followed by to - from
   * zeros; what is left to append are the identity's last columns.
   */
  method PaddedColumns(m: Instance, to: nat) returns (val: seq<real>)
    requires IsMatrix(m.cls) && Dim(m.cls) <= to
    ensures Dim(m.cls) * to <= to * to
    ensures val == Resize(m.val, Dim(m.cls), to)[.. Dim(m.cls) * to]
  {
    var n := Dim(m.cls);
    ghost var want := Resize(m.val, n, to);
    val := [];
    for i := 0 to n
      invariant i * to <= to * to
      invariant val == want[.. i * to]
    {
      ColumnSliceRange(m, i);
      PaddedColumn(m.val, n, to, i);
      var col := ColumnSlice(m, i).value;
      val := val + col;
      val := val + Zeros(to - n);
      assert want[.. (i + 1) * to] == want[.. i * to] + want[i * to .. (i + 1) * to];
    }
    MulMono(n, to, to);
  }

  /** Multiplying by c >= 0 keeps the order. */
  lemma MulMono(a: nat, b: nat, c: nat)
    requires a <= b
    ensures a * c <= b * c
  {
  }

  /** The columns that padding appends after the source's are the identity's: entry (row, col) for col >= from. */
  lemma PaddedTail(m: seq<real>, from: nat, to: nat, row: int, col: int)
    requires |m| == from * from && from <= col < to && 0 <= row < to
    ensures 0 <= row + col * to < to * to
    ensures Resize(m, from, to)[row + col * to] == if row == col then 1.0 else 0.0
  {
    IndexBound(to, row, col);
    assert Get(Resize(m, from, to), to, row, col) == Resize(m, from, to)[row + col * to];
  }

  /** Converting a matrix up to a larger class and back to its own class gives it back. */
  lemma PadThenTruncate(m: Instance, big: Class)
    requires IsMatrix(m.cls) && IsMatrix(big) && Dim(m.cls) <= Dim(big)
    ensures NewMatrix(big, [Obj(m)]).Ok?
    ensures NewMatrix(m.cls, [Obj(NewMatrix(big, [Obj(m)]).value)]) == Ok(m)
  {
    Conversion(big, m, []);
    var up := NewMatrix(big, [Obj(m)]).value;
    Conversion(m.cls, up, []);
    ResizeRoundTrip(m.val, Dim(m.cls), Dim(big));
  }

  /** Past the source's columns, a padded matrix is the identity. */
  lemma PaddedRest(m: seq<real>, from: nat, to: nat)
    requires |m| == from * from && from <= to
    ensures from * to <= to * to
    ensures Resize(m, from, to)[from * to ..] == Identity(to)[from * to ..]
  {
    MulMono(from, to, to);
    var r, id := Resize(m, from, to), Identity(to);
    forall k | from * to <= k < to * to
      ensures r[k] == id[k]
    {
      JoinIndex(to, k);
      var row, col := k % to, k / to;
      if col < from {
        MulMono(col + 1, from, to);
        assert false;
      }
      assert Get(r, to, row, col) == r[k] && Get(id, to, row, col) == id[k];
    }
  }
}

=== FILE: quat.dfy ===
/**
 * matrix/Quat.js: a quaternion a + b·i + c·j + d·k is a Vec4 with
 * components (a, b, c, d). `mul` is replaced by the Hamilton product, and
 * `toMat3`/`toMat4` give the rotation matrix of the quaternion, scaled by
 * 2 over its quadrance so that any nonzero multiple gives the same matrix.
 *
 * `fromAngleAxis` computes `Math.sqrt` of the axis quadrance and the cosine
 * and sine of half the angle; here both are given (the norm, and an
 * `Angle` holding the half-angle pair).
 */
module Quaternion {
  import opened MatBase
  import opened Matrix
  import opened FixedSize
  import Vector
  import Matrix3
  import Matrix4
  import opened Transforms

  /** `new Quat(...vals)` with four numbers. */
  function NewQuat(vals: seq<real>): (r: Instance)
    requires |vals| == 4
    ensures Vector.NewVector(Quat, Nums(vals)) == Ok(r) && r.cls == Quat
  {
    Vector.FromComponents(Quat, vals);
    MatObj(Quat, vals)
  }

  /** The quaternion 1. */
  function One(): (q: Instance)
    ensures q.cls == Quat
  {
    NewQuat([1.0, 0.0, 0.0, 0.0])
  }

  /** k times each component of q. */
  function Scaled(q: Instance, k: real): (r: Instance)
    requires q.cls == Quat
    ensures r.cls == Quat && forall i :: 0 <= i < 4 ==> r.val[i] == k * q.val[i]
  {
    NewQuat([k * q.val[0], k * q.val[1], k * q.val[2], k * q.val[3]])
  }

  // ---------------------------------------------------------------- product

  /** The Hamilton product of (a1, b1, c1, d1) and (a2, b2, c2, d2). */
  function Hamilton(p: seq<real>, q: seq<real>): (r: seq<real>)
    requires |p| == 4 && |q| == 4
    ensures |r| == 4 && Norm4(r) == Norm4(p) * Norm4(q)
  {
    var a1, b1, c1, d1 := p[0], p[1], p[2], p[3];
    var a2, b2, c2, d2 := q[0], q[1], q[2], q[3];
    var r := [a1 * a2 - b1 * b2 - c1 * c2 - d1 * d2,
              a1 * b2 + b1 * a2 + c1 * d2 - d1 * c2,
              a1 * c2 - b1 * d2 + c1 * a2 + d1 * b2,
              a1 * d2 + b1 * c2 - c1 * b2 + d1 * a2];
    NormOf(r, p, q);
    r
  }

  /** `p.mul(q)`: the Hamilton product for a Quat operand, a TypeError for anything else. */
  function Mul(p: Instance, q: Arg): (r: Result<Instance>)
    requires p.cls == Quat
    ensures r.Ok? <==> q.Obj? && q.o.cls == Quat
    ensures r.Err? ==> r.error == TypeError
    ensures r.Ok? ==> r.value.cls == Quat && r.value.val == Hamilton(p.val, q.o.val)
  {
    if q.Obj? && InstanceOf(q.o.cls, Quat) then
      Ok(NewQuat(Hamilton(p.val, q.o.val)))
    else
      Err(TypeError)
  }

  /** A Vec4 is not a Quat: `mul` refuses it although its components would do. */
  lemma MulRefusesVec4(p: Instance, v: Instance)
    requires p.cls == Quat && v.cls == Vec4
    ensures Mul(p, Obj(v)) == Err(TypeError)
  {
  }

  /** 1 is a two-sided identity of `mul`. */
  lemma MulIdentity(q: Instance)
    requires q.cls == Quat
    ensures Mul(One(), Obj(q)) == Ok(q)
    ensures Mul(q, Obj(One())) == Ok(q)
  {
    var v := q.val;
    var left, right := Hamilton(One().val, v), Hamilton(v, One().val);
    assert left[0] == v[0] && left[1] == v[1] && left[2] == v[2] && left[3] == v[3];
    assert right[0] == v[0] && right[1] == v[1] && right[2] == v[2] && right[3] == v[3];
    assert left == v && right == v;
  }

  /** The Hamilton product is associative. */
  lemma HamiltonAssociative(p: seq<real>, q: seq<real>, r: seq<real>)
    requires |p| == 4 && |q| == 4 && |r| == 4
    ensures Hamilton(Hamilton(p, q), r) == Hamilton(p, Hamilton(q, r))
  {
    var pq, qr := Hamilton(p, q), Hamilton(q, r);
    assert IsProduct(pq, p, q) && IsProduct(qr, q, r);
    AssociativeComponent0(p, q, r, pq, qr);
    AssociativeComponent1(p, q, r, pq, qr);
    AssociativeComponent2(p, q, r, pq, qr);
    AssociativeComponent3(p, q, r, pq, qr);
    var left, right := Hamilton(pq, r), Hamilton(p, qr);
    assert left[0] == right[0] && left[1] == right[1] && left[2] == right[2] && left[3] == right[3];
  }

  /** h holds the components of the Hamilton product of p and q. */
  predicate IsProduct(h: seq<real>, p: seq<real>, q: seq<real>)
    requires |p| == 4 && |q| == 4
  {
    |h| == 4 && ProductParts(h[0], h[1], h[2], h[3], p[0], p[1], p[2], p[3], q[0], q[1], q[2], q[3])
  }

  /** (x0, x1, x2, x3) is the Hamilton product of (a1, b1, c1, d1) and (a2, b2, c2, d2). */
  predicate ProductParts(x0: real, x1: real, x2: real, x3: real,
                         a1: real, b1: real, c1: real, d1: real, a2: real, b2: real, c2: real, d2: real)
  {
    x0 == a1 * a2 - b1 * b2 - c1 * c2 - d1 * d2 && x1 == a1 * b2 + b1 * a2 + c1 * d2 - d1 * c2 &&
    x2 == a1 * c2 - b1 * d2 + c1 * a2 + d1 * b2 && x3 == a1 * d2 + b1 * c2 - c1 * b2 + d1 * a2
  }

  lemma AssociativeComponent0(p: seq<real>, q: seq<real>, r: seq<real>, pq: seq<real>, qr: seq<real>)
    requires |p| == 4 && |q| == 4 && |r| == 4 && IsProduct(pq, p, q) && IsProduct(qr, q, r)
    ensures Hamilton(pq, r)[0] == Hamilton(p, qr)[0]
  {
    AssociativeOf0(p[0], p[1], p[2], p[3], q[0], q[1], q[2], q[3], r[0], r[1], r[2], r[3],
                   pq[0], pq[1], pq[2], pq[3], qr[0], qr[1], qr[2], qr[3]);
  }

  lemma AssociativeComponent1(p: seq<real>, q: seq<real>, r: seq<real>, pq: seq<real>, qr: seq<real>)
    requires |p| == 4 && |q| == 4 && |r| == 4 && IsProduct(pq, p, q) && IsProduct(qr, q, r)
    ensures Hamilton(pq, r)[1] == Hamilton(p, qr)[1]
  {
    AssociativeOf1(p[0], p[1], p[2], p[3], q[0], q[1], q[2], q[3], r[0], r[1], r[2], r[3],
                   pq[0], pq[1], pq[2], pq[3], qr[0], qr[1], qr[2], qr[3]);
  }

  lemma AssociativeComponent2(p: seq<real>, q: seq<real>, r: seq<real>, pq: seq<real>, qr: seq<real>)
    requires |p| == 4 && |q| == 4 && |r| == 4 && IsProduct(pq, p, q) && IsProduct(qr, q, r)
    ensures Hamilton(pq, r)[2] == Hamilton(p, qr)[2]
  {
    AssociativeOf2(p[0], p[1], p[2], p[3], q[0], q[1], q[2], q[3], r[0], r[1], r[2], r[3],
                   pq[0], pq[1], pq[2], pq[3], qr[0], qr[1], qr[2], qr[3]);
  }

  lemma AssociativeComponent3(p: seq<real>, q: seq<real>, r: seq<real>, pq: seq<real>, qr: seq<real>)
    requires |p| == 4 && |q| == 4 && |r| == 4 && IsProduct(pq, p, q) && IsProduct(qr, q, r)
    ensures Hamilton(pq, r)[3] == Hamilton(p, qr)[3]
  {
    AssociativeOf3(p[0], p[1], p[2], p[3], q[0], q[1], q[2], q[3], r[0], r[1], r[2], r[3],
                   pq[0], pq[1], pq[2], pq[3], qr[0], qr[1], qr[2], qr[3]);
  }

  /** (p·q)·r = p·(q·r) component by component, with p·q = (x0, x1, x2, x3) and q·r = (y0, y1, y2, y3). */
  lemma AssociativeOf0(a1: real, b1: real, c1: real, d1: real, a2: real, b2: real, c2: real, d2: real,
                       a3: real, b3: real, c3: real, d3: real,
                       x0: real, x1: real, x2: real, x3: real, y0: real, y1: real, y2: real, y3: real)
    requires x0 == a1 * a2 - b1 * b2 - c1 * c2 - d1 * d2
    requires x1 == a1 * b2 + b1 * a2 + c1 * d2 - d1 * c2
    requires x2 == a1 * c2 - b1 * d2 + c1 * a2 + d1 * b2
    requires x3 == a1 * d2 + b1 * c2 - c1 * b2 + d1 * a2
    requires y0 == a2 * a3 - b2 * b3 - c2 * c3 - d2 * d3
    requires y1 == a2 * b3 + b2 * a3 + c2 * d3 - d2 * c3
    requires y2 == a2 * c3 - b2 * d3 + c2 * a3 + d2 * b3
    requires y3 == a2 * d3 + b2 * c3 - c2 * b3 + d2 * a3
    ensures x0 * a3 - x1 * b3 - x2 * c3 - x3 * d3 == a1 * y0 - b1 * y1 - c1 * y2 - d1 * y3
  {
    Distribute(x0, x1, x2, x3, a1 * a2 - b1 * b2 - c1 * c2 - d1 * d2, a1 * b2 + b1 * a2 + c1 * d2 - d1 * c2, a1 * c2 - b1 * d2 + c1 * a2 + d1 * b2, a1 * d2 + b1 * c2 - c1 * b2 + d1 * a2, a3, b3, c3, d3);
    Distribute(y0, y1, y2, y3, a2 * a3 - b2 * b3 - c2 * c3 - d2 * d3, a2 * b3 + b2 * a3 + c2 * d3 - d2 * c3, a2 * c3 - b2 * d3 + c2 * a3 + d2 * b3, a2 * d3 + b2 * c3 - c2 * b3 + d2 * a3, a1, b1, c1, d1);
    Associative(a1, b1, c1, d1, a2, b2, c2, d2, a3, b3, c3, d3);
  }

  lemma AssociativeOf1(a1: real, b1: real, c1: real, d1: real, a2: real, b2: real, c2: real, d2: real,
                       a3: real, b3: real, c3: real, d3: real,
                       x0: real, x1: real, x2: real, x3: real, y0: real, y1: real, y2: real, y3: real)
    requires x0 == a1 * a2 - b1 * b2 - c1 * c2 - d1 * d2
    requires x1 == a1 * b2 + b1 * a2 + c1 * d2 - d1 * c2
    requires x2 == a1 * c2 - b1 * d2 + c1 * a2 + d1 * b2
    requires x3 == a1 * d2 + b1 * c2 - c1 * b2 + d1 * a2
    requires y0 == a2 * a3 - b2 * b3 - c2 * c3 - d2 * d3
    requires y1 == a2 * b3 + b2 * a3 + c2 * d3 - d2 * c3
    requires y2 == a2 * c3 - b2 * d3 + c2 * a3 + d2 * b3
    requires y3 == a2 * d3 + b2 * c3 - c2 * b3 + d2 * a3
    ensures x0 * b3 + x1 * a3 + x2 * d3 - x3 * c3 == a1 * y1 + b1 * y0 + c1 * y3 - d1 * y2
  {
    Distribute(x0, x1, x2, x3, a1 * a2 - b1 * b2 - c1 * c2 - d1 * d2, a1 * b2 + b1 * a2 + c1 * d2 - d1 * c2, a1 * c2 - b1 * d2 + c1 * a2 + d1 * b2, a1 * d2 + b1 * c2 - c1 * b2 + d1 * a2, a3, b3, c3, d3);
    Distribute(y0, y1, y2, y3, a2 * a3 - b2 * b3 - c2 * c3 - d2 * d3, a2 * b3 + b2 * a3 + c2 * d3 - d2 * c3, a2 * c3 - b2 * d3 + c2 * a3 + d2 * b3, a2 * d3 + b2 * c3 - c2 * b3 + d2 * a3, a1, b1, c1, d1);
    Associative(a1, b1, c1, d1, a2, b2, c2, d2, a3, b3, c3, d3);
  }

  lemma AssociativeOf2(a1: real, b1: real, c1: real, d1: real, a2: real, b2: real, c2: real, d2: real,
                       a3: real, b3: real, c3: real, d3: real,
                       x0: real, x1: real, x2: real, x3: real, y0: real, y1: real, y2: real, y3: real)
    requires x0 == a1 * a2 - b1 * b2 - c1 * c2 - d1 * d2
    requires x1 == a1 * b2 + b1 * a2 + c1 * d2 - d1 * c2
    requires x2 == a1 * c2 - b1 * d2 + c1 * a2 + d1 * b2
    requires x3 == a1 * d2 + b1 * c2 - c1 * b2 + d1 * a2
    requires y0 == a2 * a3 - b2 * b3 - c2 * c3 - d2 * d3
    requires y1 == a2 * b3 + b2 * a3 + c2 * d3 - d2 * c3
    requires y2 == a2 * c3 - b2 * d3 + c2 * a3 + d2 * b3
    requires y3 == a2 * d3 + b2 * c3 - c2 * b3 + d2 * a3
    ensures x0 * c3 - x1 * d3 + x2 * a3 + x3 * b3 == a1 * y2 - b1 * y3 + c1 * y0 + d1 * y1
  {
    Distribute(x0, x1, x2, x3, a1 * a2 - b1 * b2 - c1 * c2 - d1 * d2, a1 * b2 + b1 * a2 + c1 * d2 - d1 * c2, a1 * c2 - b1 * d2 + c1 * a2 + d1 * b2, a1 * d2 + b1 * c2 - c1 * b2 + d1 * a2, a3, b3, c3, d3);
    Distribute(y0, y1, y2, y3, a2 * a3 - b2 * b3 - c2 * c3 - d2 * d3, a2 * b3 + b2 * a3 + c2 * d3 - d2 * c3, a2 * c3 - b2 * d3 + c2 * a3 + d2 * b3, a2 * d3 + b2 * c3 - c2 * b3 + d2 * a3, a1, b1, c1, d1);
    Associative(a1, b1, c1, d1, a2, b2, c2, d2, a3, b3, c3, d3);
  }

  lemma AssociativeOf3(a1: real, b1: real, c1: real, d1: real, a2: real, b2: real, c2: real, d2: real,
                       a3: real, b3: real, c3: real, d3: real,
                       x0: real, x1: real, x2: real, x3: real, y0: real, y1: real, y2: real, y3: real)
    requires x0 == a1 * a2 - b1 * b2 - c1 * c2 - d1 * d2
    requires x1 == a1 * b2 + b1 * a2 + c1 * d2 - d1 * c2
    requires x2 == a1 * c2 - b1 * d2 + c1 * a2 + d1 * b2
    requires x3 == a1 * d2 + b1 * c2 - c1 * b2 + d1 * a2
    requires y0 == a2 * a3 - b2 * b3 - c2 * c3 - d2 * d3
    requires y1 == a2 * b3 + b2 * a3 + c2 * d3 - d2 * c3
    requires y2 == a2 * c3 - b2 * d3 + c2 * a3 + d2 * b3
    requires y3 == a2 * d3 + b2 * c3 - c2 * b3 + d2 * a3
    ensures x0 * d3 + x1 * c3 - x2 * b3 + x3 * a3 == a1 * y3 + b1 * y2 - c1 * y1 + d1 * y0
  {
    Distribute(x0, x1, x2, x3, a1 * a2 - b1 * b2 - c1 * c2 - d1 * d2, a1 * b2 + b1 * a2 + c1 * d2 - d1 * c2, a1 * c2 - b1 * d2 + c1 * a2 + d1 * b2, a1 * d2 + b1 * c2 - c1 * b2 + d1 * a2, a3, b3, c3, d3);
    Distribute(y0, y1, y2, y3, a2 * a3 - b2 * b3 - c2 * c3 - d2 * d3, a2 * b3 + b2 * a3 + c2 * d3 - d2 * c3, a2 * c3 - b2 * d3 + c2 * a3 + d2 * b3, a2 * d3 + b2 * c3 - c2 * b3 + d2 * a3, a1, b1, c1, d1);
    Associative(a1, b1, c1, d1, a2, b2, c2, d2, a3, b3, c3, d3);
  }

  /** Multiplying equal values by the same factors gives equal products. */
  lemma Distribute(x0: real, x1: real, x2: real, x3: real, e0: real, e1: real, e2: real, e3: real,
                   w0: real, w1: real, w2: real, w3: real)
    requires x0 == e0 && x1 == e1 && x2 == e2 && x3 == e3
    ensures x0 * w0 == e0 * w0 && x0 * w1 == e0 * w1 && x0 * w2 == e0 * w2 && x0 * w3 == e0 * w3
    ensures w0 * x0 == w0 * e0 && w1 * x0 == w1 * e0 && w2 * x0 == w2 * e0 && w3 * x0 == w3 * e0
    ensures x1 * w0 == e1 * w0 && x1 * w1 == e1 * w1 && x1 * w2 == e1 * w2 && x1 * w3 == e1 * w3
    ensures w0 * x1 == w0 * e1 && w1 * x1 == w1 * e1 && w2 * x1 == w2 * e1 && w3 * x1 == w3 * e1
    ensures x2 * w0 == e2 * w0 && x2 * w1 == e2 * w1 && x2 * w2 == e2 * w2 && x2 * w3 == e2 * w3
    ensures w0 * x2 == w0 * e2 && w1 * x2 == w1 * e2 && w2 * x2 == w2 * e2 && w3 * x2 == w3 * e2
    ensures x3 * w0 == e3 * w0 && x3 * w1 == e3 * w1 && x3 * w2 == e3 * w2 && x3 * w3 == e3 * w3
    ensures w0 * x3 == w0 * e3 && w1 * x3 == w1 * e3 && w2 * x3 == w2 * e3 && w3 * x3 == w3 * e3
  {
  }

  /** Associativity of the Hamilton product, over the twelve components. */
  lemma Associative(a1: real, b1: real, c1: real, d1: real, a2: real, b2: real, c2: real, d2: real, a3: real, b3: real, c3: real, d3: real)
    ensures (a1 * a2 - b1 * b2 - c1 * c2 - d1 * d2) * a3 - (a1 * b2 + b1 * a2 + c1 * d2 - d1 * c2) * b3 - (a1 * c2 - b1 * d2 + c1 * a2 + d1 * b2) * c3 - (a1 * d2 + b1 * c2 - c1 * b2 + d1 * a2) * d3
         == a1 * (a2 * a3 - b2 * b3 - c2 * c3 - d2 * d3) - b1 * (a2 * b3 + b2 * a3 + c2 * d3 - d2 * c3) - c1 * (a2 * c3 - b2 * d3 + c2 * a3 + d2 * b3) - d1 * (a2 * d3 + b2 * c3 - c2 * b3 + d2 * a3)
    ensures (a1 * a2 - b1 * b2 - c1 * c2 - d1 * d2) * b3 + (a1 * b2 + b1 * a2 + c1 * d2 - d1 * c2) * a3 + (a1 * c2 - b1 * d2 + c1 * a2 + d1 * b2) * d3 - (a1 * d2 + b1 * c2 - c1 * b2 + d1 * a2) * c3
         == a1 * (a2 * b3 + b2 * a3 + c2 * d3 - d2 * c3) + b1 * (a2 * a3 - b2 * b3 - c2 * c3 - d2 * d3) + c1 * (a2 * d3 + b2 * c3 - c2 * b3 + d2 * a3) - d1 * (a2 * c3 - b2 * d3 + c2 * a3 + d2 * b3)
    ensures (a1 * a2 - b1 * b2 - c1 * c2 - d1 * d2) * c3 - (a1 * b2 + b1 * a2 + c1 * d2 - d1 * c2) * d3 + (a1 * c2 - b1 * d2 + c1 * a2 + d1 * b2) * a3 + (a1 * d2 + b1 * c2 - c1 * b2 + d1 * a2) * b3
         == a1 * (a2 * c3 - b2 * d3 + c2 * a3 + d2 * b3) - b1 * (a2 * d3 + b2 * c3 - c2 * b3 + d2 * a3) + c1 * (a2 * a3 - b2 * b3 - c2 * c3 - d2 * d3) + d1 * (a2 * b3 + b2 * a3 + c2 * d3 - d2 * c3)
    ensures (a1 * a2 - b1 * b2 - c1 * c2 - d1 * d2) * d3 + (a1 * b2 + b1 * a2 + c1 * d2 - d1 * c2) * c3 - (a1 * c2 - b1 * d2 + c1 * a2 + d1 * b2) * b3 + (a1 * d2 + b1 * c2 - c1 * b2 + d1 * a2) * a3
         == a1 * (a2 * d3 + b2 * c3 - c2 * b3 + d2 * a3) + b1 * (a2 * c3 - b2 * d3 + c2 * a3 + d2 * b3) - c1 * (a2 * b3 + b2 * a3 + c2 * d3 - d2 * c3) + d1 * (a2 * a3 - b2 * b3 - c2 * c3 - d2 * d3)
  {
  }

  /** `mul` is associative. */
  lemma MulAssociative(p: Instance, q: Instance, r: Instance)
    requires p.cls == Quat && q.cls == Quat && r.cls == Quat
    ensures Mul(Mul(p, Obj(q)).value, Obj(r)) == Mul(p, Obj(Mul(q, Obj(r)).value))
  {
    HamiltonAssociative(p.val, q.val, r.val);
  }

  // ------------------------------------------------------------- quadrance

  /** `y**2`. */
  function Square(y: real): real
  {
    y * y
  }

  /** `reduce((x, y) => x + y**2, 0)`: the sum of the squares, added from the left. */
  function Quadrance(xs: seq<real>): (s: real)
    ensures s >= 0.0
  {
    if xs == [] then 0.0
    else
      var y := xs[|xs| - 1];
      SquareSign(y);
      Quadrance(xs[.. |xs| - 1]) + Square(y)
  }

  /** A square is never negative, and is 0 only for 0. */
  lemma SquareSign(y: real)
    ensures Square(y) >= 0.0
    ensures Square(y) <= 0.0 ==> y == 0.0
  {
    ProductSign(y, y);
  }

  /*
   * The sign of y·y is argued on two names for the same number: written as
   * one square, the solver turns facts about its sign into facts about y.
   */
  lemma ProductSign(x: real, y: real)
    requires x == y
    ensures x * y >= 0.0
    ensures x * y <= 0.0 ==> x == 0.0
  {
    if x > 0.0 {
      PositiveProduct(x, y);
    } else if x < 0.0 {
      PositiveProduct(-x, -y);
    }
  }

  lemma PositiveProduct(x: real, y: real)
    requires x > 0.0 && y > 0.0
    ensures !(x * y <= 0.0)
  {
  }

  /** The quadrance is 0 exactly for the zero vector. */
  lemma {:induction false} QuadranceZero(xs: seq<real>)
    ensures Quadrance(xs) == 0.0 <==> forall i :: 0 <= i < |xs| ==> xs[i] == 0.0
  {
    if xs != [] {
      var init := xs[.. |xs| - 1];
      QuadranceZero(init);
      SquareSign(xs[|xs| - 1]);
      assert forall i :: 0 <= i < |init| ==> init[i] == xs[i];
    }
  }

  /** The quadrance of three components. */
  lemma Quadrance3(a: real, b: real, c: real)
    ensures Quadrance([a, b, c]) == a * a + b * b + c * c
  {
    assert [a][.. 0] == [];
    assert Quadrance([a]) == a * a;
    assert [a, b][.. 1] == [a];
    assert Quadrance([a, b]) == a * a + b * b;
    assert [a, b, c][.. 2] == [a, b];
  }

  /** The quadrance of four components. */
  lemma Quadrance4(a: real, b: real, c: real, d: real)
    ensures Quadrance([a, b, c, d]) == a * a + b * b + c * c + d * d
  {
    assert [a, b, c, d][.. 3] == [a, b, c];
    Quadrance3(a, b, c);
  }

  /** The quadrance of three and of four components. */
  lemma QuadranceSmall(v: seq<real>)
    ensures |v| == 3 ==> Quadrance(v) == v[0] * v[0] + v[1] * v[1] + v[2] * v[2]
    ensures |v| == 4 ==> Quadrance(v) == v[0] * v[0] + v[1] * v[1] + v[2] * v[2] + v[3] * v[3]
  {
    if |v| == 3 {
      assert v == [v[0], v[1], v[2]];
      Quadrance3(v[0], v[1], v[2]);
    } else if |v| == 4 {
      assert v == [v[0], v[1], v[2], v[3]];
      Quadrance4(v[0], v[1], v[2], v[3]);
    }
  }

  /** With four components the quadrance is `Norm4`. */
  lemma QuadranceNorm(v: seq<real>)
    requires |v| == 4
    ensures Quadrance(v) == Norm4(v)
  {
    QuadranceSmall(v);
  }

  /** Euler's four-square identity, over the components. */
  lemma FourSquares(a1: real, b1: real, c1: real, d1: real, a2: real, b2: real, c2: real, d2: real)
    ensures (a1 * a2 - b1 * b2 - c1 * c2 - d1 * d2) * (a1 * a2 - b1 * b2 - c1 * c2 - d1 * d2)
          + (a1 * b2 + b1 * a2 + c1 * d2 - d1 * c2) * (a1 * b2 + b1 * a2 + c1 * d2 - d1 * c2)
          + (a1 * c2 - b1 * d2 + c1 * a2 + d1 * b2) * (a1 * c2 - b1 * d2 + c1 * a2 + d1 * b2)
          + (a1 * d2 + b1 * c2 - c1 * b2 + d1 * a2) * (a1 * d2 + b1 * c2 - c1 * b2 + d1 * a2)
         == (a1 * a1 + b1 * b1 + c1 * c1 + d1 * d1) * (a2 * a2 + b2 * b2 + c2 * c2 + d2 * d2)
  {
  }

  /** Equal values have equal sums of squares. */
  lemma SumSquares(x0: real, x1: real, x2: real, x3: real, e0: real, e1: real, e2: real, e3: real)
    requires x0 == e0 && x1 == e1 && x2 == e2 && x3 == e3
    ensures x0 * x0 + x1 * x1 + x2 * x2 + x3 * x3 == e0 * e0 + e1 * e1 + e2 * e2 + e3 * e3
  {
  }

  /** a² + b² + c² + d². */
  function SumOfSquares(a: real, b: real, c: real, d: real): real
  {
    a * a + b * b + c * c + d * d
  }

  /** The sum of the squares of the four components of v. */
  function Norm4(v: seq<real>): real
    requires |v| == 4
  {
    SumOfSquares(v[0], v[1], v[2], v[3])
  }

  /** The sum of squares of the product h of p and q. */
  lemma NormOf(h: seq<real>, p: seq<real>, q: seq<real>)
    requires |p| == 4 && |q| == 4 && IsProduct(h, p, q)
    ensures Norm4(h) == Norm4(p) * Norm4(q)
  {
    QuadranceOfParts(h[0], h[1], h[2], h[3], p[0], p[1], p[2], p[3], q[0], q[1], q[2], q[3]);
  }

  /** The same, over the components. */
  lemma QuadranceOfParts(x0: real, x1: real, x2: real, x3: real,
                         a1: real, b1: real, c1: real, d1: real, a2: real, b2: real, c2: real, d2: real)
    requires ProductParts(x0, x1, x2, x3, a1, b1, c1, d1, a2, b2, c2, d2)
    ensures SumOfSquares(x0, x1, x2, x3) == SumOfSquares(a1, b1, c1, d1) * SumOfSquares(a2, b2, c2, d2)
  {
    QuadranceParts(x0, x1, x2, x3, a1, b1, c1, d1, a2, b2, c2, d2);
    Times(SumOfSquares(a1, b1, c1, d1), SumOfSquares(a2, b2, c2, d2),
          a1 * a1 + b1 * b1 + c1 * c1 + d1 * d1, a2 * a2 + b2 * b2 + c2 * c2 + d2 * d2);
  }

  /** The quadrance of a Hamilton product is the product of the quadrances. */
  lemma HamiltonQuadrance(p: seq<real>, q: seq<real>)
    requires |p| == 4 && |q| == 4
    ensures Quadrance(Hamilton(p, q)) == Quadrance(p) * Quadrance(q)
  {
    var h := Hamilton(p, q);
    assert IsProduct(h, p, q);
    NormOf(h, p, q);
    QuadranceOf(h, p, q);
  }

  /** For four components, a product of sums of squares carries over to the quadrances. */
  lemma QuadranceOf(h: seq<real>, p: seq<real>, q: seq<real>)
    requires |h| == 4 && |p| == 4 && |q| == 4 && Norm4(h) == Norm4(p) * Norm4(q)
    ensures Quadrance(h) == Quadrance(p) * Quadrance(q)
  {
    QuadranceNorm(h);
    QuadranceNorm(p);
    QuadranceNorm(q);
    Times(Quadrance(p), Quadrance(q), Norm4(p), Norm4(q));
  }

  /** Four-square identity with the product's components named x0 .. x3. */
  lemma QuadranceParts(x0: real, x1: real, x2: real, x3: real,
                       a1: real, b1: real, c1: real, d1: real, a2: real, b2: real, c2: real, d2: real)
    requires x0 == a1 * a2 - b1 * b2 - c1 * c2 - d1 * d2 && x1 == a1 * b2 + b1 * a2 + c1 * d2 - d1 * c2
    requires x2 == a1 * c2 - b1 * d2 + c1 * a2 + d1 * b2 && x3 == a1 * d2 + b1 * c2 - c1 * b2 + d1 * a2
    ensures x0 * x0 + x1 * x1 + x2 * x2 + x3 * x3
         == (a1 * a1 + b1 * b1 + c1 * c1 + d1 * d1) * (a2 * a2 + b2 * b2 + c2 * c2 + d2 * d2)
  {
    SumSquares(x0, x1, x2, x3,
               a1 * a2 - b1 * b2 - c1 * c2 - d1 * d2, a1 * b2 + b1 * a2 + c1 * d2 - d1 * c2,
               a1 * c2 - b1 * d2 + c1 * a2 + d1 * b2, a1 * d2 + b1 * c2 - c1 * b2 + d1 * a2);
    FourSquares(a1, b1, c1, d1, a2, b2, c2, d2);
  }

  /** Products of equal factors are equal. */
  lemma Times(x: real, y: real, e: real, f: real)
    requires x == e && y == f
    ensures x * y == e * f
  {
  }

  /** The quadrance of a product is the product of the quadrances. */
  lemma QuadranceMultiplicative(p: Instance, q: Instance)
    requires p.cls == Quat && q.cls == Quat
    ensures Mul(p, Obj(q)).Ok?
    ensures Quadrance(Mul(p, Obj(q)).value.val) == Quadrance(p.val) * Quadrance(q.val)
  {
    HamiltonQuadrance(p.val, q.val);
  }

  // ---------------------------------------------------------- fromAngleAxis

  /**
   * `fromAngleAxis(a, axis)` with `axis` given by its components (a Vec3
   * gives its `val`), `half` = (cos(a/2), sin(a/2)) and `norm` the value
   * `Math.sqrt` returns for the axis quadrance.
   */
  function FromAngleAxis(half: Angle, axis: seq<real>, norm: real): (q: Instance)
    requires |axis| >= 3 && IsNorm(norm, axis)
    ensures q.cls == Quat
    ensures norm == 0.0 ==> q.val == [1.0, 0.0, 0.0, 0.0]
    ensures norm != 0.0 ==> Along(q.val, half, axis[0], axis[1], axis[2], norm)
  {
    if norm != 0.0 then
      AlongAxis(half, axis[0], axis[1], axis[2], norm);
      NewQuat(AngleAxisVal(half, axis[0], axis[1], axis[2], norm))
    else
      NewQuat(AngleAxisVal(half, axis[0], axis[1], axis[2], norm))
  }

  /**
   * q is (cos, sin·u) for the half angle and u the axis (x, y, z) over its
   * length m: the real part is the cosine, and m times the vector part is
   * the sine times the axis.
   */
  predicate Along(q: seq<real>, half: Angle, x: real, y: real, z: real, m: real)
    requires |q| == 4
  {
    q[0] == half.cos && q[1] * m == x * half.sin && q[2] * m == y * half.sin && q[3] * m == z * half.sin
  }

  /** The components picked for a nonzero axis lie along it. */
  lemma AlongAxis(half: Angle, x: real, y: real, z: real, m: real)
    requires m != 0.0
    ensures Along(AngleAxisVal(half, x, y, z, m), half, x, y, z, m)
  {
    var k, s := 1.0 / m, half.sin;
    assert x / m == x * k && y / m == y * k && z / m == z * k;
    assert k * m == 1.0;
    assert x * k * s * m == x * s * (k * m);
    assert y * k * s * m == y * s * (k * m);
    assert z * k * s * m == z * s * (k * m);
  }

  /** The components `fromAngleAxis` picks for an axis (x, y, z) of length m: 1 when m is 0. */
  function AngleAxisVal(half: Angle, x: real, y: real, z: real, m: real): (v: seq<real>)
    ensures |v| == 4
  {
    if m != 0.0 then [half.cos, x / m * half.sin, y / m * half.sin, z / m * half.sin] else [1.0, 0.0, 0.0, 0.0]
  }

  /** norm is the length of axis: `Math.sqrt` of the sum of squares. */
  predicate IsNorm(norm: real, axis: seq<real>)
  {
    norm >= 0.0 && norm * norm == Quadrance(axis)
  }

  /** A zero axis gives the quaternion 1 whatever the angle, and only a zero axis takes that branch. */
  lemma ZeroAxis(half: Angle, axis: seq<real>, norm: real)
    requires |axis| >= 3 && IsNorm(norm, axis)
    ensures (forall i :: 0 <= i < |axis| ==> axis[i] == 0.0) <==> norm == 0.0
    ensures norm == 0.0 ==> FromAngleAxis(half, axis, norm) == One()
  {
    QuadranceZero(axis);
    ProductSign(norm, norm);
  }

  /** For a nonzero axis and a half angle on the unit circle the quaternion is a unit one. */
  lemma UnitFromAngleAxis(half: Angle, axis: seq<real>, norm: real)
    requires |axis| == 3 && IsNorm(norm, axis)
    requires norm != 0.0 && OnCircle(half)
    ensures Quadrance(FromAngleAxis(half, axis, norm).val) == 1.0
  {
    var q := AngleAxisVal(half, axis[0], axis[1], axis[2], norm);
    AxisNorm(axis, norm);
    AngleAxisEntries(half, axis[0], axis[1], axis[2], norm);
    QuadranceNorm(q);
    UnitParts(q[0], q[1], q[2], q[3], half, axis[0], axis[1], axis[2], norm);
  }

  /** The norm of a three-component axis, as the scalar fact the unit proof needs. */
  lemma AxisNorm(axis: seq<real>, norm: real)
    requires |axis| == 3 && IsNorm(norm, axis)
    ensures NormParts(norm, axis[0], axis[1], axis[2])
  {
    QuadranceSmall(axis);
  }

  /** m is a norm of (x, y, z). */
  predicate NormParts(m: real, x: real, y: real, z: real)
  {
    m * m == x * x + y * y + z * z
  }

  /** The components of a quaternion built from a nonzero axis. */
  lemma AngleAxisEntries(half: Angle, x: real, y: real, z: real, m: real)
    requires m != 0.0
    ensures var v := AngleAxisVal(half, x, y, z, m);
      AngleAxisParts(v[0], v[1], v[2], v[3], half.cos, half.sin, x, y, z, m)
  {
  }

  /** (q0, q1, q2, q3) is (c, x/m·s, y/m·s, z/m·s). */
  predicate AngleAxisParts(q0: real, q1: real, q2: real, q3: real, c: real, s: real, x: real, y: real, z: real, m: real)
    requires m != 0.0
  {
    q0 == c && q1 == x / m * s && q2 == y / m * s && q3 == z / m * s
  }

  lemma UnitParts(q0: real, q1: real, q2: real, q3: real, half: Angle, x: real, y: real, z: real, m: real)
    requires m != 0.0 && AngleAxisParts(q0, q1, q2, q3, half.cos, half.sin, x, y, z, m)
    requires NormParts(m, x, y, z) && OnCircle(half)
    ensures SumOfSquares(q0, q1, q2, q3) == 1.0
  {
    var c, s := half.cos, half.sin;
    SumSquares(q0, q1, q2, q3, c, x / m * s, y / m * s, z / m * s);
    UnitSum(c, s, x, y, z, m);
  }

  lemma UnitSum(c: real, s: real, x: real, y: real, z: real, m: real)
    requires m != 0.0 && m * m == x * x + y * y + z * z && c * c + s * s == 1.0
    ensures c * c + x / m * s * (x / m * s) + y / m * s * (y / m * s) + z / m * s * (z / m * s) == 1.0
  {
    var k := 1.0 / m;
    assert x / m == x * k && y / m == y * k && z / m == z * k;
    assert k * k * (m * m) == 1.0;
    assert x * k * s * (x * k * s) + y * k * s * (y * k * s) + z * k * s * (z * k * s) == s * s * (k * k * (m * m));
  }

  // --------------------------------------------------------- rotation matrix

  /** The factor `toMat3` applies: 2 over the quadrance, or 0 for the zero quaternion. */
  function Factor(v: seq<real>): real
  {
    var n := Quadrance(v);
    if n == 0.0 then 0.0 else 2.0 / n
  }

  /** The nine components (column-major) `toMat3` passes to `new Mat3`. */
  function RotationVal(v: seq<real>): (m: seq<real>)
    requires |v| == 4
    ensures |m| == 9
  {
    var a, b, c, d, s := v[0], v[1], v[2], v[3], Factor(v);
    [1.0 - s * (c * c + d * d), s * (b * c + a * d), s * (b * d - a * c),
     s * (b * c - a * d), 1.0 - s * (b * b + d * d), s * (c * d + a * b),
     s * (b * d + a * c), s * (c * d - a * b), 1.0 - s * (b * b + c * c)]
  }

  /** m holds, column-major, the rotation matrix of (a, b, c, d) with factor s. */
  predicate IsRotation(m: seq<real>, s: real, a: real, b: real, c: real, d: real)
  {
    |m| == 9 && RotationParts(m[0], m[1], m[2], m[3], m[4], m[5], m[6], m[7], m[8], s, a, b, c, d)
  }

  /** The same, entry by entry. */
  predicate RotationParts(m0: real, m1: real, m2: real, m3: real, m4: real, m5: real, m6: real, m7: real, m8: real,
                          s: real, a: real, b: real, c: real, d: real)
  {
    m0 == 1.0 - s * (c * c + d * d) && m1 == s * (b * c + a * d) && m2 == s * (b * d - a * c) &&
    m3 == s * (b * c - a * d) && m4 == 1.0 - s * (b * b + d * d) && m5 == s * (c * d + a * b) &&
    m6 == s * (b * d + a * c) && m7 == s * (c * d - a * b) && m8 == 1.0 - s * (b * b + c * c)
  }

  /**
   * `q.toMat3()`: the rotation about the vector part of q. For a nonzero q the result is a proper
   * rotation (orthogonal with determinant 1), whether or not q is a unit quaternion.
   */
  function ToMat3(q: Instance): (r: Instance)
    requires q.cls == Quat
    ensures NewMatrix(Mat3, Nums(RotationVal(q.val))) == Ok(r)
    ensures r.cls == Mat3 && MatVec(r.val, q.val[1 ..], 3) == q.val[1 ..]
    ensures Quadrance(q.val) != 0.0 ==> Product(Transposed(r.val, 3), r.val, 3) == Identity(3) && Matrix3.Det(r.val) == 1.0
  {
    FromComponents(Mat3, RotationVal(q.val));
    RotationAxis(q.val);
    if Quadrance(q.val) == 0.0 then MatObj(Mat3, RotationVal(q.val))
    else RotationProper(q.val); MatObj(Mat3, RotationVal(q.val))
  }

  /** `q.toMat4()`: the Mat4 built from `toMat3()`, again a proper rotation for a nonzero q. */
  function ToMat4(q: Instance): (r: Instance)
    requires q.cls == Quat
    ensures NewMatrix(Mat4, [Obj(ToMat3(q))]) == Ok(r)
    ensures r.cls == Mat4
    ensures var m := RotationVal(q.val);
      r.val == [m[0], m[1], m[2], 0.0, m[3], m[4], m[5], 0.0, m[6], m[7], m[8], 0.0, 0.0, 0.0, 0.0, 1.0]
    ensures Quadrance(q.val) != 0.0 ==> Orthogonal(r.val) && Matrix4.Det(r.val) == 1.0
  {
    Matrix4.FromMat3(ToMat3(q));
    var m := RotationVal(q.val);
    if Quadrance(q.val) == 0.0 then NewMatrix(Mat4, [Obj(ToMat3(q))]).value
    else
      RotationProper(q.val);
      EmbeddedOrthonormal(m);
      Matrix4.EmbeddedDet(m);
      NewMatrix(Mat4, [Obj(ToMat3(q))]).value
  }

  /** The zero quaternion and 1 both give the identity. */
  lemma RotationIdentity()
    ensures RotationVal([0.0, 0.0, 0.0, 0.0]) == Identity(3)
    ensures RotationVal([1.0, 0.0, 0.0, 0.0]) == Identity(3)
    ensures ToMat3(One()) == IdentityOf(Mat3).value
  {
    Diagonal3(1.0);
    RotationOfZero();
    RotationOfOne();
    assert One().val == [1.0, 0.0, 0.0, 0.0];
    FromComponents(Mat3, Identity(3));
  }

  lemma RotationOfZero()
    ensures RotationVal([0.0, 0.0, 0.0, 0.0]) == [1.0, 0.0, 0.0, 0.0, 1.0, 0.0, 0.0, 0.0, 1.0]
  {
    var v := [0.0, 0.0, 0.0, 0.0];
    QuadranceSmall(v);
    assert Factor(v) == 0.0;
  }

  lemma RotationOfOne()
    ensures RotationVal([1.0, 0.0, 0.0, 0.0]) == [1.0, 0.0, 0.0, 0.0, 1.0, 0.0, 0.0, 0.0, 1.0]
  {
    var v := [1.0, 0.0, 0.0, 0.0];
    QuadranceSmall(v);
    assert Factor(v) == 2.0;
  }

  /** A nonzero multiple of q gives the same matrix as q. */
  lemma RotationScaled(q: Instance, k: real)
    requires q.cls == Quat && k != 0.0
    ensures ToMat3(Scaled(q, k)) == ToMat3(q)
  {
    var v, w := q.val, Scaled(q, k).val;
    assert ScaledParts(w[0], w[1], w[2], w[3], k, v[0], v[1], v[2], v[3]);
    ScaledRotation(v, w, k);
  }

  /** (a', b', c', d') is k times (a, b, c, d). */
  predicate ScaledParts(a': real, b': real, c': real, d': real, k: real, a: real, b: real, c: real, d: real)
  {
    a' == k * a && b' == k * b && c' == k * c && d' == k * d
  }

  /** For w = k·v with k nonzero, the rotation matrices agree. */
  lemma ScaledRotation(v: seq<real>, w: seq<real>, k: real)
    requires |v| == 4 && |w| == 4 && k != 0.0
    requires ScaledParts(w[0], w[1], w[2], w[3], k, v[0], v[1], v[2], v[3])
    ensures RotationVal(w) == RotationVal(v)
  {
    if Quadrance(v) == 0.0 {
      QuadranceZero(v);
      assert w == v;
    } else {
      ScaledNonzero(v, w, k);
    }
  }

  lemma ScaledNonzero(v: seq<real>, w: seq<real>, k: real)
    requires |v| == 4 && |w| == 4 && k != 0.0 && Quadrance(v) != 0.0
    requires ScaledParts(w[0], w[1], w[2], w[3], k, v[0], v[1], v[2], v[3])
    ensures RotationVal(w) == RotationVal(v)
  {
    ScaledQuadrance(v, w, k);
    var fv, fw := Factor(v), Factor(w);
    ScaledFactor(k, Quadrance(v), Quadrance(w), fv, fw);
    RotationEntries(v);
    RotationEntries(w);
    var r, s := RotationVal(v), RotationVal(w);
    ScaledRotationParts(r[0], r[1], r[2], r[3], r[4], r[5], r[6], r[7], r[8],
                        s[0], s[1], s[2], s[3], s[4], s[5], s[6], s[7], s[8],
                        k, fv, fw, v[0], v[1], v[2], v[3], w[0], w[1], w[2], w[3]);
    assert s == r;
  }

  /** Scaling by k scales the quadrance by k². */
  lemma ScaledQuadrance(v: seq<real>, w: seq<real>, k: real)
    requires |v| == 4 && |w| == 4 && ScaledParts(w[0], w[1], w[2], w[3], k, v[0], v[1], v[2], v[3])
    ensures Quadrance(w) == k * k * Quadrance(v)
  {
    QuadranceNorm(v);
    QuadranceNorm(w);
    SquareScaled(k, v[0], v[1], v[2], v[3], w[0], w[1], w[2], w[3]);
    Times(k * k, SumOfSquares(v[0], v[1], v[2], v[3]), k * k, Quadrance(v));
  }

  /** Entry by entry, the rotation matrix of k·(a, b, c, d) with factor t is that of (a, b, c, d) with factor s. */
  lemma ScaledRotationParts(m0: real, m1: real, m2: real, m3: real, m4: real, m5: real, m6: real, m7: real, m8: real,
                            n0: real, n1: real, n2: real, n3: real, n4: real, n5: real, n6: real, n7: real, n8: real,
                            k: real, s: real, t: real, a: real, b: real, c: real, d: real,
                            a': real, b': real, c': real, d': real)
    requires RotationParts(m0, m1, m2, m3, m4, m5, m6, m7, m8, s, a, b, c, d)
    requires RotationParts(n0, n1, n2, n3, n4, n5, n6, n7, n8, t, a', b', c', d')
    requires ScaledParts(a', b', c', d', k, a, b, c, d) && t * (k * k) == s
    ensures n0 == m0 && n1 == m1 && n2 == m2 && n3 == m3 && n4 == m4 && n5 == m5 && n6 == m6 && n7 == m7 && n8 == m8
  {
    ScaledEntries(k, s, t, a, b, c, d, a', b', c', d');
  }

  lemma SquareScaled(k: real, a: real, b: real, c: real, d: real, a': real, b': real, c': real, d': real)
    requires ScaledParts(a', b', c', d', k, a, b, c, d)
    ensures SumOfSquares(a', b', c', d') == k * k * SumOfSquares(a, b, c, d)
  {
  }

  /** The factor of k·v times k² is the factor of v, for v nonzero and k nonzero. */
  lemma ScaledFactor(k: real, n: real, nk: real, s: real, t: real)
    requires k != 0.0 && n != 0.0 && nk == k * k * n
    requires s == (if n == 0.0 then 0.0 else 2.0 / n) && t == (if nk == 0.0 then 0.0 else 2.0 / nk)
    ensures t * (k * k) == s
  {
    ProductSign(k, k);
    NonZeroProduct(k * k, n);
    assert t == 2.0 / (k * k * n);
  }

  lemma NonZeroProduct(x: real, y: real)
    requires x != 0.0 && y != 0.0
    ensures x * y != 0.0
  {
  }

  /** Each product of two components, scaled by the factor, is unchanged by scaling q by k. */
  lemma ScaledEntries(k: real, s: real, t: real, a: real, b: real, c: real, d: real, a': real, b': real, c': real, d': real)
    requires t * (k * k) == s
    requires a' == k * a && b' == k * b && c' == k * c && d' == k * d
    ensures t * (c' * c' + d' * d') == s * (c * c + d * d)
    ensures t * (b' * b' + d' * d') == s * (b * b + d * d)
    ensures t * (b' * b' + c' * c') == s * (b * b + c * c)
    ensures t * (b' * c' + a' * d') == s * (b * c + a * d) && t * (b' * c' - a' * d') == s * (b * c - a * d)
    ensures t * (b' * d' - a' * c') == s * (b * d - a * c) && t * (b' * d' + a' * c') == s * (b * d + a * c)
    ensures t * (c' * d' + a' * b') == s * (c * d + a * b) && t * (c' * d' - a' * b') == s * (c * d - a * b)
  {
    assert t * (c' * c' + d' * d') == t * (k * k) * (c * c + d * d);
    assert t * (b' * b' + d' * d') == t * (k * k) * (b * b + d * d);
    assert t * (b' * b' + c' * c') == t * (k * k) * (b * b + c * c);
    assert t * (b' * c' + a' * d') == t * (k * k) * (b * c + a * d);
    assert t * (b' * c' - a' * d') == t * (k * k) * (b * c - a * d);
    assert t * (b' * d' - a' * c') == t * (k * k) * (b * d - a * c);
    assert t * (b' * d' + a' * c') == t * (k * k) * (b * d + a * c);
    assert t * (c' * d' + a' * b') == t * (k * k) * (c * d + a * b);
    assert t * (c' * d' - a' * b') == t * (k * k) * (c * d - a * b);
  }

  /** The vector part (b, c, d) of the components v is the axis of their rotation: the matrix leaves it in place. */
  lemma RotationAxis(v: seq<real>)
    requires |v| == 4
    ensures MatVec(RotationVal(v), v[1 ..], 3) == v[1 ..]
  {
    var u := v[1 ..];
    RotationEntries(v);
    assert u[0] == v[1] && u[1] == v[2] && u[2] == v[3];
    RotationAxisOf(RotationVal(v), u, Factor(v), v[0]);
  }

  /** `RotationVal` entry by entry. */
  lemma RotationEntries(v: seq<real>)
    requires |v| == 4
    ensures IsRotation(RotationVal(v), Factor(v), v[0], v[1], v[2], v[3])
  {
  }

  lemma RotationAxisOf(m: seq<real>, u: seq<real>, s: real, a: real)
    requires |m| == 9 && |u| == 3 && IsRotation(m, s, a, u[0], u[1], u[2])
    ensures MatVec(m, u, 3) == u
  {
    var r := MatVec(m, u, 3);
    AppliedEntries(m, u);
    AxisOf(m[0], m[1], m[2], m[3], m[4], m[5], m[6], m[7], m[8], s, a, u[0], u[1], u[2], r[0], r[1], r[2]);
  }

  /** A 3 x 3 matrix applied to a vector, entry by entry. */
  lemma AppliedEntries(m: seq<real>, u: seq<real>)
    requires |m| == 9 && |u| == 3
    ensures |MatVec(m, u, 3)| == 3
    ensures Applied(MatVec(m, u, 3)[0], MatVec(m, u, 3)[1], MatVec(m, u, 3)[2],
                    m[0], m[1], m[2], m[3], m[4], m[5], m[6], m[7], m[8], u[0], u[1], u[2])
  {
    MatVec3(m, u);
  }

  /** (r0, r1, r2) is the column-major matrix (m0 .. m8) applied to (b, c, d). */
  predicate Applied(r0: real, r1: real, r2: real,
                    m0: real, m1: real, m2: real, m3: real, m4: real, m5: real, m6: real, m7: real, m8: real,
                    b: real, c: real, d: real)
  {
    r0 == m0 * b + m3 * c + m6 * d && r1 == m1 * b + m4 * c + m7 * d && r2 == m2 * b + m5 * c + m8 * d
  }

  /** The rotation matrix of (a, b, c, d), entry by entry, maps (b, c, d) to itself. */
  lemma AxisOf(m0: real, m1: real, m2: real, m3: real, m4: real, m5: real, m6: real, m7: real, m8: real,
               s: real, a: real, b: real, c: real, d: real, r0: real, r1: real, r2: real)
    requires RotationParts(m0, m1, m2, m3, m4, m5, m6, m7, m8, s, a, b, c, d)
    requires Applied(r0, r1, r2, m0, m1, m2, m3, m4, m5, m6, m7, m8, b, c, d)
    ensures r0 == b && r1 == c && r2 == d
  {
    Combine(m0, m3, m6, 1.0 - s * (c * c + d * d), s * (b * c - a * d), s * (b * d + a * c), b, c, d);
    Combine(m1, m4, m7, s * (b * c + a * d), 1.0 - s * (b * b + d * d), s * (c * d - a * b), b, c, d);
    Combine(m2, m5, m8, s * (b * d - a * c), s * (c * d + a * b), 1.0 - s * (b * b + c * c), b, c, d);
    AxisParts(s, a, b, c, d);
  }

  /** A combination of equal values with the same weights is the same. */
  lemma Combine(x0: real, x1: real, x2: real, e0: real, e1: real, e2: real, w0: real, w1: real, w2: real)
    requires x0 == e0 && x1 == e1 && x2 == e2
    ensures x0 * w0 + x1 * w1 + x2 * w2 == e0 * w0 + e1 * w1 + e2 * w2
  {
  }

  /** Row by row, the rotation matrix applied to (b, c, d), as a polynomial identity. */
  lemma AxisParts(s: real, a: real, b: real, c: real, d: real)
    ensures (1.0 - s * (c * c + d * d)) * b + s * (b * c - a * d) * c + s * (b * d + a * c) * d == b
    ensures s * (b * c + a * d) * b + (1.0 - s * (b * b + d * d)) * c + s * (c * d - a * b) * d == c
    ensures s * (b * d - a * c) * b + s * (c * d + a * b) * c + (1.0 - s * (b * b + c * c)) * d == d
  {
  }

  /**
   * For a nonzero quaternion the matrix is a proper rotation: its columns are orthonormal, so mᵀ·m = I,
   * and its determinant is 1. The factor 2 over the quadrance is what makes this hold without normalising.
   */
  lemma RotationProper(v: seq<real>)
    requires |v| == 4 && Quadrance(v) != 0.0
    ensures Product(Transposed(RotationVal(v), 3), RotationVal(v), 3) == Identity(3)
    ensures Matrix3.Det(RotationVal(v)) == 1.0
  {
    var m := RotationVal(v);
    FactorOf(v);
    RotationEntries(v);
    ProperParts(m[0], m[1], m[2], m[3], m[4], m[5], m[6], m[7], m[8], Factor(v), v[0], v[1], v[2], v[3]);
    DotColumns(m);
    Orthonormal3(m);
  }

  /** For a nonzero quaternion the factor times the sum of the squares of the components is 2. */
  lemma FactorOf(v: seq<real>)
    requires |v| == 4 && Quadrance(v) != 0.0
    ensures Factor(v) * SumOfSquares(v[0], v[1], v[2], v[3]) == 2.0
  {
    QuadranceSmall(v);
    Quotient(2.0, Quadrance(v));
  }

  /** The dot products of the columns of a 3 x 3 matrix, through Dot. */
  lemma DotColumns(m: seq<real>)
    requires |m| == 9
    ensures ColumnDot3(m, 0, 0) == Dot(m[0], m[1], m[2], m[0], m[1], m[2])
    ensures ColumnDot3(m, 1, 1) == Dot(m[3], m[4], m[5], m[3], m[4], m[5])
    ensures ColumnDot3(m, 2, 2) == Dot(m[6], m[7], m[8], m[6], m[7], m[8])
    ensures ColumnDot3(m, 0, 1) == Dot(m[0], m[1], m[2], m[3], m[4], m[5])
    ensures ColumnDot3(m, 0, 2) == Dot(m[0], m[1], m[2], m[6], m[7], m[8])
    ensures ColumnDot3(m, 1, 2) == Dot(m[3], m[4], m[5], m[6], m[7], m[8])
  {
  }

  /** Entry by entry, the rotation matrix with s·(a² + b² + c² + d²) = 2 has orthonormal columns and determinant 1. */
  lemma ProperParts(m0: real, m1: real, m2: real, m3: real, m4: real, m5: real, m6: real, m7: real, m8: real,
                    s: real, a: real, b: real, c: real, d: real)
    requires RotationParts(m0, m1, m2, m3, m4, m5, m6, m7, m8, s, a, b, c, d)
    requires s * SumOfSquares(a, b, c, d) == 2.0
    ensures Dot(m0, m1, m2, m0, m1, m2) == 1.0 && Dot(m3, m4, m5, m3, m4, m5) == 1.0 && Dot(m6, m7, m8, m6, m7, m8) == 1.0
    ensures Dot(m0, m1, m2, m3, m4, m5) == 0.0 && Dot(m0, m1, m2, m6, m7, m8) == 0.0 && Dot(m3, m4, m5, m6, m7, m8) == 0.0
    ensures Matrix3.Expansion(m0, m1, m2, m3, m4, m5, m6, m7, m8) == 1.0
  {
    UnitColumn0(s, a, b, c, d);
    UnitColumn1(s, a, b, c, d);
    UnitColumn2(s, a, b, c, d);
    Orthogonal01(s, a, b, c, d);
    Orthogonal02(s, a, b, c, d);
    Orthogonal12(s, a, b, c, d);
    UnitDeterminant(s, a, b, c, d);
  }

  /** The dot product of (x0, x1, x2) and (y0, y1, y2). */
  function Dot(x0: real, x1: real, x2: real, y0: real, y1: real, y2: real): real
  {
    x0 * y0 + x1 * y1 + x2 * y2
  }

  /** With s·n = 2, s²·n·y is 2·s·y. */
  lemma FactorCancels(s: real, n: real, y: real)
    requires s * n == 2.0
    ensures s * s * n * y == 2.0 * s * y
  {
    assert s * s * n * y == s * (s * n) * y;
  }

  // Each dot product of two columns, and the determinant, is 1 or 0 plus a multiple of s²·n - 2·s for
  // n = a² + b² + c² + d², which vanishes once s·n = 2.

  /** Column 0 of the rotation matrix is a unit vector. */
  lemma UnitColumn0(s: real, a: real, b: real, c: real, d: real)
    requires s * SumOfSquares(a, b, c, d) == 2.0
    ensures Dot(1.0 - s * (c * c + d * d), s * (b * c + a * d), s * (b * d - a * c),
                1.0 - s * (c * c + d * d), s * (b * c + a * d), s * (b * d - a * c)) == 1.0
  {
    FactorCancels(s, SumOfSquares(a, b, c, d), c * c + d * d);
  }

  /** Column 1 of the rotation matrix is a unit vector. */
  lemma UnitColumn1(s: real, a: real, b: real, c: real, d: real)
    requires s * SumOfSquares(a, b, c, d) == 2.0
    ensures Dot(s * (b * c - a * d), 1.0 - s * (b * b + d * d), s * (c * d + a * b),
                s * (b * c - a * d), 1.0 - s * (b * b + d * d), s * (c * d + a * b)) == 1.0
  {
    FactorCancels(s, SumOfSquares(a, b, c, d), b * b + d * d);
  }

  /** Column 2 of the rotation matrix is a unit vector. */
  lemma UnitColumn2(s: real, a: real, b: real, c: real, d: real)
    requires s * SumOfSquares(a, b, c, d) == 2.0
    ensures Dot(s * (b * d + a * c), s * (c * d - a * b), 1.0 - s * (b * b + c * c),
                s * (b * d + a * c), s * (c * d - a * b), 1.0 - s * (b * b + c * c)) == 1.0
  {
    FactorCancels(s, SumOfSquares(a, b, c, d), b * b + c * c);
  }

  /** Columns 0 and 1 of the rotation matrix are at right angles. */
  lemma Orthogonal01(s: real, a: real, b: real, c: real, d: real)
    requires s * SumOfSquares(a, b, c, d) == 2.0
    ensures Dot(1.0 - s * (c * c + d * d), s * (b * c + a * d), s * (b * d - a * c),
                s * (b * c - a * d), 1.0 - s * (b * b + d * d), s * (c * d + a * b)) == 0.0
  {
    FactorCancels(s, SumOfSquares(a, b, c, d), b * c);
  }

  /** Columns 0 and 2 of the rotation matrix are at right angles. */
  lemma Orthogonal02(s: real, a: real, b: real, c: real, d: real)
    requires s * SumOfSquares(a, b, c, d) == 2.0
    ensures Dot(1.0 - s * (c * c + d * d), s * (b * c + a * d), s * (b * d - a * c),
                s * (b * d + a * c), s * (c * d - a * b), 1.0 - s * (b * b + c * c)) == 0.0
  {
    FactorCancels(s, SumOfSquares(a, b, c, d), b * d);
  }

  /** Columns 1 and 2 of the rotation matrix are at right angles. */
  lemma Orthogonal12(s: real, a: real, b: real, c: real, d: real)
    requires s * SumOfSquares(a, b, c, d) == 2.0
    ensures Dot(s * (b * c - a * d), 1.0 - s * (b * b + d * d), s * (c * d + a * b),
                s * (b * d + a * c), s * (c * d - a * b), 1.0 - s * (b * b + c * c)) == 0.0
  {
    FactorCancels(s, SumOfSquares(a, b, c, d), c * d);
  }

  /** The rotation matrix has determinant 1. */
  lemma UnitDeterminant(s: real, a: real, b: real, c: real, d: real)
    requires s * SumOfSquares(a, b, c, d) == 2.0
    ensures Matrix3.Expansion(1.0 - s * (c * c + d * d), s * (b * c + a * d), s * (b * d - a * c),
                              s * (b * c - a * d), 1.0 - s * (b * b + d * d), s * (c * d + a * b),
                              s * (b * d + a * c), s * (c * d - a * b), 1.0 - s * (b * b + c * c)) == 1.0
  {
    FactorCancels(s, SumOfSquares(a, b, c, d), b * b + c * c + d * d);
  }

  /** The quaternion 1 gives the 4 x 4 identity. */
  lemma ToMat4One()
    ensures ToMat4(One()) == IdentityOf(Mat4).value
  {
    ToMat4OneVal();
    IsIdentity4(ToMat4(One()));
  }

  lemma ToMat4OneVal()
    ensures ToMat4(One()).cls == Mat4
    ensures ToMat4(One()).val == [1.0, 0.0, 0.0, 0.0, 0.0, 1.0, 0.0, 0.0, 0.0, 0.0, 1.0, 0.0, 0.0, 0.0, 0.0, 1.0]
  {
    assert One().val == [1.0, 0.0, 0.0, 0.0];
    RotationOfOne();
  }

  lemma IsIdentity4(r: Instance)
    requires r.cls == Mat4
    requires r.val == [1.0, 0.0, 0.0, 0.0, 0.0, 1.0, 0.0, 0.0, 0.0, 0.0, 1.0, 0.0, 0.0, 0.0, 0.0, 1.0]
    ensures r == IdentityOf(Mat4).value
  {
    Diagonal4(1.0);
  }
}

=== FILE: sums.dfy ===
/**
 * Finite sums over an index range: the arithmetic behind the dot product,
 * the vector-matrix products and the matrix product of the library.
 * A sum is accumulated from index 0 upwards, as the library's loops do.
 */
module Sums {

  /** f(0) + f(1) + ... + f(n - 1) */
  function Sum(n: nat, f: int -> real): real
  {
    if n == 0 then 0.0 else Sum(n - 1, f) + f(n - 1)
  }

  /** f and g agree on the range 0 .. n - 1. */
  predicate Agree(n: nat, f: int -> real, g: int -> real)
  {
    forall i :: 0 <= i < n ==> f(i) == g(i)
  }

  /** Sums of functions that agree on the range are equal. */
  lemma {:induction false} SumExt(n: nat, f: int -> real, g: int -> real)
    requires Agree(n, f, g)
    ensures Sum(n, f) == Sum(n, g)
  {
    if n > 0 {
      SumExt(n - 1, f, g);
    }
  }

  /** Every term of g on the range is c times the term of f. */
  predicate Scales(n: nat, f: int -> real, g: int -> real, c: real)
  {
    forall i :: 0 <= i < n ==> g(i) == f(i) * c
  }

  /** A constant factor moves out of a sum. */
  lemma {:induction false} SumScale(n: nat, f: int -> real, g: int -> real, c: real)
    requires Scales(n, f, g, c)
    ensures Sum(n, g) == Sum(n, f) * c
  {
    if n > 0 {
      SumScale(n - 1, f, g, c);
    }
  }

  /** The sum of a pointwise sum is the sum of the sums. */
  lemma {:induction false} SumAdd(n: nat, f: int -> real, g: int -> real, h: int -> real)
    requires forall i :: 0 <= i < n ==> h(i) == f(i) + g(i)
    ensures Sum(n, h) == Sum(n, f) + Sum(n, g)
  {
    if n > 0 {
      SumAdd(n - 1, f, g, h);
    }
  }

  /** A sum whose only non-zero term is at index k equals that term. */
  lemma {:induction false} SumSingle(n: nat, f: int -> real, k: int)
    requires 0 <= k < n
    requires forall i :: 0 <= i < n && i != k ==> f(i) == 0.0
    ensures Sum(n, f) == f(k)
  {
    if n - 1 == k {
      SumZero(n - 1, f);
    } else {
      SumSingle(n - 1, f, k);
    }
  }

  /** A sum of zeros is zero. */
  lemma {:induction false} SumZero(n: nat, f: int -> real)
    requires forall i :: 0 <= i < n ==> f(i) == 0.0
    ensures Sum(n, f) == 0.0
  {
    if n > 0 {
      SumZero(n - 1, f);
    }
  }

  /** Row i of a table f: j => f(i, j). */
  function RowOf(f: (int, int) -> real, i: int): int -> real
  {
    j => f(i, j)
  }

  /** Column j of a table f: i => f(i, j). */
  function ColOf(f: (int, int) -> real, j: int): int -> real
  {
    i => f(i, j)
  }

  /** The sums of the first m entries of each row. */
  function RowSums(f: (int, int) -> real, m: nat): int -> real
  {
    i => Sum(m, RowOf(f, i))
  }

  /** The sums of the first n entries of each column. */
  function ColSums(f: (int, int) -> real, n: nat): int -> real
  {
    j => Sum(n, ColOf(f, j))
  }

  /** The order of a double sum can be exchanged. */
  lemma {:induction false} SumSwap(n: nat, m: nat, f: (int, int) -> real)
    ensures Sum(n, RowSums(f, m)) == Sum(m, ColSums(f, n))
  {
    if n > 0 {
      var prefix := ColSums(f, n - 1);
      var last := RowOf(f, n - 1);
      calc {
        Sum(n, RowSums(f, m));
        Sum(n - 1, RowSums(f, m)) + Sum(m, last);
        { SumSwap(n - 1, m, f); }
        Sum(m, prefix) + Sum(m, last);
        { SumAdd(m, prefix, last, ColSums(f, n)); }
        Sum(m, ColSums(f, n));
      }
    } else {
      SumZero(m, ColSums(f, n));
    }
  }

  /** Sums of two, three and four terms written out. */
  lemma Sum2(f: int -> real)
    ensures Sum(2, f) == f(0) + f(1)
  {
    assert Sum(1, f) == f(0);
  }

  lemma Sum3(f: int -> real)
    ensures Sum(3, f) == f(0) + f(1) + f(2)
  {
    Sum2(f);
  }

  lemma Sum4(f: int -> real)
    ensures Sum(4, f) == f(0) + f(1) + f(2) + f(3)
  {
    Sum3(f);
  }
}

=== FILE: transforms.dfy ===
/**
 * The static builders of matrix/Mat4.js: translation, scale, rotation about
 * each axis, shear, orthographic and perspective projection, and Euler
 * angles as a product of three rotations. Each one is `new this(...)` with
 * sixteen components listed in storage (column-major) order.
 *
 * The rotation builders compute `Math.cos(a)` and `Math.sin(a)`; here the
 * angle is given by that pair (`Angle`), and the properties of a rotation
 * hold when the pair lies on the unit circle.
 */
module Transforms {
  import opened MatBase
  import opened Matrix
  import opened MatrixAlgebra
  import opened FixedSize
  import opened Matrix4

  /** `new this(...vals)` with sixteen numbers. */
  function Build(vals: seq<real>): (r: Instance)
    requires |vals| == 16
    ensures NewMatrix(Mat4, Nums(vals)) == Ok(r)
    ensures r.cls == Mat4 && r.val == vals
  {
    FromComponents(Mat4, vals);
    MatObj(Mat4, vals)
  }

  /** The vector (x, y, z, w). */
  function Point(x: real, y: real, z: real, w: real): (v: Instance)
    ensures v.cls == Vec4 && v.val == [x, y, z, w]
  {
    MatObj(Vec4, [x, y, z, w])
  }

  /** The matrix m applied to the column vector v with `mul`. */
  function Apply(m: Instance, v: Instance): (r: Instance)
    requires m.cls == Mat4 && v.cls == Vec4
    ensures MulOf(m, Obj(v)) == Ok(Value(r))
    ensures r.cls == Vec4 && r.val == MatVec(m.val, v.val, 4)
  {
    MulOf(m, Obj(v)).value.o
  }

  /** The components `transl` writes: the identity with (dx, dy, dz, 1) as column 3. */
  function TranslVal(dx: real, dy: real, dz: real): (t: seq<real>)
    ensures |t| == 16
  {
    [1.0, 0.0, 0.0, 0.0, 0.0, 1.0, 0.0, 0.0, 0.0, 0.0, 1.0, 0.0, dx, dy, dz, 1.0]
  }

  /** Argument i of `transl`, or its default 0 when it is missing. */
  function TranslArg(args: seq<Arg>, i: nat): Arg
  {
    if i < |args| then args[i] else Num(0.0)
  }

  /**
   * `transl(dx = 0, dy = 0, dz = 0)`: a Vec3 first argument supplies all
   * three offsets; otherwise the three arguments go to the constructor as
   * they are (a null is read as 0 there, anything but a number, a vector
   * or null is a TypeError).
   */
  function Transl(args: seq<Arg>): (r: Result<Instance>)
    ensures r.Ok? ==> r.value.cls == Mat4 && r.value.val[..12] == Frame && r.value.val[15] == 1.0
    ensures |args| > 0 && args[0].Obj? && args[0].o.cls == Vec3 ==> r.Ok? && r.value.val[12..15] == args[0].o.val
  {
    if |args| > 0 && args[0].Obj? && args[0].o.cls == Vec3 then
      var v := args[0].o.val;
      FromComponents(Mat4, TranslVal(v[0], v[1], v[2]));
      NewMatrix(Mat4, Nums(TranslVal(v[0], v[1], v[2])))
    else
      FrameShape([TranslArg(args, 0), TranslArg(args, 1), TranslArg(args, 2)]);
      NewMatrix(Mat4, Nums(Frame) + [TranslArg(args, 0), TranslArg(args, 1), TranslArg(args, 2)] + [Num(1.0)])
  }

  /** The twelve components `transl` writes before the offsets: columns 0 to 2 of the identity. */
  const Frame: seq<real> := [1.0, 0.0, 0.0, 0.0, 0.0, 1.0, 0.0, 0.0, 0.0, 0.0, 1.0, 0.0]

  /** Whatever the three offsets are, a matrix built after the frame and before the final 1 keeps both. */
  lemma FrameShape(offsets: seq<Arg>)
    requires |offsets| == 3
    ensures var r := NewMatrix(Mat4, Nums(Frame) + offsets + [Num(1.0)]);
      r.Ok? ==> r.value.val[..12] == Frame && r.value.val[15] == 1.0
  {
    var args := Nums(Frame) + offsets + [Num(1.0)];
    assert args[0] == Num(1.0);
    assert [Num(1.0)] == Nums([1.0]);
    FlatMapAppend(Nums(Frame) + offsets, [Num(1.0)]);
    FlatMapAppend(Nums(Frame), offsets);
    FlatMapNums(Frame);
    FlatMapNums([1.0]);
  }

  /** The numbers dx, dy, dz, each defaulting to 0 when not given, and a Vec3 (dx, dy, dz) all build TranslVal(dx, dy, dz). */
  lemma TranslForms(xs: seq<real>, v: Instance)
    requires |xs| <= 3 && v.cls == Vec3
    ensures var dx, dy, dz := if |xs| > 0 then xs[0] else 0.0, if |xs| > 1 then xs[1] else 0.0, if |xs| > 2 then xs[2] else 0.0;
      Transl(Nums(xs)) == Ok(Build(TranslVal(dx, dy, dz)))
    ensures Transl([Obj(v)]) == Ok(Build(TranslVal(v.val[0], v.val[1], v.val[2])))
  {
    var dx, dy, dz := if |xs| > 0 then xs[0] else 0.0, if |xs| > 1 then xs[1] else 0.0, if |xs| > 2 then xs[2] else 0.0;
    var args := Nums(xs);
    assert TranslArg(args, 0) == Num(dx) && TranslArg(args, 1) == Num(dy) && TranslArg(args, 2) == Num(dz);
    assert Nums(Frame) + [Num(dx), Num(dy), Num(dz)] + [Num(1.0)] == Nums(TranslVal(dx, dy, dz));
  }

  /** The translation matrix maps (x, y, z, 1) to (x + dx, y + dy, z + dz, 1). */
  lemma TranslMoves(dx: real, dy: real, dz: real, x: real, y: real, z: real)
    ensures MatVec(TranslVal(dx, dy, dz), [x, y, z, 1.0], 4) == [x + dx, y + dy, z + dz, 1.0]
  {
    var m, v := TranslVal(dx, dy, dz), [x, y, z, 1.0];
    MatVec4(m, v);
    var r := MatVec(m, v, 4);
    assert r[0] == x + dx && r[1] == y + dy && r[2] == z + dz && r[3] == 1.0;
  }

  /** transl(1, 2, 3)·(0, 0, 0, 1) = (1, 2, 3, 1). */
  lemma TranslExample()
    ensures Transl([Num(1.0), Num(2.0), Num(3.0)]).Ok?
    ensures Apply(Transl([Num(1.0), Num(2.0), Num(3.0)]).value, Point(0.0, 0.0, 0.0, 1.0)) == Point(1.0, 2.0, 3.0, 1.0)
  {
    var origin: Instance := MatObj(Vec3, [0.0, 0.0, 0.0]);
    TranslForms([1.0, 2.0, 3.0], origin);
    assert Nums([1.0, 2.0, 3.0]) == [Num(1.0), Num(2.0), Num(3.0)];
    var m := Build(TranslVal(1.0, 2.0, 3.0));
    assert Transl([Num(1.0), Num(2.0), Num(3.0)]) == Ok(m);
    TranslMoves(1.0, 2.0, 3.0, 0.0, 0.0, 0.0);
    assert Apply(m, Point(0.0, 0.0, 0.0, 1.0)).val == [1.0, 2.0, 3.0, 1.0];
  }

  /** The components `scale` writes: diag(sx, sy, sz, 1). */
  function ScaleVal(sx: real, sy: real, sz: real): (s: seq<real>)
    ensures |s| == 16
  {
    [sx, 0.0, 0.0, 0.0, 0.0, sy, 0.0, 0.0, 0.0, 0.0, sz, 0.0, 0.0, 0.0, 0.0, 1.0]
  }

  /** `scale(sx = 1, sy = sx, sz = sy)` called with the numbers in `given`. */
  function Scale(given: seq<real>): (r: Instance)
    ensures r.cls == Mat4 && r.val == ScaleVal(r.val[0], r.val[5], r.val[10])
    ensures r.val[0] == (if |given| > 0 then given[0] else 1.0)
    ensures r.val[5] == (if |given| > 1 then given[1] else r.val[0])
    ensures r.val[10] == (if |given| > 2 then given[2] else r.val[5])
  {
    var sx := if |given| > 0 then given[0] else 1.0;
    var sy := if |given| > 1 then given[1] else sx;
    var sz := if |given| > 2 then given[2] else sy;
    Build(ScaleVal(sx, sy, sz))
  }

  /** The defaults: scale() is the identity, scale(k) scales uniformly, scale(a, b) scales z like y. */
  lemma ScaleDefaults(k: real, a: real, b: real, c: real)
    ensures Scale([]) == IdentityOf(Mat4).value
    ensures Scale([a, b, c]).val == ScaleVal(a, b, c)
    ensures Scale([k]).val == ScaleVal(k, k, k)
    ensures Scale([a, b]).val == ScaleVal(a, b, b)
  {
    Diagonal4(1.0);
  }

  /** diag(sx, sy, sz, 1) maps (x, y, z, w) to (sx·x, sy·y, sz·z, w). */
  lemma ScaleMaps(sx: real, sy: real, sz: real, x: real, y: real, z: real, w: real)
    ensures MatVec(ScaleVal(sx, sy, sz), [x, y, z, w], 4) == [sx * x, sy * y, sz * z, w]
  {
    Projective(ScaleVal(sx, sy, sz), sx, sy, sz, 0.0, 0.0, 1.0, x, y, z, w, sx * x, sy * y, sz * z, w);
  }

  /** An angle, given by the values `Math.cos` and `Math.sin` return for it. */
  datatype Angle = Angle(cos: real, sin: real)

  predicate OnCircle(a: Angle)
  {
    a.cos * a.cos + a.sin * a.sin == 1.0
  }

  /** The angle 0. */
  const Level := Angle(1.0, 0.0)

  /** mᵀ·m = I. */
  predicate Orthogonal(m: seq<real>)
    requires |m| == 16
  {
    Product(Transposed(m, 4), m, 4) == Identity(4)
  }

  /** The components `rotX(a)` writes. */
  function RotXVal(a: Angle): (m: seq<real>)
    ensures |m| == 16
  {
    var c, s := a.cos, a.sin;
    [1.0, 0.0, 0.0, 0.0, 0.0, c, s, 0.0, 0.0, -s, c, 0.0, 0.0, 0.0, 0.0, 1.0]
  }

  /** The components `rotY(a)` writes. */
  function RotYVal(a: Angle): (m: seq<real>)
    ensures |m| == 16
  {
    var c, s := a.cos, a.sin;
    [c, 0.0, -s, 0.0, 0.0, 1.0, 0.0, 0.0, s, 0.0, c, 0.0, 0.0, 0.0, 0.0, 1.0]
  }

  /** The components `rotZ(a)` writes. */
  function RotZVal(a: Angle): (m: seq<real>)
    ensures |m| == 16
  {
    var c, s := a.cos, a.sin;
    [c, s, 0.0, 0.0, -s, c, 0.0, 0.0, 0.0, 0.0, 1.0, 0.0, 0.0, 0.0, 0.0, 1.0]
  }

  /** `rotX(a)`: for an angle on the unit circle, a rotation (orthogonal, determinant 1). */
  function RotX(a: Angle): (r: Instance)
    ensures NewMatrix(Mat4, Nums(RotXVal(a))) == Ok(r)
    ensures OnCircle(a) ==> Orthogonal(r.val) && Det(r.val) == 1.0
  {
    if OnCircle(a) then (RotOrthogonal(a); RotDet(a); Build(RotXVal(a))) else Build(RotXVal(a))
  }

  /** `rotY(a)`. */
  function RotY(a: Angle): (r: Instance)
    ensures NewMatrix(Mat4, Nums(RotYVal(a))) == Ok(r)
    ensures OnCircle(a) ==> Orthogonal(r.val) && Det(r.val) == 1.0
  {
    if OnCircle(a) then (RotOrthogonal(a); RotDet(a); Build(RotYVal(a))) else Build(RotYVal(a))
  }

  /** `rotZ(a)`. */
  function RotZ(a: Angle): (r: Instance)
    ensures NewMatrix(Mat4, Nums(RotZVal(a))) == Ok(r)
    ensures OnCircle(a) ==> Orthogonal(r.val) && Det(r.val) == 1.0
  {
    if OnCircle(a) then (RotOrthogonal(a); RotDet(a); Build(RotZVal(a))) else Build(RotZVal(a))
  }

  /** Each rotation is orthogonal: Rᵀ·R = I. */
  lemma RotOrthogonal(a: Angle)
    requires OnCircle(a)
    ensures Orthogonal(RotXVal(a)) && Orthogonal(RotYVal(a)) && Orthogonal(RotZVal(a))
  {
    Orthonormal(RotXVal(a));
    Orthonormal(RotYVal(a));
    Orthonormal(RotZVal(a));
  }

  /** Each rotation has determinant c² + s², which is 1. */
  lemma RotDet(a: Angle)
    requires OnCircle(a)
    ensures Det(RotXVal(a)) == 1.0 && Det(RotYVal(a)) == 1.0 && Det(RotZVal(a)) == 1.0
  {
    var c, s := a.cos, a.sin;
    assert Det(RotXVal(a)) == Expansion(1.0, 0.0, 0.0, 0.0, 0.0, c, s, 0.0, 0.0, -s, c, 0.0, 0.0, 0.0, 0.0, 1.0);
    assert Det(RotYVal(a)) == Expansion(c, 0.0, -s, 0.0, 0.0, 1.0, 0.0, 0.0, s, 0.0, c, 0.0, 0.0, 0.0, 0.0, 1.0);
    assert Det(RotZVal(a)) == Expansion(c, s, 0.0, 0.0, -s, c, 0.0, 0.0, 0.0, 0.0, 1.0, 0.0, 0.0, 0.0, 0.0, 1.0);
  }

  /** Each rotation leaves the points on its own axis where they are. */
  lemma RotAxis(a: Angle, t: real, w: real)
    ensures MatVec(RotXVal(a), [t, 0.0, 0.0, w], 4) == [t, 0.0, 0.0, w]
    ensures MatVec(RotYVal(a), [0.0, t, 0.0, w], 4) == [0.0, t, 0.0, w]
    ensures MatVec(RotZVal(a), [0.0, 0.0, t, w], 4) == [0.0, 0.0, t, w]
  {
    MatVec4(RotXVal(a), [t, 0.0, 0.0, w]);
    MatVec4(RotYVal(a), [0.0, t, 0.0, w]);
    MatVec4(RotZVal(a), [0.0, 0.0, t, w]);
  }

  /** `euler(roll, pitch, yaw)`: rotZ(yaw).mul(rotY(pitch)).mul(rotX(roll)). */
  function Euler(roll: Angle, pitch: Angle, yaw: Angle): (r: Instance)
    ensures r.cls == Mat4
    ensures r.val == Product(RotZVal(yaw), Product(RotYVal(pitch), RotXVal(roll), 4), 4)
  {
    var zy := MulOf(RotZ(yaw), Obj(RotY(pitch))).value.o;
    Compose(RotZ(yaw), RotY(pitch));
    Compose(zy, RotX(roll));
    ProductAssociative(RotZVal(yaw), RotYVal(pitch), RotXVal(roll), 4);
    MulOf(zy, Obj(RotX(roll))).value.o
  }

  /** The components of `euler`: the product of the three rotation matrices. */
  lemma EulerProduct(roll: Angle, pitch: Angle, yaw: Angle)
    ensures Euler(roll, pitch, yaw).val == Product(Product(RotZVal(yaw), RotYVal(pitch), 4), RotXVal(roll), 4)
  {
    var z, y, x := RotZ(yaw), RotY(pitch), RotX(roll);
    assert z.val == RotZVal(yaw) && y.val == RotYVal(pitch) && x.val == RotXVal(roll);
    Compose(z, y);
    Compose(MulOf(z, Obj(y)).value.o, x);
  }

  /** `a.mul(b)` on two Mat4 instances holds the product of their components. */
  lemma Compose(a: Instance, b: Instance)
    requires a.cls == Mat4 && b.cls == Mat4
    ensures MulOf(a, Obj(b)).Ok? && MulOf(a, Obj(b)).value.o.val == Product(a.val, b.val, 4)
  {
  }

  /** The Euler matrix of three rotations is orthogonal. */
  lemma EulerOrthogonal(roll: Angle, pitch: Angle, yaw: Angle)
    requires OnCircle(roll) && OnCircle(pitch) && OnCircle(yaw)
    ensures Orthogonal(Euler(roll, pitch, yaw).val)
  {
    RotOrthogonal(roll);
    RotOrthogonal(pitch);
    RotOrthogonal(yaw);
    var z, y, x := RotZVal(yaw), RotYVal(pitch), RotXVal(roll);
    OrthogonalProduct(z, y, 4);
    OrthogonalProduct(Product(z, y, 4), x, 4);
    EulerProduct(roll, pitch, yaw);
  }

  /** With roll and pitch 0, `euler` is the rotation about z by the yaw. */
  lemma EulerYaw(yaw: Angle)
    ensures Euler(Level, Level, yaw) == RotZ(yaw)
  {
    Diagonal4(1.0);
    assert RotXVal(Level) == Identity(4) && RotYVal(Level) == Identity(4);
    ProductIdentityRight(RotZVal(yaw), 4);
    EulerProduct(Level, Level, yaw);
  }

  /** The components `shearX(hy, hz)`, `shearY(hx, hz)` and `shearZ(hx, hy)` write. */
  function ShearXVal(hy: real, hz: real): (m: seq<real>)
    ensures |m| == 16
  {
    [1.0, hy, hz, 0.0, 0.0, 1.0, 0.0, 0.0, 0.0, 0.0, 1.0, 0.0, 0.0, 0.0, 0.0, 1.0]
  }

  function ShearYVal(hx: real, hz: real): (m: seq<real>)
    ensures |m| == 16
  {
    [1.0, 0.0, 0.0, 0.0, hx, 1.0, hz, 0.0, 0.0, 0.0, 1.0, 0.0, 0.0, 0.0, 0.0, 1.0]
  }

  function ShearZVal(hx: real, hy: real): (m: seq<real>)
    ensures |m| == 16
  {
    [1.0, 0.0, 0.0, 0.0, 0.0, 1.0, 0.0, 0.0, hx, hy, 1.0, 0.0, 0.0, 0.0, 0.0, 1.0]
  }

  /** `shearX(hy, hz)`: the identity with hy and hz below the diagonal of column 0; it keeps volumes. */
  function ShearX(hy: real, hz: real): (r: Instance)
    ensures NewMatrix(Mat4, Nums(ShearXVal(hy, hz))) == Ok(r)
    ensures r.val == [1.0, hy, hz, 0.0] + Identity(4)[4..] && Det(r.val) == 1.0
  {
    ShearShape(hy, hz);
    ShearDet(hy, hz);
    Build(ShearXVal(hy, hz))
  }

  /** `shearY(hx, hz)`: the identity with hx and hz in column 1; it keeps volumes. */
  function ShearY(hx: real, hz: real): (r: Instance)
    ensures NewMatrix(Mat4, Nums(ShearYVal(hx, hz))) == Ok(r)
    ensures r.val == Identity(4)[..4] + [hx, 1.0, hz, 0.0] + Identity(4)[8..] && Det(r.val) == 1.0
  {
    ShearShape(hx, hz);
    ShearDet(hx, hz);
    Build(ShearYVal(hx, hz))
  }

  /** `shearZ(hx, hy)`: the identity with hx and hy in column 2; it keeps volumes. */
  function ShearZ(hx: real, hy: real): (r: Instance)
    ensures NewMatrix(Mat4, Nums(ShearZVal(hx, hy))) == Ok(r)
    ensures r.val == Identity(4)[..8] + [hx, hy, 1.0, 0.0] + Identity(4)[12..] && Det(r.val) == 1.0
  {
    ShearShape(hx, hy);
    ShearDet(hx, hy);
    Build(ShearZVal(hx, hy))
  }

  /**
   * Each shear is the identity except below or above the diagonal of one
   * column: column 0 for shearX, column 1 for shearY, column 2 for shearZ.
   */
  lemma ShearShape(h1: real, h2: real)
    ensures var id := Identity(4); ShearXVal(h1, h2) == [1.0, h1, h2, 0.0] + id[4..]
    ensures var id := Identity(4); ShearYVal(h1, h2) == id[..4] + [h1, 1.0, h2, 0.0] + id[8..]
    ensures var id := Identity(4); ShearZVal(h1, h2) == id[..8] + [h1, h2, 1.0, 0.0] + id[12..]
  {
    Diagonal4(1.0);
  }

  /** Each shear has determinant 1. */
  lemma ShearDet(h1: real, h2: real)
    ensures Det(ShearXVal(h1, h2)) == 1.0 && Det(ShearYVal(h1, h2)) == 1.0 && Det(ShearZVal(h1, h2)) == 1.0
  {
    assert Det(ShearXVal(h1, h2)) == Expansion(1.0, h1, h2, 0.0, 0.0, 1.0, 0.0, 0.0, 0.0, 0.0, 1.0, 0.0, 0.0, 0.0, 0.0, 1.0);
    assert Det(ShearYVal(h1, h2)) == Expansion(1.0, 0.0, 0.0, 0.0, h1, 1.0, h2, 0.0, 0.0, 0.0, 1.0, 0.0, 0.0, 0.0, 0.0, 1.0);
    assert Det(ShearZVal(h1, h2)) == Expansion(1.0, 0.0, 0.0, 0.0, 0.0, 1.0, 0.0, 0.0, h1, h2, 1.0, 0.0, 0.0, 0.0, 0.0, 1.0);
  }

  /** The components `ortho(w, h, n, f)` writes. */
  function OrthoVal(w: real, h: real, n: real, f: real): (m: seq<real>)
    requires w != 0.0 && h != 0.0 && n != f
    ensures |m| == 16
  {
    [1.0 / w, 0.0, 0.0, 0.0, 0.0, 1.0 / h, 0.0, 0.0, 0.0, 0.0, 2.0 / (n - f), 0.0, 0.0, 0.0, (n + f) / (n - f), 1.0]
  }

  /** `ortho(w, h, n, f)`. */
  function Ortho(w: real, h: real, n: real, f: real): (r: Instance)
    requires w != 0.0 && h != 0.0 && n != f
    ensures NewMatrix(Mat4, Nums(OrthoVal(w, h, n, f))) == Ok(r)
    ensures MatVec(r.val, [w, h, -n, 1.0], 4) == [1.0, 1.0, -1.0, 1.0]
    ensures MatVec(r.val, [-w, -h, -f, 1.0], 4) == [-1.0, -1.0, 1.0, 1.0]
  {
    OrthoCorners(w, h, n, f);
    Build(OrthoVal(w, h, n, f))
  }

  /**
   * A matrix that scales x and y and mixes z and w only (the shape of scale,
   * ortho and persp) sends (x, y, z, w) to (a·x, b·y, c·z + e·w, d·z + g·w).
   */
  lemma Projective(m: seq<real>, a: real, b: real, c: real, d: real, e: real, g: real,
                   x: real, y: real, z: real, w: real, r0: real, r1: real, r2: real, r3: real)
    requires m == [a, 0.0, 0.0, 0.0, 0.0, b, 0.0, 0.0, 0.0, 0.0, c, d, 0.0, 0.0, e, g]
    requires r0 == a * x && r1 == b * y && r2 == c * z + e * w && r3 == d * z + g * w
    ensures MatVec(m, [x, y, z, w], 4) == [r0, r1, r2, r3]
  {
    MatVec4(m, [x, y, z, w]);
    var r := MatVec(m, [x, y, z, w], 4);
    assert r[0] == r0 && r[1] == r1 && r[2] == r2 && r[3] == r3;
  }

  /** `ortho` sends the near corner (w, h, -n) to (1, 1, -1) and the far corner (-w, -h, -f) to (-1, -1, 1). */
  lemma OrthoCorners(w: real, h: real, n: real, f: real)
    requires w != 0.0 && h != 0.0 && n != f
    ensures MatVec(OrthoVal(w, h, n, f), [w, h, -n, 1.0], 4) == [1.0, 1.0, -1.0, 1.0]
    ensures MatVec(OrthoVal(w, h, n, f), [-w, -h, -f, 1.0], 4) == [-1.0, -1.0, 1.0, 1.0]
  {
    var a, b, c, e := 1.0 / w, 1.0 / h, 2.0 / (n - f), (n + f) / (n - f);
    Depth(n, f);
    Reciprocal(w);
    Reciprocal(h);
    Projective(OrthoVal(w, h, n, f), a, b, c, 0.0, e, 1.0, w, h, -n, 1.0, 1.0, 1.0, -1.0, 1.0);
    Projective(OrthoVal(w, h, n, f), a, b, c, 0.0, e, 1.0, -w, -h, -f, 1.0, -1.0, -1.0, 1.0, 1.0);
  }

  /** 1/x undoes x. */
  lemma Reciprocal(x: real)
    requires x != 0.0
    ensures 1.0 / x * x == 1.0 && 1.0 / x * -x == -1.0
  {
  }

  /** The depth row of `ortho` at z = -n and z = -f, over plain reals. */
  lemma Depth(n: real, f: real)
    requires n != f
    ensures 2.0 / (n - f) * -n + (n + f) / (n - f) * 1.0 == -1.0
    ensures 2.0 / (n - f) * -f + (n + f) / (n - f) * 1.0 == 1.0
  {
    var k := 1.0 / (n - f);
    assert 2.0 / (n - f) == 2.0 * k && (n + f) / (n - f) == (n + f) * k;
    assert (n - f) * k == 1.0;
  }
  /** The components `persp(w, h, n, f, d)` writes. */
  function PerspVal(w: real, h: real, n: real, f: real, d: real): (m: seq<real>)
    requires w != 0.0 && h != 0.0 && n != f
    ensures |m| == 16
  {
    [d / w, 0.0, 0.0, 0.0, 0.0, d / h, 0.0, 0.0, 0.0, 0.0, (n + f) / (n - f), -1.0, 0.0, 0.0, 2.0 * f * n / (n - f), 0.0]
  }

  /** `persp(w, h, n, f, d = n)` called with the distances in `given` after f. */
  function Persp(w: real, h: real, n: real, f: real, given: seq<real>): (r: Instance)
    requires w != 0.0 && h != 0.0 && n != f
    ensures var d := if |given| > 0 then given[0] else n;
      NewMatrix(Mat4, Nums(PerspVal(w, h, n, f, d))) == Ok(r)
    ensures r.cls == Mat4
    ensures PerspShape(r.val, w, h, n, f, if |given| > 0 then given[0] else n)
  {
    var d := if |given| > 0 then given[0] else n;
    var r := Build(PerspVal(w, h, n, f, d));
    PerspEntries(w, h, n, f, d);
    r
  }

  /**
   * The entries of a perspective projection that carry its meaning: x and y
   * scaled by d over the half extents w and h, -z copied into the clip w
   * coordinate, and a depth row sending z = -n to -n (depth -1 after the
   * divide by w = n) and z = -f to f (depth 1).
   */
  predicate PerspShape(m: seq<real>, w: real, h: real, n: real, f: real, d: real)
    requires |m| == 16
  {
    m[0] * w == d && m[5] * h == d && m[11] == -1.0 && m[15] == 0.0 &&
    m[10] * -n + m[14] == -n && m[10] * -f + m[14] == f
  }

  /** The components `persp` writes have that shape. */
  lemma PerspEntries(w: real, h: real, n: real, f: real, d: real)
    requires w != 0.0 && h != 0.0 && n != f
    ensures PerspShape(PerspVal(w, h, n, f, d), w, h, n, f, d)
  {
    Quotient(d, w);
    Quotient(d, h);
    PerspPlanes(n, f);
  }

  /**
   * `persp` puts -z into the clip w coordinate (the divide that makes far
   * things small) and scales x and y by d over the half extents.
   */
  lemma PerspMaps(w: real, h: real, n: real, f: real, d: real, x: real, y: real, z: real)
    requires w != 0.0 && h != 0.0 && n != f
    ensures MatVec(PerspVal(w, h, n, f, d), [x, y, z, 1.0], 4)
         == [d / w * x, d / h * y, (n + f) / (n - f) * z + 2.0 * f * n / (n - f), -z]
  {
    var c, e := (n + f) / (n - f), 2.0 * f * n / (n - f);
    Projective(PerspVal(w, h, n, f, d), d / w, d / h, c, -1.0, e, 0.0, x, y, z, 1.0, d / w * x, d / h * y, c * z + e, -z);
    assert c * z + e == (n + f) / (n - f) * z + 2.0 * f * n / (n - f);
  }

  /**
   * After the divide by clip w, the near plane z = -n lands on depth -1 and
   * the far plane z = -f on depth 1.
   */
  lemma PerspDepth(w: real, h: real, n: real, f: real, d: real, x: real, y: real)
    requires w != 0.0 && h != 0.0 && n != f
    ensures MatVec(PerspVal(w, h, n, f, d), [x, y, -n, 1.0], 4) == [d / w * x, d / h * y, -n, n]
    ensures MatVec(PerspVal(w, h, n, f, d), [x, y, -f, 1.0], 4) == [d / w * x, d / h * y, f, f]
  {
    var m, c, e := PerspVal(w, h, n, f, d), (n + f) / (n - f), 2.0 * f * n / (n - f);
    PerspPlanes(n, f);
    assert c * -n + e * 1.0 == -n && c * -f + e * 1.0 == f;
    Projective(m, d / w, d / h, c, -1.0, e, 0.0, x, y, -n, 1.0, d / w * x, d / h * y, -n, n);
    Projective(m, d / w, d / h, c, -1.0, e, 0.0, x, y, -f, 1.0, d / w * x, d / h * y, f, f);
  }

  /** The depth row of `persp` at z = -n and z = -f. */
  lemma PerspPlanes(n: real, f: real)
    requires n != f
    ensures (n + f) / (n - f) * -n + 2.0 * f * n / (n - f) == -n
    ensures (n + f) / (n - f) * -f + 2.0 * f * n / (n - f) == f
  {
    var k := 1.0 / (n - f);
    assert (n + f) / (n - f) == (n + f) * k && 2.0 * f * n / (n - f) == 2.0 * f * n * k;
    assert (n - f) * k == 1.0;
    assert (n + f) * k * -n + 2.0 * f * n * k == -n * ((n - f) * k);
    assert (n + f) * k * -f + 2.0 * f * n * k == f * ((n - f) * k);
  }

  /** The corner (w, h) of the projection plane z = -d lands on the corner (1, 1) after the divide. */
  lemma PerspPlaneCorner(w: real, h: real, n: real, f: real, d: real)
    requires w != 0.0 && h != 0.0 && n != f
    ensures MatVec(PerspVal(w, h, n, f, d), [w, h, -d, 1.0], 4)[0] == d
    ensures MatVec(PerspVal(w, h, n, f, d), [w, h, -d, 1.0], 4)[1] == d
    ensures MatVec(PerspVal(w, h, n, f, d), [w, h, -d, 1.0], 4)[3] == d
  {
    PerspMaps(w, h, n, f, d, w, h, -d);
    Quotient(d, w);
    Quotient(d, h);
  }

  /**
   * `perspFOV(fov, a, n, f)`, with t the value `Math.tan(fov / 2)` returns:
   * `persp(a·t, t, n, f, 1)`.
   */
  function PerspFOV(t: real, a: real, n: real, f: real): (r: Instance)
    requires a * t != 0.0 && t != 0.0 && n != f
    ensures r.cls == Mat4
    ensures r.val[0] * (a * t) == 1.0 && r.val[5] * t == 1.0
  {
    Persp(a * t, t, n, f, [1.0])
  }

  /**
   * The field of view puts the projection plane at distance 1: its top right
   * corner (a·t, t, -1) lands on (1, 1) after the divide. Without a distance,
   * `persp` puts the plane at the near plane.
   */
  lemma PerspFOVCorner(t: real, a: real, n: real, f: real, w: real, h: real)
    requires a * t != 0.0 && t != 0.0 && n != f
    requires w != 0.0 && h != 0.0
    ensures PerspFOV(t, a, n, f).val == PerspVal(a * t, t, n, f, 1.0)
    ensures var v := MatVec(PerspFOV(t, a, n, f).val, [a * t, t, -1.0, 1.0], 4); v[0] == 1.0 && v[1] == 1.0 && v[3] == 1.0
    ensures Persp(w, h, n, f, []).val == PerspVal(w, h, n, f, n)
  {
    PerspPlaneCorner(a * t, t, n, f, 1.0);
  }

  /** d/x undoes x. */
  lemma Quotient(d: real, x: real)
    requires x != 0.0
    ensures d / x * x == d
  {
  }
}

=== FILE: vec.dfy ===
/**
 * The vector classes Vec2, Vec3, Vec4 (matrix/Vec.js): the constructor's
 * size rule, the dot product (`_mulv`), the row-vector times matrix product
 * (`_mulm`) and the `mul` dispatch between them.
 *
 * Vec.js writes the single-value fill as an assignment to `this.val`, which
 * has only a getter in matrix/_Mat.js and so throws in strict class code;
 * this model gives the constructor the behaviour its doc comment describes:
 * a single value fills every component.
 */
module Vector {
  import opened Sums
  import opened ColumnMajor
  import opened MatBase

  /** The classes whose `mul` is the one of Vec (Quat overrides it). */
  predicate IsVec(c: Class)
  {
    c.Vec2? || c.Vec3? || c.Vec4?
  }

  /** The Vec constructor's size rule, applied to the flattened components. */
  function VecFromFlat(cls: Class, vals: seq<real>): (r: Result<Instance>)
    requires IsVector(cls)
    ensures r.Ok? <==> |vals| == 1 || |vals| == Dim(cls)
    ensures r.Ok? ==> r.value.cls == cls
    ensures |vals| == 1 ==> r.Ok? && forall i :: 0 <= i < Dim(cls) ==> r.value.val[i] == vals[0]
    ensures |vals| == Dim(cls) ==> r.Ok? && r.value.val == vals
    ensures |vals| != 1 && |vals| < Dim(cls) ==> r == Err(TooFewComponents)
    ensures |vals| > Dim(cls) ==> r == Err(TooManyComponents)
  {
    if |vals| == 1 then
      var o: Instance := MatObj(cls, seq(Dim(cls), _ => vals[0]));
      Ok(o)
    else if |vals| < Dim(cls) then
      Err(TooFewComponents)
    else if |vals| > Dim(cls) then
      Err(TooManyComponents)
    else
      var o: Instance := MatObj(cls, vals);
      Ok(o)
  }

  /** `new cls(...args)` for a vector class (Quat has no constructor of its own). */
  function NewVector(cls: Class, args: seq<Arg>): (r: Result<Instance>)
    requires IsVector(cls)
    ensures r.Ok? ==> r.value.cls == cls
    ensures Flatten(args).Err? ==> r == Err(TypeError)
    ensures Flatten(args).Ok? ==> (r.Ok? <==> |Flatten(args).value| == 1 || |Flatten(args).value| == Dim(cls))
    ensures Flatten(args).Ok? && |Flatten(args).value| == Dim(cls) ==> r.Ok? && r.value.val == Flatten(args).value
  {
    match Flatten(args)
    case Err(e) => Err(e)
    case Ok(vals) => VecFromFlat(cls, vals)
  }

  /** The Vec constructor, filling the components one by one for a single value. */
  method Construct(cls: Class, args: seq<Arg>) returns (r: Result<Instance>)
    requires IsVector(cls)
    ensures r == NewVector(cls, args)
  {
    var flat := Flatten(args);
    if flat.Err? {
      return Err(flat.error);
    }
    var vals := flat.value;
    var n := Dim(cls);
    if |vals| == 1 {
      var fill := new real[n];
      for i := 0 to n
        invariant forall k :: 0 <= k < i ==> fill[k] == vals[0]
      {
        fill[i] := vals[0];
      }
      assert fill[..] == seq(n, _ => vals[0]);
      var o: Instance := MatObj(cls, fill[..]);
      r := Ok(o);
    } else if |vals| < n {
      r := Err(TooFewComponents);
    } else if |vals| > n {
      r := Err(TooManyComponents);
    } else {
      var o: Instance := MatObj(cls, vals);
      r := Ok(o);
    }
  }

  /** Exactly n plain numbers build the vector with those components. */
  lemma FromComponents(cls: Class, vals: seq<real>)
    requires IsVector(cls) && |vals| == Dim(cls)
    ensures NewVector(cls, Nums(vals)).Ok? && NewVector(cls, Nums(vals)).value == MatObj(cls, vals)
  {
    FlattenNums(vals);
  }

  /** The products u[i]·v[i] of matching components. */
  function DotTerm(u: seq<real>, v: seq<real>): int -> real
  {
    i => Comp(u, i) * Comp(v, i)
  }

  /** Σ u[i]·v[i] over the components of u. */
  function Dot(u: seq<real>, v: seq<real>): real
  {
    Sum(|u|, DotTerm(u, v))
  }

  /** `_mulv`: the dot product, accumulated component by component. */
  method MulV(a: Instance, v: Instance) returns (r: real)
    requires IsVector(a.cls) && Size(v.cls) == Dim(a.cls)
    ensures r == Dot(a.val, v.val)
  {
    var n := Dim(a.cls);
    r := 0.0;
    for i := 0 to n
      invariant r == Sum(i, DotTerm(a.val, v.val))
    {
      r := r + a.val[i] * v.val[i];
    }
  }

  /** The row vector v times the n x n matrix m: component i is Σ_j v[j]·m(j, i). */
  function RowTimes(v: seq<real>, m: seq<real>, n: nat): (r: seq<real>)
    ensures |r| == n
  {
    seq(n, i => Sum(n, ColumnTerm(v, m, n, i)))
  }

  /** The products v[j]·m(j, i) down column i of m. */
  function ColumnTerm(v: seq<real>, m: seq<real>, n: nat, i: int): int -> real
  {
    j => Comp(v, j) * Get(m, n, j, i)
  }

  /** One more term of component i of RowTimes, in the storage order `_mulm` reads it. */
  lemma RowTimesStep(v: seq<real>, m: seq<real>, n: nat, i: int, j: int)
    requires 0 <= i < n && 0 <= j < n && |v| == n && |m| == n * n
    ensures 0 <= i * n + j < |m|
    ensures Sum(j + 1, ColumnTerm(v, m, n, i)) == Sum(j, ColumnTerm(v, m, n, i)) + v[j] * m[i * n + j]
  {
    IndexBound(n, j, i);
  }

  /** `_mulm`: row vector times matrix, accumulated into `mult`. */
  method MulM(a: Instance, m: Instance) returns (r: Instance)
    requires IsVector(a.cls) && IsMatrix(m.cls) && Dim(m.cls) == Dim(a.cls)
    ensures r == MatObj(a.cls, RowTimes(a.val, m.val, Dim(a.cls)))
  {
    var n, v, mv := Dim(a.cls), a.val, m.val;
    assert |v| == n && |mv| == n * n;
    ghost var want := RowTimes(v, mv, n);
    var mult := new real[n](_ => 0.0);
    for i := 0 to n
      invariant forall k :: 0 <= k < i ==> mult[k] == want[k]
      invariant forall k :: i <= k < n ==> mult[k] == 0.0
    {
      ghost var before := mult[..];
      for j := 0 to n
        invariant forall k :: 0 <= k < n && k != i ==> mult[k] == before[k]
        invariant mult[i] == Sum(j, ColumnTerm(v, mv, n, i))
      {
        RowTimesStep(v, mv, n, i, j);
        mult[i] := mult[i] + v[j] * mv[i * n + j];
      }
    }
    r := MatObj(a.cls, mult[..]);
  }

  /**
   * Vec `mul`: a same-class vector gives the dot product, a matrix of equal n the row product.
   * The value of the matrix case is stated by MatrixAlgebra.VecMulIsTransposeMul: v.mul(m) is the
   * transpose of m applied to v.
   */
  function MulOf(a: Instance, m: Arg): (r: Result<MulResult>)
    requires IsVec(a.cls)
    ensures r.Ok? <==> m.Obj? && (InstanceOf(m.o.cls, a.cls) || (IsMatrix(m.o.cls) && Dim(m.o.cls) == Dim(a.cls)))
    ensures r.Err? ==> r.error == TypeError
    ensures r.Ok? && IsVector(m.o.cls) ==> r.value == Scalar(Dot(a.val, m.o.val))
    ensures r.Ok? && IsMatrix(m.o.cls) ==> r.value.Value? && r.value.o.cls == a.cls
  {
    if m.Obj? && InstanceOf(m.o.cls, a.cls) then
      Ok(Scalar(Dot(a.val, m.o.val)))
    else if m.Obj? && IsMatrix(m.o.cls) && Dim(m.o.cls) == Dim(a.cls) then
      var o: Instance := MatObj(a.cls, RowTimes(a.val, m.o.val, Dim(a.cls)));
      Ok(Value(o))
    else
      Err(TypeError)
  }

  /** Vec `mul`, dispatching to `_mulv` or `_mulm`. */
  method Mul(a: Instance, m: Arg) returns (r: Result<MulResult>)
    requires IsVec(a.cls)
    ensures r == MulOf(a, m)
  {
    if m.Obj? && InstanceOf(m.o.cls, a.cls) {
      var d := MulV(a, m.o);
      r := Ok(Scalar(d));
    } else if m.Obj? && IsMatrix(m.o.cls) && Dim(m.o.cls) == Dim(a.cls) {
      var v := MulM(a, m.o);
      r := Ok(Value(v));
    } else {
      r := Err(TypeError);
    }
  }

  /** The dot product is symmetric: u.mul(v) == v.mul(u) for two vectors of one class. */
  lemma DotSymmetric(u: Instance, v: Instance)
    requires IsVec(u.cls) && v.cls == u.cls
    ensures MulOf(u, Obj(v)) == MulOf(v, Obj(u))
    ensures MulOf(u, Obj(v)).Ok?
  {
    SumExt(|u.val|, DotTerm(u.val, v.val), DotTerm(v.val, u.val));
  }
}

=== FILE: vec3.dfy ===
/**
 * Vec3 (matrix/Vec3.js): the three-dimensional vector and its cross product.
 */
module Vector3 {
  import opened Sums
  import opened ColumnMajor
  import opened MatBase
  import opened Vector

  /** The components of x × y. */
  function CrossVal(x: seq<real>, y: seq<real>): (c: seq<real>)
    requires |x| == 3 && |y| == 3
    ensures |c| == 3
    ensures c[0] * x[0] + c[1] * x[1] + c[2] * x[2] == 0.0
    ensures c[0] * y[0] + c[1] * y[1] + c[2] * y[2] == 0.0
  {
    TripleVanishes(x[0], x[1], x[2], y[0], y[1], y[2]);
    [x[1] * y[2] - x[2] * y[1], x[2] * y[0] - x[0] * y[2], x[0] * y[1] - x[1] * y[0]]
  }

  /** `cross`: the operand must be a Vec3; the result is a new Vec3. */
  function Cross(a: Instance, m: Arg): (r: Result<Instance>)
    requires a.cls == Vec3
    ensures r.Ok? <==> m.Obj? && m.o.cls == Vec3
    ensures r.Err? ==> r.error == TypeError
    ensures r.Ok? ==> r.value.cls == Vec3
  {
    if m.Obj? && m.o.cls == Vec3 then
      var o: Instance := MatObj(Vec3, CrossVal(a.val, m.o.val));
      Ok(o)
    else
      Err(TypeError)
  }

  /** Dot products of three components written out. */
  lemma Dot3(u: seq<real>, v: seq<real>)
    requires |u| == 3 && |v| == 3
    ensures Dot(u, v) == u[0] * v[0] + u[1] * v[1] + u[2] * v[2]
  {
    Sum3(DotTerm(u, v));
  }

  /** The triple products [x, x, y] and [y, x, y] vanish. */
  lemma TripleVanishes(x0: real, x1: real, x2: real, y0: real, y1: real, y2: real)
    ensures (x1 * y2 - x2 * y1) * x0 + (x2 * y0 - x0 * y2) * x1 + (x0 * y1 - x1 * y0) * x2 == 0.0
    ensures (x1 * y2 - x2 * y1) * y0 + (x2 * y0 - x0 * y2) * y1 + (x0 * y1 - x1 * y0) * y2 == 0.0
  {
  }

  /** The cross product is perpendicular to both operands: its dot product with each is 0. */
  lemma CrossPerpendicular(a: Instance, b: Instance)
    requires a.cls == Vec3 && b.cls == Vec3
    ensures Cross(a, Obj(b)).Ok?
    ensures Dot(Cross(a, Obj(b)).value.val, a.val) == 0.0
    ensures Dot(Cross(a, Obj(b)).value.val, b.val) == 0.0
  {
    var x, y := a.val, b.val;
    var c := CrossVal(x, y);
    assert Cross(a, Obj(b)).value.val == c;
    assert c[0] == x[1] * y[2] - x[2] * y[1];
    assert c[1] == x[2] * y[0] - x[0] * y[2];
    assert c[2] == x[0] * y[1] - x[1] * y[0];
    TripleVanishes(x[0], x[1], x[2], y[0], y[1], y[2]);
    calc {
      Dot(c, x);
      { Dot3(c, x); }
      c[0] * x[0] + c[1] * x[1] + c[2] * x[2];
      (x[1] * y[2] - x[2] * y[1]) * x[0] + (x[2] * y[0] - x[0] * y[2]) * x[1] + (x[0] * y[1] - x[1] * y[0]) * x[2];
      0.0;
    }
    Dot3(c, y);
  }

  /** The cross product is anticommutative: a.cross(b) = -b.cross(a), component by component. */
  lemma CrossAnticommutative(a: Instance, b: Instance)
    requires a.cls == Vec3 && b.cls == Vec3
    ensures Cross(a, Obj(b)).Ok? && Cross(b, Obj(a)).Ok?
    ensures forall i :: 0 <= i < 3 ==> Cross(a, Obj(b)).value.val[i] == -Cross(b, Obj(a)).value.val[i]
  {
    var c, d := CrossVal(a.val, b.val), CrossVal(b.val, a.val);
    assert c[0] == -d[0] && c[1] == -d[1] && c[2] == -d[2];
  }

  /** A vector crossed with itself is the zero vector. */
  lemma CrossSelf(a: Instance)
    requires a.cls == Vec3
    ensures Cross(a, Obj(a)).Ok? && Cross(a, Obj(a)).value.val == [0.0, 0.0, 0.0]
  {
    var c := CrossVal(a.val, a.val);
    assert c[0] == 0.0 && c[1] == 0.0 && c[2] == 0.0;
  }

  /** The unit axes cross cyclically: x × y = z, y × z = x, z × x = y. */
  lemma CrossAxes(ex: Instance, ey: Instance, ez: Instance)
    requires ex == MatObj(Vec3, [1.0, 0.0, 0.0])
    requires ey == MatObj(Vec3, [0.0, 1.0, 0.0])
    requires ez == MatObj(Vec3, [0.0, 0.0, 1.0])
    ensures Cross(ex, Obj(ey)) == Ok(ez)
    ensures Cross(ey, Obj(ez)) == Ok(ex)
    ensures Cross(ez, Obj(ex)) == Ok(ey)
  {
  }
}
